=== FILE: README.md ===
# charmer, modelled in Dafny

charmer is a terminal dashboard for Snakemake pipelines that run on an HPC
batch scheduler (SLURM or LSF). It polls the scheduler (`squeue`/`sacct`, or
`bjobs`/`bhist`) and reads Snakemake's job metadata and main log. It merges
the records of every source into one `PipelineState`, a map from job id to
`Job` with a per-rule index. When a job fails it asks the scheduler why and
turns the answer into an explanation and a suggestion. The TUI then shows a
job list with its dependency chain, a job detail panel, a per-rule summary
and a log viewer. The list of pipeline runs is kept separately.

This project models the pure core of that program as Dafny functions over
immutable datatypes, and proves what the code promises:

- **Parsing scheduler output.** `Parsers` holds the shared field, time and
  memory parsers. `Squeue`, `Sacct`, `Bjobs` and `Bhist` are the per-command
  line parsers. `Batch` is the line-collecting loop all queries share.
- **Failure analysis.** `SlurmFailure` and `LsfFailure` are the classifiers
  and their messages. `Suggestions` holds the suggested new limits. `Polling`
  converts the results into the unified `FailureAnalysis` and writes them
  into jobs.
- **Merging into the state.** `Comment` reads the Snakemake job comment that
  carries the rule and wildcards. `Merge` contains the SLURM/LSF merge and
  the Snakemake metadata merge. `StateTypes` and `Pipeline` hold the job
  types, the status counts, the ETA and the log-derived target jobs.
  `MainLog` is the main log parser.
- **Runs.** `Runs` covers run bookkeeping: counts, status, upsert with
  sort-and-cap, and choosing the current run.
- **Views.** `JobList`, `JobDetail`, `RuleSummary` and `LogViewer` hold what
  the views compute: dependency chains, durations, truncation, wildcard
  values, per-rule statistics, and the log viewer's scroll state.
- **Helpers.** `Text` models Rust's `str` operations (`split`, `lines`,
  `trim` and integer parsing). `Wrappers` holds `Option` and `Result`.

Several things are parameters of the model rather than part of it:

- Whatever the program gets from outside is passed in: command output, file
  contents, the current time and the year.
- chrono's calendar parsing is a function parameter, applied after the
  program's own placeholder checks.
- The regex-based detectors and the message renderers that format floats
  are also function parameters.
- The iteration order of a Rust `HashMap` is an explicit sequence of keys.
- Fixed-width arithmetic is written out where the parsers and the rule
  summary compute: their `u64` additions and multiplications that wrap in
  release builds go through `Wrap64`, and saturating subtractions are
  explicit. The ETA estimate is the exception listed under "Left out".

## Model

| member | source | states |
|---|---|---|
| Comment.ParseSlurmComment | crates/charmer-state/src/merge/comment.rs:4-26 | None exactly when the text does not start with "rule_"; a parsed comment never carries empty wildcards |
| Comment.ParseLsfDescription | crates/charmer-state/src/merge/comment.rs:29-32 | the LSF description is read exactly as a SLURM comment, on every input |
| Comment.MakeJobId | crates/charmer-state/src/merge/comment.rs:35-40 | without wildcards the key is the rule; with wildcards it is the rule, '[', the wildcards and ']' |
| Comment.MakeJobIdInjective | crates/charmer-state/src/merge/comment.rs:35-40 | for rules without '[', different (rule, wildcards) pairs never share a key |
| Comment.ParseSlurmCommentNoMarker | crates/charmer-state/src/merge/comment.rs:10-25 | with no "_wildcards_" after the prefix, the rule is the whole remainder and there are no wildcards |
| Comment.ParseSlurmCommentShape | crates/charmer-state/src/merge/comment.rs:10-25 | a parsed rule never contains "_wildcards_", and the comment is exactly the prefix, the rule and (if any) the marker and wildcards |
| Comment.ParseSlurmCommentRoundTrip | crates/charmer-state/src/merge/comment.rs:10-22 | for nonempty wildcards and a rule without the marker that does not end in "_wildcards", the comment built from them parses back to them |
| Comment.ParseSlurmCommentRuleOnly | crates/charmer-state/src/merge/comment.rs:12-24 | "rule_<r>" and "rule_<r>_wildcards_" both parse to the rule with no wildcards |
| Comment.ParseSlurmCommentExamples | crates/charmer-state/src/merge/comment.rs:47-60 | "rule_align_reads" is the rule align_reads without wildcards; "not_a_rule" is not a Snakemake comment |
| Comment.ParseSlurmCommentWildcardsExample | crates/charmer-state/src/merge/comment.rs:53-56 | "rule_align_reads_wildcards_sample=S1" is align_reads with wildcards sample=S1 |
| Merge.MarkSource | crates/charmer-state/src/merge/slurm.rs:59-63 | the query's own flag is set, the metadata flag and the other flags are left as they were, and no flag is ever cleared |
| Merge.KeyParts | crates/charmer-state/src/merge/slurm.rs:12-20 | a Snakemake comment gives its rule and wildcards; a missing or foreign comment gives the job name and no wildcards |
| Merge.SlurmRecord | crates/charmer-state/src/merge/slurm.rs:12-47 | a SLURM job's key parts, Snakemake flag, converted status and error, and resources taken field by field |
| Merge.LsfRecord | crates/charmer-state/src/merge/lsf.rs:12-43 | an LSF job's key parts from its description, its converted status and error, and resources with the queue as partition and the execution host as node |
| Merge.SlurmRecordKey | crates/charmer-state/src/merge/slurm.rs:12-22 | a job whose comment was written from a rule and nonempty wildcards is keyed "rule[wildcards]" and is a Snakemake job; one without a comment is keyed by its name |
| Merge.UpdateJob | crates/charmer-state/src/merge/slurm.rs:50-63 | the scheduler id, status, resources and error are replaced, the queue time is filled only when missing, the query's flag is set, and every other field, including the log files, conda environment and container URL, is kept |
| Merge.NewJob | crates/charmer-state/src/merge/slurm.rs:64-91 | a new job has the record's key, rule, wildcards, status, times, resources and error; no files, usage or command; only the query's flag; a Snakemake job exactly when the comment parsed |
| Merge.MergeRecord | crates/charmer-state/src/merge/slurm.rs:10-103 | one record adds its key; other jobs are unchanged; an existing job is updated and the index kept; a new job is created and appended under its rule; the run id is filled only when missing |
| Merge.MergeRecords | crates/charmer-state/src/merge/slurm.rs:10-103 | after a batch the jobs are the old ones plus the batch's keys; the run id comes from the first record if it was missing; nothing else changes |
| Merge.MergeSlurmJobs | crates/charmer-state/src/merge/slurm.rs:9-106 | the SLURM merge is the shared scheduler merge with the sacct or squeue flag, and its keys are the old keys plus those of the batch |
| Merge.MergeLsfJobs | crates/charmer-state/src/merge/lsf.rs:9-101 | the LSF merge is the shared scheduler merge with the bhist or bjobs flag, and its keys are the old keys plus those of the batch |
| Merge.MergeScheduler | crates/charmer-state/src/merge/slurm.rs:105 | the merged keys are the old keys plus the batch's, and the update stamp is the given time |
| Merge.MergeRecordsPerKey | crates/charmer-state/src/merge/slurm.rs:49-102 | the entry under a key after the batch depends only on that entry before it and on the records with that key |
| Merge.ApplyKeyMissing | crates/charmer-state/src/merge/slurm.rs:49-102 | a key has no job after the batch exactly when it had none before and no record carries it |
| Merge.ApplyKeyQueuedNone | crates/charmer-state/src/merge/slurm.rs:56-58 | a queue time, once present, is never lost: a missing one afterwards means no record with the key had one, nor the job before |
| Merge.ApplyKeyFromJob | crates/charmer-state/src/merge/slurm.rs:50-63 | an existing job changes only in the fields a scheduler update writes, keeps a present queue time and gains none when no record has one |
| Merge.ApplyKeyIdempotent | crates/charmer-state/src/merge/slurm.rs:49-102 | replaying a batch on its own result leaves the entry under every key as it was |
| Merge.MergeRecordsIdempotent | crates/charmer-state/src/merge/slurm.rs:49-102 | merging the same records twice gives the state after one merge, jobs and rule index included |
| Merge.MergeRecordsKnownKeys | crates/charmer-state/src/merge/slurm.rs:93-101 | a batch whose keys are all present leaves the rule index untouched |
| Merge.MergeSlurmJobsIdempotent | crates/charmer-state/src/merge/slurm.rs:9-106 | running the SLURM merge twice on one batch (at one time) gives the state after one run |
| Merge.MergeLsfJobsIdempotent | crates/charmer-state/src/merge/lsf.rs:9-101 | running the LSF merge twice on one batch (at one time) gives the state after one run |
| Merge.MergeRecordsIndex | crates/charmer-state/src/merge/slurm.rs:93-101 | jobs are never removed, indexed rules stay indexed, their lists only grow at the end, and every id added is a job the batch created |
| Merge.MergeRecordsWellIndexed | crates/charmer-state/src/merge/slurm.rs:93-101 | if every id in the rule index names a job of that rule, the same holds after a scheduler merge |
| Merge.ExtractWildcards | crates/charmer-state/src/merge/snakemake.rs:17-56 | a guess exists only for a path with a directory whose base name yields one |
| Merge.ExtractWildcardsNone | crates/charmer-state/src/merge/snakemake.rs:18-55 | no guess exactly when the path has no '/' or the base name has two or more '_' |
| Merge.ExtractWildcardsSample | crates/charmer-state/src/merge/snakemake.rs:26-47 | "dir/<base>.<ext>" with a base without '_' gives "sample=<base>" |
| Merge.ExtractWildcardsPair | crates/charmer-state/src/merge/snakemake.rs:30-40 | "dir/<a>_<b>.<ext>" gives "sample=a, chrom=b" when b starts with "chr", else "sample=a, var=b" |
| Merge.MetaStatus | crates/charmer-state/src/merge/snakemake.rs:67-73 | Running exactly when incomplete, Completed exactly when complete with an end time, Pending otherwise |
| Merge.MetaUpdate | crates/charmer-state/src/merge/snakemake.rs:86-103 | the command, inputs, logs and environment are overwritten; wildcards and start/end times are filled only when missing; status, rule, outputs, resources and scheduler fields are kept; the metadata flag is set |
| Merge.MetaNew | crates/charmer-state/src/merge/snakemake.rs:106-131 | a new job is keyed by the output path, lists it as its one output, takes its status from the metadata and has only the metadata flag |
| Merge.MetaUpdateIdempotent | crates/charmer-state/src/merge/snakemake.rs:86-103 | applying the same metadata twice equals applying it once, for an existing or a new job |
| Merge.MergeMeta | crates/charmer-state/src/merge/snakemake.rs:60-140 | one metadata job adds its output path; others are unchanged; an existing job is updated without touching the index; a new job is appended under its rule |
| Merge.MergeMetas | crates/charmer-state/src/merge/snakemake.rs:60-141 | after the batch the keys are the old ones plus the output paths, and nothing but jobs and index changes |
| Merge.MergeSnakemakeJobs | crates/charmer-state/src/merge/snakemake.rs:59-144 | the keys grow by the output paths, the update stamp is the given time and the run id is untouched |
| Merge.MergeMetasKeeps | crates/charmer-state/src/merge/snakemake.rs:86-103 | the metadata merge never changes an existing job's status or any field the scheduler owns |
| Merge.MergeMetasFrame | crates/charmer-state/src/merge/snakemake.rs:60-141 | a job whose key no metadata job names is left exactly as it was |
| Merge.MergeMetasIndex | crates/charmer-state/src/merge/snakemake.rs:132-139 | the metadata merge only appends to the rule index, and only ids of jobs it created |
| Merge.MergeMetasWellIndexed | crates/charmer-state/src/merge/snakemake.rs:132-139 | a sound rule index stays sound after the metadata merge |
| Merge.SlurmRecords | crates/charmer-state/src/merge/slurm.rs:11-15 | one record per SLURM job, in order |
| Merge.LsfRecords | crates/charmer-state/src/merge/lsf.rs:11-18 | one record per LSF job, in order |
| Merge.MergeRecordsJobsIdempotent | crates/charmer-state/src/merge/slurm.rs:49-102 | merging the same records twice leaves the job map as after one merge |
| Merge.MergeRecordsLastUpdated | crates/charmer-state/src/merge/slurm.rs:105 | the update stamp plays no part in the job merge |
| Merge.MergeRecordIndex | crates/charmer-state/src/merge/slurm.rs:93-101 | one record only appends to the rule index, and only the id of a job it created |
| Merge.MergeRecordWellIndexed | crates/charmer-state/src/merge/slurm.rs:93-101 | a sound rule index stays sound after one record |
| Merge.MergeMetaIndex | crates/charmer-state/src/merge/snakemake.rs:134-139 | one metadata job only appends to the rule index, and only the id of a job it created |
| Merge.MergeMetaWellIndexed | crates/charmer-state/src/merge/snakemake.rs:134-139 | a sound rule index stays sound after one metadata job |
| Parsers.NonEmptyString | crates/charmer-parsers/src/lib.rs:16-23 | None exactly when the trimmed text is empty, "-", "N/A" or "Unknown"; otherwise the trimmed text, which is nonempty |
| Parsers.NonEmptyStringIdempotent | crates/charmer-parsers/src/lib.rs:16-23 | a kept value has no whitespace at either end and is kept unchanged when filtered again |
| Parsers.NonEmptyStringPadded | crates/charmer-parsers/src/lib.rs:43-51 | any non-placeholder value padded with whitespace on both sides reads back as itself |
| Parsers.SplitDelimited | crates/charmer-parsers/src/lib.rs:26-37 | succeeds exactly when the line has at least the minimum number of '|'-fields, returns all of them, and otherwise reports the expected and actual counts and the line |
| Parsers.SplitDelimitedRejoin | crates/charmer-parsers/src/lib.rs:26-37 | the returned fields contain no '|' and joined with '|' give the line back |
| Parsers.SplitDelimitedJoin | crates/charmer-parsers/src/lib.rs:53-58 | '|'-free fields, at least as many as required, joined with '|' split back into the same fields |
| Parsers.ParseDuration | crates/charmer-parsers/src/time.rs:52-78 | None for "", "UNLIMITED" and "-", and every duration fits in a u64 |
| Parsers.ParseDurationSecs | crates/charmer-slurm/src/failure.rs:232-233 | the undefined `parse_duration_secs` is `parse_duration` in whole seconds, as its call sites use it |
| Parsers.ParseDurationHms | crates/charmer-parsers/src/time.rs:65-77 | "H:M:S" of numerals is H*3600 + M*60 + S seconds |
| Parsers.ParseDurationMs | crates/charmer-parsers/src/time.rs:65-77 | "M:S" of numerals is M*60 + S seconds |
| Parsers.ParseDurationS | crates/charmer-parsers/src/time.rs:65-77 | a plain numeral is that many seconds |
| Parsers.ParseDurationDhms | crates/charmer-parsers/src/time.rs:57-77 | "D-H:M:S" of numerals is D*86400 + H*3600 + M*60 + S seconds |
| Parsers.ParseDurationHourExample | crates/charmer-parsers/src/time.rs:121 | "1:00:00" is 3600 seconds |
| Parsers.ParseDurationDayExample | crates/charmer-parsers/src/time.rs:122-125 | "1-00:00:00" is 86400 seconds |
| Parsers.ParseDurationHalfHourExample | crates/charmer-parsers/src/time.rs:126 | "30:00" is 1800 seconds |
| Parsers.ParseDurationSecondsExample | crates/charmer-parsers/src/time.rs:127 | "3600" is 3600 seconds |
| Parsers.ParseExitCode | crates/charmer-parsers/src/time.rs:83-88 | the exit code is always an i32 |
| Parsers.ParseExitCodeNoSignal | crates/charmer-parsers/src/time.rs:83-88 | text without ':' is read whole as an i32, defaulting to 0 |
| Parsers.ParseExitCodeOfPair | crates/charmer-parsers/src/time.rs:83-88 | "code:signal" gives the code, whatever the signal |
| Parsers.ParseExitCodeExamples | crates/charmer-parsers/src/time.rs:133-138 | "0:0", "1:0", "137:9" and "" give 0, 1, 137 and 0 |
| Parsers.ParseSlurmTimestamp | crates/charmer-parsers/src/time.rs:9-16 | "", "N/A", "Unknown" and "None" give no time; anything else is the calendar's reading |
| Parsers.ParseLsfTimestamp | crates/charmer-parsers/src/time.rs:21-41 | "" and "-" give no time; text the calendar reads is taken as is; otherwise the current year is appended and read again |
| Parsers.ParseSlurmMemory | crates/charmer-parsers/src/memory.rs:35-48 | every SLURM memory reading fits in a u64 |
| Parsers.ParseUnsignedDecimal | crates/charmer-parsers/src/memory.rs:64 | a reading is never negative and has a positive denominator; a run of digits reads as itself over 1, and text without a '.' that is not such a run has no reading |
| Parsers.ParseDecimal | crates/charmer-parsers/src/memory.rs:64 | a reading needs non-empty text and has a positive denominator; it is at most zero after a leading '-' and at least zero otherwise |
| Parsers.ParseDecimalWhole | crates/charmer-parsers/src/memory.rs:64 | a whole numeral reads as that number |
| Parsers.SaturatingU64 | crates/charmer-parsers/src/memory.rs:68-71 | a float cast to u64 truncates in range, is 0 at or below zero and u64::MAX above the range |
| Parsers.ParseLsfMemory | crates/charmer-parsers/src/memory.rs:58-73 | no reading for text without tokens, and every reading fits in a u64 |
| Parsers.ParseSlurmSacctMemory | crates/charmer-parsers/src/memory.rs:51-55 | after the trailing 'n' and 'c' markers are dropped, every reading fits in a u64 |
| Parsers.ParseMemoryMb | crates/charmer-parsers/src/memory.rs:22-32 | "" and "-" give no reading in every format, and every reading fits in a u64 |
| Parsers.SlurmMemoryG | crates/charmer-parsers/src/memory.rs:38-39 | "<n>G" is n*1024 MB, wrapping as u64 multiplication does |
| Parsers.SlurmMemoryM | crates/charmer-parsers/src/memory.rs:40-41 | "<n>M" is n MB |
| Parsers.SlurmMemoryK | crates/charmer-parsers/src/memory.rs:42-43 | "<n>K" is n/1024 MB, rounded down |
| Parsers.SlurmMemoryPlain | crates/charmer-parsers/src/memory.rs:44-46 | a plain numeral is that many MB, for squeue and sacct alike |
| Parsers.SacctReduces | crates/charmer-parsers/src/memory.rs:51-55 | sacct memory is SLURM memory of the text with trailing 'n' and then 'c' removed |
| Parsers.SacctPerNode | crates/charmer-parsers/src/memory.rs:51-55 | a per-node "<n><unit>n" reads as "<n><unit>" |
| Parsers.SacctPerCore | crates/charmer-parsers/src/memory.rs:51-55 | a per-core "<n><unit>c" reads as "<n><unit>" |
| Parsers.LsfWhole | crates/charmer-parsers/src/memory.rs:58-73 | a whole number followed by a unit is scaled by GB/G, KB/K (any case) or read as MB otherwise |
| Parsers.LsfGb | crates/charmer-parsers/src/memory.rs:68 | "<n> GB" is n*1024 MB |
| Parsers.LsfMb | crates/charmer-parsers/src/memory.rs:69 | "<n> MB" is n MB |
| Parsers.LsfKb | crates/charmer-parsers/src/memory.rs:70 | "<n> KB" is n/1024 MB, rounded down |
| Parsers.LsfPlain | crates/charmer-parsers/src/memory.rs:69 | a bare numeral is that many MB |
| Parsers.LsfAgreesWithSlurm | crates/charmer-parsers/src/memory.rs:22-73 | when nothing overflows, LSF's "<n> GB", "<n> MB", "<n> KB" and "<n>" read as SLURM's "<n>G", "<n>M", "<n>K" and "<n>" |
| StateTypes.SlurmStatus | crates/charmer-state/src/types.rs:62-73 | SLURM Pending is queued; Failed, Timeout and OutOfMemory are failed; Completed is completed; Unknown is unknown, each in both directions |
| StateTypes.SlurmError | crates/charmer-state/src/types.rs:75-94 | a SLURM failure keeps its exit code and message; a time-out or memory kill reports exit code -1; no error carries an analysis yet |
| StateTypes.LsfStatus | crates/charmer-state/src/types.rs:99-110 | LSF Pending is queued; the suspended states are pending; Done is completed; Exit is failed; Zombie and Unknown are unknown, each in both directions |
| StateTypes.LsfError | crates/charmer-state/src/types.rs:112-121 | an LSF Exit keeps its exit code and message, without an analysis |
| StateTypes.ErrorIffFailed | crates/charmer-state/src/types.rs:61-122 | a job carries an error exactly when its status is failed; SLURM never gives Pending and LSF never gives Cancelled |
| StateTypes.Detect | crates/charmer-state/src/types.rs:238-292 | the priority is container URL, container in the command, pixi, conda from metadata, conda in the command, then direct; the metadata's image URL or conda name is kept, and only containers carry an image |
| StateTypes.Display | crates/charmer-state/src/types.rs:321-351 | a container shows as "container" or "container:" and at most 40 characters of URL, counting characters rather than bytes (the corrected reading of the length test) |
| StateTypes.DisplayRoundTrip | crates/charmer-state/src/types.rs:321-351 | every environment whose URL, if any, is short enough reads back from its display unchanged |
| StateTypes.DisplayLongUrl | crates/charmer-state/src/types.rs:340-341 | in the corrected display, a URL longer than 40 characters shows as "container:..." and its last 35 characters |
| StateTypes.DisplayAsWritten | crates/charmer-state/src/types.rs:321-351 | `display` as written, measuring the URL in UTF-8 bytes: without a container URL it is the corrected display; with a URL over 40 bytes it either panics or shows "container:..." and a suffix of the URL of exactly 35 bytes |
| StateTypes.DisplayAsWrittenShort | crates/charmer-state/src/types.rs:336-343 | a URL of at most 40 bytes is shown whole, as the corrected display shows it, and reads back |
| StateTypes.DisplayAscii | crates/charmer-state/src/types.rs:321-351 | for ASCII URLs the display as written and the corrected one agree |
| StateTypes.DisplayAsWrittenPanics | crates/charmer-state/src/types.rs:340-341 | a URL over 40 bytes whose last 35 bytes start inside a multi-byte character makes the slice panic |
| StateTypes.DisplayPanicsExample | crates/charmer-state/src/types.rs:340-341 | five ASCII characters, "é" and 34 ASCII characters (41 bytes, 40 characters) panic as written, while the corrected display shows the URL whole |
| StateTypes.ExtractRule | crates/charmer-state/src/types.rs:849-856 | the rule is the captured word unless it is "the", "a" or "an" |
| StateTypes.ExtractExitCode | crates/charmer-state/src/types.rs:859-864 | an extracted exit code is always an i32 |
| StateTypes.PathDetails | crates/charmer-state/src/types.rs:778-784 | the details are trimmed lines that start with '/' or mention "results/" (or "data/" where asked), at most one per line |
| StateTypes.ParseErrorString | crates/charmer-state/src/types.rs:767-846 | the error type is the first of missing input, command failed, locked, incomplete, syntax, workflow or rule error whose words appear in the lower-cased text, else generic; rule, exit code and details only where the source collects them |
| StateTypes.ParseErrorStringCaseInsensitive | crates/charmer-state/src/types.rs:768 | the error type does not depend on the case of the text |
| Squeue.StateOfCode | crates/charmer-slurm/src/squeue.rs:37-52 | each state is given exactly by its long name or its short code: PENDING/PD pending, RUNNING/R running, COMPLETED/CD completed with exit code 0, FAILED/F failed with exit code 1 and no message, CANCELLED/CA cancelled, TIMEOUT/TO timed out, OUT_OF_MEMORY/OOM out of memory; any other name is kept as an unknown state |
| Squeue.ParseState | crates/charmer-slurm/src/squeue.rs:36-53 | the same table read on the upper-cased text, long name and short code alike; an unrecognised one is unknown and carries that upper-cased name |
| Squeue.ParseStateCaseInsensitive | crates/charmer-slurm/src/squeue.rs:37 | lower- or upper-casing the text does not change the state |
| Squeue.ParseStateUnknownStable | crates/charmer-slurm/src/squeue.rs:51 | the name kept for an unknown state parses back to the same unknown state |
| Squeue.ParseStateExamples | crates/charmer-slurm/src/squeue.rs:137-143 | "RUNNING" and "R" are running, "PENDING" and "PD" are pending |
| Squeue.ParseSqueueLine | crates/charmer-slurm/src/squeue.rs:56-73 | a line parses exactly when it has at least 12 '|'-fields; otherwise the field-count error is reported |
| Squeue.ParseSqueueLineFields | crates/charmer-slurm/src/squeue.rs:56-73 | twelve '|'-free fields give a job whose every field is the matching field read by its own parser |
| Squeue.SqueueLineJob | crates/charmer-slurm/src/squeue.rs:93-100 | a line yields a job exactly when it is not blank and has at least 12 fields |
| Squeue.QuerySqueue | crates/charmer-slurm/src/squeue.rs:91-103 | the jobs are those of the output's lines that yield one, in order, never more than there are lines |
| Sacct.StateOfName | crates/charmer-slurm/src/sacct.rs:32-51 | each state is given by exactly one name: PENDING pending, RUNNING running, COMPLETED completed with the exit code, FAILED failed with the exit code and "Exit code: N", CANCELLED cancelled, TIMEOUT timed out, OUT_OF_MEMORY out of memory, NODE_FAIL failed with exit code -1 and "Node failure"; any other name is unknown under its own name |
| Sacct.ParseState | crates/charmer-slurm/src/sacct.rs:26-52 | the same table read on the upper-cased first word; completed and failed states carry the parsed exit code, except a node failure, which carries -1 and "Node failure" |
| Sacct.ParseStateShortCodes | crates/charmer-slurm/src/sacct.rs:30-51 | the squeue short codes "PD" and "R" are not sacct names and stay unknown |
| Sacct.BaseState | crates/charmer-slurm/src/sacct.rs:30 | the base state is a non-empty word without whitespace, or the whole text when it has no word; a single word is its own base |
| Sacct.ParseStateIgnoresSuffix | crates/charmer-slurm/src/sacct.rs:29-30 | anything after the first word, such as "by 12345", does not change the state |
| Sacct.ParseStateOneWord | crates/charmer-slurm/src/sacct.rs:30-32 | a single upper-case word is read as that state name with the parsed exit code |
| Sacct.ParseStateExitExamples | crates/charmer-slurm/src/sacct.rs:184-191 | "COMPLETED" with "0:0" completes with code 0; "FAILED" with "1:0" fails with code 1 |
| Sacct.CompletedExample | crates/charmer-slurm/src/sacct.rs:184-187 | "COMPLETED" with "0:0" completes with code 0 |
| Sacct.FailedExample | crates/charmer-slurm/src/sacct.rs:188-191 | "FAILED" with "1:0" fails with code 1 |
| Sacct.ParseStateCancelledExample | crates/charmer-slurm/src/sacct.rs:192-195 | "CANCELLED by 12345" is cancelled |
| Sacct.ParseSacctLine | crates/charmer-slurm/src/sacct.rs:55-74 | a line parses exactly when it has at least 13 '|'-fields; otherwise the field-count error is reported |
| Sacct.ParseSacctLineFields | crates/charmer-slurm/src/sacct.rs:55-74 | thirteen '|'-free fields give a job whose state combines fields 2 and 12 and whose other fields are read by their own parsers, memory in sacct format |
| Sacct.SacctLineJob | crates/charmer-slurm/src/sacct.rs:158-165 | a line yields a job exactly when it is not blank and has at least 13 fields |
| Sacct.QuerySacct | crates/charmer-slurm/src/sacct.rs:156-168 | the jobs are those of the output's lines that yield one, in order, never more than there are lines |
| Sacct.ParseElapsedTime | crates/charmer-slurm/src/sacct.rs:121-128 | "" and "Unknown" give no time |
| Sacct.ParseElapsedTimeMillis | crates/charmer-slurm/src/sacct.rs:125-127 | a fractional part after '.' is ignored |
| Sacct.ParseElapsedTimeClock | crates/charmer-slurm/src/sacct.rs:121-128 | "H:M:S" of numerals is H*3600 + M*60 + S seconds |
| Sacct.ParseResourceUsage | crates/charmer-slurm/src/sacct.rs:102-117 | usage is found exactly when the first line is not blank and holds at least three pipe separators (four fields); its job id then contains no pipe |
| Sacct.ParseResourceUsageFields | crates/charmer-slurm/src/sacct.rs:102-117 | a first line of four pipe-separated fields (id, memory, elapsed, CPU time) gives the id as is, the memory read as sacct memory and both times read as elapsed times, whatever follows |
| Suggestions.OomSuggestion | crates/charmer-slurm/src/failure.rs:239-246 | the memory to suggest always fits in a u64 |
| Suggestions.OomSuggestionBounds | crates/charmer-slurm/src/failure.rs:241-246 | without overflow the memory suggestion is at least the request plus 1 GB and at least 1.5 times the usage, and is either that floor or the smallest whole GB reaching 1.5 times the usage |
| Suggestions.OomSuggestionOverLimit | crates/charmer-lsf/src/failure.rs:219-223 | whatever the usage, the memory suggestion is at least the limit plus 1024 MB |
| Suggestions.TimeoutSuggestion | crates/charmer-slurm/src/failure.rs:250-257 | the time to suggest always fits in a u64 |
| Suggestions.TimeoutSuggestionBounds | crates/charmer-slurm/src/failure.rs:252-257 | without overflow the time suggestion is at least the limit plus an hour and at least 1.5 times the elapsed time rounded down, and is one of the two |
| Suggestions.ExitCodeAdvice | crates/charmer-slurm/src/failure.rs:136-141 | the out-of-memory advice is given exactly for exit code 137 |
| SlurmFailure.ParseExitCodeSignal | crates/charmer-slurm/src/failure.rs:309-317 | the code is read as the plain exit code; a signal is present only when the second part parses as a nonzero i32 |
| SlurmFailure.ParseExitCodeSignalOfPair | crates/charmer-slurm/src/failure.rs:309-317 | "code:signal" gives the code, and the signal unless it is 0 |
| SlurmFailure.ParseExitCodeSignalBare | crates/charmer-slurm/src/failure.rs:312-315 | text without ':' has no signal |
| SlurmFailure.ParseExitCodeSignalExamples | crates/charmer-slurm/src/failure.rs:323-328 | "0:0", "1:0" and "137:9" give (0, none), (1, none) and (137, 9) |
| SlurmFailure.CancelledBy | crates/charmer-slurm/src/failure.rs:262-266 | a canceller is named exactly when the state contains "by ", and is trimmed |
| SlurmFailure.Classify | crates/charmer-slurm/src/failure.rs:236-291 | the mode follows the upper-cased first word: OUT_OF_MEMORY, or FAILED/BOOT_FAIL/DEADLINE with code 137 or SIGKILL and a measured RSS, is out of memory; TIMEOUT, CANCELLED and NODE_FAIL map to their modes; other failures keep code and signal; the rest is unknown; the measured values and suggestions are carried |
| SlurmFailure.ClassifyOomBound | crates/charmer-slurm/src/failure.rs:242-246 | an out-of-memory suggestion is at least the request plus 1 GB and 1.5 times the usage |
| SlurmFailure.ClassifyTimeoutBound | crates/charmer-slurm/src/failure.rs:253-257 | a time-out suggestion is at least the limit plus an hour and 1.5 times the elapsed time rounded down |
| SlurmFailure.ClassifyUsesBaseState | crates/charmer-slurm/src/failure.rs:236 | words after the first change nothing but who cancelled |
| SlurmFailure.ClassifyCancelledBy | crates/charmer-slurm/src/failure.rs:260-268 | "CANCELLED by <uid>" is cancelled by that uid |
| SlurmFailure.CancelledByOf | crates/charmer-slurm/src/failure.rs:262-266 | the canceller of "CANCELLED by <uid>" is the uid |
| SlurmFailure.OomMessages | crates/charmer-slurm/src/failure.rs:74-90 | the explanation comes first and the suggestion ends with the mem_mb resource line |
| SlurmFailure.TimeoutMessages | crates/charmer-slurm/src/failure.rs:91-107 | the explanation comes first and the suggestion ends with the runtime resource line |
| SlurmFailure.Messages | crates/charmer-slurm/src/failure.rs:72-171 | the explanation comes first for every mode, and each mode's suggestion is the advice meant for it |
| SlurmFailure.MessagesAsWritten | crates/charmer-slurm/src/failure.rs:144-165 | a cancelled or node-failed job's first message is the advice |
| SlurmFailure.MessagesAsWrittenSwapped | crates/charmer-slurm/src/failure.rs:144-165 | as written, the two messages are swapped exactly for cancelled and node-failed jobs |
| SlurmFailure.CancelledMessagesExample | crates/charmer-slurm/src/failure.rs:144-154 | a cancellation reports the advice as its explanation as written, and "Job was cancelled" first once corrected |
| SlurmFailure.NodeOf | crates/charmer-slurm/src/failure.rs:218-222 | no node exactly for "" and "None" |
| SlurmFailure.ParseFailureLine | crates/charmer-slurm/src/failure.rs:202-306 | fails exactly for fewer than 7 fields, with the field-count message; otherwise the messages are those of the mode, in the corrected (explanation, suggestion) order |
| SlurmFailure.ParseFailureLineAsWritten | crates/charmer-slurm/src/failure.rs:202-306 | the parse with the messages of `generate_messages` as written: fails exactly as the corrected parse does |
| SlurmFailure.ParseFailureLineAsWrittenSwapped | crates/charmer-slurm/src/failure.rs:144-165 | the parse as written differs from the corrected one only in the two messages, which are swapped exactly for Cancelled and NodeFailure |
| SlurmFailure.ParseFailureLineFields | crates/charmer-slurm/src/failure.rs:212-291 | each field is read by its parser and the mode is classified from them |
| LsfFailure.SkipNonDigits | crates/charmer-lsf/src/failure.rs:282 | drops exactly the leading non-digits |
| LsfFailure.TakeDigits | crates/charmer-lsf/src/failure.rs:283 | keeps exactly the leading digits |
| LsfFailure.ExtractNumber | crates/charmer-lsf/src/failure.rs:277-289 | a number is found only after the prefix, and fits in a u64 |
| LsfFailure.NumberAfterOf | crates/charmer-lsf/src/failure.rs:280-285 | non-digits, a number and a non-digit give that number |
| LsfFailure.ExtractExitedCode | crates/charmer-lsf/src/failure.rs:188-191 | "Exited with exit code <n>..." gives n |
| LsfFailure.AsI32 | crates/charmer-lsf/src/failure.rs:190 | the cast to i32 keeps the value modulo 2^32, within the i32 range, and unchanged when it fits |
| LsfFailure.TakeTwo | crates/charmer-lsf/src/failure.rs:296-300 | the first two words, or all of them if fewer |
| LsfFailure.MemoryFromLine | crates/charmer-lsf/src/failure.rs:292-305 | an amount is found only when the prefix occurs, and fits in a u64 |
| LsfFailure.TwoTokensSuffice | crates/charmer-lsf/src/failure.rs:296-301 | keeping only the first two words reads the same as the LSF memory parser on the whole text |
| LsfFailure.MemoryFromLineTokens | crates/charmer-lsf/src/failure.rs:293-301 | the amount is the LSF memory reading of the trimmed text after the first prefix |
| LsfFailure.MemoryFromLineLeading | crates/charmer-lsf/src/failure.rs:292-305 | "<prefix> <amount>" reads as the amount |
| LsfFailure.MemoryFromLineMb | crates/charmer-lsf/src/failure.rs:292-305 | "<prefix> <n> MB" is n MB |
| LsfFailure.MemoryFromLineLimitExample | crates/charmer-lsf/src/failure.rs:337-340 | "MEMLIMIT 8192 MB" is 8192 MB |
| LsfFailure.ParseDecimalFourPointFive | crates/charmer-lsf/src/failure.rs:334 | "4.5" reads as 45/10 |
| LsfFailure.LsfGigabytes | crates/charmer-parsers/src/memory.rs:68 | a decimal with unit GB is scaled by 1024 and truncated |
| LsfFailure.LsfFourPointFiveGb | crates/charmer-lsf/src/failure.rs:333-336 | "4.5 GB" is 4608 MB |
| LsfFailure.MemoryFromLineMaxExample | crates/charmer-lsf/src/failure.rs:333-336 | "MAX MEM: 4.5 GB" is 4608 MB |
| LsfFailure.FirstClockWord | crates/charmer-lsf/src/failure.rs:310-314 | the word found has exactly two ':'; none is found exactly when no word has two |
| LsfFailure.TimeFromLine | crates/charmer-lsf/src/failure.rs:308-325 | every time read fits in a u64 |
| LsfFailure.FirstClockWordSkip | crates/charmer-lsf/src/failure.rs:310-314 | words without two ':' are skipped |
| LsfFailure.TimeFromLineClock | crates/charmer-lsf/src/failure.rs:310-314 | the first word with two ':' is read as a duration |
| LsfFailure.TimeFromLineDigits | crates/charmer-lsf/src/failure.rs:316-322 | "<digits> seconds" is that number when it fits in a u64 |
| LsfFailure.TimeFromLineSeconds | crates/charmer-lsf/src/failure.rs:316-322 | "<n> seconds" is n |
| LsfFailure.TimeFromLineClockExample | crates/charmer-lsf/src/failure.rs:345 | "Run time: 01:30:00" is 5400 seconds |
| LsfFailure.TimeFromLineSecondsExample | crates/charmer-lsf/src/failure.rs:346 | "1800 seconds" is 1800 seconds |
| LsfFailure.MemLimitOf | crates/charmer-lsf/src/failure.rs:201-203 | the limit after "MEMLIMIT" wins when there is one; any reading fits in a u64 |
| LsfFailure.Step | crates/charmer-lsf/src/failure.rs:184-212 | one trimmed line replaces the termination reason, the memory usage or the run limit only when it mentions that item, and sets the exit code only from an "Exited with exit code" line |
| LsfFailure.ScanLines | crates/charmer-lsf/src/failure.rs:184-213 | after any lines the exit code fits an i32 and every amount fits a u64 |
| LsfFailure.LastTrimmed | crates/charmer-lsf/src/failure.rs:184-185 | the line found is one of the wanted kind |
| LsfFailure.ScanTermReason | crates/charmer-lsf/src/failure.rs:187-195 | the termination reason is the last reason line, or empty |
| LsfFailure.ScanMaxMem | crates/charmer-lsf/src/failure.rs:198-200 | the memory used is read from the last "MAX MEM:" line |
| LsfFailure.ScanRunLimit | crates/charmer-lsf/src/failure.rs:210-212 | the run limit is read from the last run-limit line |
| LsfFailure.ScanNoExitCode | crates/charmer-lsf/src/failure.rs:188-192 | without an "Exited with exit code" line there is no exit code |
| LsfFailure.Classify | crates/charmer-lsf/src/failure.rs:216-259 | TERM_MEMLIMIT, TERM_RUNLIMIT, TERM_OWNER/ADMIN and TERM_HOST/LOAD are checked in that order; otherwise exit code 137 is out of memory, another code an exit-code failure, and no code unknown with the reason or "Unknown failure" |
| LsfFailure.ClassifyOomBound | crates/charmer-lsf/src/failure.rs:219-223 | an out-of-memory suggestion is at least the limit plus 1 GB and 1.5 times the usage |
| LsfFailure.ClassifyTimeoutBound | crates/charmer-lsf/src/failure.rs:228-232 | a time-out suggestion is at least the limit plus an hour and 1.5 times the elapsed time rounded down |
| LsfFailure.OomMessages | crates/charmer-lsf/src/failure.rs:74-90 | the explanation comes first and the suggestion ends with the mem_mb resource line |
| LsfFailure.TimeoutMessages | crates/charmer-lsf/src/failure.rs:91-107 | the explanation comes first and the suggestion ends with the runtime resource line |
| LsfFailure.Messages | crates/charmer-lsf/src/failure.rs:72-155 | the explanation comes first for every mode; each mode's suggestion is the advice meant for it; an unknown failure quotes its reason |
| LsfFailure.MessagesAsWritten | crates/charmer-lsf/src/failure.rs:128-149 | a killed or host-failed job's first message is the advice |
| LsfFailure.MessagesAsWrittenSwapped | crates/charmer-lsf/src/failure.rs:128-149 | as written, the two messages are swapped exactly for killed and host-failed jobs |
| LsfFailure.ParseBhistOutput | crates/charmer-lsf/src/failure.rs:176-274 | the reason and memory come from the last lines mentioning them; the messages are those of the mode in the corrected order, explanation first; an unknown mode quotes the reason or "Unknown failure" |
| LsfFailure.ParseBhistOutputAsWritten | crates/charmer-lsf/src/failure.rs:176-274 | the analysis with the messages of `generate_messages` as written, for the same job and with the same measured amounts |
| LsfFailure.ParseBhistOutputAsWrittenSwapped | crates/charmer-lsf/src/failure.rs:128-149 | the analysis as written differs from the corrected one only in the two messages, which are swapped exactly for Killed and HostFailure |
| LsfFailure.ParseBhistOutputEmpty | crates/charmer-lsf/src/failure.rs:255-258 | empty output is an unknown failure with reason "Unknown failure" |
| Bjobs.StateOfCode | crates/charmer-lsf/src/bjobs.rs:26-42 | each state is given by exactly one name: PEND pending, RUN running, DONE done with exit code 0, EXIT exited with exit code 1 and no message, PSUSP suspended while pending, USUSP suspended by the user, SSUSP suspended by the system, ZOMBI zombie; any other name is kept as an unknown state |
| Bjobs.ParseState | crates/charmer-lsf/src/bjobs.rs:25-43 | the same table read on the upper-cased text; an unrecognised one is unknown and carries that upper-cased name |
| Bjobs.ParseStateCaseInsensitive | crates/charmer-lsf/src/bjobs.rs:26 | lower- or upper-casing the text does not change the state |
| Bjobs.ParseStateExamples | crates/charmer-lsf/src/bjobs.rs:103-108 | "PEND" is pending, "RUN" running, "DONE" done and "EXIT" exited |
| Bjobs.ParseBjobsLine | crates/charmer-lsf/src/bjobs.rs:46-64 | a line parses exactly when it has at least 10 '|'-fields, otherwise the field-count error; a parsed job has no name, memory use or run limit |
| Bjobs.ParseBjobsLineFields | crates/charmer-lsf/src/bjobs.rs:46-64 | ten '|'-free fields give a job whose every field is the matching (trimmed) field read by its own parser |
| Bjobs.BjobsLineJob | crates/charmer-lsf/src/bjobs.rs:83-91 | a line yields a job exactly when, trimmed, it is not blank, does not start with "No " and has at least 10 fields |
| Bjobs.QueryBjobs | crates/charmer-lsf/src/bjobs.rs:81-94 | the jobs are those of the output's lines that yield one, in order, never more than there are lines |
| Bhist.NewJob | crates/charmer-lsf/src/bhist.rs:68-83 | a job opened by a header has the header's id, an unknown "UNKNOWN" state, no name and no other field |
| Bhist.HeaderJob | crates/charmer-lsf/src/bhist.rs:67-84 | a header opens a job exactly when it contains ">,", and the id is the text between "Job <" and that ">," |
| Bhist.HeaderJobOf | crates/charmer-lsf/src/bhist.rs:67-84 | "Job <id>,..." opens a job with that id, for any id without '>' |
| Bhist.NameStep | crates/charmer-lsf/src/bhist.rs:89-93 | a "Job Name <" line changes the name and nothing else |
| Bhist.NameStepReads | crates/charmer-lsf/src/bhist.rs:89-93 | with the name closed by the first '>' after it, the name read is exactly the bracketed text |
| Bhist.QueueStep | crates/charmer-lsf/src/bhist.rs:94-98 | a "Queue <" line changes the queue and nothing else |
| Bhist.QueueStepReads | crates/charmer-lsf/src/bhist.rs:94-98 | the queue read is the text between "Queue <" and the ">," that closes it |
| Bhist.HostStep | crates/charmer-lsf/src/bhist.rs:102-109 | a "Started on <" line changes the execution host and nothing else |
| Bhist.ExitCodeOf | crates/charmer-lsf/src/bhist.rs:117-121 | the exit code is always an i32 |
| Bhist.ExitCodeOfNumber | crates/charmer-lsf/src/bhist.rs:117-121 | "... exit code <n>." gives n |
| Bhist.StateStep | crates/charmer-lsf/src/bhist.rs:110-126 | an exit line sets Exit with its code, else a "Done successfully" line sets Done, else the state is kept; nothing else changes |
| Bhist.MemStep | crates/charmer-lsf/src/bhist.rs:127-132 | a "MAX MEM:" line changes the memory used and nothing else |
| Bhist.Details | crates/charmer-lsf/src/bhist.rs:88-133 | a detail line changes only the name, queue, host, state and memory used |
| Bhist.Flush | crates/charmer-lsf/src/bhist.rs:54-64 | closing a block adds the open job when it passes the time filter, and nothing otherwise |
| Bhist.Step | crates/charmer-lsf/src/bhist.rs:50-133 | a line adds at most one job and removes none; a header line closes the open job and opens one exactly when it is complete, with its id; any other line keeps the jobs and the open job's id and submit time |
| Bhist.ScanLines | crates/charmer-lsf/src/bhist.rs:49-134 | scanning only appends jobs, at most one per line |
| Bhist.StepAsWritten | crates/charmer-lsf/src/bhist.rs:50-133 | a line that does not panic keeps open jobs without a submit time and adds exactly its header's id to the jobs reported |
| Bhist.ScanLinesAsWritten | crates/charmer-lsf/src/bhist.rs:49-134 | a scan that does not panic adds the ids of the header lines, in order |
| Bhist.ParseBhistLongOutput | crates/charmer-lsf/src/bhist.rs:42-148 | with the slices corrected, at most one job per output line |
| Bhist.ParseBhistLongOutputAsWritten | crates/charmer-lsf/src/bhist.rs:42-148 | when no slice panics, the jobs are one per complete header line, in order, as in the corrected parse |
| Bhist.Ids | crates/charmer-lsf/src/bhist.rs:46-147 | one id per job, in order |
| Bhist.HeaderId | crates/charmer-lsf/src/bhist.rs:53-85 | a line names at most one job |
| Bhist.StepIds | crates/charmer-lsf/src/bhist.rs:49-134 | one line adds to the listed ids exactly the id its header opens, if any |
| Bhist.ScanLinesIds | crates/charmer-lsf/src/bhist.rs:49-145 | scanning lines adds to the listed ids exactly the ids their headers open, in order |
| Bhist.ParseBhistIds | crates/charmer-lsf/src/bhist.rs:42-148 | the jobs found are exactly those opened by headers, in order, one per header with ">," |
| Bhist.ParseBhistIgnoresSince | crates/charmer-lsf/src/bhist.rs:57-59 | the time filter never drops a job, because no submit time is ever read |
| Bhist.ScanLinesSince | crates/charmer-lsf/src/bhist.rs:99-101 | scanning with or without a time filter gives the same jobs |
| Bhist.QueueStepAsWritten | crates/charmer-lsf/src/bhist.rs:94-98 | as written, the queue is cut from "Queue <" to the first ">," of the whole line, and a cut that ends before it starts panics |
| Bhist.QueueStepAsWrittenPanics | crates/charmer-lsf/src/bhist.rs:95-96 | whenever a ">," occurs before "Queue <", the slice as written panics |
| Bhist.QueueExample | crates/charmer-lsf/src/bhist.rs:94-98 | on "Submitted from host <hostA>, to Queue <normal>, CWD <$HOME>;" the code as written panics while the corrected step reads "normal" |
| Bhist.NameStepAsWritten | crates/charmer-lsf/src/bhist.rs:89-93 | as written, the name runs from "Job Name <" to the last '>' of the whole line |
| Bhist.NameStepAsWrittenOverreads | crates/charmer-lsf/src/bhist.rs:90-91 | whenever another '>' follows the name's own, the name read as written is longer than the name |
| Bhist.NameExample | crates/charmer-lsf/src/bhist.rs:89-93 | on "Job <1234>, Job Name <myjob>, User <alice>, Project <default>" the code as written does not read "myjob", while the corrected step does |
| Bhist.DetailsAsWritten | crates/charmer-lsf/src/bhist.rs:88-133 | as written, a detail line that does not panic keeps the job's id and submit time |
| MainLog.StatsRow | crates/charmer-core/src/main_log.rs:132-143 | a stats row changes only the total or the per-rule counts, and only under a word of the row |
| MainLog.StatsRowSets | crates/charmer-core/src/main_log.rs:133-142 | "<rule> <n>" sets the total when the rule is "total", else that rule's count |
| MainLog.ProgressCount | crates/charmer-core/src/main_log.rs:150-156 | a count is read only from a line containing " of " |
| MainLog.ProgressCountOf | crates/charmer-core/src/main_log.rs:150-161 | "<n> of ..." gives n |
| MainLog.RecordErrors | crates/charmer-core/src/main_log.rs:171-183 | errors are only appended, always the line itself; the error flag is set exactly for an error or failed-execution line; a generic error is kept only under 200 UTF-8 bytes |
| MainLog.StepWith | crates/charmer-core/src/main_log.rs:96-183 | a line never changes the target rules, changes the errors only as error recording does, and never clears the error flag; the stats table is open after a line exactly when the line is "Job stats:" or the table was open and the line is neither empty nor starts with "Select jobs"; the total and per-rule counts change only inside the table; inside it a "job…" or "---…" line changes nothing; the host changes only on a "host:" line and the cores only on a "Provided cores:" line |
| MainLog.ScanLines | crates/charmer-core/src/main_log.rs:96-184 | the error list only grows at its end, and the error flag, once set, stays set |
| MainLog.StepErrors | crates/charmer-core/src/main_log.rs:171-183 | one line keeps every recorded error an error line and keeps the flag set when there are errors |
| MainLog.ScanLinesErrors | crates/charmer-core/src/main_log.rs:96-184 | scanning keeps the errors well formed and only appends to them |
| MainLog.ParseLogContentErrors | crates/charmer-core/src/main_log.rs:92-187 | every error the parser records is an error line, and errors imply the error flag |
| MainLog.JobFailedLineKept | crates/charmer-core/src/main_log.rs:180-183 | a failed-execution line outside the stats table sets the flag and is the last recorded error |
| MainLog.ParseLogContent | crates/charmer-core/src/main_log.rs:92-187 | the log names no target rules; it agrees with the code as written on every field but `finished`, and is finished whenever that is |
| MainLog.ScanLinesFinishedAtLeast | crates/charmer-core/src/main_log.rs:96-184 | scanning the same lines with and without the final-progress fix keeps the two states equal except that the fixed one may be finished where the other is not |
| MainLog.ParseLogContentAsWritten | crates/charmer-core/src/main_log.rs:92-187 | as written, the log names no target rules either |
| MainLog.ScanLinesTargets | crates/charmer-core/src/main_log.rs:96-184 | scanning never changes the target rules |
| MainLog.ParseLogContentEmpty | crates/charmer-core/src/main_log.rs:92-93 | an empty log gives the default information |
| MainLog.StepHost | crates/charmer-core/src/main_log.rs:100-103 | "host:" followed by blanks and a name sets the host to that name and changes nothing else |
| MainLog.StepCores | crates/charmer-core/src/main_log.rs:106-111 | "Provided cores:" followed by blanks and a number sets the cores to that number and changes nothing else |
| MainLog.StatsRowStep | crates/charmer-core/src/main_log.rs:120-145 | inside the table, "<rule> <blanks> <n>" sets the total when the rule is "total", else that rule's count, and keeps the table open |
| MainLog.ScanLinesStatsOutside | crates/charmer-core/src/main_log.rs:114-145 | lines read with the table closed and none of them "Job stats:" leave the table closed and the total and per-rule counts unchanged |
| MainLog.ParseHostExample | crates/charmer-core/src/main_log.rs:230-235 | "host: myserver" gives the host "myserver" |
| MainLog.ParseCoresExample | crates/charmer-core/src/main_log.rs:223-228 | "Provided cores: 4" gives 4 cores |
| MainLog.ParseJobStatsExample | crates/charmer-core/src/main_log.rs:193-210 | the job-stats table of the parser's own example gives a total of 8 and exactly the counts align_sample 4 and process_sample 4 |
| MainLog.FinalProgressIgnored | crates/charmer-core/src/main_log.rs:148-169 | as written, "27 of 27 steps (100%) done" counts 27 jobs but never marks the run finished |
| MainLog.FinalProgressFinishes | crates/charmer-core/src/main_log.rs:148-169 | corrected, the same line counts 27 jobs and marks the run finished |
| MainLog.FinalProgressStep | crates/charmer-core/src/main_log.rs:148-169 | a final progress line leaves the finished flag alone as written and sets it once corrected, with the same count either way |
| Pipeline.NewState | crates/charmer-state/src/types.rs:549-562 | a new state has no jobs, no rule index, no run id and is not finished |
| Pipeline.CountJobs | crates/charmer-state/src/types.rs:658-673 | the total is the number of jobs, and the count for each of the seven statuses is the number of jobs with that status |
| Pipeline.CountJobsSum | crates/charmer-state/src/types.rs:658-673 | the per-status counts add up to the total |
| Pipeline.CountJobsRemove | crates/charmer-state/src/types.rs:660-670 | removing one job lowers the sum of the status counts by exactly one |
| Pipeline.WithStatusRemove | crates/charmer-state/src/types.rs:660-670 | removing a job lowers the count of its own status by one and leaves the others |
| Pipeline.TimedTotals | crates/charmer-state/src/types.rs:688-699 | no more timed jobs than jobs visited, and no run time without a timed job |
| Pipeline.TimedTotalsCount | crates/charmer-state/src/types.rs:691-703 | no timed jobs exactly when no completed job has both timestamps |
| Pipeline.EstimateEta | crates/charmer-state/src/types.rs:678-729 | no estimate exactly when nothing completed or no completed job is timed; otherwise half the running jobs' average plus the average for each job not yet running, and reliable at 3 or more completions covering 20% |
| Pipeline.EtaFormulaBounds | crates/charmer-state/src/types.rs:705-723 | with no more running than remaining jobs, the estimate is at most the remaining jobs times the average, and 0 when none remain |
| Pipeline.EstimateEtaBounds | crates/charmer-state/src/types.rs:678-729 | an estimate implies completed and timed jobs, is bounded by the remaining work, and is reliable exactly at 3 or more completions covering 20% |
| Pipeline.EtaFormulaRunningHelps | crates/charmer-state/src/types.rs:712-723 | one more job running never raises the estimate |
| Pipeline.EtaString | crates/charmer-state/src/types.rs:732-751 | a text exactly when there is an estimate; it opens with '~' and ends with '?' exactly when the estimate is unreliable |
| Pipeline.EtaStringReadsBack | crates/charmer-state/src/types.rs:733-749 | the time in the text reads back as the estimate in whole minutes from a minute up, and to the second below |
| Pipeline.EtaTimeRoundTrip | crates/charmer-state/src/types.rs:734-743 | "XhYm", "Ym" and "Zs" read back as the seconds rounded down to whole minutes, or exactly below a minute |
| Pipeline.FormatEtaTime | crates/charmer-state/src/types.rs:734-743 | the time ends in "m" exactly from one minute up and in "s" exactly below |
| Pipeline.TargetStatus | crates/charmer-state/src/types.rs:587-593 | completed exactly when finished without errors, failed exactly when finished with errors, pending exactly when not finished |
| Pipeline.TargetJob | crates/charmer-state/src/types.rs:595-613 | a synthetic target job is a target with the given status, no outputs, the rule and the "__target_<rule>__" id |
| Pipeline.AddTargets | crates/charmer-state/src/types.rs:584-617 | every target rule becomes indexed, and a job is added exactly for each rule that was not indexed; nothing else changes |
| Pipeline.AddTargetsKeepsIndex | crates/charmer-state/src/types.rs:585 | rules already indexed keep their job lists |
| Pipeline.AddTargetsKeepsSettled | crates/charmer-state/src/types.rs:584-617 | a settled target stays settled |
| Pipeline.AddTargetsNewRules | crates/charmer-state/src/types.rs:585-616 | each new rule is indexed by its one synthetic job, which is a target with the status |
| Pipeline.MarkTargets | crates/charmer-state/src/types.rs:639-653 | marking keeps the set of job ids |
| Pipeline.MarkOne | crates/charmer-state/src/types.rs:641-651 | marking one job keeps the set of job ids |
| Pipeline.SettleRule | crates/charmer-state/src/types.rs:620-654 | settling a rule keeps the set of job ids |
| Pipeline.SettleTarget | crates/charmer-state/src/types.rs:621-636 | settling a synthetic target keeps the set of job ids |
| Pipeline.SettleRules | crates/charmer-state/src/types.rs:620-655 | settling the rules keeps the set of job ids |
| Pipeline.MarkOneSettles | crates/charmer-state/src/types.rs:641-651 | a job without outputs becomes a target with the status, and no other job changes |
| Pipeline.MarkTargetsSettles | crates/charmer-state/src/types.rs:639-653 | every listed job without outputs ends a target with the status; other jobs are unchanged |
| Pipeline.SettleRuleSettles | crates/charmer-state/src/types.rs:620-654 | after one rule is settled, its synthetic target and its jobs without outputs all carry the status |
| Pipeline.SettleTargetSettles | crates/charmer-state/src/types.rs:621-636 | an existing synthetic target takes the status |
| Pipeline.SettleRulesSettles | crates/charmer-state/src/types.rs:620-655 | after the loop every target rule is settled, and only targets changed |
| Pipeline.UpdateFromLogInfo | crates/charmer-state/src/types.rs:565-578 | total, cores and host are taken only when the log has them; finished is copied; errors are replaced by their classification only when the log has some |
| Pipeline.UpdateFields | crates/charmer-state/src/types.rs:566-578 | copying the log's fields leaves the jobs, index, run id and stamp alone |
| Pipeline.UpdateKeys | crates/charmer-state/src/types.rs:584-617 | the index gains the target rules and the jobs gain one synthetic job per target rule that was not indexed |
| Pipeline.UpdateSettlesTargets | crates/charmer-state/src/types.rs:565-656 | after the update every target rule is indexed and settled: its synthetic target and jobs without outputs carry the pipeline's status |
| Runs.NewRun | crates/charmer-runs/src/types.rs:51-65 | a new run is running, unfinished, with no counts, total or host, first seen and updated at the given time |
| Runs.UpdateCounts | crates/charmer-runs/src/types.rs:68-84 | the counts and time are replaced; the status is running exactly when unfinished, failed exactly when finished with failures, completed exactly when finished without |
| Runs.MarkFinished | crates/charmer-runs/src/types.rs:87-95 | the run is finished at the given time, completed exactly when successful and failed otherwise; nothing else changes |
| Runs.CountsOverrideSuccess | crates/charmer-runs/src/types.rs:68-95 | after a run is marked finished, a later count update decides the status by the failure count alone, whatever success was reported |
| Runs.NewRunCountsRunning | crates/charmer-runs/src/types.rs:51-84 | count updates on an unfinished run keep it running |
| Runs.Insert | crates/charmer-runs/src/types.rs:136-137 | inserting one run adds exactly that run to the list |
| Runs.InsertSorted | crates/charmer-runs/src/types.rs:136-137 | inserting into a list sorted newest first keeps it sorted |
| Runs.SortRuns | crates/charmer-runs/src/types.rs:136-137 | the sort is a permutation ordered by last update, newest first |
| Runs.FindUuid | crates/charmer-runs/src/types.rs:119-121 | the position of the first run with the uuid, or none exactly when no run has it |
| Runs.GetRun | crates/charmer-runs/src/types.rs:119-121 | a run with the uuid taken from the list, or none exactly when no run has it |
| Runs.Replaced | crates/charmer-runs/src/types.rs:130-134 | the new run is in the list and every run with another uuid stays |
| Runs.ReplacedMembers | crates/charmer-runs/src/types.rs:130-134 | the list gains nothing but the new run |
| Runs.ReplacedLength | crates/charmer-runs/src/types.rs:130-134 | replacing grows the list by at most one, and not at all when the uuid was present |
| Runs.ReplacedDistinct | crates/charmer-runs/src/types.rs:130-134 | replacing keeps uuids distinct |
| Runs.SortMembers | crates/charmer-runs/src/types.rs:136-137 | sorting keeps exactly the same runs |
| Runs.SortDistinct | crates/charmer-runs/src/types.rs:136-137 | sorting keeps uuids distinct |
| Runs.Upsert | crates/charmer-runs/src/types.rs:129-140 | the list after an upsert is sorted newest first and holds exactly the smaller of 50 and the length of the replaced-or-appended list, all taken from that list |
| Runs.UpsertFresh | crates/charmer-runs/src/types.rs:129-140 | upserting a run with a new uuid grows the list by one up to the cap, and the only run it gains is the new one |
| Runs.UpsertAllLength | crates/charmer-runs/src/types.rs:129-140 | upserting runs of new, distinct uuids one after another leaves the smaller of 50 and the old length plus the number upserted |
| Runs.UpsertSixty | crates/charmer-runs/src/types.rs:178-186 | sixty runs of distinct uuids upserted into an empty list leave exactly 50 |
| Runs.UpsertDistinct | crates/charmer-runs/src/types.rs:129-140 | an upsert keeps uuids distinct |
| Runs.UpsertThenGet | crates/charmer-runs/src/types.rs:119-140 | below the cap, the run is found by its uuid right after the upsert, and no other run is lost |
| Runs.UpsertKeepsNewest | crates/charmer-runs/src/types.rs:136-139 | runs dropped by the cap are never newer than runs kept |
| Runs.FirstRunning | crates/charmer-runs/src/types.rs:111 | the position of the first running run, or none exactly when no run is running |
| Runs.LatestIndex | crates/charmer-runs/src/types.rs:115 | the position of a most recently updated run, the last such one |
| Runs.CurrentRun | crates/charmer-runs/src/types.rs:109-116 | none exactly for no runs; when some run is running, the first running run in list order; otherwise a most recently updated run |
| Runs.CurrentRunPrefersRunning | crates/charmer-runs/src/types.rs:109-140 | below the cap, with distinct uuids, after a running run is upserted among runs none of which is running, it is the current run |
| LogViewer.LastIndex | crates/charmer-monitor/src/components/log_viewer.rs:38 | the last line's index for a non-empty log, and 0 for an empty one |
| LogViewer.Tail | crates/charmer-monitor/src/components/log_viewer.rs:122-128 | with a positive limit below the line count exactly the last limit lines, otherwise all lines; always a suffix of the lines |
| LogViewer.LoadLogFile | crates/charmer-monitor/src/components/log_viewer.rs:109-129 | an error exactly when the read failed, carrying its message; otherwise the file's lines, tailed |
| LogViewer.NewViewer | crates/charmer-monitor/src/components/log_viewer.rs:31-50 | a failed load shows no lines and the error "Error loading log: ..."; a good one its tailed lines; the offset is the last line when tailing and 0 otherwise; the offset names a line and follow is off |
| LogViewer.ScrollDown | crates/charmer-monitor/src/components/log_viewer.rs:53-58 | one line further unless already at the last line; follow is off; the offset still names a line |
| LogViewer.ScrollUp | crates/charmer-monitor/src/components/log_viewer.rs:61-64 | one line back unless already at the top; follow is off |
| LogViewer.ScrollToTop | crates/charmer-monitor/src/components/log_viewer.rs:67-70 | the offset is 0 and follow is off |
| LogViewer.ScrollToBottom | crates/charmer-monitor/src/components/log_viewer.rs:73-78 | the offset is the last line (0 for an empty log) and follow is off |
| LogViewer.ToggleFollowAsWritten | crates/charmer-monitor/src/components/log_viewer.rs:81-86 | the toggle as written keeps the offset naming a line |
| LogViewer.ToggleFollowNeverFollows | crates/charmer-monitor/src/components/log_viewer.rs:73-86 | as written, the toggle never leaves follow mode on, because scrolling to the bottom turns it off |
| LogViewer.ToggleFollow | crates/charmer-monitor/src/components/log_viewer.rs:81-86 | the toggle as intended flips follow mode, and turning it on moves to the last line; turning it off keeps the offset |
| LogViewer.ToggleFollowTwice | crates/charmer-monitor/src/components/log_viewer.rs:81-86 | toggling twice restores follow mode, and from off it leaves the view at the last line |
| LogViewer.Press | crates/charmer-monitor/src/components/log_viewer.rs:53-86 | every key keeps the lines and an offset that names a line |
| LogViewer.PressAllValid | crates/charmer-monitor/src/components/log_viewer.rs:53-86 | after any key sequence the offset names a line and the lines are unchanged; follow is on only right after the follow key, at the last line |
| LogViewer.ScrollDownUp | crates/charmer-monitor/src/components/log_viewer.rs:53-64 | down then up returns to the same line when not at the last line |
| LogViewer.VisibleLines | crates/charmer-monitor/src/components/log_viewer.rs:89-97 | the lines from the offset on, as many as the height allows, none for an empty log |
| LogViewer.ScrollInfo | crates/charmer-monitor/src/components/log_viewer.rs:100-105 | "0/0" for an empty log |
| LogViewer.ScrollInfoReadsBack | crates/charmer-monitor/src/components/log_viewer.rs:100-105 | the indicator of a non-empty log reads back as the 1-based line and the line count |
| RuleSummary.CountJob | crates/charmer-monitor/src/components/rule_summary.rs:54-71 | counting one existing job raises the total by one |
| RuleSummary.CountJobEffect | crates/charmer-monitor/src/components/rule_summary.rs:56-70 | one job adds to the running, completed, failed or pending (Pending or Queued) count by its status, and a timed completed job adds its run time modulo 2^64 |
| RuleSummary.Tally | crates/charmer-monitor/src/components/rule_summary.rs:46-77 | the status counts never exceed the total, which never exceeds the ids listed |
| RuleSummary.TallyCounts | crates/charmer-monitor/src/components/rule_summary.rs:50-73 | the counters are exactly the status counts of the listed ids that have a job |
| RuleSummary.TallyRuntime | crates/charmer-monitor/src/components/rule_summary.rs:59-65 | the run time total is the exact sum of the timed completed jobs' run times modulo 2^64 |
| RuleSummary.WrapAdd | crates/charmer-monitor/src/components/rule_summary.rs:64 | adding to a wrapped total wraps the same as adding to the exact one |
| RuleSummary.RuleStatsOf | crates/charmer-monitor/src/components/rule_summary.rs:46-77 | one entry per rule name, in order, with empty statistics for a rule not in the index |
| RuleSummary.AvgRuntimeSecs | crates/charmer-monitor/src/components/rule_summary.rs:25-31 | an average exactly when something completed, and it is the run time total divided by the completed count, rounded down |
| RuleSummary.FormatDurationMatchesJobList | crates/charmer-monitor/src/components/rule_summary.rs:215-227 | the summary's durations are the job list's, and read back exactly below an hour and to the minute from an hour up |
| RuleSummary.AverageLabel | crates/charmer-monitor/src/components/rule_summary.rs:92-95 | "-" exactly when nothing completed |
| RuleSummary.Progress | crates/charmer-monitor/src/components/rule_summary.rs:98-102 | "-" exactly for a rule with no jobs |
| RuleSummary.ProgressReadsBack | crates/charmer-monitor/src/components/rule_summary.rs:98-102 | the percentage reads back as the completed share rounded down, at most 100 when no more completed than exist |
| RuleSummary.TallyProgress | crates/charmer-monitor/src/components/rule_summary.rs:46-102 | the percentage of any rule's tally is at most 100 |
| JobList.ReachRefl | crates/charmer-monitor/src/components/job_list.rs:118-125 | a job is reachable from itself |
| JobList.ReachStep | crates/charmer-monitor/src/components/job_list.rs:121-138 | a walk extends along any edge |
| JobList.PathStaysIn | crates/charmer-monitor/src/components/job_list.rs:121-139 | a path from inside an edge-closed set stays inside it |
| JobList.SkipKeeps | crates/charmer-monitor/src/components/job_list.rs:121-124 | popping an already visited job keeps the walk's invariant |
| JobList.VisitKeeps | crates/charmer-monitor/src/components/job_list.rs:125-138 | visiting a job and pushing its unvisited neighbours keeps the walk's invariant |
| JobList.PushMembers | crates/charmer-monitor/src/components/job_list.rs:133-135 | the pushed stack holds the old stack and exactly the unvisited neighbours |
| JobList.VisitClosed | crates/charmer-monitor/src/components/job_list.rs:125-138 | after a visit every edge out of the visited set leads to a visited or stacked job |
| JobList.NextReachable | crates/charmer-monitor/src/components/job_list.rs:127-137 | every neighbour of a reachable job is reachable |
| JobList.WalkDone | crates/charmer-monitor/src/components/job_list.rs:121-139 | when the stack is empty the visited jobs are exactly those reachable from the start, and the related ones are those minus the start |
| JobList.Shrinks | crates/charmer-monitor/src/components/job_list.rs:121-125 | visiting a new job shrinks the set still to visit |
| JobList.Reach | crates/charmer-monitor/src/components/job_list.rs:116-167 | the walk visits exactly the jobs reachable from the start and collects every one except the start |
| JobList.Unvisited | crates/charmer-monitor/src/components/job_list.rs:133-135 | the neighbours pushed are exactly those not yet visited |
| JobList.ProducersLast | crates/charmer-monitor/src/components/job_list.rs:98-103 | the output map names, for each output, the last job in iteration order that produces it |
| JobList.ProducersSound | crates/charmer-monitor/src/components/job_list.rs:98-103 | every output in the map was produced by the job it names, and by no later one |
| JobList.AddConsumer | crates/charmer-monitor/src/components/job_list.rs:107-114 | a job is listed under exactly its own inputs, in addition to what was there |
| JobList.ConsumersSpec | crates/charmer-monitor/src/components/job_list.rs:106-114 | a job is listed under a file exactly when the file is one of its inputs |
| JobList.UpEdges | crates/charmer-monitor/src/components/job_list.rs:128-136 | the parents of a job are exactly the producers of its inputs |
| JobList.DownEdges | crates/charmer-monitor/src/components/job_list.rs:154-164 | the children of a job are exactly the consumers of its outputs |
| JobList.UpGraph | crates/charmer-monitor/src/components/job_list.rs:127-137 | the upstream graph has an entry for every job |
| JobList.DownGraph | crates/charmer-monitor/src/components/job_list.rs:152-166 | the downstream graph has an entry for every job |
| JobList.UpEdge | crates/charmer-monitor/src/components/job_list.rs:98-137 | an upstream edge goes to the last producer of one of the job's inputs |
| JobList.DownEdge | crates/charmer-monitor/src/components/job_list.rs:106-165 | a downstream edge goes to exactly a job that reads one of the job's outputs |
| JobList.Relations | crates/charmer-monitor/src/components/job_list.rs:169-182 | one relation per listed job |
| JobList.RelationsMeaning | crates/charmer-monitor/src/components/job_list.rs:169-182 | the selected row is Selected and only it; a row is Upstream exactly when its job is an ancestor, Downstream exactly when it is a descendant and not an ancestor |
| JobList.FirstRelated | crates/charmer-monitor/src/components/job_list.rs:186-187 | the first related row, or none when no row is related |
| JobList.LastRelated | crates/charmer-monitor/src/components/job_list.rs:186-188 | the last related row, or none when no row is related |
| JobList.Positions | crates/charmer-monitor/src/components/job_list.rs:184-210 | one position per row |
| JobList.ChainShape | crates/charmer-monitor/src/components/job_list.rs:184-210 | with fewer than two related rows nothing is in the chain; otherwise the first related row is First, the last is Last, other related rows Middle, unrelated rows between them Trunk and all others Outside |
| JobList.NoChain | crates/charmer-monitor/src/components/job_list.rs:75-92 | with no related row every position is Outside |
| JobList.ComputeDependencies | crates/charmer-monitor/src/components/job_list.rs:70-213 | one entry per row; with no valid selection nothing is related; otherwise the selected row alone is Selected, ancestors are Upstream, other descendants are Downstream, and the positions follow the chain shape |
| JobList.Firsts | crates/charmer-monitor/src/components/job_list.rs:169-182 | the relations of the entries, in order |
| JobList.Zip | crates/charmer-monitor/src/components/job_list.rs:184-212 | each row's relation paired with its position |
| Text.Utf8Width | crates/charmer-monitor/src/components/job_list.rs:714 | a character takes one to four bytes |
| Text.ByteLen | crates/charmer-monitor/src/components/job_list.rs:714 | a string has at least as many bytes as characters |
| Text.BytePrefix | crates/charmer-monitor/src/components/job_list.rs:719 | a byte-length prefix exists only when it ends on a character boundary |
| Text.AsciiBytes | crates/charmer-monitor/src/components/job_list.rs:713-721 | ASCII text has one byte per character, so every byte prefix is a character prefix |
| Text.ByteSuffix | crates/charmer-state/src/types.rs:341 | a suffix by byte count, when it exists, is a suffix of the text with exactly that many bytes |
| Text.ByteLenAppend | crates/charmer-state/src/types.rs:340 | byte lengths add up over concatenation |
| Text.ByteSuffixInside | crates/charmer-state/src/types.rs:341 | a byte-count suffix that starts inside a multi-byte character does not exist |
| Text.AsciiSuffix | crates/charmer-state/src/types.rs:341 | ASCII text has every byte-count suffix, and it is the character suffix |
| JobList.TruncateStrAsWritten | crates/charmer-monitor/src/components/job_list.rs:713-721 | a string whose bytes fit is returned unchanged |
| JobList.TruncateStrAsWrittenPanics | crates/charmer-monitor/src/components/job_list.rs:719 | as written, cutting "ééé" at 3 bytes lands inside a character and panics |
| JobList.TruncateStr | crates/charmer-monitor/src/components/job_list.rs:713-721 | as intended, on characters: a string that fits is unchanged; a longer one becomes its first width-1 characters and "…", exactly the width long, or "…" alone for widths 0 and 1 |
| JobList.TruncateStrAscii | crates/charmer-monitor/src/components/job_list.rs:713-721 | on ASCII text the written and the intended truncation agree |
| JobList.TruncateStrIdempotent | crates/charmer-monitor/src/components/job_list.rs:713-721 | truncating twice is truncating once |
| JobList.PartValue | crates/charmer-monitor/src/components/job_list.rs:695-698 | a value exactly when the trimmed part holds a '=' |
| JobList.ExtractWildcards | crates/charmer-monitor/src/components/job_list.rs:685-700 | no values without wildcards |
| JobList.Values | crates/charmer-monitor/src/components/job_list.rs:692-699 | no more values than parts |
| JobDetail.ExtractWildcardsRoundTrip | crates/charmer-monitor/src/components/job_list.rs:685-700 | for clean pairs written "k=v, k=v", the row shows exactly the values, in order |
| JobList.RuntimeLabel | crates/charmer-monitor/src/components/job_list.rs:610-620 | the label ends in 'm' or 's' |
| JobList.JobRuntime | crates/charmer-monitor/src/components/job_list.rs:598-624 | "-" exactly for a job that has not started |
| JobList.RuntimeLabelReadsBack | crates/charmer-monitor/src/components/job_list.rs:607-620 | the label reads back as the seconds exactly below an hour, and to the minute from an hour up |
| JobList.MinutesAndSeconds | crates/charmer-monitor/src/components/job_list.rs:607-615 | the minute and second split recombines into the seconds |
| JobDetail.FormatSeconds | crates/charmer-monitor/src/components/job_detail.rs:823-833 | the clock text is at least "MM:SS" long |
| JobDetail.Clock | crates/charmer-monitor/src/components/job_detail.rs:828-832 | the clock text of hours, minutes and seconds is at least "MM:SS" long |
| JobDetail.ClockThree | crates/charmer-monitor/src/components/job_detail.rs:829 | "HH:MM:SS" with hours reads back as its seconds, in three fields |
| JobDetail.ClockTwo | crates/charmer-monitor/src/components/job_detail.rs:831 | "MM:SS" reads back as its seconds, in two fields |
| JobDetail.FormatSecondsReadsBack | crates/charmer-monitor/src/components/job_detail.rs:823-833 | the clock text reads back as exactly the seconds, with an hours field exactly from an hour up |
| JobDetail.ClockReadsBack | crates/charmer-monitor/src/components/job_detail.rs:828-832 | a clock text reads back as its seconds, with an hours field exactly when there are hours |
| JobDetail.HoursMinutesSeconds | crates/charmer-monitor/src/components/job_detail.rs:824-826 | hours, minutes and seconds recombine into the seconds, and there are hours exactly from 3600 up |
| JobDetail.FormatDuration | crates/charmer-monitor/src/components/job_detail.rs:782-793 | a standard duration prints as the clock text of its whole seconds |
| JobDetail.FormatChronoDuration | crates/charmer-monitor/src/components/job_detail.rs:795-806 | a signed duration prints as the clock text of its magnitude |
| JobDetail.FormatChronoDurationSymmetric | crates/charmer-monitor/src/components/job_detail.rs:795-806 | a duration and its negation print the same, and read back as the magnitude |
| JobDetail.FormatChronoDurationHms | crates/charmer-monitor/src/components/job_detail.rs:808-821 | the "Xh Ym Zs" text ends in 's' |
| JobDetail.UnitClock | crates/charmer-monitor/src/components/job_detail.rs:814-820 | the unit text of hours, minutes and seconds ends in 's' |
| JobDetail.UnitFree | crates/charmer-monitor/src/components/job_detail.rs:815-819 | a number with a unit letter reads back as the number and holds no space |
| JobDetail.HmsThree | crates/charmer-monitor/src/components/job_detail.rs:815 | "Xh Ym Zs" reads back as its seconds, in three fields |
| JobDetail.HmsTwo | crates/charmer-monitor/src/components/job_detail.rs:817 | "Ym Zs" reads back as its seconds, in two fields |
| JobDetail.HmsOne | crates/charmer-monitor/src/components/job_detail.rs:819 | "Zs" reads back as its seconds, in one field |
| JobDetail.FormatHmsReadsBack | crates/charmer-monitor/src/components/job_detail.rs:808-821 | the unit text reads back as the duration's magnitude, with three fields from an hour, two from a minute and one below |
| JobDetail.UnitClockReadsBack | crates/charmer-monitor/src/components/job_detail.rs:814-820 | a unit text reads back as its seconds, with as many fields as leading non-zero units |
| JobDetail.ExtractSampleFromPath | crates/charmer-monitor/src/components/job_detail.rs:766-780 | a sample name is non-empty, not "output" or "result", and holds no '.' or '/' |
| JobDetail.NoDirectoryNoSample | crates/charmer-monitor/src/components/job_detail.rs:768-769 | a path without '/' gives no sample |
| JobDetail.SampleFromPath | crates/charmer-monitor/src/components/job_detail.rs:766-780 | "dir/name.ext" gives the name whenever it is a non-generic name without '.' or '/' |
| JobDetail.PartPair | crates/charmer-monitor/src/components/job_detail.rs:266-270 | a pair exactly when the job list finds a value in the part, and with the same value |
| JobDetail.Pairs | crates/charmer-monitor/src/components/job_detail.rs:264-271 | no more pairs than parts |
| JobDetail.PairsMatchList | crates/charmer-monitor/src/components/job_detail.rs:264-271 | the detail panel's pairs carry the job list's values, in the same order |
| JobDetail.PairsValues | crates/charmer-monitor/src/components/job_detail.rs:264-271 | the pairs of any parts carry the values the job list takes from them |
| JobDetail.SplitParts | crates/charmer-monitor/src/components/job_detail.rs:265 | one part per rendered pair |
| JobDetail.JoinEntriesSplit | crates/charmer-monitor/src/components/job_detail.rs:265 | rendered pairs are the ',' join of their parts |
| JobDetail.EntryFree | crates/charmer-monitor/src/components/job_detail.rs:265 | a clean pair's entry holds no ',' |
| JobDetail.PartPairOfEntry | crates/charmer-monitor/src/components/job_detail.rs:266-270 | a clean pair's entry, with or without its leading space, parses back to the pair |
| JobDetail.PairsOfParts | crates/charmer-monitor/src/components/job_detail.rs:264-271 | the parts of rendered clean pairs parse back to the pairs |
| JobDetail.PairsStep | crates/charmer-monitor/src/components/job_detail.rs:264-271 | parsing the parts of pairs proceeds one pair at a time |
| JobDetail.PairsCons | crates/charmer-monitor/src/components/job_detail.rs:266-271 | a part that parses puts its pair at the head |
| JobDetail.WildcardPairsRoundTrip | crates/charmer-monitor/src/components/job_detail.rs:264-271 | rendering clean pairs as "k=v, k=v" and parsing them gives back the pairs |
| JobDetail.PartsFree | crates/charmer-monitor/src/components/job_detail.rs:265 | no part of rendered clean pairs holds a ',' |
| Polling.SlurmMode | crates/charmer/src/polling.rs:329-336 | each SLURM mode maps to the unified mode of the same name |
| Polling.LsfMode | crates/charmer/src/polling.rs:369-376 | LSF modes map by name, except Killed to Cancelled and HostFailure to NodeFailure |
| Polling.ConvertSlurmAnalysis | crates/charmer/src/polling.rs:328-365 | memory comes from an out-of-memory mode and otherwise from the measured and requested fields; times come from a timeout mode and otherwise from the analysis; explanation and suggestion are copied |
| Polling.ConvertLsfAnalysis | crates/charmer/src/polling.rs:368-403 | memory comes from an out-of-memory mode and otherwise from the measured and limit fields; times come from a timeout mode and otherwise from the analysis; explanation and suggestion are copied |
| Polling.ConvertSlurmMeasured | crates/charmer/src/polling.rs:338-354 | for an analysis built from accounting data, every measured value is kept, and memory or run time is present exactly when measured or given by the mode |
| Polling.ConvertLsfMeasured | crates/charmer/src/polling.rs:378-392 | for an analysis built from bhist data, every measured value is kept, and memory or run time is present exactly when measured or given by the mode |
| Polling.ConvertParsedLsf | crates/charmer/src/polling.rs:303-307 | converting a parsed bhist analysis, with messages in the corrected order, keeps the explanation first and the measured memory and run time |
| Polling.ConvertParsedSlurm | crates/charmer/src/polling.rs:229-233 | converting a parsed accounting line, with messages in the corrected order, keeps the explanation first and the measured memory and run time |
| Polling.ConvertParsedSlurmAsWritten | crates/charmer/src/polling.rs:229-245 | with the analyser as written, the explanation comes first exactly when the mode is not Cancelled or NodeFailure, and those two modes give the advice as the new error message |
| Polling.ConvertParsedLsfAsWritten | crates/charmer/src/polling.rs:303-319 | with the analyser as written, the explanation comes first exactly when the mode is not Killed or HostFailure, and those two modes give the advice as the new error message |
| Polling.SlurmOutcome | crates/charmer/src/polling.rs:233-245 | the new error's code is the exit code mode's code or -1, and its message the explanation |
| Polling.LsfOutcome | crates/charmer/src/polling.rs:307-319 | the new error's code is the exit code mode's code or -1, and its message the explanation |
| Polling.AttachAnalysis | crates/charmer/src/polling.rs:235-247 | an existing error only gains the analysis; a missing one is created from the code, message and analysis; nothing else in the job changes |
| Polling.AttachUsage | crates/charmer/src/polling.rs:273-277 | the job gains the usage's memory, elapsed and CPU times and nothing else changes |
| Polling.Matching | crates/charmer/src/polling.rs:211-223 | every candidate is a job that needs the query, with its scheduler id |
| Polling.Select | crates/charmer/src/polling.rs:224-225 | no more candidates than the limit |
| Polling.SelectTakes | crates/charmer/src/polling.rs:211-225 | the candidates are the first matching jobs in iteration order, up to the limit |
| Polling.SelectComplete | crates/charmer/src/polling.rs:211-225 | every candidate needs the query, and below the limit every matching job is a candidate |
| Polling.SelectIds | crates/charmer/src/polling.rs:211-225 | candidates are existing ids, distinct when the order is |
| Polling.SchedulerIdOf | crates/charmer/src/polling.rs:228 | the scheduler id a job was selected with, or none exactly when it was not selected |
| Polling.AnswerAll | crates/charmer/src/polling.rs:228-249 | answering queries keeps the set of jobs |
| Polling.AnswerAllEffect | crates/charmer/src/polling.rs:228-249 | a selected job whose query answered is written with the answer; every other job is unchanged |
| Polling.EnrichFailed | crates/charmer/src/polling.rs:209-250 | failure enrichment keeps the set of jobs |
| Polling.EnrichUsage | crates/charmer/src/polling.rs:253-280 | usage enrichment keeps the set of jobs |
| Polling.EnrichFailedEffect | crates/charmer/src/polling.rs:209-250 | a job changes only if it was a failed candidate whose analysis was found, and then gains that analysis and no longer needs one |
| Polling.EnrichUsageEffect | crates/charmer/src/polling.rs:253-280 | a job changes only if it was a completed or failed candidate whose usage was found, and then gains that usage and no longer needs it |
| Batch.Collect | crates/charmer-slurm/src/squeue.rs:91-103 | no more records than lines |
| Batch.Yield | crates/charmer-slurm/src/squeue.rs:95-100 | a line yields its one record, or nothing exactly when it does not parse |
| Batch.CollectAppend | crates/charmer-slurm/src/squeue.rs:93-101 | the records of split output are those of the first part followed by those of the second |
| Batch.CollectLoop | crates/charmer-slurm/src/squeue.rs:91-103 | the loop returns the records of the lines, in order |

## Left out

- Processes and async I/O are left out because they are side effects. This covers running `squeue`, `sacct`, `bjobs`, `bhist` and `sacct -j` (crates/charmer-parsers/src/command.rs), the async `query_*`, `query_resource_usage` and `analyze_failure` wrappers, `detect_scheduler`, and the tokio `select!` polling loop with its `Mutex`. Their output enters the model as a parameter. The query loops themselves are modelled (`Batch.CollectLoop`).
- Files, the clock and the watcher are left out because the model takes their results as parameters. This covers reading logs, `find_latest_log`/`parse_main_log`, crates/charmer/src/watcher.rs, the JSON run store (crates/charmer-runs/src/store.rs) and the metadata directory scan and base64 file names (crates/charmer-core/src/metadata.rs). File text, read errors, `Utc::now()` and the current year are all parameters.
- The log viewer's "Log file not found" check is folded into the read's error, which is a parameter of `LogViewer.LoadLogFile`.
- chrono calendar parsing is left out because it is a date library. Timestamps are integers of seconds, and the calendar is a function parameter applied after the placeholder checks the code makes itself.
- Sub-second precision is dropped. `std::time::Duration` keeps only whole seconds, and chrono durations are whole seconds, as `num_seconds` gives.
- The regex-based helpers are uninterpreted predicates and extractors passed in. These are `detect_pixi`, `detect_conda` and `detect_container`, and the captures inside `extract_rule_from_error` and `extract_exit_code`.
- Floating point is left out:
  - in LSF memory, the mantissa is read as an exact decimal (sign, digits, optional fraction). The exponent forms `f64::from_str` also accepts ("1e3", "1.5E2") and "inf"/"nan" are not read, so the model has no reading for them;
  - in LSF memory, the rounding of the mantissa to the nearest `f64` and of the products `* 1024.0` and `/ 1024.0` (crates/charmer-parsers/src/memory.rs:64-71) is not modelled; `as u64` is applied to the exact value, so results can differ in the last unit for amounts beyond 2^53;
  - the 1.5x suggestions `((used as f64 * 1.5) / 1024.0).ceil()` and `(elapsed as f64 * 1.5) as u64` (crates/charmer-slurm/src/failure.rs:242,253,275; crates/charmer-lsf/src/failure.rs:219) are written as integer arithmetic (`Suggestions`); the f64 steps are exact only below about 2^52, so for larger amounts the model can differ from the source in the last units;
  - the float-formatted amounts and the missing `format_duration`, `format_duration_slurm` and `format_duration_lsf` inside the failure messages, which are renderer parameters;
  - `SnakemakeLogInfo::progress` and `progress_percent`;
  - `timestamp_to_datetime`;
  - the efficiency figures of the job detail panel;
  - the DAG view's geometry.
- Rendering is left out because it is presentation, not logic. This covers every `render*` function, the job detail panel's line building, styles and colours, `symbol`, `icon` and `label`, the header, footer, tabs and theme, `app.rs`, `main.rs` and the CLI.
- The `PipelineError` builder methods (`new`, `with_rule`, `with_detail`, `with_exit_code`) are left out. They only set one field each, and `StateTypes.ParseErrorString` builds its result directly.
- `RunsState::run_uuids` and `get_run_mut` are left out. The first only projects the uuids and the second is `get_run` with mutable access.
- crates/charmer-state/src/merge.rs is an older copy of the `merge/` module that cannot be compiled alongside it. crates/charmer-state/src/merge/correlation.rs writes no state. Neither is part of this model.
- Machine integers are unbounded. `usize` counters and `i32` exit codes are bounded only where the code parses them. `u64` sums and products that can overflow are written out with `Parsers.Wrap64` in `parse_duration`'s arithmetic, memory scaling and the rule summary's run time total. Saturating subtractions are explicit.
- Pipeline.EstimateEta: its `u64` sums and products (crates/charmer-state/src/types.rs:694,714,719,722) are unbounded, so the model does not wrap where release builds would, for runtimes near 2^64 seconds.
- StateTypes.Display, StateTypes.DisplayRoundTrip, StateTypes.DisplayLongUrl: these count the URL in characters, the corrected reading. The byte-counting `url.len()` and the byte slice that can panic (crates/charmer-state/src/types.rs:340-341) are modelled by `StateTypes.DisplayAsWritten` (see Findings).
- Squeue.ParseState: `to_uppercase` is modelled on ASCII letters only; non-ASCII letters keep their case.
- Bjobs.ParseState: `to_uppercase` is modelled on ASCII letters only.
- Sacct.ParseState: `to_uppercase` is modelled on ASCII letters only.
- StateTypes.ParseErrorString: `to_lowercase` is modelled on ASCII letters only.
- SlurmFailure.ParseFailureLine: builds its messages with the corrected `generate_messages`; the as-written order is `SlurmFailure.ParseFailureLineAsWritten`.
- LsfFailure.ParseBhistOutput: builds its messages with the corrected `generate_messages`; the as-written order is `LsfFailure.ParseBhistOutputAsWritten`.
- Polling.ConvertParsedSlurm: starts from the corrected analysis; what polling receives from the analyser as written is `Polling.ConvertParsedSlurmAsWritten`.
- Polling.ConvertParsedLsf: starts from the corrected analysis; what polling receives from the analyser as written is `Polling.ConvertParsedLsfAsWritten`.
- The source is inconsistent in four places. The model follows the call sites:
  - `parse_duration_secs` is called but not defined in the parsers crate. `Parsers.ParseDurationSecs` is `parse_duration` in whole seconds.
  - `SnakemakeLogInfo` has no `target_rules` field. `MainLog.LogInfo.targetRules` is such a field, and the log parser never fills it.
  - The SLURM and Snakemake merges set `is_snakemake_job`, which `Job` in crates/charmer-state/src/types.rs does not declare. The model's `Job` declares it, and the LSF merge, which does not set it, leaves it false.
  - The LSF merge writes the LSF job id into `slurm_job_id` (crates/charmer-state/src/merge/lsf.rs:48,69), a field `Job` does not declare either; the job type has `scheduler_job_id`, which the rest of the program reads. `Merge.UpdateJob` and `Merge.NewJob` write `schedulerJobId` for both schedulers.
- HashMap iteration order is an explicit key-order parameter. It decides which job wins a shared output (`JobList.ProducersLast`) and which candidates fill the enrichment limits (`Polling.SelectTakes`).

## Findings

| source | as written | input that shows it | evidently intended | confidence | as-written member | corrected member |
|---|---|---|---|---|---|---|
| crates/charmer-lsf/src/bhist.rs:94-98 | the queue name is sliced from "Queue <" up to the first ">," of the whole line, which comes earlier | "Submitted from host <hostA>, to Queue <normal>, CWD <$HOME>;" (the end index is before the start, so the slice panics) | the queue name up to the first ">," after "Queue <" | not executed | Bhist.QueueStepAsWrittenPanics | Bhist.QueueStepReads |
| crates/charmer-lsf/src/bhist.rs:89-93 | the job name runs from "Job Name <" to the last ">" of the line | "Job <1234>, Job Name <myjob>, User <alice>, Project <default>" (the name read is not "myjob": it runs on to the ">" that closes "<default>") | the name up to the first ">" after "Job Name <" | not executed | Bhist.NameStepAsWrittenOverreads | Bhist.NameStepReads |
| crates/charmer-core/src/main_log.rs:148-169 | "N of N steps (100%) done" matches the progress branch first, so the branch that sets `finished` never sees it | "27 of 27 steps (100%) done" (completed becomes 27, finished stays false) | the final progress line also marks the pipeline finished | not executed | MainLog.FinalProgressIgnored | MainLog.FinalProgressFinishes |
| crates/charmer-slurm/src/failure.rs:144-165 | for Cancelled and NodeFailure the tuple is (suggestion, explanation), the reverse of every other mode and of the declared order | a Cancelled mode without a user (the explanation is "Consider if this was intentional or due to dependency failure.") | (explanation, suggestion) as in the other modes | not executed | SlurmFailure.MessagesAsWrittenSwapped | SlurmFailure.CancelledMessagesExample |
| crates/charmer-lsf/src/failure.rs:128-149 | for Killed and HostFailure the tuple is (suggestion, explanation) | a Killed mode without a user (the explanation is "Consider if this was intentional or due to dependency failure.") | (explanation, suggestion) as in the other modes | not executed | LsfFailure.MessagesAsWrittenSwapped | LsfFailure.Messages |
| crates/charmer-monitor/src/components/log_viewer.rs:81-86 | turning follow mode on calls `scroll_to_bottom`, which turns it off again (line 77) | any viewer with follow mode off (after the toggle it is still off) | the toggle turns follow mode on and shows the last line | not executed | LogViewer.ToggleFollowNeverFollows | LogViewer.ToggleFollowTwice |
| crates/charmer-monitor/src/components/job_list.rs:713-721 | the string is cut at byte `max_width - 1`, which panics inside a multi-byte character | "ééé" with max_width 4 (byte 3 is inside the second "é") | cut at a character boundary | not executed | JobList.TruncateStrAsWrittenPanics | JobList.TruncateStr |
| crates/charmer-state/src/types.rs:340-341 | the URL is measured with `url.len()` in bytes and cut at byte `len - 35`, which panics inside a multi-byte character | five ASCII characters, "é" and 34 ASCII characters (41 bytes, 40 characters: byte 6 is inside the "é") | measure and cut the URL in characters | not executed | StateTypes.DisplayPanicsExample | StateTypes.Display |

=== FILE: batch.dfy ===
/** The loop every scheduler query runs over its command's output: each
    line yields at most one record, lines that are skipped or fail to parse
    yield none, and the records keep the order of their lines. */
module Batch {
  import opened Wrappers

  /** The records of `lines` in order, where `parse` says what one line
      yields (None for a skipped or malformed line). */
  function Collect<T>(lines: seq<string>, parse: string -> Option<T>): (r: seq<T>)
    ensures |r| <= |lines|
  {
    if |lines| == 0 then []
    else Yield(lines[0], parse) + Collect(lines[1..], parse)
  }

  /** What one line contributes. */
  function Yield<T>(line: string, parse: string -> Option<T>): (r: seq<T>)
    ensures parse(line).None? <==> |r| == 0
    ensures parse(line).Some? ==> r == [parse(line).value]
  {
    match parse(line) case Some(x) => [x] case None => []
  }

  /** Output split anywhere yields the records of the first part followed
      by those of the second: nothing is reordered, merged or lost. */
  lemma {:induction false} CollectAppend<T>(a: seq<string>, b: seq<string>, parse: string -> Option<T>)
    ensures Collect(a + b, parse) == Collect(a, parse) + Collect(b, parse)
    decreases |a|
  {
    if |a| > 0 {
      assert (a + b)[1..] == a[1..] + b;
      CollectAppend(a[1..], b, parse);
    } else {
      assert a + b == b;
    }
  }

  /** The query loop: walks the lines, pushing what each one yields. */
  method CollectLoop<T>(lines: seq<string>, parse: string -> Option<T>) returns (records: seq<T>)
    ensures records == Collect(lines, parse)
  {
    records := [];
    var i := 0;
    while i < |lines|
      invariant 0 <= i <= |lines|
      invariant records == Collect(lines[..i], parse)
    {
      match parse(lines[i]) {
        case Some(x) => records := records + [x];
        case None =>
      }
      CollectAppend(lines[..i], [lines[i]], parse);
      assert Collect([lines[i]], parse) == Yield(lines[i], parse);
      assert lines[..i + 1] == lines[..i] + [lines[i]];
      i := i + 1;
    }
    assert lines[..i] == lines;
  }
}

=== FILE: bhist.dfy ===
/** Parsing of `bhist -a -l` output into jobs. The long format is a series
    of blocks, each opened by a header line "Job <id>, ..."; the lines of a
    block fill in the job's name, queue, execution host, final state and
    peak memory. */
module Bhist {
  import opened Wrappers
  import opened Text
  import opened Parsers
  import opened LsfTypes

  const JobMarker: string := "Job <"
  const NameMarker: string := "Job Name <"
  const QueueMarker: string := "Queue <"
  const HostMarker: string := "Started on <"

  /** A job as its header line opens it: only the id is known. */
  function NewJob(id: string): (job: LsfJob)
    ensures job.jobId == id && job.state == Unknown("UNKNOWN") && job.name == ""
    ensures job.submitTime.None? && job.queue.None? && job.memUsedMb.None?
  {
    LsfJob(id, "", Unknown("UNKNOWN"), None, None, None, None, None, None, None, None, None, None)
  }

  /** The job a header line opens: the id is the text between "Job <" and
      the first ">,"; without a ">," no job is opened. */
  function HeaderJob(line: string): (r: Option<LsfJob>)
    requires StartsWith(line, JobMarker)
    ensures r.Some? <==> Contains(line, ">,")
    ensures r.Some? ==> StartsWith(line, JobMarker + r.value.jobId + ">,")
  {
    match Find(line, ">,")
    case None => None
    case Some(end) =>
      FindAfterPrefix(line, JobMarker, ">,");
      assert line[..end + 2] == JobMarker + line[5..end] + ">,";
      Some(NewJob(line[5..end]))
  }

  /** A header "Job <id>,..." whose id has no '>' opens the job `id`. */
  lemma {:induction false} HeaderJobOf(id: string, rest: string)
    requires Free(id, '>')
    ensures var line := JobMarker + id + ">," + rest;
      StartsWith(line, JobMarker) && HeaderJob(line) == Some(NewJob(id))
  {
    var line := JobMarker + id + ">," + rest;
    assert line[..5] == JobMarker;
    assert line[5 + |id|..5 + |id| + 2] == ">,";
    forall j: nat | j < 5 + |id| ensures !OccursAt(line, ">,", j) {
      if j < 5 {
        assert line[j] == JobMarker[j];
      } else {
        assert line[j] == id[j - 5];
      }
      NotOccursAt(line, ">,", j, 0);
    }
    FindIs(line, ">,", 5 + |id|);
    assert line[5..5 + |id|] == id;
  }

  // ---------------------------------------------------------------------
  // The detail lines of a block

  /** The job name: the text after "Job Name <" up to the '>' that closes
      it. */
  function NameStep(job: LsfJob, line: string): (r: LsfJob)
    ensures r == job.(name := r.name)
  {
    match Find(line, NameMarker)
    case None => job
    case Some(start) =>
      var after := line[start + |NameMarker|..];
      match Find(after, ">")
      case None => job
      case Some(k) => job.(name := after[..k])
  }

  /** The name step as the source writes it: up to the LAST '>' of the
      line, which takes in every later field of a header line; slicing
      panics (Err) when that '>' comes before the name starts. */
  function NameStepAsWritten(job: LsfJob, line: string): (r: Result<LsfJob, string>)
    ensures r.Ok? ==> r.value == job.(name := r.value.name)
  {
    match Find(line, NameMarker)
    case None => Ok(job)
    case Some(start) =>
      match RFind(line, ">")
      case None => Ok(job)
      case Some(end) =>
        if start + |NameMarker| > end then Err(line)
        else Ok(job.(name := line[start + |NameMarker|..end]))
  }

  /** The queue: the text after "Queue <" up to the ">," that closes it. */
  function QueueStep(job: LsfJob, line: string): (r: LsfJob)
    ensures r == job.(queue := r.queue)
  {
    match Find(line, QueueMarker)
    case None => job
    case Some(start) =>
      var after := line[start + |QueueMarker|..];
      match Find(after, ">,")
      case None => job
      case Some(k) => job.(queue := Some(after[..k]))
  }

  /** The queue step as the source writes it: up to the FIRST ">," of the
      whole line, which in bhist's "Submitted from host <h>, to Queue <q>,"
      comes before the queue, so that slicing panics (Err). */
  function QueueStepAsWritten(job: LsfJob, line: string): (r: Result<LsfJob, string>)
    ensures r.Ok? ==> r.value == job.(queue := r.value.queue)
  {
    match Find(line, QueueMarker)
    case None => Ok(job)
    case Some(start) =>
      match Find(line, ">,")
      case None => Ok(job)
      case Some(end) =>
        if start + |QueueMarker| > end then Err(line)
        else Ok(job.(queue := Some(line[start + |QueueMarker|..end])))
  }

  /** The execution host: the text after "Started on <" up to the next ">,". */
  function HostStep(job: LsfJob, line: string): (r: LsfJob)
    ensures r == job.(execHost := r.execHost)
  {
    if !Contains(line, "Started on") then job
    else
      match Find(line, HostMarker)
      case None => job
      case Some(hs) =>
        var rest := line[hs..];
        match Find(rest, ">,")
        case None => job
        case Some(he) =>
          assert rest[..|HostMarker|] == HostMarker;
          FindAfterPrefix(rest, HostMarker, ">,");
          job.(execHost := Some(line[hs + |HostMarker|..hs + he]))
  }

  /** The exit code of an "Exited with exit code N." line: the text after
      "exit code", trimmed and without its trailing dots, as an i32, or 1. */
  function ExitCodeOf(line: string): (code: int)
    ensures I32_MIN <= code <= I32_MAX
  {
    match SplitNth1(line, "exit code")
    case None => 1
    case Some(t) => ParseI32(TrimEndChar(Trim(t), '.')).GetOr(1)
  }

  /** " N." after "exit code" is exit code N. */
  lemma {:induction false} ExitCodeOfNumber(line: string, n: nat)
    requires n <= I32_MAX
    requires SplitNth1(line, "exit code") == Some(" " + NatToString(n) + ".")
    ensures ExitCodeOf(line) == n
  {
    var d := NatToString(n);
    AllDigitsAt(d);
    assert " " + d + "." == " " + (d + ".");
    LeadingWsPrefix(" ", d + ".");
    assert (d + ".")[0] == d[0];
    TrimNoEdges(d + ".");
    TrimEndCharOne(d, '.');
    ParseIntToString(n, I32_MIN, I32_MAX);
  }

  /** The final state: "Done successfully" finishes the job with code 0,
      "Exited with exit code" ends it with the code the line gives. */
  function StateStep(job: LsfJob, line: string): (r: LsfJob)
    ensures r == job.(state := r.state)
    ensures Contains(line, "Exited with exit code") ==> r.state == Exit(ExitCodeOf(line), "")
    ensures !Contains(line, "Exited with exit code") && Contains(line, "Done successfully") ==> r.state == Done(0, 0)
    ensures !Contains(line, "Exited with exit code") && !Contains(line, "Done successfully") ==> r == job
  {
    var j1 := if Contains(line, "Done successfully") then job.(state := Done(0, 0)) else job;
    if Contains(line, "Exited with exit code") then j1.(state := Exit(ExitCodeOf(line), "")) else j1
  }

  /** Peak memory: the LSF amount after "MAX MEM:", up to the next ';'. */
  function MemStep(job: LsfJob, line: string): (r: LsfJob)
    ensures r == job.(memUsedMb := r.memUsedMb)
  {
    if !Contains(line, "MAX MEM:") then job
    else
      match SplitNth1(line, "MAX MEM:")
      case None => job
      case Some(m) => job.(memUsedMb := ParseMemoryMb(Split(Trim(m), ';')[0], Lsf))
  }

  /** Everything one line says about the open job. Only the name, queue,
      host, state and peak memory can change; in particular the id and
      the submit time never do. */
  function Details(job: LsfJob, line: string): (r: LsfJob)
    ensures r == job.(name := r.name, queue := r.queue, execHost := r.execHost,
                      state := r.state, memUsedMb := r.memUsedMb)
  {
    MemStep(StateStep(HostStep(QueueStep(NameStep(job, line), line), line), line), line)
  }

  /** `Details` as the source writes it, with the two slices that can panic. */
  function DetailsAsWritten(job: LsfJob, line: string): (r: Result<LsfJob, string>)
    ensures r.Ok? ==> r.value.jobId == job.jobId && r.value.submitTime == job.submitTime
  {
    match NameStepAsWritten(job, line)
    case Err(e) => Err(e)
    case Ok(j1) =>
      match QueueStepAsWritten(j1, line)
      case Err(e) => Err(e)
      case Ok(j2) => Ok(MemStep(StateStep(HostStep(j2, line), line), line))
  }

  // ---------------------------------------------------------------------
  // Scanning the blocks

  /** The jobs finished so far and the one being filled in. */
  datatype Scan = Scan(jobs: seq<LsfJob>, current: Option<LsfJob>)

  /** The `since` filter: a job is kept unless its submit time is known and
      earlier than `since`. */
  predicate Kept(job: LsfJob, since: Option<Timestamp>) {
    since.None? || job.submitTime.None? || job.submitTime.value >= since.value
  }

  /** How many jobs the scan holds, the open one included. */
  function Pending(sc: Scan): nat {
    |sc.jobs| + if sc.current.Some? then 1 else 0
  }

  /** Closes the open job, keeping it if the filter allows. */
  function Flush(sc: Scan, since: Option<Timestamp>): (r: seq<LsfJob>)
    ensures sc.current.None? ==> r == sc.jobs
    ensures sc.current.Some? && Kept(sc.current.value, since) ==> r == sc.jobs + [sc.current.value]
    ensures sc.current.Some? && !Kept(sc.current.value, since) ==> r == sc.jobs
  {
    match sc.current
    case None => sc.jobs
    case Some(j) => if Kept(j, since) then sc.jobs + [j] else sc.jobs
  }

  /** A header line closes the open job and opens the next one. */
  function Open(sc: Scan, line: string, since: Option<Timestamp>): Scan {
    if StartsWith(line, JobMarker) then Scan(Flush(sc, since), HeaderJob(line)) else sc
  }

  /** One line of output, trimmed: first the header handling, then the
      details for whatever job is open. */
  function Step(sc: Scan, raw: string, since: Option<Timestamp>): (r: Scan)
    ensures sc.jobs <= r.jobs && Pending(r) <= Pending(sc) + 1
    ensures StartsWith(Trim(raw), JobMarker) ==> r.jobs == Flush(sc, since)
    ensures StartsWith(Trim(raw), JobMarker) ==> (r.current.Some? <==> HeaderJob(Trim(raw)).Some?)
    ensures StartsWith(Trim(raw), JobMarker) && r.current.Some? ==> r.current.value.jobId == HeaderJob(Trim(raw)).value.jobId
    ensures !StartsWith(Trim(raw), JobMarker) ==> r.jobs == sc.jobs && (r.current.Some? <==> sc.current.Some?)
    ensures !StartsWith(Trim(raw), JobMarker) && r.current.Some? ==>
      r.current.value.jobId == sc.current.value.jobId && r.current.value.submitTime == sc.current.value.submitTime
  {
    var line := Trim(raw);
    var s1 := Open(sc, line, since);
    match s1.current
    case None => s1
    case Some(j) => Scan(s1.jobs, Some(Details(j, line)))
  }

  /** The step as written. When it does not panic it changes the reported
      ids exactly as the corrected step does: its slices touch only the
      name and the queue. */
  function StepAsWritten(sc: Scan, raw: string, since: Option<Timestamp>): (r: Result<Scan, string>)
    ensures NoSubmit(sc) && r.Ok? ==>
      NoSubmit(r.value) && Ids(Flush(r.value, since)) == Ids(Flush(sc, since)) + HeaderId(raw)
  {
    var line := Trim(raw);
    var s1 := Open(sc, line, since);
    match s1.current
    case None => Ok(s1)
    case Some(j) =>
      match DetailsAsWritten(j, line)
      case Err(e) => Err(e)
      case Ok(j2) =>
        IdsAppend(s1.jobs, j2);
        IdsAppend(sc.jobs, j);
        Ok(Scan(s1.jobs, Some(j2)))
  }

  function ScanLines(sc: Scan, lines: seq<string>, since: Option<Timestamp>): (r: Scan)
    ensures sc.jobs <= r.jobs && Pending(r) <= Pending(sc) + |lines|
    decreases |lines|
  {
    if |lines| == 0 then sc else ScanLines(Step(sc, lines[0], since), lines[1..], since)
  }

  function ScanLinesAsWritten(sc: Scan, lines: seq<string>, since: Option<Timestamp>): (r: Result<Scan, string>)
    ensures NoSubmit(sc) && r.Ok? ==> Ids(Flush(r.value, since)) == Ids(Flush(sc, since)) + HeaderIds(lines)
    decreases |lines|
  {
    if |lines| == 0 then
      assert Ids(Flush(sc, since)) + HeaderIds(lines) == Ids(Flush(sc, since));
      Ok(sc)
    else
      match StepAsWritten(sc, lines[0], since)
      case Err(e) => Err(e)
      case Ok(sc1) =>
        var before, first, others := Ids(Flush(sc, since)), HeaderId(lines[0]), HeaderIds(lines[1..]);
        assert HeaderIds(lines) == first + others;
        assert before + first + others == before + (first + others);
        ScanLinesAsWritten(sc1, lines[1..], since)
  }

  /** `parse_bhist_long_output` with the name and queue slices corrected:
      the jobs of the output's blocks, in order. */
  function ParseBhistLongOutput(output: string, since: Option<Timestamp>): (r: seq<LsfJob>)
    ensures |r| <= |Lines(output)|
  {
    Flush(ScanLines(Scan([], None), Lines(output), since), since)
  }

  /** `parse_bhist_long_output` as written; Err carries the line whose
      slice panics. */
  function ParseBhistLongOutputAsWritten(output: string, since: Option<Timestamp>): (r: Result<seq<LsfJob>, string>)
    ensures r.Ok? ==> Ids(r.value) == HeaderIds(Lines(output))
  {
    match ScanLinesAsWritten(Scan([], None), Lines(output), since)
    case Err(e) => Err(e)
    case Ok(sc) => Ok(Flush(sc, since))
  }

  // ---------------------------------------------------------------------
  // What the scan produces

  function Ids(jobs: seq<LsfJob>): (r: seq<string>)
    ensures |r| == |jobs|
  {
    seq(|jobs|, i requires 0 <= i < |jobs| => jobs[i].jobId)
  }

  /** The id a line opens a block with, if it is a complete header. */
  function HeaderId(raw: string): (r: seq<string>)
    ensures |r| <= 1
  {
    var line := Trim(raw);
    if StartsWith(line, JobMarker) then
      match HeaderJob(line)
      case None => []
      case Some(j) => [j.jobId]
    else []
  }

  /** The ids of all complete header lines, in order. */
  function HeaderIds(lines: seq<string>): seq<string>
    decreases |lines|
  {
    if |lines| == 0 then [] else HeaderId(lines[0]) + HeaderIds(lines[1..])
  }

  /** No open job has a submit time: bhist blocks never set one. */
  predicate NoSubmit(sc: Scan) {
    sc.current.Some? ==> sc.current.value.submitTime.None?
  }

  lemma {:induction false} IdsAppend(a: seq<LsfJob>, j: LsfJob)
    ensures Ids(a + [j]) == Ids(a) + [j.jobId]
  {
  }

  /** One line adds exactly the id of its header, if any, to the jobs the
      scan would report, and keeps every open job without a submit time. */
  lemma {:induction false} StepIds(sc: Scan, raw: string, since: Option<Timestamp>)
    requires NoSubmit(sc)
    ensures NoSubmit(Step(sc, raw, since))
    ensures Ids(Flush(Step(sc, raw, since), since)) == Ids(Flush(sc, since)) + HeaderId(raw)
  {
    var line := Trim(raw);
    var s1 := Open(sc, line, since);
    if StartsWith(line, JobMarker) {
      match HeaderJob(line)
      case None =>
      case Some(j) =>
        IdsAppend(Flush(sc, since), Details(j, line));
    } else {
      match sc.current
      case None =>
      case Some(j) =>
        IdsAppend(sc.jobs, j);
        IdsAppend(sc.jobs, Details(j, line));
    }
  }

  lemma {:induction false} ScanLinesIds(sc: Scan, lines: seq<string>, since: Option<Timestamp>)
    requires NoSubmit(sc)
    ensures Ids(Flush(ScanLines(sc, lines, since), since)) == Ids(Flush(sc, since)) + HeaderIds(lines)
    decreases |lines|
  {
    if |lines| > 0 {
      var sc1 := Step(sc, lines[0], since);
      StepIds(sc, lines[0], since);
      ScanLinesIds(sc1, lines[1..], since);
      assert ScanLines(sc, lines, since) == ScanLines(sc1, lines[1..], since);
      assert HeaderIds(lines) == HeaderId(lines[0]) + HeaderIds(lines[1..]);
      assert Ids(Flush(sc, since)) + HeaderId(lines[0]) + HeaderIds(lines[1..])
          == Ids(Flush(sc, since)) + (HeaderId(lines[0]) + HeaderIds(lines[1..]));
    }
  }

  /** The parsed jobs are exactly one per complete header line, in the
      order of the headers, whatever `since` is: no job is lost, merged or
      filtered out. */
  lemma {:induction false} ParseBhistIds(output: string, since: Option<Timestamp>)
    ensures Ids(ParseBhistLongOutput(output, since)) == HeaderIds(Lines(output))
  {
    ScanLinesIds(Scan([], None), Lines(output), since);
  }

  /** The `since` argument has no effect on the result. */
  lemma {:induction false} ParseBhistIgnoresSince(output: string, since: Option<Timestamp>)
    ensures ParseBhistLongOutput(output, since) == ParseBhistLongOutput(output, None)
  {
    ScanLinesSince(Scan([], None), Lines(output), since);
  }

  lemma {:induction false} ScanLinesSince(sc: Scan, lines: seq<string>, since: Option<Timestamp>)
    requires NoSubmit(sc)
    ensures Flush(ScanLines(sc, lines, since), since) == Flush(ScanLines(sc, lines, None), None)
    decreases |lines|
  {
    if |lines| > 0 {
      StepIds(sc, lines[0], since);
      assert Step(sc, lines[0], since) == Step(sc, lines[0], None);
      ScanLinesSince(Step(sc, lines[0], since), lines[1..], since);
    }
  }

  // ---------------------------------------------------------------------
  // The queue and name slices

  /** "Queue <" is found where it is placed after text without a 'Q'. */
  lemma {:induction false} QueueMarkerAt(pre: string, rest: string)
    requires Free(pre, 'Q')
    ensures Find(pre + QueueMarker + rest, QueueMarker) == Some(|pre|)
  {
    var line := pre + QueueMarker + rest;
    assert line[|pre|..|pre| + |QueueMarker|] == QueueMarker;
    forall j: nat | j < |pre| ensures !OccursAt(line, QueueMarker, j) {
      assert line[j] == pre[j];
      NotOccursAt(line, QueueMarker, j, 0);
    }
    FindIs(line, QueueMarker, |pre|);
  }

  /** The first ">," of `q + ">," + post` ends `q` when `q` has no '>'. */
  lemma {:induction false} CloserAt(q: string, closer: string, post: string)
    requires |closer| > 0 && closer[0] == '>' && Free(q, '>')
    ensures Find(q + closer + post, closer) == Some(|q|)
  {
    var s := q + closer + post;
    assert s[|q|..|q| + |closer|] == closer;
    forall j: nat | j < |q| ensures !OccursAt(s, closer, j) {
      assert s[j] == q[j];
      NotOccursAt(s, closer, j, 0);
    }
    FindIs(s, closer, |q|);
  }

  /** The corrected step reads the queue of "... Queue <q>, ...". */
  lemma {:induction false} QueueStepReads(job: LsfJob, pre: string, q: string, post: string)
    requires Free(pre, 'Q') && Free(q, '>')
    ensures QueueStep(job, pre + QueueMarker + q + ">," + post).queue == Some(q)
  {
    var line := pre + QueueMarker + q + ">," + post;
    QueueMarkerAt(pre, q + ">," + post);
    assert line == pre + QueueMarker + (q + ">," + post);
    assert line[|pre| + |QueueMarker|..] == q + ">," + post;
    CloserAt(q, ">,", post);
    assert (q + ">," + post)[..|q|] == q;
  }

  /** The step as written panics on such a line as soon as a ">," precedes
      the queue, as the "<host>," before "to Queue <" does in bhist's
      submission line. */
  lemma {:induction false} QueueStepAsWrittenPanics(job: LsfJob, pre: string, q: string, post: string, k: nat)
    requires Free(pre, 'Q') && OccursAt(pre, ">,", k)
    ensures QueueStepAsWritten(job, pre + QueueMarker + q + ">," + post).Err?
  {
    var line := pre + QueueMarker + q + ">," + post;
    QueueMarkerAt(pre, q + ">," + post);
    assert line == pre + QueueMarker + (q + ">," + post);
    assert line[..|pre|] == pre;
    OccursInPrefix(line, |pre|, ">,", k);
    FindAtMost(line, ">,", k);
  }

  /** bhist's submission line "Submitted from host <hostA>, to Queue
      <normal>, CWD <$HOME>;": the step as written panics, the corrected
      one reads "normal". */
  lemma {:induction false} QueueExample(job: LsfJob, pre: string, q: string, post: string)
    requires pre == "Submitted from host <hostA>, to " && q == "normal" && post == " CWD <$HOME>;"
    ensures QueueStepAsWritten(job, pre + QueueMarker + q + ">," + post).Err?
    ensures QueueStep(job, pre + QueueMarker + q + ">," + post).queue == Some("normal")
  {
    assert OccursAt(pre, ">,", 26) by {
      assert pre[26..28] == ">,";
    }
    QueueStepAsWrittenPanics(job, pre, q, post, 26);
    QueueStepReads(job, pre, q, post);
  }

  /** "Job Name <" is found where it is placed after text without an 'N'. */
  lemma {:induction false} NameMarkerAt(pre: string, rest: string)
    requires Free(pre, 'N')
    ensures Find(pre + NameMarker + rest, NameMarker) == Some(|pre|)
  {
    var line := pre + NameMarker + rest;
    assert line[|pre|..|pre| + |NameMarker|] == NameMarker;
    forall j: nat | j < |pre| ensures !OccursAt(line, NameMarker, j) {
      if j + 4 < |pre| {
        assert line[j + 4] == pre[j + 4];
      } else {
        assert line[j + 4] == NameMarker[j + 4 - |pre|];
      }
      NotOccursAt(line, NameMarker, j, 4);
    }
    FindIs(line, NameMarker, |pre|);
  }

  /** The corrected step reads the name of "... Job Name <n>, ...". */
  lemma {:induction false} NameStepReads(job: LsfJob, pre: string, n: string, post: string)
    requires Free(pre, 'N') && Free(n, '>')
    ensures NameStep(job, pre + NameMarker + n + ">" + post).name == n
  {
    var line := pre + NameMarker + n + ">" + post;
    NameMarkerAt(pre, n + ">" + post);
    assert line == pre + NameMarker + (n + ">" + post);
    assert line[|pre| + |NameMarker|..] == n + ">" + post;
    CloserAt(n, ">", post);
    assert (n + ">" + post)[..|n|] == n;
  }

  /** The step as written takes in everything up to the last '>' of the
      line: any later field with a '>' makes the name longer than `n`. */
  lemma {:induction false} NameStepAsWrittenOverreads(job: LsfJob, pre: string, n: string, post: string, k: nat)
    requires Free(pre, 'N') && k < |post| && post[k] == '>'
    ensures var r := NameStepAsWritten(job, pre + NameMarker + n + ">" + post);
      r.Ok? && |r.value.name| > |n|
  {
    var line := pre + NameMarker + n + ">" + post;
    NameMarkerAt(pre, n + ">" + post);
    assert line == pre + NameMarker + (n + ">" + post);
    var at := |pre| + |NameMarker| + |n| + 1 + k;
    assert line[at..at + 1] == ">";
    RFindAtLeast(line, ">", at);
  }

  /** bhist's header "Job <1234>, Job Name <myjob>, User <alice>, ...": the
      step as written reads a name longer than "myjob", the corrected one
      reads "myjob". */
  lemma {:induction false} NameExample(job: LsfJob, pre: string, n: string, post: string)
    requires pre == "Job <1234>, " && n == "myjob" && post == ", User <alice>, Project <default>"
    ensures var r := NameStepAsWritten(job, pre + NameMarker + n + ">" + post);
      r.Ok? && r.value.name != "myjob"
    ensures NameStep(job, pre + NameMarker + n + ">" + post).name == "myjob"
  {
    assert post[13] == '>';
    NameStepAsWrittenOverreads(job, pre, n, post, 13);
    NameStepReads(job, pre, n, post);
  }
}

=== FILE: bjobs.dfy ===
/** Parsing of `bjobs -o "jobid stat queue submit_time start_time
    finish_time exec_host nprocs memlimit job_description delimiter='|'"
    -noheader` output. */
module Bjobs {
  import opened Wrappers
  import opened Text
  import opened Parsers
  import opened LsfTypes
  import Batch

  /** The state names bjobs prints, in upper case. */
  predicate IsStateCode(u: string) {
    u in {"PEND", "RUN", "DONE", "EXIT", "PSUSP", "USUSP", "SSUSP", "ZOMBI"}
  }

  /** The state an upper-case name stands for. */
  function StateOfCode(u: string): (r: LsfJobState)
    ensures r == Pending <==> u == "PEND"
    ensures r == Running <==> u == "RUN"
    ensures r.Done? <==> u == "DONE"
    ensures r.Exit? <==> u == "EXIT"
    ensures r == UserSuspendedPending <==> u == "PSUSP"
    ensures r == UserSuspended <==> u == "USUSP"
    ensures r == SystemSuspended <==> u == "SSUSP"
    ensures r == Zombie <==> u == "ZOMBI"
    ensures r.Unknown? <==> !IsStateCode(u)
    ensures r.Unknown? ==> r.name == u
    ensures r.Done? ==> r == Done(0, 0)
    ensures r.Exit? ==> r == Exit(1, "")
  {
    if u == "PEND" then Pending
    else if u == "RUN" then Running
    else if u == "DONE" then Done(0, 0)
    else if u == "EXIT" then Exit(1, "")
    else if u == "PSUSP" then UserSuspendedPending
    else if u == "USUSP" then UserSuspended
    else if u == "SSUSP" then SystemSuspended
    else if u == "ZOMBI" then Zombie
    else Unknown(u)
  }

  /** `parse_state`: the state a name stands for, in any letter case; a
      finished job counts as exit code 0 and an exited one as exit code 1,
      since bjobs reports neither. */
  function ParseState(s: string): (r: LsfJobState)
    ensures var u := ToUpper(s);
      && (r == Pending <==> u == "PEND")
      && (r == Running <==> u == "RUN")
      && (r.Done? <==> u == "DONE")
      && (r.Exit? <==> u == "EXIT")
      && (r == UserSuspendedPending <==> u == "PSUSP")
      && (r == UserSuspended <==> u == "USUSP")
      && (r == SystemSuspended <==> u == "SSUSP")
      && (r == Zombie <==> u == "ZOMBI")
    ensures r.Unknown? <==> !IsStateCode(ToUpper(s))
    ensures r.Unknown? ==> r.name == ToUpper(s)
    ensures r.Done? ==> r == Done(0, 0)
    ensures r.Exit? ==> r == Exit(1, "")
  {
    StateOfCode(ToUpper(s))
  }

  /** Letter case does not matter. */
  lemma {:induction false} ParseStateCaseInsensitive(s: string)
    ensures ParseState(ToLower(s)) == ParseState(s)
    ensures ParseState(ToUpper(s)) == ParseState(s)
  {
    ToUpperOfLower(s);
    ToUpperIdempotent(s);
  }

  /** The source's examples: PEND, RUN, DONE and EXIT. */
  lemma {:induction false} ParseStateExamples(a: string, b: string, c: string, d: string)
    requires a == "PEND" && b == "RUN" && c == "DONE" && d == "EXIT"
    ensures ParseState(a) == Pending && ParseState(b) == Running
    ensures ParseState(c).Done? && ParseState(d).Exit?
  {
    assert ToUpper("PEND") == "PEND";
    assert ToUpper("RUN") == "RUN";
    assert ToUpper("DONE") == "DONE";
    assert ToUpper("EXIT") == "EXIT";
  }

  /** `parse_bjobs_line`: the job a line describes, or the field-count
      message when it has fewer than ten fields. The job id, state,
      times, slot count and memory limit are read from trimmed columns;
      bjobs reports no job name, memory use or run limit. */
  function ParseBjobsLine(line: string, currentYear: int, calendar: string -> Option<Timestamp>)
    : (r: Result<LsfJob, string>)
    ensures r.Ok? <==> CountChar(line, '|') >= 9
    ensures r.Err? ==> r.error == SplitDelimited(line, 10).error
    ensures r.Ok? ==> r.value.name == "" && r.value.memUsedMb.None? && r.value.runLimit.None?
  {
    match SplitDelimited(line, 10)
    case Err(e) => Err(e)
    case Ok(f) =>
      Ok(LsfJob(
        jobId := Trim(f[0]),
        name := "",
        state := ParseState(Trim(f[1])),
        queue := NonEmptyString(f[2]),
        submitTime := ParseLsfTimestamp(Trim(f[3]), currentYear, calendar),
        startTime := ParseLsfTimestamp(Trim(f[4]), currentYear, calendar),
        endTime := ParseLsfTimestamp(Trim(f[5]), currentYear, calendar),
        execHost := NonEmptyString(f[6]),
        nprocs := ParseU32(Trim(f[7])),
        memLimitMb := ParseMemoryMb(Trim(f[8]), Lsf),
        memUsedMb := None,
        runLimit := None,
        description := NonEmptyString(f[9])))
  }

  /** A line assembled from ten '|'-free columns parses back column by
      column. */
  lemma {:induction false} ParseBjobsLineFields(f: seq<string>, currentYear: int, calendar: string -> Option<Timestamp>)
    requires |f| == 10
    requires forall i :: 0 <= i < |f| ==> Free(f[i], '|')
    ensures var r := ParseBjobsLine(Join(f, "|"), currentYear, calendar);
      r.Ok? && r.value.jobId == Trim(f[0]) && r.value.state == ParseState(Trim(f[1]))
      && r.value.queue == NonEmptyString(f[2])
      && r.value.submitTime == ParseLsfTimestamp(Trim(f[3]), currentYear, calendar)
      && r.value.startTime == ParseLsfTimestamp(Trim(f[4]), currentYear, calendar)
      && r.value.endTime == ParseLsfTimestamp(Trim(f[5]), currentYear, calendar)
      && r.value.execHost == NonEmptyString(f[6]) && r.value.nprocs == ParseU32(Trim(f[7]))
      && r.value.memLimitMb == ParseMemoryMb(Trim(f[8]), Lsf)
      && r.value.description == NonEmptyString(f[9])
  {
    SplitDelimitedJoin(f, 10);
  }

  /** What one line of output contributes: nothing when, trimmed, it is
      empty or a "No ..." notice (bjobs prints "No unfinished job found")
      or malformed; otherwise the job of the trimmed line. */
  function BjobsLineJob(raw: string, currentYear: int, calendar: string -> Option<Timestamp>): (r: Option<LsfJob>)
    ensures r.Some? <==> |Trim(raw)| > 0 && !StartsWith(Trim(raw), "No ") && CountChar(Trim(raw), '|') >= 9
  {
    var line := Trim(raw);
    if |line| == 0 || StartsWith(line, "No ") then None
    else
      match ParseBjobsLine(line, currentYear, calendar)
      case Ok(job) => Some(job)
      case Err(_) => None
  }

  /** The jobs `query_bjobs` collects from bjobs's output. */
  method QueryBjobs(stdout: string, currentYear: int, calendar: string -> Option<Timestamp>) returns (jobs: seq<LsfJob>)
    ensures jobs == Batch.Collect(Lines(stdout), l => BjobsLineJob(l, currentYear, calendar))
    ensures |jobs| <= |Lines(stdout)|
  {
    jobs := Batch.CollectLoop(Lines(stdout), l => BjobsLineJob(l, currentYear, calendar));
  }
}

=== FILE: comment.dfy ===
/** The correlation key shared by scheduler records and Snakemake metadata:
    the executor plugins write "rule_<rule>_wildcards_<wildcards>" into the
    SLURM comment or the LSF job description, and the state keys jobs by
    "<rule>[<wildcards>]". */
module Comment {
  import opened Wrappers
  import opened Text

  const RulePrefix: string := "rule_"
  const WildcardsMarker: string := "_wildcards_"

  /** `parse_slurm_comment`: None unless the text starts with "rule_";
      otherwise the rule is what precedes the first "_wildcards_" after the
      prefix and the wildcards are what follows it, an empty remainder
      counting as no wildcards. */
  function ParseSlurmComment(comment: string): (r: Option<(string, Option<string>)>)
    ensures r.None? <==> !StartsWith(comment, RulePrefix)
    ensures r.Some? ==> r.value.1 != Some("")
  {
    if !StartsWith(comment, RulePrefix) then None
    else
      var rest := comment[|RulePrefix|..];
      match Find(rest, WildcardsMarker)
      case None => Some((rest, None))
      case Some(p) =>
        var wc := rest[p + |WildcardsMarker|..];
        Some((rest[..p], if |wc| == 0 then None else Some(wc)))
  }

  /** `parse_lsf_description`: the LSF executor writes the same format. */
  function ParseLsfDescription(desc: string): (r: Option<(string, Option<string>)>)
    ensures r == ParseSlurmComment(desc)
  {
    ParseSlurmComment(desc)
  }

  /** `make_job_id`: "rule" or "rule[wildcards]". */
  function MakeJobId(rule: string, wildcards: Option<string>): (id: string)
    ensures wildcards.None? ==> id == rule
    ensures wildcards.Some? ==>
      (|id| == |rule| + |wildcards.value| + 2 && id[..|rule|] == rule
       && id[|rule|] == '[' && id[|rule| + 1..|id| - 1] == wildcards.value && id[|id| - 1] == ']')
  {
    match wildcards
    case None => rule
    case Some(w) => rule + "[" + w + "]"
  }

  /** Without a marker after the prefix, the whole remainder is the rule. */
  lemma {:induction false} ParseSlurmCommentNoMarker(comment: string)
    requires StartsWith(comment, RulePrefix)
    requires !Contains(comment[|RulePrefix|..], WildcardsMarker)
    ensures ParseSlurmComment(comment) == Some((comment[|RulePrefix|..], None))
  {
  }

  /** What a parsed comment says about the text it came from: it is the
      prefix, the rule and, when the rule is followed by the marker, the
      wildcards (possibly empty); the rule never contains the marker. */
  lemma {:induction false} ParseSlurmCommentShape(comment: string)
    requires ParseSlurmComment(comment).Some?
    ensures var (rule, wc) := ParseSlurmComment(comment).value;
      !Contains(rule, WildcardsMarker)
      && (wc.Some? ==> comment == RulePrefix + rule + WildcardsMarker + wc.value)
      && (wc.None? ==> comment == RulePrefix + rule || comment == RulePrefix + rule + WildcardsMarker)
  {
    var rest := comment[|RulePrefix|..];
    assert comment == RulePrefix + rest;
    match Find(rest, WildcardsMarker)
    case None =>
    case Some(p) =>
      var rule := rest[..p];
      var wc := rest[p + |WildcardsMarker|..];
      assert rest == rule + WildcardsMarker + wc;
      forall k: nat | OccursAt(rule, WildcardsMarker, k) ensures false {
        OccursInPrefix(rest, p, WildcardsMarker, k);
      }
      if |wc| == 0 {
        assert rest == rule + WildcardsMarker;
      }
  }

  /** The text of "_wildcards_" overlaps itself only in its one-character
      border "_", so an occurrence straddling the end of a rule forces the
      rule to end in "_wildcards". */
  lemma {:induction false} MarkerStraddle(r: string, w: string, j: nat)
    requires j < |r| < j + |WildcardsMarker|
    requires OccursAt(r + WildcardsMarker + w, WildcardsMarker, j)
    ensures EndsWith(r, "_wildcards")
  {
    var s := r + WildcardsMarker + w;
    var pat := WildcardsMarker;
    var m := |r| - j;
    assert s[|r|] == pat[0];
    assert s[j..j + |pat|][m] == pat[m];
    MarkerBorder(m);
    assert r[j..] == s[j..j + 10];
    MarkerHead();
  }

  /** The marker's only inner '_' is its last character. */
  lemma {:induction false} MarkerBorder(m: nat)
    requires 0 < m < |WildcardsMarker| && WildcardsMarker[m] == WildcardsMarker[0]
    ensures m == 10
  {
    assert WildcardsMarker == ['_', 'w', 'i', 'l', 'd', 'c', 'a', 'r', 'd', 's', '_'];
  }

  lemma {:induction false} MarkerHead()
    ensures |WildcardsMarker| == 11 && WildcardsMarker[..10] == "_wildcards"
  {
  }

  /** In a rule with no marker and not ending in "_wildcards", followed by
      the marker, no marker starts inside the rule. */
  lemma {:induction false} NoMarkerInRule(r: string, w: string, j: nat)
    requires !Contains(r, WildcardsMarker) && !EndsWith(r, "_wildcards")
    requires j < |r|
    ensures !OccursAt(r + WildcardsMarker + w, WildcardsMarker, j)
  {
    var rest := r + WildcardsMarker + w;
    if j + |WildcardsMarker| <= |r| {
      assert rest[j..j + |WildcardsMarker|] == r[j..j + |WildcardsMarker|];
      if OccursAt(r, WildcardsMarker, j) {
        FindAtMost(r, WildcardsMarker, j);
      }
    } else if OccursAt(rest, WildcardsMarker, j) {
      MarkerStraddle(r, w, j);
      assert false;
    }
  }

  /** The round trip from a rule and non-empty wildcards to a comment and
      back, for a rule that contains no "_wildcards_" and does not end in
      "_wildcards" (either would make the first marker fall inside it). */
  lemma {:induction false} ParseSlurmCommentRoundTrip(r: string, w: string)
    requires |w| > 0
    requires !Contains(r, WildcardsMarker) && !EndsWith(r, "_wildcards")
    ensures ParseSlurmComment(RulePrefix + r + WildcardsMarker + w) == Some((r, Some(w)))
  {
    var c := RulePrefix + r + WildcardsMarker + w;
    var rest := r + WildcardsMarker + w;
    assert c[..|RulePrefix|] == RulePrefix;
    assert c[|RulePrefix|..] == rest;
    assert rest[|r|..|r| + |WildcardsMarker|] == WildcardsMarker;
    forall j: nat | j < |r| ensures !OccursAt(rest, WildcardsMarker, j) {
      NoMarkerInRule(r, w, j);
    }
    FindIs(rest, WildcardsMarker, |r|);
    assert rest[..|r|] == r;
    assert rest[|r| + |WildcardsMarker|..] == w;
  }

  /** A rule followed by nothing, or only by the marker, parses to no
      wildcards. */
  lemma {:induction false} ParseSlurmCommentRuleOnly(r: string)
    requires !Contains(r, WildcardsMarker) && !EndsWith(r, "_wildcards")
    ensures ParseSlurmComment(RulePrefix + r) == Some((r, None))
    ensures ParseSlurmComment(RulePrefix + r + WildcardsMarker) == Some((r, None))
  {
    var c := RulePrefix + r;
    assert c[..|RulePrefix|] == RulePrefix && c[|RulePrefix|..] == r;
    var c2 := RulePrefix + r + WildcardsMarker;
    var rest := r + WildcardsMarker;
    assert c2[..|RulePrefix|] == RulePrefix;
    assert c2[|RulePrefix|..] == rest;
    assert rest == r + WildcardsMarker + "";
    assert rest[|r|..|r| + |WildcardsMarker|] == WildcardsMarker;
    forall j: nat | j < |r| ensures !OccursAt(rest, WildcardsMarker, j) {
      NoMarkerInRule(r, "", j);
    }
    FindIs(rest, WildcardsMarker, |r|);
    assert rest[..|r|] == r;
    assert rest[|r| + |WildcardsMarker|..] == "";
  }

  /** Keys do not collide: for rules without '[', the key determines the
      rule and the wildcards. */
  lemma {:induction false} MakeJobIdInjective(r1: string, w1: Option<string>, r2: string, w2: Option<string>)
    requires Free(r1, '[') && Free(r2, '[')
    requires MakeJobId(r1, w1) == MakeJobId(r2, w2)
    ensures r1 == r2 && w1 == w2
  {
  }

  /** The source's examples: "rule_align_reads" has no wildcards and
      "not_a_rule" is not a Snakemake comment. */
  lemma {:induction false} ParseSlurmCommentExamples(a: string, b: string)
    requires a == "rule_align_reads" && b == "not_a_rule"
    ensures ParseSlurmComment(a) == Some(("align_reads", None))
    ensures ParseSlurmComment(b) == None
  {
    var r := "align_reads";
    assert a == RulePrefix + r;
    AlignReadsClean(r);
    ParseSlurmCommentRuleOnly(r);
    assert b[..|RulePrefix|] != RulePrefix by {
      assert b[0] == 'n';
    }
  }

  /** The source's example with wildcards: "rule_align_reads_wildcards_sample=S1". */
  lemma {:induction false} ParseSlurmCommentWildcardsExample(a: string)
    requires a == "rule_align_reads_wildcards_sample=S1"
    ensures ParseSlurmComment(a) == Some(("align_reads", Some("sample=S1")))
  {
    var r := "align_reads";
    var w := "sample=S1";
    assert a == RulePrefix + r + WildcardsMarker + w;
    AlignReadsClean(r);
    ParseSlurmCommentRoundTrip(r, w);
  }

  /** The examples' rule name holds no marker and does not end in
      "_wildcards". */
  lemma {:induction false} AlignReadsClean(r: string)
    requires r == "align_reads"
    ensures !Contains(r, WildcardsMarker) && !EndsWith(r, "_wildcards")
  {
    assert r[0] != WildcardsMarker[0];
    forall j: nat ensures !OccursAt(r, WildcardsMarker, j) {
      if j == 0 {
        assert r[0..|WildcardsMarker|][0] == r[0];
      }
    }
    FindNone(r, WildcardsMarker);
    assert r[|r| - 10..][0] == 'l';
  }
}

=== FILE: job_detail.dfy ===
/** The text helpers of the job detail panel: clock-style and unit-style
    durations, the sample guessed from an output path, and the wildcard
    pairs shown key by key. */
module JobDetail {
  import opened Wrappers
  import opened Text
  import JL = JobList

  // ---------------------------------------------------------------------
  // Durations

  /** `std::time::Duration`: whole seconds and the nanoseconds past them. */
  datatype StdDuration = StdDuration(secs: nat, nanos: nat)

  function Abs(d: int): nat {
    if d < 0 then -d else d
  }

  /** `format_seconds`: "HH:MM:SS" from an hour on, else "MM:SS", every
      field zero-padded to two digits. */
  function FormatSeconds(secs: nat): (r: string)
    ensures |r| >= 5
  {
    Clock(secs / 3600, (secs % 3600) / 60, secs % 60)
  }

  /** The clock of given hours, minutes and seconds. */
  function Clock(hours: nat, mins: nat, s: nat): (r: string)
    ensures |r| >= 5
  {
    if hours > 0 then Pad2(hours) + ":" + Pad2(mins) + ":" + Pad2(s)
    else Pad2(mins) + ":" + Pad2(s)
  }

  /** Reads "H:MM:SS" (with a positive hour) or "MM:SS" back into seconds;
      minutes and seconds must be below 60. */
  function ReadClock(t: string): Option<nat> {
    var parts := Split(t, ':');
    if |parts| == 3 then
      match (ReadNumeral(parts[0]), ReadNumeral(parts[1]), ReadNumeral(parts[2]))
      case (Some(h), Some(m), Some(s)) => if h > 0 && m < 60 && s < 60 then Some(h * 3600 + m * 60 + s) else None
      case _ => None
    else if |parts| == 2 then
      match (ReadNumeral(parts[0]), ReadNumeral(parts[1]))
      case (Some(m), Some(s)) => if m < 60 && s < 60 then Some(m * 60 + s) else None
      case _ => None
    else None
  }

  lemma {:induction false} ClockThree(h: nat, m: nat, sec: nat)
    requires h > 0 && m < 60 && sec < 60
    ensures var t := Pad2(h) + ":" + Pad2(m) + ":" + Pad2(sec);
      ReadClock(t) == Some(h * 3600 + m * 60 + sec) && |Split(t, ':')| == 3
  {
    var a := Pad2(h);
    var b := Pad2(m);
    var c := Pad2(sec);
    DigitsFree(a, ':');
    DigitsFree(b, ':');
    DigitsFree(c, ':');
    assert a + ":" + b + ":" + c == a + [':'] + b + [':'] + c;
    SplitThree(a, b, c, ':');
  }

  lemma {:induction false} ClockTwo(m: nat, sec: nat)
    requires m < 60 && sec < 60
    ensures var t := Pad2(m) + ":" + Pad2(sec);
      ReadClock(t) == Some(m * 60 + sec) && |Split(t, ':')| == 2
  {
    var b := Pad2(m);
    var c := Pad2(sec);
    DigitsFree(b, ':');
    DigitsFree(c, ':');
    assert b + ":" + c == b + [':'] + c;
    SplitTwo(b, c, ':');
  }

  /** The clock reads back as the seconds it shows; it has three fields
      exactly from an hour on, and its minute and second fields are below
      60. */
  lemma {:induction false} FormatSecondsReadsBack(secs: nat)
    ensures ReadClock(FormatSeconds(secs)) == Some(secs)
    ensures |Split(FormatSeconds(secs), ':')| == if secs >= 3600 then 3 else 2
  {
    var h, m, s := secs / 3600, (secs % 3600) / 60, secs % 60;
    HoursMinutesSeconds(secs);
    ClockReadsBack(h, m, s);
    assert FormatSeconds(secs) == Clock(h, m, s);
  }

  lemma {:induction false} ClockReadsBack(h: nat, m: nat, sec: nat)
    requires m < 60 && sec < 60
    ensures ReadClock(Clock(h, m, sec)) == Some(h * 3600 + m * 60 + sec)
    ensures |Split(Clock(h, m, sec), ':')| == if h > 0 then 3 else 2
  {
    if h > 0 {
      ClockThree(h, m, sec);
    } else {
      ClockTwo(m, sec);
    }
  }

  /** Hours, minutes and seconds put back together. */
  lemma {:induction false} HoursMinutesSeconds(secs: nat)
    ensures secs == (secs / 3600) * 3600 + ((secs % 3600) / 60) * 60 + secs % 60
    ensures (secs % 3600) / 60 < 60 && secs % 60 < 60
    ensures secs >= 3600 <==> secs / 3600 > 0
    ensures secs >= 60 <==> secs / 3600 > 0 || (secs % 3600) / 60 > 0
  {
  }

  /** `format_duration`: the clock of the whole seconds, the fraction
      dropped. */
  function FormatDuration(d: StdDuration): (r: string)
    ensures r == FormatSeconds(d.secs)
  {
    var secs := d.secs;
    var hours := secs / 3600;
    var mins := (secs % 3600) / 60;
    var s := secs % 60;
    if hours > 0 then Pad2(hours) + ":" + Pad2(mins) + ":" + Pad2(s)
    else Pad2(mins) + ":" + Pad2(s)
  }

  /** `format_chrono_duration`: the clock of the magnitude of a signed
      number of seconds. */
  function FormatChronoDuration(d: int): (r: string)
    ensures r == FormatSeconds(Abs(d))
  {
    var secs := Abs(d);
    var hours := secs / 3600;
    var mins := (secs % 3600) / 60;
    var s := secs % 60;
    if hours > 0 then Pad2(hours) + ":" + Pad2(mins) + ":" + Pad2(s)
    else Pad2(mins) + ":" + Pad2(s)
  }

  /** A span and its reverse look the same. */
  lemma {:induction false} FormatChronoDurationSymmetric(d: int)
    ensures FormatChronoDuration(-d) == FormatChronoDuration(d)
    ensures ReadClock(FormatChronoDuration(d)) == Some(Abs(d))
  {
    assert Abs(-d) == Abs(d);
    FormatSecondsReadsBack(Abs(d));
  }

  /** `format_chrono_duration_hms`: "Xh Ym Zs" from an hour on, "Ym Zs"
      from a minute on, else "Zs", of the magnitude. */
  function FormatChronoDurationHms(d: int): (r: string)
    ensures |r| >= 2 && r[|r| - 1] == 's'
  {
    var secs := Abs(d);
    UnitClock(secs / 3600, (secs % 3600) / 60, secs % 60)
  }

  /** The unit-style clock of given hours, minutes and seconds. */
  function UnitClock(hours: nat, mins: nat, s: nat): (r: string)
    ensures |r| >= 2 && r[|r| - 1] == 's'
  {
    if hours > 0 then NatToString(hours) + "h " + NatToString(mins) + "m " + NatToString(s) + "s"
    else if mins > 0 then NatToString(mins) + "m " + NatToString(s) + "s"
    else NatToString(s) + "s"
  }

  /** A numeral followed by the unit letter `u`. */
  function ReadUnit(t: string, u: char): Option<nat> {
    if |t| >= 1 && t[|t| - 1] == u then ReadNumeral(t[..|t| - 1]) else None
  }

  /** Reads "Xh Ym Zs", "Ym Zs" or "Zs" back into seconds; each field is
      below its unit's limit and the leading one is not zero. */
  function ReadHms(t: string): Option<nat> {
    var parts := Split(t, ' ');
    if |parts| == 3 then
      match (ReadUnit(parts[0], 'h'), ReadUnit(parts[1], 'm'), ReadUnit(parts[2], 's'))
      case (Some(h), Some(m), Some(s)) => if h > 0 && m < 60 && s < 60 then Some(h * 3600 + m * 60 + s) else None
      case _ => None
    else if |parts| == 2 then
      match (ReadUnit(parts[0], 'm'), ReadUnit(parts[1], 's'))
      case (Some(m), Some(s)) => if 0 < m < 60 && s < 60 then Some(m * 60 + s) else None
      case _ => None
    else if |parts| == 1 then
      match ReadUnit(parts[0], 's')
      case Some(s) => if s < 60 then Some(s) else None
      case None => None
    else None
  }

  lemma {:induction false} UnitFree(n: nat, u: char)
    requires !IsDigit(u) && u != ' '
    ensures ReadUnit(NatToString(n) + [u], u) == Some(n)
    ensures Free(NatToString(n) + [u], ' ')
  {
    var d := NatToString(n);
    var t := d + [u];
    assert t[..|t| - 1] == d;
    DigitsFree(d, ' ');
    FreeAppend(d, [u], ' ');
  }

  lemma {:induction false} HmsThree(h: nat, m: nat, sec: nat)
    requires h > 0 && m < 60 && sec < 60
    ensures var t := NatToString(h) + "h " + NatToString(m) + "m " + NatToString(sec) + "s";
      ReadHms(t) == Some(h * 3600 + m * 60 + sec) && |Split(t, ' ')| == 3
  {
    var th := NatToString(h) + "h";
    var tm := NatToString(m) + "m";
    var ts := NatToString(sec) + "s";
    UnitFree(h, 'h');
    UnitFree(m, 'm');
    UnitFree(sec, 's');
    assert NatToString(h) + "h " + NatToString(m) + "m " + NatToString(sec) + "s" == th + [' '] + tm + [' '] + ts;
    SplitThree(th, tm, ts, ' ');
  }

  lemma {:induction false} HmsTwo(m: nat, sec: nat)
    requires 0 < m < 60 && sec < 60
    ensures var t := NatToString(m) + "m " + NatToString(sec) + "s";
      ReadHms(t) == Some(m * 60 + sec) && |Split(t, ' ')| == 2
  {
    var tm := NatToString(m) + "m";
    var ts := NatToString(sec) + "s";
    UnitFree(m, 'm');
    UnitFree(sec, 's');
    assert NatToString(m) + "m " + NatToString(sec) + "s" == tm + [' '] + ts;
    SplitTwo(tm, ts, ' ');
  }

  lemma {:induction false} HmsOne(sec: nat)
    requires sec < 60
    ensures var t := NatToString(sec) + "s";
      ReadHms(t) == Some(sec) && |Split(t, ' ')| == 1
  {
    UnitFree(sec, 's');
    SplitFreeSingle(NatToString(sec) + "s", ' ');
  }

  /** The unit-style duration reads back as the magnitude of the span, and
      it has one field per unit from the largest nonzero one down. */
  lemma {:induction false} FormatHmsReadsBack(d: int)
    ensures ReadHms(FormatChronoDurationHms(d)) == Some(Abs(d))
    ensures |Split(FormatChronoDurationHms(d), ' ')| == if Abs(d) >= 3600 then 3 else if Abs(d) >= 60 then 2 else 1
  {
    var secs := Abs(d);
    HoursMinutesSeconds(secs);
    UnitClockReadsBack(secs / 3600, (secs % 3600) / 60, secs % 60);
  }

  lemma {:induction false} UnitClockReadsBack(h: nat, m: nat, sec: nat)
    requires m < 60 && sec < 60
    ensures ReadHms(UnitClock(h, m, sec)) == Some(h * 3600 + m * 60 + sec)
    ensures |Split(UnitClock(h, m, sec), ' ')| == if h > 0 then 3 else if m > 0 then 2 else 1
  {
    if h > 0 {
      HmsThree(h, m, sec);
    } else if m > 0 {
      HmsTwo(m, sec);
    } else {
      HmsOne(sec);
    }
  }

  // ---------------------------------------------------------------------
  // Sample names

  /** File stems that name no sample. */
  predicate Generic(name: string) {
    name == "output" || name == "result"
  }

  /** `extract_sample_from_path`: for a path with a directory, the last
      segment up to its first '.', unless that is empty or generic. */
  function ExtractSampleFromPath(path: string): (r: Option<string>)
    ensures r.Some? ==> |r.value| > 0 && !Generic(r.value) && Free(r.value, '.') && Free(r.value, '/')
  {
    var parts := Split(path, '/');
    if |parts| >= 2 then
      var filename := parts[|parts| - 1];
      var name := Split(filename, '.')[0];
      SplitFree(path, '/');
      SplitFree(filename, '.');
      SplitKeepsFree(filename, '.', '/');
      if |name| > 0 && !Generic(name) then Some(name) else None
    else None
  }

  /** A bare file name, with no directory, names no sample. */
  lemma {:induction false} NoDirectoryNoSample(path: string)
    requires Free(path, '/')
    ensures ExtractSampleFromPath(path).None?
  {
    SplitFreeSingle(path, '/');
  }

  /** A path "dir/name.ext" names the sample `name` when that is a plain
      non-generic stem. */
  lemma {:induction false} SampleFromPath(dir: string, name: string, ext: string)
    requires |name| > 0 && !Generic(name)
    requires Free(name, '/') && Free(name, '.') && Free(ext, '/')
    ensures ExtractSampleFromPath(dir + "/" + name + "." + ext) == Some(name)
  {
    var filename := name + "." + ext;
    assert Free(filename, '/') by {
      FreeAppend(name, ".", '/');
      FreeAppend(name + ".", ext, '/');
    }
    var path := dir + "/" + name + "." + ext;
    assert path == dir + ['/'] + filename;
    SplitLast(dir, filename, '/');
    assert filename == name + ['.'] + ext;
    SplitFirst(name, ext, '.');
  }

  // ---------------------------------------------------------------------
  // Wildcards

  /** One "key=value" part: both sides trimmed; None without '='. */
  function PartPair(part: string): (r: Option<(string, string)>)
    ensures r.None? <==> JL.PartValue(part).None?
    ensures r.Some? ==> r.value.1 == JL.PartValue(part).value
  {
    match SplitOnce(Trim(part), '=')
    case None => None
    case Some((k, v)) => Some((Trim(k), Trim(v)))
  }

  /** The wildcard pairs of the detail panel: the comma-separated parts that
      hold a '=', in order. */
  function WildcardPairs(w: string): (r: seq<(string, string)>) {
    Pairs(Split(w, ','))
  }

  function Pairs(parts: seq<string>): (r: seq<(string, string)>)
    ensures |r| <= |parts|
    decreases |parts|
  {
    if |parts| == 0 then []
    else
      match PartPair(parts[0])
      case None => Pairs(parts[1..])
      case Some(p) => [p] + Pairs(parts[1..])
  }

  /** The detail panel shows the same values, in the same order, as the
      job list row. */
  lemma {:induction false} PairsMatchList(w: string)
    ensures |WildcardPairs(w)| == |JL.ExtractWildcards(Some(w))|
    ensures forall i :: 0 <= i < |WildcardPairs(w)| ==> WildcardPairs(w)[i].1 == JL.ExtractWildcards(Some(w))[i]
  {
    PairsValues(Split(w, ','));
  }

  lemma {:induction false} PairsValues(parts: seq<string>)
    ensures |Pairs(parts)| == |JL.Values(parts)|
    ensures forall i :: 0 <= i < |Pairs(parts)| ==> Pairs(parts)[i].1 == JL.Values(parts)[i]
    decreases |parts|
  {
    if |parts| > 0 {
      PairsValues(parts[1..]);
    }
  }

  /** A pair that survives the trip through its "key=value" text: the key
      has no whitespace, '=' or ',', and the value no ',' and no whitespace
      at its ends. */
  predicate CleanPair(p: (string, string)) {
    NoWhitespace(p.0) && Free(p.0, '=') && Free(p.0, ',')
    && Free(p.1, ',') && (|p.1| > 0 ==> !IsWhitespace(p.1[0]) && !IsWhitespace(p.1[|p.1| - 1]))
  }

  function Entry(p: (string, string)): string {
    p.0 + "=" + p.1
  }

  /** Pairs written "k=v, k=v", the form the metadata merge produces. */
  function RenderPairs(pairs: seq<(string, string)>): string {
    JoinEntries(pairs, ", ")
  }

  function JoinEntries(pairs: seq<(string, string)>, sep: string): string
    decreases |pairs|
  {
    if |pairs| == 0 then ""
    else if |pairs| == 1 then Entry(pairs[0])
    else Entry(pairs[0]) + sep + JoinEntries(pairs[1..], sep)
  }

  /** The parts a ',' split of rendered pairs gives: the first entry, then
      each later one after its space. */
  function SplitParts(pairs: seq<(string, string)>, lead: string): (r: seq<string>)
    ensures |r| == |pairs|
    decreases |pairs|
  {
    if |pairs| == 0 then []
    else [lead + Entry(pairs[0])] + SplitParts(pairs[1..], " ")
  }

  lemma {:induction false} JoinEntriesSplit(pairs: seq<(string, string)>, lead: string)
    requires |pairs| >= 1
    ensures lead + JoinEntries(pairs, ", ") == Join(SplitParts(pairs, lead), ",")
    decreases |pairs|
  {
    if |pairs| > 1 {
      JoinEntriesSplit(pairs[1..], " ");
      assert SplitParts(pairs, lead)[1..] == SplitParts(pairs[1..], " ");
    }
  }

  lemma {:induction false} EntryFree(p: (string, string))
    requires CleanPair(p)
    ensures Free(Entry(p), ',') && Free(" " + Entry(p), ',')
  {
    FreeAppend(p.0, "=", ',');
    FreeAppend(p.0 + "=", p.1, ',');
    FreeAppend(" ", Entry(p), ',');
  }

  /** A part of rendered text gives back its pair. */
  lemma {:induction false} PartPairOfEntry(p: (string, string), lead: string)
    requires CleanPair(p) && (lead == "" || lead == " ")
    ensures PartPair(lead + Entry(p)) == Some(p)
  {
    var e := Entry(p);
    assert e == p.0 + ['='] + p.1;
    assert !IsWhitespace(e[0]) by {
      if |p.0| == 0 { assert e[0] == '='; } else { assert e[0] == p.0[0]; }
    }
    assert !IsWhitespace(e[|e| - 1]) by {
      if |p.1| == 0 { assert e[|e| - 1] == '='; } else { assert e[|e| - 1] == p.1[|p.1| - 1]; }
    }
    TrimNoEdges(e);
    if lead == " " {
      assert AllWhitespace(lead);
      LeadingWsPrefix(lead, e);
      assert TrimStart(e) == e;
    } else {
      assert lead + e == e;
    }
    assert Trim(lead + e) == e;
    SplitOnceAt(p.0, p.1, '=');
    TrimNoEdges(p.0);
    TrimNoEdges(p.1);
  }

  lemma {:induction false} PairsOfParts(pairs: seq<(string, string)>, lead: string)
    requires forall i :: 0 <= i < |pairs| ==> CleanPair(pairs[i])
    requires lead == "" || lead == " "
    ensures Pairs(SplitParts(pairs, lead)) == pairs
    decreases |pairs|
  {
    if |pairs| > 0 {
      PartPairOfEntry(pairs[0], lead);
      PairsOfParts(pairs[1..], " ");
      PairsStep(pairs, lead);
    }
  }

  /** One step of the round trip: a first part that reads back as its pair,
      followed by parts that read back as the rest. */
  lemma {:induction false} PairsStep(pairs: seq<(string, string)>, lead: string)
    requires |pairs| > 0
    ensures PartPair(lead + Entry(pairs[0])) == Some(pairs[0]) && Pairs(SplitParts(pairs[1..], " ")) == pairs[1..] ==>
      Pairs(SplitParts(pairs, lead)) == pairs
  {
    var parts := SplitParts(pairs, lead);
    var rest := SplitParts(pairs[1..], " ");
    assert parts == [lead + Entry(pairs[0])] + rest;
    assert parts[0] == lead + Entry(pairs[0]) && parts[1..] == rest;
    if PartPair(parts[0]) == Some(pairs[0]) && Pairs(rest) == pairs[1..] {
      PairsCons(parts, pairs[0]);
      assert [pairs[0]] + pairs[1..] == pairs;
    }
  }

  lemma {:induction false} PairsCons(parts: seq<string>, p: (string, string))
    requires |parts| > 0 && PartPair(parts[0]) == Some(p)
    ensures Pairs(parts) == [p] + Pairs(parts[1..])
  {
  }

  /** Rendering clean pairs and reading them back gives the pairs. */
  lemma {:induction false} WildcardPairsRoundTrip(pairs: seq<(string, string)>)
    requires forall i :: 0 <= i < |pairs| ==> CleanPair(pairs[i])
    ensures WildcardPairs(RenderPairs(pairs)) == pairs
  {
    if |pairs| == 0 {
      assert Split("", ',') == [""];
      assert Trim("") == "";
    } else {
      JoinEntriesSplit(pairs, "");
      assert "" + JoinEntries(pairs, ", ") == JoinEntries(pairs, ", ");
      var parts := SplitParts(pairs, "");
      forall i | 0 <= i < |parts|
        ensures Free(parts[i], ',')
      {
        PartsFree(pairs, "", i);
      }
      SplitJoin(parts, ',');
      PairsOfParts(pairs, "");
    }
  }

  /** The job list row shows exactly the values of rendered clean pairs,
      in order. */
  lemma {:induction false} ExtractWildcardsRoundTrip(pairs: seq<(string, string)>)
    requires forall i :: 0 <= i < |pairs| ==> CleanPair(pairs[i])
    ensures |JL.ExtractWildcards(Some(RenderPairs(pairs)))| == |pairs|
    ensures forall i :: 0 <= i < |pairs| ==> JL.ExtractWildcards(Some(RenderPairs(pairs)))[i] == pairs[i].1
  {
    WildcardPairsRoundTrip(pairs);
    PairsMatchList(RenderPairs(pairs));
  }

  lemma {:induction false} PartsFree(pairs: seq<(string, string)>, lead: string, i: nat)
    requires forall j :: 0 <= j < |pairs| ==> CleanPair(pairs[j])
    requires lead == "" || lead == " "
    requires i < |pairs|
    ensures Free(SplitParts(pairs, lead)[i], ',')
    decreases |pairs|
  {
    EntryFree(pairs[0]);
    if i > 0 {
      PartsFree(pairs[1..], " ", i - 1);
      assert SplitParts(pairs, lead)[i] == SplitParts(pairs[1..], " ")[i - 1];
    } else if lead == "" {
      assert lead + Entry(pairs[0]) == Entry(pairs[0]);
    }
  }
}

=== FILE: job_list.dfy ===
/** The job list's dependency view and the text helpers of its rows.

    The dependency view marks, for the selected row, every job upstream of
    it (the jobs that produce its inputs, transitively) and every job
    downstream of it (the jobs that consume its outputs, transitively), and
    lays out the rows between the first and the last marked row as a chain.
    The job map is iterated in an order that is a parameter here (`order`
    lists every key once), because which of two producers of one file wins
    depends on it. */
module JobList {
  import opened Wrappers
  import opened Text
  import opened Parsers
  import opened StateTypes
  import P = Pipeline

  // ---------------------------------------------------------------------
  // Graphs and reachability

  /** A job's successors, in the order the worklist pushes them. */
  type Graph = map<string, seq<string>>

  /** `p` walks along edges of `g`. */
  predicate IsPath(g: Graph, p: seq<string>) {
    |p| >= 1 && forall i :: 0 <= i < |p| - 1 ==> p[i] in g && p[i + 1] in g[p[i]]
  }

  /** `b` can be reached from `a` in zero or more steps. */
  ghost predicate Reachable(g: Graph, a: string, b: string) {
    exists p :: IsPath(g, p) && p[0] == a && p[|p| - 1] == b
  }

  /** Every node some edge points to. */
  function Targets(g: Graph): set<string> {
    set u, k | u in g && 0 <= k < |g[u]| :: g[u][k]
  }

  lemma {:induction false} ReachRefl(g: Graph, a: string)
    ensures Reachable(g, a, a)
  {
    assert IsPath(g, [a]);
  }

  lemma {:induction false} ReachStep(g: Graph, a: string, b: string, c: string)
    requires Reachable(g, a, b) && b in g && c in g[b]
    ensures Reachable(g, a, c)
  {
    var p :| IsPath(g, p) && p[0] == a && p[|p| - 1] == b;
    var q := p + [c];
    assert forall i :: 0 <= i < |p| ==> q[i] == p[i];
    assert IsPath(g, q);
  }

  /** A set closed under the edges keeps every path that starts in it. */
  lemma {:induction false} PathStaysIn(g: Graph, s: set<string>, p: seq<string>)
    requires IsPath(g, p) && p[0] in s
    requires forall x, y :: x in s && x in g && y in g[x] ==> y in s
    ensures p[|p| - 1] in s
    decreases |p|
  {
    if |p| > 1 {
      var q := p[..|p| - 1];
      assert forall i :: 0 <= i < |q| ==> q[i] == p[i];
      assert IsPath(g, q);
      PathStaysIn(g, s, q);
    }
  }

  /** What the worklist walk keeps true: the visited and the stacked jobs
      are within reach, what a visited job points to is visited or stacked,
      and `related` is every visited or stacked job but the start. */
  ghost predicate WalkInvariant(g: Graph, start: string, visited: set<string>, stack: seq<string>, related: set<string>) {
    && visited <= Universe(g, start)
    && (forall x :: x in stack ==> x in Universe(g, start) && Reachable(g, start, x))
    && (start in visited || start in stack)
    && (forall x :: x in visited ==> Reachable(g, start, x))
    && (forall x, y :: x in visited && x in g && y in g[x] ==> y in visited || y in stack)
    && (forall x :: x in related <==> x != start && (x in visited || x in stack))
  }

  /** Every job the walk can meet. */
  ghost function Universe(g: Graph, start: string): set<string> {
    g.Keys + Targets(g) + {start}
  }

  /** Popping an already visited job keeps the invariant. */
  lemma {:induction false} SkipKeeps(g: Graph, start: string, visited: set<string>, stack: seq<string>, related: set<string>)
    requires WalkInvariant(g, start, visited, stack, related)
    requires |stack| > 0 && stack[|stack| - 1] in visited
    ensures WalkInvariant(g, start, visited, stack[..|stack| - 1], related)
  {
    var rest := stack[..|stack| - 1];
    assert stack == rest + [stack[|stack| - 1]];
    assert forall y :: y in stack <==> y in rest || y == stack[|stack| - 1];
  }

  /** Popping a new job, visiting it and pushing its unvisited successors
      keeps the invariant. */
  lemma {:induction false} VisitKeeps(g: Graph, start: string, visited: set<string>, stack: seq<string>, related: set<string>)
    requires WalkInvariant(g, start, visited, stack, related)
    requires |stack| > 0 && stack[|stack| - 1] !in visited
    ensures var current := stack[|stack| - 1];
      var next := if current in g then g[current] else [];
      && current in Universe(g, start)
      && WalkInvariant(g, start, visited + {current},
        stack[..|stack| - 1] + Unvisited(next, visited + {current}),
        related + (set y | y in next && y != start))
  {
    var current := stack[|stack| - 1];
    var rest := stack[..|stack| - 1];
    var next := if current in g then g[current] else [];
    var visited' := visited + {current};
    var stack' := rest + Unvisited(next, visited');
    assert stack == rest + [current];
    PushMembers(rest, current, next, visited');
    NextReachable(g, start, current);
    VisitClosed(g, visited, rest, current, stack');
  }

  /** What is on the stack before and after the visit. */
  lemma {:induction false} PushMembers(rest: seq<string>, current: string, next: seq<string>, visited': set<string>)
    ensures forall y :: y in rest + [current] <==> y in rest || y == current
    ensures forall y :: y in rest + Unvisited(next, visited') <==> y in rest || (y in next && y !in visited')
  {
  }

  /** The visited jobs stay closed under the edges, up to the stack. */
  lemma {:induction false} VisitClosed(g: Graph, visited: set<string>, rest: seq<string>, current: string, stack': seq<string>)
    requires forall x, y :: x in visited && x in g && y in g[x] ==> y in visited || y in rest || y == current
    requires forall y :: y in rest ==> y in stack'
    requires forall y :: current in g && y in g[current] && y !in visited + {current} ==> y in stack'
    ensures forall x, y :: x in visited + {current} && x in g && y in g[x] ==> y in visited + {current} || y in stack'
  {
  }

  /** The successors of a reachable job are reachable. */
  lemma {:induction false} NextReachable(g: Graph, start: string, current: string)
    requires Reachable(g, start, current)
    ensures var next := if current in g then g[current] else [];
      forall y :: y in next ==> y in Universe(g, start) && Reachable(g, start, y)
  {
    if current in g {
      forall y | y in g[current]
        ensures y in Universe(g, start) && Reachable(g, start, y)
      {
        var k :| 0 <= k < |g[current]| && g[current][k] == y;
        assert y in Targets(g);
        ReachStep(g, start, current, y);
      }
    }
  }

  /** With the stack empty, the visited jobs are closed under the edges and
      hold the start, so they are all the reachable ones. */
  lemma {:induction false} WalkDone(g: Graph, start: string, visited: set<string>, related: set<string>)
    requires WalkInvariant(g, start, visited, [], related)
    ensures forall v :: v in visited <==> Reachable(g, start, v)
    ensures related == visited - {start}
  {
    forall v | Reachable(g, start, v)
      ensures v in visited
    {
      var p :| IsPath(g, p) && p[0] == start && p[|p| - 1] == v;
      PathStaysIn(g, visited, p);
    }
  }

  /** Visiting a new job of the universe leaves fewer to visit. */
  lemma {:induction false} Shrinks(u: set<string>, visited: set<string>, x: string)
    requires x in u && x !in visited
    ensures |u - (visited + {x})| < |u - visited|
  {
    assert u - visited == (u - (visited + {x})) + {x};
  }

  /** The two worklist walks of `compute_dependencies`: pop a job, skip it
      if already visited, otherwise visit it and push each successor not
      yet visited. `related` collects every successor met other than the
      start, as the source's upstream and downstream sets do. The visited
      jobs are exactly those reachable from the start, so `related` is
      everything reachable in at least one step, bar the start itself. */
  method Reach(g: Graph, start: string) returns (visited: set<string>, related: set<string>)
    ensures forall v :: v in visited <==> Reachable(g, start, v)
    ensures related == visited - {start}
  {
    var stack := [start];
    visited := {};
    related := {};
    ReachRefl(g, start);
    while |stack| > 0
      invariant WalkInvariant(g, start, visited, stack, related)
      decreases |Universe(g, start) - visited|, |stack|
    {
      var current := stack[|stack| - 1];
      if current in visited {
        SkipKeeps(g, start, visited, stack, related);
        stack := stack[..|stack| - 1];
        continue;
      }
      VisitKeeps(g, start, visited, stack, related);
      Shrinks(Universe(g, start), visited, current);
      var next := if current in g then g[current] else [];
      stack := stack[..|stack| - 1] + Unvisited(next, visited + {current});
      related := related + (set y | y in next && y != start);
      visited := visited + {current};
    }
    WalkDone(g, start, visited, related);
  }

  /** The successors not yet visited, in order: what one visit pushes. */
  function Unvisited(next: seq<string>, visited: set<string>): (r: seq<string>)
    ensures forall y :: y in r <==> y in next && y !in visited
    decreases |next|
  {
    if |next| == 0 then []
    else
      var rest := Unvisited(next[1..], visited);
      assert forall y :: y in next <==> y == next[0] || y in next[1..];
      if next[0] in visited then rest else [next[0]] + rest
  }

  // ---------------------------------------------------------------------
  // The two dependency graphs

  /** `i` is the last position of `order` whose job produces `f`. */
  predicate LastProducer(jobs: map<string, Job>, order: seq<string>, f: string, i: int)
    requires forall j :: 0 <= j < |order| ==> order[j] in jobs
  {
    0 <= i < |order| && f in jobs[order[i]].outputs
    && forall j :: i < j < |order| ==> f !in jobs[order[j]].outputs
  }

  /** `output_to_job`: each output file to the job producing it, a later
      job in the iteration order overwriting an earlier one. */
  function Producers(jobs: map<string, Job>, order: seq<string>): (m: map<string, string>)
    requires forall j :: 0 <= j < |order| ==> order[j] in jobs
    decreases |order|
  {
    if |order| == 0 then map[]
    else
      var last := order[|order| - 1];
      Producers(jobs, order[..|order| - 1]) + map f | f in jobs[last].outputs :: last
  }

  /** The last job of the iteration order that outputs a file is its
      recorded producer. */
  lemma {:induction false} ProducersLast(jobs: map<string, Job>, order: seq<string>, f: string, i: int)
    requires forall j :: 0 <= j < |order| ==> order[j] in jobs
    requires LastProducer(jobs, order, f, i)
    ensures f in Producers(jobs, order) && Producers(jobs, order)[f] == order[i]
    decreases |order|
  {
    var n := |order| - 1;
    var pre := order[..n];
    var last := order[n];
    if i < n {
      assert f !in jobs[last].outputs;
      assert LastProducer(jobs, pre, f, i);
      ProducersLast(jobs, pre, f, i);
    }
  }

  /** Every recorded producer is the last job of the iteration order that
      outputs the file. */
  lemma {:induction false} ProducersSound(jobs: map<string, Job>, order: seq<string>, f: string)
    requires forall j :: 0 <= j < |order| ==> order[j] in jobs
    requires f in Producers(jobs, order)
    ensures exists i :: LastProducer(jobs, order, f, i) && Producers(jobs, order)[f] == order[i]
    decreases |order|
  {
    var n := |order| - 1;
    var pre := order[..n];
    var last := order[n];
    if f in jobs[last].outputs {
      assert LastProducer(jobs, order, f, n);
    } else {
      ProducersSound(jobs, pre, f);
      var i :| LastProducer(jobs, pre, f, i) && Producers(jobs, pre)[f] == pre[i];
      assert LastProducer(jobs, order, f, i);
    }
  }

  /** The consumers recorded for `f`, or none. */
  function Get(m: map<string, seq<string>>, f: string): seq<string> {
    if f in m then m[f] else []
  }

  /** Appends `id` to the consumer list of each of `inputs`. */
  function AddConsumer(m: map<string, seq<string>>, inputs: seq<string>, id: string): (r: map<string, seq<string>>)
    ensures forall f, x :: x in Get(r, f) <==> x in Get(m, f) || (x == id && f in inputs)
    decreases |inputs|
  {
    if |inputs| == 0 then m
    else
      var f := inputs[0];
      var r := AddConsumer(m[f := Get(m, f) + [id]], inputs[1..], id);
      assert forall g :: g in inputs <==> g == f || g in inputs[1..];
      r
  }

  /** `input_to_jobs`: each input file to the jobs consuming it. */
  function Consumers(jobs: map<string, Job>, order: seq<string>): (m: map<string, seq<string>>)
    requires forall j :: 0 <= j < |order| ==> order[j] in jobs
    decreases |order|
  {
    if |order| == 0 then map[]
    else
      var last := order[|order| - 1];
      AddConsumer(Consumers(jobs, order[..|order| - 1]), jobs[last].inputs, last)
  }

  /** A job is listed as a consumer of `f` exactly when it is iterated and
      takes `f` as an input. */
  lemma {:induction false} ConsumersSpec(jobs: map<string, Job>, order: seq<string>)
    requires forall j :: 0 <= j < |order| ==> order[j] in jobs
    ensures forall f, x :: x in Get(Consumers(jobs, order), f) <==> x in order && f in jobs[x].inputs
    decreases |order|
  {
    if |order| > 0 {
      var n := |order| - 1;
      var pre := order[..n];
      ConsumersSpec(jobs, pre);
      assert order == pre + [order[n]];
      assert forall x :: x in order <==> x in pre || x == order[n];
    }
  }

  /** The producers of some inputs, in input order. */
  function UpEdges(inputs: seq<string>, producers: map<string, string>): (r: seq<string>)
    ensures forall x :: x in r <==> exists f :: f in inputs && f in producers && producers[f] == x
    decreases |inputs|
  {
    if |inputs| == 0 then []
    else
      var rest := UpEdges(inputs[1..], producers);
      var f := inputs[0];
      assert forall g :: g in inputs <==> g == f || g in inputs[1..];
      if f in producers then [producers[f]] + rest else rest
  }

  /** The consumers of some outputs, output by output. */
  function DownEdges(outputs: seq<string>, consumers: map<string, seq<string>>): (r: seq<string>)
    ensures forall x :: x in r <==> exists f :: f in outputs && x in Get(consumers, f)
    decreases |outputs|
  {
    if |outputs| == 0 then []
    else
      var rest := DownEdges(outputs[1..], consumers);
      var f := outputs[0];
      assert forall g :: g in outputs <==> g == f || g in outputs[1..];
      Get(consumers, f) + rest
  }

  /** The upstream walk's graph: from a job to the producers of its inputs. */
  function UpGraph(jobs: map<string, Job>, order: seq<string>): (g: Graph)
    requires forall j :: 0 <= j < |order| ==> order[j] in jobs
    ensures g.Keys == jobs.Keys
  {
    var producers := Producers(jobs, order);
    map u | u in jobs :: UpEdges(jobs[u].inputs, producers)
  }

  /** The downstream walk's graph: from a job to the consumers of its
      outputs. */
  function DownGraph(jobs: map<string, Job>, order: seq<string>): (g: Graph)
    requires forall j :: 0 <= j < |order| ==> order[j] in jobs
    ensures g.Keys == jobs.Keys
  {
    var consumers := Consumers(jobs, order);
    map u | u in jobs :: DownEdges(jobs[u].outputs, consumers)
  }

  /** An upstream edge leads from a job to the job that produces one of its
      inputs, the last such job in the iteration order. */
  lemma {:induction false} UpEdge(jobs: map<string, Job>, order: seq<string>, u: string, x: string)
    requires P.EnumeratesKeys(order, jobs) && u in jobs
    ensures x in UpGraph(jobs, order)[u] <==>
      exists f, i :: f in jobs[u].inputs && LastProducer(jobs, order, f, i) && order[i] == x
  {
    var m := Producers(jobs, order);
    if x in UpGraph(jobs, order)[u] {
      var f :| f in jobs[u].inputs && f in m && m[f] == x;
      ProducersSound(jobs, order, f);
      var i :| LastProducer(jobs, order, f, i) && m[f] == order[i];
    }
    if exists f, i :: f in jobs[u].inputs && LastProducer(jobs, order, f, i) && order[i] == x {
      var f, i :| f in jobs[u].inputs && LastProducer(jobs, order, f, i) && order[i] == x;
      ProducersLast(jobs, order, f, i);
    }
  }

  /** A downstream edge leads from a job to each job that takes one of its
      outputs as an input. */
  lemma {:induction false} DownEdge(jobs: map<string, Job>, order: seq<string>, u: string, x: string)
    requires P.EnumeratesKeys(order, jobs) && u in jobs
    ensures x in DownGraph(jobs, order)[u] <==>
      x in jobs && exists f :: f in jobs[u].outputs && f in jobs[x].inputs
  {
    var c := Consumers(jobs, order);
    var edges := DownEdges(jobs[u].outputs, c);
    assert DownGraph(jobs, order)[u] == edges;
    ConsumersSpec(jobs, order);
    if x in edges {
      var f :| f in jobs[u].outputs && x in Get(c, f);
      assert x in order && f in jobs[x].inputs;
    }
    if x in jobs && exists f :: f in jobs[u].outputs && f in jobs[x].inputs {
      var f :| f in jobs[u].outputs && f in jobs[x].inputs;
      var i :| 0 <= i < |order| && order[i] == x;
      assert x in Get(c, f);
    }
  }

  // ---------------------------------------------------------------------
  // Marking the rows

  datatype DepRelation = Selected | Upstream | Downstream | NoRelation

  datatype ChainPosition = First | Last | Middle | Trunk | Outside

  /** The selection names a listed job that is not the main pipeline row. */
  predicate ValidSelection(jobs: map<string, Job>, jobIds: seq<string>, selected: Option<nat>) {
    selected.Some? && selected.value < |jobIds|
    && jobIds[selected.value] != MainPipelineJobId && jobIds[selected.value] in jobs
  }

  /** Each row's relation to the selected row; upstream wins when a job is
      both. */
  function Relations(jobIds: seq<string>, sel: nat, up: set<string>, down: set<string>): (r: seq<DepRelation>)
    ensures |r| == |jobIds|
  {
    seq(|jobIds|, i requires 0 <= i < |jobIds| =>
      if i == sel then Selected
      else if jobIds[i] in up then Upstream
      else if jobIds[i] in down then Downstream
      else NoRelation)
  }

  /** The first related row. */
  function FirstRelated(rels: seq<DepRelation>): (r: Option<nat>)
    ensures r.Some? ==> r.value < |rels| && rels[r.value] != NoRelation
    ensures forall j :: 0 <= j < |rels| && (r.None? || j < r.value) ==> rels[j] == NoRelation
    decreases |rels|
  {
    if |rels| == 0 then None
    else if rels[0] != NoRelation then Some(0)
    else
      match FirstRelated(rels[1..])
      case None => None
      case Some(k) => Some(k + 1)
  }

  /** The last related row. */
  function LastRelated(rels: seq<DepRelation>): (r: Option<nat>)
    ensures r.Some? ==> r.value < |rels| && rels[r.value] != NoRelation
    ensures forall j :: 0 <= j < |rels| && (r.None? || j > r.value) ==> rels[j] == NoRelation
    decreases |rels|
  {
    if |rels| == 0 then None
    else if rels[|rels| - 1] != NoRelation then Some(|rels| - 1)
    else LastRelated(rels[..|rels| - 1])
  }

  /** The tree-rendering position of row `i` in the chain from `lo` to `hi`. */
  function Position(rels: seq<DepRelation>, lo: nat, hi: nat, i: nat): ChainPosition
    requires i < |rels|
  {
    if i < lo || i > hi then Outside
    else if rels[i] == NoRelation then Trunk
    else if i == lo then First
    else if i == hi then Last
    else Middle
  }

  /** The chain positions: with at least two related rows, the span from the
      first to the last is drawn; otherwise nothing is. */
  function Positions(rels: seq<DepRelation>): (r: seq<ChainPosition>)
    ensures |r| == |rels|
  {
    var first := FirstRelated(rels);
    var last := LastRelated(rels);
    if first.Some? && last.Some? && first.value < last.value then
      seq(|rels|, i requires 0 <= i < |rels| => Position(rels, first.value, last.value, i))
    else seq(|rels|, _ => Outside)
  }

  ghost predicate RelatedBefore(rels: seq<DepRelation>, i: int) {
    exists j :: 0 <= j < i && j < |rels| && rels[j] != NoRelation
  }

  ghost predicate RelatedAfter(rels: seq<DepRelation>, i: int) {
    exists j :: 0 <= i < j < |rels| && rels[j] != NoRelation
  }

  ghost predicate TwoRelated(rels: seq<DepRelation>) {
    exists i, j :: 0 <= i < j < |rels| && rels[i] != NoRelation && rels[j] != NoRelation
  }

  /** The chain positions, described row by row without the span's ends:
      with fewer than two related rows everything is outside; otherwise
      a related row is First when nothing related precedes it, Last when
      nothing related follows it, and Middle between the two; an unrelated
      row between related ones is Trunk, and every other row is Outside. */
  lemma {:induction false} ChainShape(rels: seq<DepRelation>)
    ensures var r := Positions(rels);
      && (!TwoRelated(rels) ==> forall i :: 0 <= i < |r| ==> r[i] == Outside)
      && (TwoRelated(rels) ==> forall i :: 0 <= i < |r| ==>
        && (r[i] == First <==> rels[i] != NoRelation && !RelatedBefore(rels, i))
        && (r[i] == Last <==> rels[i] != NoRelation && !RelatedAfter(rels, i))
        && (r[i] == Middle <==> rels[i] != NoRelation && RelatedBefore(rels, i) && RelatedAfter(rels, i))
        && (r[i] == Trunk <==> rels[i] == NoRelation && RelatedBefore(rels, i) && RelatedAfter(rels, i))
        && (r[i] == Outside <==> rels[i] == NoRelation && (!RelatedBefore(rels, i) || !RelatedAfter(rels, i))))
  {
    var r := Positions(rels);
    var first := FirstRelated(rels);
    var last := LastRelated(rels);
    if TwoRelated(rels) {
      var a, b :| 0 <= a < b < |rels| && rels[a] != NoRelation && rels[b] != NoRelation;
      var lo := first.value;
      var hi := last.value;
      assert lo <= a && b <= hi;
      forall i | 0 <= i < |rels|
        ensures RelatedBefore(rels, i) <==> lo < i
        ensures RelatedAfter(rels, i) <==> i < hi
      {
        if lo < i {
          assert rels[lo] != NoRelation;
        }
        if i < hi {
          assert rels[hi] != NoRelation;
        }
      }
    }
  }

  /** `compute_dependencies`: one (relation, position) pair per listed
      row. */
  method ComputeDependencies(jobs: map<string, Job>, order: seq<string>, jobIds: seq<string>, selected: Option<nat>)
    returns (r: seq<(DepRelation, ChainPosition)>)
    requires P.EnumeratesKeys(order, jobs)
    ensures |r| == |jobIds|
    ensures !ValidSelection(jobs, jobIds, selected) ==>
      forall i :: 0 <= i < |r| ==> r[i] == (NoRelation, Outside)
    ensures ValidSelection(jobs, jobIds, selected) ==>
      var sel := selected.value;
      var id := jobIds[sel];
      && r[sel].0 == Selected
      && (forall i :: 0 <= i < |r| && i != sel ==> r[i].0 != Selected)
      && (forall i :: 0 <= i < |r| && i != sel ==>
        (r[i].0 == Upstream <==> (jobIds[i] != id && Reachable(UpGraph(jobs, order), id, jobIds[i]))))
      && (forall i :: 0 <= i < |r| && i != sel ==>
        (r[i].0 == Downstream <==> (jobIds[i] != id && !Reachable(UpGraph(jobs, order), id, jobIds[i])
          && Reachable(DownGraph(jobs, order), id, jobIds[i]))))
    ensures forall i :: 0 <= i < |r| ==> r[i].1 == Positions(Firsts(r))[i]
  {
    if !ValidSelection(jobs, jobIds, selected) {
      var none := seq(|jobIds|, _ => NoRelation);
      NoChain(none);
      r := Zip(none, Positions(none));
      assert Firsts(r) == none;
      return;
    }
    var sel := selected.value;
    var id := jobIds[sel];
    var up := UpGraph(jobs, order);
    var down := DownGraph(jobs, order);
    var _, upstream := Reach(up, id);
    var _, downstream := Reach(down, id);
    var rels := Relations(jobIds, sel, upstream, downstream);
    RelationsMeaning(jobIds, sel, upstream, downstream, up, down);
    r := Zip(rels, Positions(rels));
    assert Firsts(r) == rels;
  }

  /** The relations of the rows, given what the two walks found. */
  lemma {:induction false} RelationsMeaning(jobIds: seq<string>, sel: nat, upstream: set<string>, downstream: set<string>, up: Graph, down: Graph)
    requires sel < |jobIds|
    requires forall v :: v in upstream <==> v != jobIds[sel] && Reachable(up, jobIds[sel], v)
    requires forall v :: v in downstream <==> v != jobIds[sel] && Reachable(down, jobIds[sel], v)
    ensures var r := Relations(jobIds, sel, upstream, downstream); var id := jobIds[sel];
      && r[sel] == Selected
      && (forall i :: 0 <= i < |r| && i != sel ==> r[i] != Selected)
      && (forall i :: 0 <= i < |r| && i != sel ==>
        (r[i] == Upstream <==> (jobIds[i] != id && Reachable(up, id, jobIds[i]))))
      && (forall i :: 0 <= i < |r| && i != sel ==>
        (r[i] == Downstream <==> (jobIds[i] != id && !Reachable(up, id, jobIds[i]) && Reachable(down, id, jobIds[i]))))
  {
  }

  /** The relations of some (relation, position) pairs. */
  function Firsts(r: seq<(DepRelation, ChainPosition)>): (f: seq<DepRelation>)
    ensures |f| == |r| && forall i :: 0 <= i < |r| ==> f[i] == r[i].0
  {
    seq(|r|, i requires 0 <= i < |r| => r[i].0)
  }

  function Zip(rels: seq<DepRelation>, positions: seq<ChainPosition>): (r: seq<(DepRelation, ChainPosition)>)
    requires |rels| == |positions|
    ensures |r| == |rels| && forall i :: 0 <= i < |r| ==> r[i] == (rels[i], positions[i])
  {
    seq(|rels|, i requires 0 <= i < |rels| => (rels[i], positions[i]))
  }

  /** With no related row there is no chain. */
  lemma {:induction false} NoChain(rels: seq<DepRelation>)
    requires forall i :: 0 <= i < |rels| ==> rels[i] == NoRelation
    ensures forall i :: 0 <= i < |rels| ==> Positions(rels)[i] == Outside
  {
    assert FirstRelated(rels).None?;
  }

  // ---------------------------------------------------------------------
  // Row text

  const HorizontalEllipsis: string := "…"

  /** `truncate_str` as written: the fit test counts bytes and the cut is a
      byte slice, None where that slice panics. */
  function TruncateStrAsWritten(s: string, maxWidth: nat): (r: Option<string>)
    ensures ByteLen(s) <= maxWidth ==> r == Some(s)
  {
    if ByteLen(s) <= maxWidth then Some(s)
    else if maxWidth <= 1 then Some(HorizontalEllipsis)
    else
      match BytePrefix(s, maxWidth - 1)
      case None => None
      case Some(p) => Some(p + HorizontalEllipsis)
  }

  /** A rule name of three two-byte letters, cut at width 4, makes the
      source slice the string in the middle of the second letter. */
  lemma {:induction false} TruncateStrAsWrittenPanics(s: string)
    requires s == "ééé"
    ensures TruncateStrAsWritten(s, 4).None?
  {
    assert Utf8Width('é') == 2;
    assert s[1..] == "éé" && s[1..][1..] == "é" && s[1..][1..][1..] == "";
    assert ByteLen("é") == 2;
    assert ByteLen(s) == 6;
    assert BytePrefix(s[1..], 1).None?;
  }

  /** `truncate_str` as intended, counting characters: the text when it
      fits, a lone ellipsis for a width of at most one, otherwise the
      leading characters and an ellipsis. */
  function TruncateStr(s: string, maxWidth: nat): (r: string)
    ensures |r| <= if maxWidth <= 1 then 1 else maxWidth
    ensures |s| <= maxWidth ==> r == s
    ensures |s| > maxWidth ==> |r| == (if maxWidth <= 1 then 1 else maxWidth) && r == s[..|r| - 1] + "…"
  {
    if |s| <= maxWidth then s
    else if maxWidth <= 1 then HorizontalEllipsis
    else s[..maxWidth - 1] + HorizontalEllipsis
  }

  /** On ASCII text the source's truncation never panics and agrees with
      the intended one. */
  lemma {:induction false} TruncateStrAscii(s: string, maxWidth: nat)
    requires Ascii(s)
    ensures TruncateStrAsWritten(s, maxWidth) == Some(TruncateStr(s, maxWidth))
  {
    AsciiBytes(s, if maxWidth > 0 then maxWidth - 1 else 0);
  }

  /** Truncating twice to the same width changes nothing more. */
  lemma {:induction false} TruncateStrIdempotent(s: string, maxWidth: nat)
    ensures TruncateStr(TruncateStr(s, maxWidth), maxWidth) == TruncateStr(s, maxWidth)
  {
  }

  /** The value of one "key=value" part, trimmed; None without '='. */
  function PartValue(part: string): (r: Option<string>)
    ensures r.None? <==> Free(Trim(part), '=')
  {
    match SplitOnce(Trim(part), '=')
    case None => None
    case Some((_, v)) => Some(Trim(v))
  }

  /** `extract_wildcards`: the values of the comma-separated parts that hold
      a '=', in order; none without wildcards. */
  function ExtractWildcards(wildcards: Option<string>): (r: seq<string>)
    ensures wildcards.None? ==> r == []
  {
    match wildcards
    case None => []
    case Some(w) => Values(Split(w, ','))
  }

  /** The values of the parts that have one. */
  function Values(parts: seq<string>): (r: seq<string>)
    ensures |r| <= |parts|
    decreases |parts|
  {
    if |parts| == 0 then []
    else
      match PartValue(parts[0])
      case None => Values(parts[1..])
      case Some(v) => [v] + Values(parts[1..])
  }

  /** The run time label for a number of seconds: hours and minutes from an
      hour on, minutes and seconds from a minute on, else seconds. */
  function RuntimeLabel(secs: nat): (r: string)
    ensures |r| >= 2 && (r[|r| - 1] == 'm' || r[|r| - 1] == 's')
  {
    var mins := secs / 60;
    if mins >= 60 then NatToString(mins / 60) + "h" + NatToString(mins % 60) + "m"
    else if mins > 0 then NatToString(mins) + "m" + NatToString(secs % 60) + "s"
    else NatToString(secs % 60) + "s"
  }

  /** `get_job_runtime`: "-" for a job that has not started, else the label
      of the distance from the start to the end, or to `now` while it
      runs, whichever way round. */
  function JobRuntime(timing: JobTiming, now: Timestamp): (r: string)
    ensures r == "-" <==> timing.startedAt.None?
  {
    match timing.startedAt
    case None => "-"
    case Some(started) =>
      var end := match timing.completedAt case Some(c) => c case None => now;
      var elapsed := end - started;
      RuntimeLabel(if elapsed < 0 then -elapsed else elapsed)
  }

  /** Reads a run time label back: "XhYm", "XmYs" or "Xs". */
  function ReadRuntime(s: string): Option<nat> {
    if |s| == 0 then None
    else
      var body := s[..|s| - 1];
      if s[|s| - 1] == 'm' then
        var parts := Split(body, 'h');
        if |parts| != 2 then None
        else
          match (ReadNumeral(parts[0]), ReadNumeral(parts[1]))
          case (Some(h), Some(m)) => if m < 60 then Some(h * 3600 + m * 60) else None
          case _ => None
      else if s[|s| - 1] == 's' then
        var parts := Split(body, 'm');
        if |parts| == 1 then
          match ReadNumeral(parts[0])
          case Some(x) => if x < 60 then Some(x) else None
          case None => None
        else if |parts| == 2 then
          match (ReadNumeral(parts[0]), ReadNumeral(parts[1]))
          case (Some(m), Some(x)) => if x < 60 then Some(m * 60 + x) else None
          case _ => None
        else None
      else None
  }

  /** A label reads back as the seconds it was made from, to the second
      under an hour and to the minute from an hour on. */
  lemma {:induction false} RuntimeLabelReadsBack(secs: nat)
    ensures ReadRuntime(RuntimeLabel(secs)) == Some(if secs >= 3600 then secs - secs % 60 else secs)
  {
    var mins := secs / 60;
    MinutesAndSeconds(secs);
    if mins >= 60 {
      var h, m := mins / 60, mins % 60;
      assert RuntimeLabel(secs) == NatToString(h) + "h" + NatToString(m) + "m";
      HoursLabelReadsBack(h, m);
      assert h * 3600 + m * 60 == secs - secs % 60;
    } else if mins > 0 {
      var s := secs % 60;
      assert RuntimeLabel(secs) == NatToString(mins) + "m" + NatToString(s) + "s";
      MinutesLabelReadsBack(mins, s);
      assert mins * 60 + s == secs;
    } else {
      assert RuntimeLabel(secs) == NatToString(secs % 60) + "s";
      SecondsLabelReadsBack(secs % 60);
    }
  }

  lemma {:induction false} HoursLabelReadsBack(h: nat, m: nat)
    requires m < 60
    ensures ReadRuntime(NatToString(h) + "h" + NatToString(m) + "m") == Some(h * 3600 + m * 60)
  {
    var a, b := NatToString(h), NatToString(m);
    var r := a + "h" + b + "m";
    DigitsFree(a, 'h');
    DigitsFree(b, 'h');
    assert r[..|r| - 1] == a + ['h'] + b;
    SplitTwo(a, b, 'h');
  }

  lemma {:induction false} MinutesLabelReadsBack(m: nat, s: nat)
    requires s < 60
    ensures ReadRuntime(NatToString(m) + "m" + NatToString(s) + "s") == Some(m * 60 + s)
  {
    var a, b := NatToString(m), NatToString(s);
    var r := a + "m" + b + "s";
    DigitsFree(a, 'm');
    DigitsFree(b, 'm');
    assert r[..|r| - 1] == a + ['m'] + b;
    SplitTwo(a, b, 'm');
  }

  lemma {:induction false} SecondsLabelReadsBack(s: nat)
    requires s < 60
    ensures ReadRuntime(NatToString(s) + "s") == Some(s)
  {
    var a := NatToString(s);
    var r := a + "s";
    DigitsFree(a, 'm');
    assert r[..|r| - 1] == a;
    SplitFreeSingle(a, 'm');
  }

  lemma {:induction false} MinutesAndSeconds(secs: nat)
    ensures var mins := secs / 60;
      && secs == mins * 60 + secs % 60 && secs % 60 < 60
      && (secs >= 3600 <==> mins >= 60)
      && (mins >= 60 ==> (mins / 60) * 3600 + (mins % 60) * 60 == secs - secs % 60 && mins % 60 < 60)
  {
    var mins := secs / 60;
    assert mins == (mins / 60) * 60 + mins % 60;
  }
}

=== FILE: log_viewer.dfy ===
/** The log viewer's state: the loaded lines of a job log, a scroll
    offset that always names a line (or 0 for an empty log), and the
    follow flag. Reading the file is a parameter: the read's outcome, the
    file's text or the error it reported. */
module LogViewer {
  import opened Wrappers
  import opened Text

  datatype LogViewerState = LogViewerState(
    logPath: string,
    lines: seq<string>,
    scrollOffset: nat,
    followMode: bool,
    error: Option<string>)

  /** `len.saturating_sub(1)`: the last line's index, 0 for no lines. */
  function LastIndex(lines: seq<string>): (r: nat)
    ensures |lines| == 0 ==> r == 0
    ensures |lines| > 0 ==> r < |lines| && r + 1 == |lines|
  {
    if |lines| == 0 then 0 else |lines| - 1
  }

  /** The offset names a line, or is 0 for an empty log. */
  predicate Valid(st: LogViewerState) {
    st.scrollOffset <= LastIndex(st.lines)
  }

  // ---------------------------------------------------------------------
  // Loading

  /** The tail logic of `load_log_file`: with a positive limit and a longer
      log, only the last `tailLines` lines. */
  function Tail(lines: seq<string>, tailLines: nat): (r: seq<string>)
    ensures tailLines > 0 && |lines| > tailLines ==> |r| == tailLines
    ensures tailLines == 0 || |lines| <= tailLines ==> r == lines
    ensures r == lines[|lines| - |r|..]
  {
    if tailLines > 0 && |lines| > tailLines then lines[|lines| - tailLines..] else lines
  }

  /** `load_log_file`, given what reading the file gave. */
  function LoadLogFile(read: Result<string, string>, tailLines: nat): (r: Result<seq<string>, string>)
    ensures r.Err? <==> read.Err?
    ensures r.Err? ==> r.error == read.error
    ensures r.Ok? ==> r.value == Tail(Lines(read.value), tailLines)
  {
    match read
    case Err(e) => Err(e)
    case Ok(content) => Ok(Tail(Lines(content), tailLines))
  }

  /** `LogViewerState::new`: a failed load shows no lines and an error;
      with a tail limit the view starts at the last line. */
  function NewViewer(logPath: string, read: Result<string, string>, tailLines: nat): (r: LogViewerState)
    ensures Valid(r) && !r.followMode && r.logPath == logPath
    ensures read.Err? ==> r.lines == [] && r.error == Some("Error loading log: " + read.error)
    ensures read.Ok? ==> r.error.None? && r.lines == Tail(Lines(read.value), tailLines)
    ensures r.scrollOffset == if tailLines > 0 then LastIndex(r.lines) else 0
  {
    var (lines, error) :=
      match LoadLogFile(read, tailLines)
      case Ok(ls) => (ls, None)
      case Err(e) => ([], Some("Error loading log: " + e));
    var offset := if |lines| > 0 && tailLines > 0 then LastIndex(lines) else 0;
    LogViewerState(logPath, lines, offset, false, error)
  }

  // ---------------------------------------------------------------------
  // Scrolling

  /** `scroll_down`: one line further, stopping at the last line. */
  function ScrollDown(st: LogViewerState): (r: LogViewerState)
    requires Valid(st)
    ensures Valid(r) && !r.followMode
    ensures r == st.(scrollOffset := r.scrollOffset, followMode := false)
    ensures st.scrollOffset < LastIndex(st.lines) ==> r.scrollOffset == st.scrollOffset + 1
    ensures st.scrollOffset == LastIndex(st.lines) ==> r.scrollOffset == st.scrollOffset
  {
    var offset := if |st.lines| > 0 then Min(st.scrollOffset + 1, LastIndex(st.lines)) else st.scrollOffset;
    st.(scrollOffset := offset, followMode := false)
  }

  function Min(a: nat, b: nat): nat {
    if a <= b then a else b
  }

  /** `scroll_up`: one line back, stopping at 0. */
  function ScrollUp(st: LogViewerState): (r: LogViewerState)
    requires Valid(st)
    ensures Valid(r) && !r.followMode
    ensures r == st.(scrollOffset := r.scrollOffset, followMode := false)
    ensures st.scrollOffset > 0 ==> r.scrollOffset + 1 == st.scrollOffset
    ensures st.scrollOffset == 0 ==> r.scrollOffset == 0
  {
    st.(scrollOffset := if st.scrollOffset > 0 then st.scrollOffset - 1 else 0, followMode := false)
  }

  /** `scroll_to_top`. */
  function ScrollToTop(st: LogViewerState): (r: LogViewerState)
    requires Valid(st)
    ensures Valid(r) && !r.followMode && r.scrollOffset == 0
    ensures r == st.(scrollOffset := 0, followMode := false)
  {
    st.(scrollOffset := 0, followMode := false)
  }

  /** `scroll_to_bottom`: the last line; an empty log keeps its offset. */
  function ScrollToBottom(st: LogViewerState): (r: LogViewerState)
    requires Valid(st)
    ensures Valid(r) && !r.followMode && r.scrollOffset == LastIndex(st.lines)
    ensures r == st.(scrollOffset := r.scrollOffset, followMode := false)
  {
    var offset := if |st.lines| > 0 then LastIndex(st.lines) else st.scrollOffset;
    st.(scrollOffset := offset, followMode := false)
  }

  /** `toggle_follow` as written: the flag flips, and turning it on goes to
      the bottom, which turns it off again. */
  function ToggleFollowAsWritten(st: LogViewerState): (r: LogViewerState)
    requires Valid(st)
    ensures Valid(r)
  {
    var flipped := st.(followMode := !st.followMode);
    if flipped.followMode then ScrollToBottom(flipped) else flipped
  }

  /** Follow mode can never be switched on. */
  lemma {:induction false} ToggleFollowNeverFollows(st: LogViewerState)
    requires Valid(st)
    ensures !ToggleFollowAsWritten(st).followMode
  {
    var flipped := st.(followMode := !st.followMode);
    if flipped.followMode {
      assert !ScrollToBottom(flipped).followMode;
    }
  }

  /** The toggle as intended: the flag flips, and turning it on also goes
      to the bottom. */
  function ToggleFollow(st: LogViewerState): (r: LogViewerState)
    requires Valid(st)
    ensures Valid(r) && r.followMode == !st.followMode
    ensures r.followMode ==> r.scrollOffset == LastIndex(st.lines)
    ensures !r.followMode ==> r.scrollOffset == st.scrollOffset
    ensures r == st.(scrollOffset := r.scrollOffset, followMode := r.followMode)
  {
    if !st.followMode then ScrollToBottom(st).(followMode := true) else st.(followMode := false)
  }

  /** Toggling twice, as intended, turns follow mode back to what it was. */
  lemma {:induction false} ToggleFollowTwice(st: LogViewerState)
    requires Valid(st)
    ensures ToggleFollow(ToggleFollow(st)).followMode == st.followMode
    ensures !st.followMode ==> ToggleFollow(ToggleFollow(st)).scrollOffset == LastIndex(st.lines)
  {
    var once := ToggleFollow(st);
    assert once.lines == st.lines;
  }

  /** The keys of the viewer. */
  datatype Key = Down | Up | Top | Bottom | Follow

  /** One key press, with the toggle as intended. */
  function Press(st: LogViewerState, k: Key): (r: LogViewerState)
    requires Valid(st)
    ensures Valid(r) && r.lines == st.lines
  {
    match k
    case Down => ScrollDown(st)
    case Up => ScrollUp(st)
    case Top => ScrollToTop(st)
    case Bottom => ScrollToBottom(st)
    case Follow => ToggleFollow(st)
  }

  /** The keys pressed in order. */
  function PressAll(st: LogViewerState, keys: seq<Key>): LogViewerState
    requires Valid(st)
    decreases |keys|
  {
    if |keys| == 0 then st else PressAll(Press(st, keys[0]), keys[1..])
  }

  /** Whatever keys are pressed, the offset still names a line and the
      lines do not change; the viewer follows only right after the follow
      key, and then shows the last line. */
  lemma {:induction false} PressAllValid(st: LogViewerState, keys: seq<Key>)
    requires Valid(st)
    ensures var r := PressAll(st, keys);
      && Valid(r) && r.lines == st.lines
      && (|keys| > 0 && r.followMode ==> keys[|keys| - 1] == Follow && r.scrollOffset == LastIndex(st.lines))
    decreases |keys|
  {
    if |keys| > 0 {
      var next := Press(st, keys[0]);
      PressAllValid(next, keys[1..]);
      if |keys| > 1 {
        assert keys[1..][|keys[1..]| - 1] == keys[|keys| - 1];
      }
    }
  }

  /** Down then up returns to the same line, unless already at the last. */
  lemma {:induction false} ScrollDownUp(st: LogViewerState)
    requires Valid(st) && st.scrollOffset < LastIndex(st.lines)
    ensures ScrollUp(ScrollDown(st)).scrollOffset == st.scrollOffset
  {
  }

  // ---------------------------------------------------------------------
  // What is shown

  /** `visible_lines`: the lines from the offset, at most the viewport's
      height of them. */
  function VisibleLines(st: LogViewerState, height: nat): (r: seq<string>)
    requires Valid(st)
    ensures |r| <= height
    ensures |st.lines| == 0 ==> r == []
    ensures |st.lines| > 0 ==> |r| == Min(height, |st.lines| - st.scrollOffset)
    ensures r == st.lines[st.scrollOffset..st.scrollOffset + |r|]
  {
    if |st.lines| == 0 then []
    else
      var start := st.scrollOffset;
      var end := Min(start + height, |st.lines|);
      st.lines[start..end]
  }

  /** `scroll_info`: "0/0" for an empty log, else the 1-based line number
      and the line count. */
  function ScrollInfo(st: LogViewerState): (r: string)
    ensures |st.lines| == 0 ==> r == "0/0"
  {
    if |st.lines| == 0 then "0/0"
    else NatToString(st.scrollOffset + 1) + "/" + NatToString(|st.lines|)
  }

  /** The position and count read back from a scroll indicator. */
  function ReadScrollInfo(s: string): Option<(nat, nat)> {
    var parts := Split(s, '/');
    if |parts| != 2 then None
    else
      match (ReadNumeral(parts[0]), ReadNumeral(parts[1]))
      case (Some(a), Some(b)) => if a <= b then Some((a, b)) else None
      case _ => None
  }

  /** The indicator of a valid view reads back as the 1-based line and the
      line count, and that line is never past the count. */
  lemma {:induction false} ScrollInfoReadsBack(st: LogViewerState)
    requires Valid(st) && |st.lines| > 0
    ensures ReadScrollInfo(ScrollInfo(st)) == Some((st.scrollOffset + 1, |st.lines|))
  {
    var a := NatToString(st.scrollOffset + 1);
    var b := NatToString(|st.lines|);
    var s := a + "/" + b;
    DigitsFree(a, '/');
    DigitsFree(b, '/');
    SplitTwo(a, b, '/');
    assert s == a + ['/'] + b;
  }
}

=== FILE: lsf_failure.dfy ===
/** Failure analysis for an LSF job from `bhist -l` output: the lines are
    scanned for the termination reason, the exit code, the memory used and
    allowed and the run time used and allowed; the reason decides the
    failure mode, which is then explained. */
module LsfFailure {
  import opened Wrappers
  import opened Text
  import opened Parsers
  import opened Suggestions

  datatype FailureMode =
    | OutOfMemory(usedMb: nat, limitMb: nat, suggestedMb: nat)
    | Timeout(elapsedSeconds: nat, limitSeconds: nat, suggestedSeconds: nat)
    | ExitCode(code: int, signal: Option<int>)
    | Killed(byUser: Option<string>)
    | HostFailure(host: Option<string>)
    | Unknown(termReason: string)

  datatype FailureAnalysis = FailureAnalysis(
    jobId: string,
    mode: FailureMode,
    explanation: string,
    suggestion: string,
    termReason: string,
    maxMemMb: Option<nat>,
    memLimitMb: Option<nat>,
    runTimeSeconds: Option<nat>,
    runLimitSeconds: Option<nat>)

  // ---------------------------------------------------------------------
  // Numbers after a prefix

  /** Drops the characters before the first digit. */
  function SkipNonDigits(s: string): (r: string)
    ensures |r| <= |s| && r == s[|s| - |r|..]
    ensures |r| > 0 ==> IsDigit(r[0])
    ensures forall i :: 0 <= i < |s| - |r| ==> !IsDigit(s[i])
    decreases |s|
  {
    if |s| == 0 || IsDigit(s[0]) then s else SkipNonDigits(s[1..])
  }

  /** The leading run of digits. */
  function TakeDigits(s: string): (r: string)
    ensures |r| <= |s| && r == s[..|r|]
    ensures forall i :: 0 <= i < |r| ==> IsDigit(r[i])
    ensures |r| < |s| ==> !IsDigit(s[|r|])
    decreases |s|
  {
    if |s| == 0 || !IsDigit(s[0]) then "" else [s[0]] + TakeDigits(s[1..])
  }

  /** The first run of digits in the text, as a u64. */
  function NumberAfter(s: string): (r: Option<nat>)
    ensures r.Some? ==> r.value <= U64_MAX
  {
    ParseU64(TakeDigits(SkipNonDigits(s)))
  }

  /** `extract_number`: the first run of digits after the first occurrence
      of the prefix; None without the prefix, without digits, or when they
      overflow a u64. */
  function ExtractNumber(s: string, prefix: string): (r: Option<nat>)
    ensures r.Some? ==> Contains(s, prefix) && r.value <= U64_MAX
  {
    match Find(s, prefix)
    case None => None
    case Some(i) => NumberAfter(s[i + |prefix|..])
  }

  lemma {:induction false} SkipNonDigitsGap(gap: string, t: string)
    requires forall i :: 0 <= i < |gap| ==> !IsDigit(gap[i])
    requires |t| > 0 && IsDigit(t[0])
    ensures SkipNonDigits(gap + t) == t
    decreases |gap|
  {
    if |gap| > 0 {
      assert (gap + t)[1..] == gap[1..] + t;
      SkipNonDigitsGap(gap[1..], t);
    } else {
      assert gap + t == t;
    }
  }

  lemma {:induction false} TakeDigitsOf(d: string, rest: string)
    requires forall i :: 0 <= i < |d| ==> IsDigit(d[i])
    requires |rest| > 0 ==> !IsDigit(rest[0])
    ensures TakeDigits(d + rest) == d
    decreases |d|
  {
    if |d| > 0 {
      assert (d + rest)[1..] == d[1..] + rest;
      TakeDigitsOf(d[1..], rest);
      assert [d[0]] + d[1..] == d;
    } else {
      assert d + rest == rest;
    }
  }

  /** A rendered number, after text without digits and before text that
      does not continue it, is read back. */
  lemma {:induction false} NumberAfterOf(gap: string, n: nat, rest: string)
    requires forall i :: 0 <= i < |gap| ==> !IsDigit(gap[i])
    requires |rest| > 0 ==> !IsDigit(rest[0])
    requires n <= U64_MAX
    ensures NumberAfter(gap + NatToString(n) + rest) == Some(n)
  {
    var d := NatToString(n);
    AllDigitsAt(d);
    assert gap + d + rest == gap + (d + rest);
    SkipNonDigitsGap(gap, d + rest);
    TakeDigitsOf(d, rest);
    ParseNatToString(n, U64_MAX);
  }

  const ExitedMarker: string := "Exited with exit code"

  /** The first "exit code" of an "Exited with exit code N..." line is the
      one in the marker. */
  lemma {:induction false} ExitedLineFind(tail: string)
    ensures Find(ExitedMarker + tail, "exit code") == Some(12)
  {
    var line := ExitedMarker + tail;
    assert line[12..21] == "exit code";
    forall j: nat | j < 12 ensures !OccursAt(line, "exit code", j) {
      assert line[j] == ExitedMarker[j];
      if j == 4 {
        assert line[5] == 'd';
        NotOccursAt(line, "exit code", j, 1);
      } else {
        NotOccursAt(line, "exit code", j, 0);
      }
    }
    FindIs(line, "exit code", 12);
  }

  /** bhist's "Exited with exit code N." yields N. */
  lemma {:induction false} ExtractExitedCode(n: nat, rest: string)
    requires n <= U64_MAX
    requires |rest| > 0 ==> !IsDigit(rest[0])
    ensures ExtractNumber(ExitedMarker + " " + NatToString(n) + rest, "exit code") == Some(n)
  {
    var tail := " " + NatToString(n) + rest;
    assert ExitedMarker + " " + NatToString(n) + rest == ExitedMarker + tail;
    ExitedLineFind(tail);
    assert (ExitedMarker + tail)[21..] == tail;
    NumberAfterOf(" ", n, rest);
  }

  /** `code as i32` on a u64: the low 32 bits read as two's complement. */
  function AsI32(n: nat): (r: int)
    ensures I32_MIN <= r <= I32_MAX
    ensures (n - r) % 0x1_0000_0000 == 0
    ensures n <= I32_MAX ==> r == n
  {
    var low := n % 0x1_0000_0000;
    if low <= I32_MAX then low else low - 0x1_0000_0000
  }

  // ---------------------------------------------------------------------
  // Memory and time on a line

  /** At most the first two of the tokens. */
  function TakeTwo(words: seq<string>): (r: seq<string>)
    ensures |r| == if |words| <= 2 then |words| else 2
    ensures r == words[..|r|]
  {
    if |words| <= 2 then words else words[..2]
  }

  /** `parse_lsf_memory_from_line`: the first two whitespace tokens after
      the first occurrence of the prefix, read in the LSF memory format. */
  function MemoryFromLine(line: string, prefix: string): (r: Option<nat>)
    ensures r.Some? ==> Contains(line, prefix) && r.value <= U64_MAX
  {
    match Find(line, prefix)
    case None => None
    case Some(i) => ParseMemoryMb(Join(TakeTwo(SplitWhitespace(Trim(line[i + |prefix|..]))), " "), Lsf)
  }

  lemma {:induction false} ParseDecimalDash()
    ensures ParseDecimal("-") == None
  {
    assert "-"[1..] == "";
    assert Split("", '.') == [""];
  }

  /** Cutting a text to its first two tokens does not change how the LSF
      format reads it: only the number and the unit count. */
  lemma {:induction false} TwoTokensSuffice(text: string)
    ensures ParseMemoryMb(Join(TakeTwo(SplitWhitespace(text)), " "), Lsf) == ParseLsfMemory(text)
  {
    var words := SplitWhitespace(text);
    var taken := TakeTwo(words);
    var joined := Join(taken, " ");
    if |words| > 0 {
      SplitWhitespaceTokens(text);
      SplitWhitespaceJoin(taken);
      if joined == "-" {
        SplitWhitespaceCons("-", "");
        assert "-" + "" == "-";
        assert taken == ["-"];
        ParseDecimalDash();
      } else {
        assert joined != "" by {
          assert SplitWhitespace("") == [];
        }
      }
    }
  }

  /** The prefix's value is the LSF reading of the trimmed text after it. */
  lemma {:induction false} MemoryFromLineTokens(line: string, prefix: string)
    requires Contains(line, prefix)
    ensures MemoryFromLine(line, prefix) == ParseLsfMemory(Trim(line[Find(line, prefix).value + |prefix|..]))
  {
    TwoTokensSuffice(Trim(line[Find(line, prefix).value + |prefix|..]));
  }

  /** A line that opens with the prefix, a space and then the amount. */
  lemma {:induction false} MemoryFromLineLeading(prefix: string, amount: string)
    requires |amount| > 0 && !IsWhitespace(amount[0]) && !IsWhitespace(amount[|amount| - 1])
    ensures MemoryFromLine(prefix + " " + amount, prefix) == ParseLsfMemory(amount)
  {
    var line := prefix + " " + amount;
    assert line[..|prefix|] == prefix;
    FindIs(line, prefix, 0);
    assert line[|prefix|..] == " " + amount;
    LeadingWsPrefix(" ", amount);
    TrimNoEdges(amount);
    MemoryFromLineTokens(line, prefix);
  }

  /** "<prefix> <n> MB" is n megabytes. */
  lemma {:induction false} MemoryFromLineMb(prefix: string, n: nat)
    requires n <= U64_MAX
    ensures MemoryFromLine(prefix + " " + NatToString(n) + " MB", prefix) == Some(n)
  {
    var amount := NatToString(n) + " MB";
    AllDigitsAt(NatToString(n));
    assert amount[0] == NatToString(n)[0];
    assert prefix + " " + NatToString(n) + " MB" == prefix + " " + amount;
    MemoryFromLineLeading(prefix, amount);
    LsfMb(n);
  }

  lemma {:induction false} RenderExample(n: nat)
    requires n == 8192
    ensures NatToString(n) == "8192"
  {
    assert NatToString(8) == "8";
    assert NatToString(81) == "81";
    assert NatToString(819) == "819";
  }

  /** The source's test vector "MEMLIMIT 8192 MB". */
  lemma {:induction false} MemoryFromLineLimitExample(a: string, p: string, d: string, n: nat)
    requires a == "MEMLIMIT 8192 MB" && p == "MEMLIMIT" && d == "8192" && n == 8192
    ensures MemoryFromLine(a, p) == Some(n)
  {
    RenderExample(n);
    assert a == p + " " + d + " MB";
    assert d == NatToString(n);
    MemoryFromLineMb(p, n);
  }

  /** A two-digit numeral's value. */
  lemma {:induction false} DigitsPair(t: string)
    requires |t| == 2 && IsDigit(t[0]) && IsDigit(t[1])
    ensures AllDigits(t) && DigitsValue(t) == DigitVal(t[0]) * 10 + DigitVal(t[1])
  {
    var h := t[..1];
    assert h[..0] == [] && h[0] == t[0] && t[..|t| - 1] == h;
    assert AllDigits(h) && DigitsValue(h) == DigitVal(t[0]);
  }

  /** "4.5" reads as 45 tenths. */
  lemma {:induction false} ParseDecimalFourPointFive(num: string, w: string, f: string)
    requires num == "4.5" && w == "4" && f == "5"
    ensures ParseDecimal(num) == Some(Decimal(45, 10))
  {
    assert num == w + "." + f;
    SplitTwo(w, f, '.');
    DigitsPair(w + f);
  }

  /** An amount followed by a gigabyte unit is scaled by 1024. */
  lemma {:induction false} LsfGigabytes(num: string, unit: string)
    requires |num| > 0 && NoWhitespace(num) && |unit| > 0 && NoWhitespace(unit)
    requires ParseDecimal(num).Some? && ToUpper(unit) == "GB"
    ensures var v := ParseDecimal(num).value;
      ParseLsfMemory(num + " " + unit) == Some(SaturatingU64(v.num * 1024, v.den))
  {
    JoinTwo(num, unit, " ");
    SplitWhitespaceJoin([num, unit]);
  }

  /** "4.5 GB" is 4608 MB. */
  lemma {:induction false} LsfFourPointFiveGb(amount: string, num: string, unit: string)
    requires amount == "4.5 GB" && num == "4.5" && unit == "GB"
    ensures ParseLsfMemory(amount) == Some(4608)
  {
    assert amount == num + " " + unit;
    ParseDecimalFourPointFive(num, "4", "5");
    assert ToUpper(unit) == "GB";
    assert NoWhitespace(num) && NoWhitespace(unit);
    LsfGigabytes(num, unit);
  }

  /** The source's test vector "MAX MEM: 4.5 GB". */
  lemma {:induction false} MemoryFromLineMaxExample(b: string, p: string, amount: string)
    requires b == "MAX MEM: 4.5 GB" && p == "MAX MEM:" && amount == "4.5 GB"
    ensures MemoryFromLine(b, p) == Some(4608)
  {
    assert b == p + " " + amount;
    MemoryFromLineLeading(p, amount);
    LsfFourPointFiveGb(amount, "4.5", "GB");
  }

  /** The first whitespace token with exactly two ':'. */
  function FirstClockWord(ws: seq<string>): (r: Option<string>)
    ensures r.Some? ==> CountChar(r.value, ':') == 2
    ensures r.None? <==> forall i :: 0 <= i < |ws| ==> CountChar(ws[i], ':') != 2
    decreases |ws|
  {
    if |ws| == 0 then None
    else if CountChar(ws[0], ':') == 2 then Some(ws[0])
    else FirstClockWord(ws[1..])
  }

  /** `parse_lsf_time_from_line`: the first "H:M:S"-shaped token decides,
      even when it does not parse; otherwise the number token just before
      the first "seconds". */
  function TimeFromLine(line: string): (r: Option<nat>)
    ensures r.Some? ==> r.value <= U64_MAX
  {
    match FirstClockWord(SplitWhitespace(line))
    case Some(w) => ParseDurationSecs(w)
    case None =>
      match Find(line, "seconds")
      case None => None
      case Some(i) =>
        match LastToken(Trim(line[..i]))
        case None => None
        case Some(t) => ParseU64(t)
  }

  lemma {:induction false} FirstClockWordSkip(ws: seq<string>, rest: seq<string>)
    requires forall i :: 0 <= i < |ws| ==> CountChar(ws[i], ':') != 2
    ensures FirstClockWord(ws + rest) == FirstClockWord(rest)
    decreases |ws|
  {
    if |ws| > 0 {
      assert (ws + rest)[1..] == ws[1..] + rest;
      FirstClockWordSkip(ws[1..], rest);
    } else {
      assert ws + rest == rest;
    }
  }

  /** Label words without two ':' each, then a clock word: the clock word
      decides. */
  lemma {:induction false} TimeFromLineClock(words: seq<string>, clock: string)
    requires forall i :: 0 <= i < |words| ==> |words[i]| > 0 && NoWhitespace(words[i]) && CountChar(words[i], ':') != 2
    requires |clock| > 0 && NoWhitespace(clock) && CountChar(clock, ':') == 2
    ensures TimeFromLine(Join(words + [clock], " ")) == ParseDurationSecs(clock)
  {
    var ws := words + [clock];
    SplitWhitespaceJoin(ws);
    FirstClockWordSkip(words, [clock]);
  }

  /** In "<digits> seconds" the word is found after the digits. */
  lemma {:induction false} SecondsFind(d: string)
    requires forall i :: 0 <= i < |d| ==> IsDigit(d[i])
    ensures Find(d + " seconds", "seconds") == Some(|d| + 1)
  {
    var line := d + " seconds";
    assert line[|d| + 1..] == "seconds";
    forall j: nat | j < |d| + 1 ensures !OccursAt(line, "seconds", j) {
      NotOccursAt(line, "seconds", j, 0);
    }
    FindIs(line, "seconds", |d| + 1);
  }

  /** "<digits> seconds" holds no clock word. */
  lemma {:induction false} SecondsNoClock(d: string)
    requires |d| > 0 && AllDigits(d)
    ensures FirstClockWord(SplitWhitespace(d + " seconds")).None?
  {
    var ws := SecondsWords(d);
    DigitsFree(d, ':');
    CountCharFree(d, ':');
    assert Free("seconds", ':');
    CountCharFree("seconds", ':');
    assert ws[1] == "seconds";
  }

  /** "<digits> seconds" is the two words. */
  lemma {:induction false} SecondsWords(d: string) returns (ws: seq<string>)
    requires |d| > 0 && AllDigits(d)
    ensures ws == [d, "seconds"] && SplitWhitespace(d + " seconds") == ws
  {
    AllDigitsAt(d);
    assert NoWhitespace(d);
    var w := "seconds";
    ws := [d, w];
    assert NoWhitespace(w);
    JoinTwo(d, w, " ");
    SplitWhitespaceJoin(ws);
    assert d + " " + w == d + " seconds";
  }

  /** The text before "seconds" trims back to the digits. */
  lemma {:induction false} SecondsLastToken(d: string)
    requires |d| > 0 && AllDigits(d)
    ensures LastToken(Trim(d + " ")) == Some(d)
  {
    AllDigitsAt(d);
    assert NoWhitespace(d);
    assert TrimStart(d + " ") == d + " ";
    TrailingWsSuffix(d, " ");
    SplitWhitespaceCons(d, "");
    assert d + "" == d;
  }

  /** "<digits> seconds" is the digits' value when that fits a u64. */
  lemma {:induction false} TimeFromLineDigits(d: string)
    requires |d| > 0 && AllDigits(d)
    ensures TimeFromLine(d + " seconds") == ParseU64(d)
  {
    var line := d + " seconds";
    SecondsNoClock(d);
    AllDigitsAt(d);
    SecondsFind(d);
    assert line[..|d| + 1] == d + " ";
    SecondsLastToken(d);
  }

  /** "<n> seconds" is n seconds. */
  lemma {:induction false} TimeFromLineSeconds(n: nat)
    requires n <= U64_MAX
    ensures TimeFromLine(NatToString(n) + " seconds") == Some(n)
  {
    TimeFromLineDigits(NatToString(n));
    ParseNatToString(n, U64_MAX);
  }

  /** An "H:M:S" word of numerals holds exactly two ':'. */
  lemma {:induction false} ClockWordColons(h: string, m: string, s: string)
    requires IsNumeral(h) && IsNumeral(m) && IsNumeral(s)
    ensures CountChar(h + ":" + m + ":" + s, ':') == 2
  {
    DigitsFree(h, ':');
    DigitsFree(m, ':');
    DigitsFree(s, ':');
    SplitThree(h, m, s, ':');
    SplitCount(h + ":" + m + ":" + s, ':');
  }

  /** The source's test vector "Run time: 01:30:00". */
  lemma {:induction false} TimeFromLineClockExample(a: string, w1: string, w2: string, clock: string)
    requires a == "Run time: 01:30:00" && w1 == "Run" && w2 == "time:" && clock == "01:30:00"
    ensures TimeFromLine(a) == Some(5400)
  {
    ClockExampleLine(a, w1, w2, clock);
    ClockExampleValue(clock, "01", "30", "00");
    TimeFromLineClock([w1, w2], clock);
  }

  /** "Run time: 01:30:00" is two label words and a clock word. */
  lemma {:induction false} ClockExampleLine(a: string, w1: string, w2: string, clock: string)
    requires a == "Run time: 01:30:00" && w1 == "Run" && w2 == "time:" && clock == "01:30:00"
    ensures a == Join([w1, w2] + [clock], " ")
    ensures |w1| > 0 && NoWhitespace(w1) && CountChar(w1, ':') != 2
    ensures |w2| > 0 && NoWhitespace(w2) && CountChar(w2, ':') != 2
  {
    assert a == w1 + " " + w2 + " " + clock;
    JoinThree(w1, w2, clock, " ");
    assert [w1, w2] + [clock] == [w1, w2, clock];
    assert Free(w1, ':');
    CountCharFree(w1, ':');
    assert w2 == "time" + [':'] + "" && Free("time", ':');
    SplitTwo("time", "", ':');
    SplitCount(w2, ':');
  }

  /** "01:30:00" is a clock word worth 5400 seconds. */
  lemma {:induction false} ClockExampleValue(clock: string, h: string, m: string, s: string)
    requires clock == "01:30:00" && h == "01" && m == "30" && s == "00"
    ensures |clock| > 0 && NoWhitespace(clock) && CountChar(clock, ':') == 2
    ensures ParseDurationSecs(clock) == Some(5400)
  {
    assert clock == h + ":" + m + ":" + s;
    DigitsPair(h);
    DigitsPair(m);
    DigitsPair(s);
    ClockWordColons(h, m, s);
    ParseDurationHms(h, m, s);
  }

  /** 1800 renders as "1800". */
  lemma {:induction false} RenderSecondsExample(n: nat)
    requires n == 1800
    ensures NatToString(n) == "1800"
  {
    assert NatToString(1) == "1";
    assert NatToString(18) == "18";
    assert NatToString(180) == "180";
  }

  /** The source's test vector "1800 seconds". */
  lemma {:induction false} TimeFromLineSecondsExample(b: string, n: nat)
    requires b == "1800 seconds" && n == 1800
    ensures TimeFromLine(b) == Some(n)
  {
    RenderSecondsExample(n);
    assert b == NatToString(n) + " seconds";
    TimeFromLineSeconds(n);
  }

  // ---------------------------------------------------------------------
  // Scanning the bhist output

  /** What the scan has gathered so far. */
  datatype Scan = Scan(
    termReason: string,
    maxMemMb: Option<nat>,
    memLimitMb: Option<nat>,
    runTimeSeconds: Option<nat>,
    runLimitSeconds: Option<nat>,
    exitCode: Option<int>)

  const Start: Scan := Scan("", None, None, None, None, None)

  /** Every amount fits the source's field: an `i32` exit code and `u64`
      megabytes and seconds. */
  predicate Bounded(sc: Scan) {
    && (sc.exitCode.Some? ==> I32_MIN <= sc.exitCode.value <= I32_MAX)
    && (sc.maxMemMb.Some? ==> sc.maxMemMb.value <= U64_MAX)
    && (sc.memLimitMb.Some? ==> sc.memLimitMb.value <= U64_MAX)
    && (sc.runTimeSeconds.Some? ==> sc.runTimeSeconds.value <= U64_MAX)
    && (sc.runLimitSeconds.Some? ==> sc.runLimitSeconds.value <= U64_MAX)
  }

  /** The memory limit of a line: after "MEMLIMIT", else after "MEM LIMIT:". */
  function MemLimitOf(line: string): (r: Option<nat>)
    ensures r.Some? ==> r.value <= U64_MAX
    ensures MemoryFromLine(line, "MEMLIMIT").Some? ==> r == MemoryFromLine(line, "MEMLIMIT")
  {
    MemoryFromLine(line, "MEMLIMIT").Or(MemoryFromLine(line, "MEM LIMIT:"))
  }

  /** A (trimmed) line that states why the job ended. */
  predicate IsReasonLine(line: string) {
    Contains(line, ExitedMarker) || Contains(line, "TERM_")
  }

  predicate IsMaxMemLine(line: string) {
    Contains(line, "MAX MEM:")
  }

  predicate IsRunLimitLine(line: string) {
    Contains(line, "RUNLIMIT") || Contains(line, "RUN LIMIT:")
  }

  /** One line, trimmed: a reason line replaces the reason (and, when it is
      an "Exited" line with a number, the exit code); memory and time lines
      replace their value, even with None when it does not parse. */
  function Step(sc: Scan, raw: string): (r: Scan)
    ensures var line := Trim(raw);
      && (IsReasonLine(line) ==> r.termReason == line)
      && (!IsReasonLine(line) ==> r.termReason == sc.termReason)
      && (!Contains(line, ExitedMarker) ==> r.exitCode == sc.exitCode)
      && (IsMaxMemLine(line) ==> r.maxMemMb == MemoryFromLine(line, "MAX MEM:"))
      && (!IsMaxMemLine(line) ==> r.maxMemMb == sc.maxMemMb)
      && (IsRunLimitLine(line) ==> r.runLimitSeconds == TimeFromLine(line))
      && (!IsRunLimitLine(line) ==> r.runLimitSeconds == sc.runLimitSeconds)
  {
    var line := Trim(raw);
    var reason := if IsReasonLine(line) then line else sc.termReason;
    var code :=
      if Contains(line, ExitedMarker) then
        match ExtractNumber(line, "exit code")
        case Some(c) => Some(AsI32(c))
        case None => sc.exitCode
      else sc.exitCode;
    var maxMem := if IsMaxMemLine(line) then MemoryFromLine(line, "MAX MEM:") else sc.maxMemMb;
    var memLimit :=
      if Contains(line, "MEMLIMIT") || Contains(line, "MEM LIMIT:") then MemLimitOf(line) else sc.memLimitMb;
    var runTime :=
      if Contains(line, "Run time:") || Contains(line, "RUN_TIME:") then TimeFromLine(line) else sc.runTimeSeconds;
    var runLimit := if IsRunLimitLine(line) then TimeFromLine(line) else sc.runLimitSeconds;
    Scan(reason, maxMem, memLimit, runTime, runLimit, code)
  }

  /** The scan of the lines in order. */
  function ScanLines(lines: seq<string>): (r: Scan)
    ensures Bounded(r)
    decreases |lines|
  {
    if |lines| == 0 then Start
    else Step(ScanLines(lines[..|lines| - 1]), lines[|lines| - 1])
  }

  /** The last line that, trimmed, satisfies `wanted`, trimmed. */
  function LastTrimmed(lines: seq<string>, wanted: string -> bool): (r: Option<string>)
    ensures r.Some? ==> wanted(r.value)
    decreases |lines|
  {
    if |lines| == 0 then None
    else if wanted(Trim(lines[|lines| - 1])) then Some(Trim(lines[|lines| - 1]))
    else LastTrimmed(lines[..|lines| - 1], wanted)
  }

  /** The reason is the last line that mentions "Exited with exit code" or
      "TERM_", or empty when none does. */
  lemma {:induction false} ScanTermReason(lines: seq<string>)
    ensures ScanLines(lines).termReason == LastTrimmed(lines, IsReasonLine).GetOr("")
    decreases |lines|
  {
    if |lines| > 0 {
      ScanTermReason(lines[..|lines| - 1]);
    }
  }

  /** The peak memory is read from the last "MAX MEM:" line. */
  lemma {:induction false} ScanMaxMem(lines: seq<string>)
    ensures ScanLines(lines).maxMemMb
         == match LastTrimmed(lines, IsMaxMemLine) case None => None case Some(l) => MemoryFromLine(l, "MAX MEM:")
    decreases |lines|
  {
    if |lines| > 0 {
      ScanMaxMem(lines[..|lines| - 1]);
    }
  }

  /** The run limit is read from the last "RUNLIMIT" or "RUN LIMIT:" line. */
  lemma {:induction false} ScanRunLimit(lines: seq<string>)
    ensures ScanLines(lines).runLimitSeconds
         == match LastTrimmed(lines, IsRunLimitLine) case None => None case Some(l) => TimeFromLine(l)
    decreases |lines|
  {
    if |lines| > 0 {
      ScanRunLimit(lines[..|lines| - 1]);
    }
  }

  /** Without any "Exited with exit code" line there is no exit code. */
  lemma {:induction false} ScanNoExitCode(lines: seq<string>)
    requires forall i :: 0 <= i < |lines| ==> !Contains(Trim(lines[i]), ExitedMarker)
    ensures ScanLines(lines).exitCode.None?
    decreases |lines|
  {
    if |lines| > 0 {
      ScanNoExitCode(lines[..|lines| - 1]);
    }
  }

  // ---------------------------------------------------------------------
  // Classification

  function OomMode(sc: Scan): FailureMode {
    var used := sc.maxMemMb.GetOr(0);
    var limit := sc.memLimitMb.GetOr(0);
    OutOfMemory(used, limit, OomSuggestion(used, limit))
  }

  /** The failure mode, by the first of these the reason mentions:
      TERM_MEMLIMIT, TERM_RUNLIMIT, TERM_OWNER or TERM_ADMIN, TERM_HOST or
      TERM_LOAD; then by the exit code (137 is memory); then unknown. */
  function Classify(sc: Scan): (m: FailureMode)
    ensures var tr := sc.termReason;
      var mem := Contains(tr, "TERM_MEMLIMIT");
      var run := !mem && Contains(tr, "TERM_RUNLIMIT");
      var killed := !mem && !run && (Contains(tr, "TERM_OWNER") || Contains(tr, "TERM_ADMIN"));
      var host := !mem && !run && !killed && (Contains(tr, "TERM_HOST") || Contains(tr, "TERM_LOAD"));
      var rest := !mem && !run && !killed && !host;
      && (m.OutOfMemory? <==> mem || (rest && sc.exitCode == Some(137)))
      && (m.Timeout? <==> run)
      && (m.Killed? <==> killed)
      && (m.HostFailure? <==> host)
      && (m.ExitCode? <==> rest && sc.exitCode.Some? && sc.exitCode.value != 137)
      && (m.Unknown? <==> rest && sc.exitCode.None?)
    ensures m.OutOfMemory? ==>
      m.usedMb == sc.maxMemMb.GetOr(0) && m.limitMb == sc.memLimitMb.GetOr(0)
      && m.suggestedMb == OomSuggestion(m.usedMb, m.limitMb)
    ensures m.Timeout? ==>
      m.elapsedSeconds == sc.runTimeSeconds.GetOr(0) && m.limitSeconds == sc.runLimitSeconds.GetOr(0)
      && m.suggestedSeconds == TimeoutSuggestion(m.elapsedSeconds, m.limitSeconds)
    ensures m.ExitCode? ==> m.code == sc.exitCode.value && m.signal.None?
    ensures m.Killed? ==> m.byUser.None?
    ensures m.HostFailure? ==> m.host.None?
    ensures m.Unknown? ==> m.termReason == if sc.termReason == "" then "Unknown failure" else sc.termReason
  {
    var tr := sc.termReason;
    if Contains(tr, "TERM_MEMLIMIT") then OomMode(sc)
    else if Contains(tr, "TERM_RUNLIMIT") then
      var elapsed := sc.runTimeSeconds.GetOr(0);
      var limit := sc.runLimitSeconds.GetOr(0);
      Timeout(elapsed, limit, TimeoutSuggestion(elapsed, limit))
    else if Contains(tr, "TERM_OWNER") || Contains(tr, "TERM_ADMIN") then Killed(None)
    else if Contains(tr, "TERM_HOST") || Contains(tr, "TERM_LOAD") then HostFailure(None)
    else
      match sc.exitCode
      case Some(code) => if code == 137 then OomMode(sc) else ExitCode(code, None)
      case None => Unknown(if tr == "" then "Unknown failure" else tr)
  }

  /** The memory suggestion leaves a gigabyte over the limit and covers half
      as much again as was used, while the arithmetic stays within u64. */
  lemma {:induction false} ClassifyOomBound(sc: Scan)
    requires Classify(sc).OutOfMemory?
    requires 3 * sc.maxMemMb.GetOr(0) <= U64_MAX && sc.memLimitMb.GetOr(0) + 1024 <= U64_MAX
    ensures Classify(sc).suggestedMb >= Classify(sc).limitMb + 1024
    ensures 2 * Classify(sc).suggestedMb >= 3 * Classify(sc).usedMb
  {
    OomSuggestionBounds(sc.maxMemMb.GetOr(0), sc.memLimitMb.GetOr(0));
  }

  /** The time suggestion leaves an hour over the limit while the
      arithmetic stays within u64. */
  lemma {:induction false} ClassifyTimeoutBound(sc: Scan)
    requires Classify(sc).Timeout?
    requires 3 * sc.runTimeSeconds.GetOr(0) <= U64_MAX && sc.runLimitSeconds.GetOr(0) + 3600 <= U64_MAX
    ensures Classify(sc).suggestedSeconds >= Classify(sc).limitSeconds + 3600
    ensures 2 * Classify(sc).suggestedSeconds + 1 >= 3 * Classify(sc).elapsedSeconds
  {
    TimeoutSuggestionBounds(sc.runTimeSeconds.GetOr(0), sc.runLimitSeconds.GetOr(0));
  }

  // ---------------------------------------------------------------------
  // Messages

  function CodeExplanation(code: int, signal: Option<int>): (r: string)
    ensures OpensWithJob(r)
  {
    match signal
    case Some(sig) => JobSays("exited with code " + IntToString(code) + " and signal " + IntToString(sig))
    case None =>
      if code == 1 then JobSays("failed with exit code 1 (general error)")
      else if code == 137 then JobSays("killed (likely OOM). Exit code 137 = 128 + 9 (SIGKILL)")
      else JobSays("failed with exit code " + IntToString(code))
  }

  /** Memory: usage against the limit, and the Snakefile line that asks for
      the suggested amount. */
  function OomMessages(used: nat, limit: nat, suggested: nat, rend: Renderers): (r: (string, string))
    ensures ExplanationFirst(r)
    ensures EndsWith(r.1, "resources: mem_mb=" + NatToString(suggested))
  {
    var tail := "resources: mem_mb=" + NatToString(suggested);
    var s := "Increase memory to at least " + rend.gb(suggested) + " GB. In your Snakefile, add:\n  " + tail;
    assert s[|s| - |tail|..] == tail;
    ("Job exceeded memory limit. Used " + rend.gb(used) + " GB but limit was " + rend.gb(limit) + " GB.", s)
  }

  /** Time: run time against the limit, and the Snakefile line that asks for
      the suggested time in LSF's syntax. */
  function TimeoutMessages(elapsed: nat, limit: nat, suggested: nat, rend: Renderers): (r: (string, string))
    ensures ExplanationFirst(r)
    ensures EndsWith(r.1, "resources: runtime=\"" + rend.schedulerDuration(suggested) + "\"")
  {
    var tail := "resources: runtime=\"" + rend.schedulerDuration(suggested) + "\"";
    var s := "Increase time limit to at least " + rend.duration(suggested) + ". In your Snakefile, add:\n  " + tail;
    assert s[|s| - |tail|..] == tail;
    ("Job exceeded time limit. Ran for " + rend.duration(elapsed) + " but limit was " + rend.duration(limit) + ".", s)
  }

  function KilledExplanation(byUser: Option<string>): (r: string)
    ensures OpensWithJob(r)
  {
    match byUser
    case Some(u) => JobSays("was killed by " + u)
    case None => JobSays("was killed")
  }

  function HostExplanation(host: Option<string>): (r: string)
    ensures OpensWithJob(r)
  {
    match host
    case Some(h) => JobSays("failed due to host " + h + " failure")
    case None => JobSays("failed due to host failure")
  }

  /** The explanation and suggestion for each mode, each in its own place. */
  function Messages(m: FailureMode, rend: Renderers): (r: (string, string))
    ensures ExplanationFirst(r)
    ensures m.OutOfMemory? ==> EndsWith(r.1, "resources: mem_mb=" + NatToString(m.suggestedMb))
    ensures m.Timeout? ==> EndsWith(r.1, "resources: runtime=\"" + rend.schedulerDuration(m.suggestedSeconds) + "\"")
    ensures m.ExitCode? ==> (r.1 == OomAdvice <==> m.code == 137)
    ensures m.Killed? ==> r.1 == IntentionalAdvice
    ensures m.HostFailure? ==> r.1 == RerunAdvice
    ensures m.Unknown? ==> r.0 == "Job failed: " + m.termReason
  {
    match m
    case OutOfMemory(used, limit, suggested) => OomMessages(used, limit, suggested, rend)
    case Timeout(elapsed, limit, suggested) => TimeoutMessages(elapsed, limit, suggested, rend)
    case ExitCode(code, signal) => (CodeExplanation(code, signal), ExitCodeAdvice(code))
    case Killed(byUser) => (KilledExplanation(byUser), IntentionalAdvice)
    case HostFailure(host) => (HostExplanation(host), RerunAdvice)
    case Unknown(reason) => ("Job failed: " + reason, "Check LSF logs for details.")
  }

  /** The messages as the source returns them: for a killed job and a host
      failure the advice comes first, so it lands in the explanation. */
  function MessagesAsWritten(m: FailureMode, rend: Renderers): (r: (string, string))
    ensures m.Killed? ==> r.0 == IntentionalAdvice
    ensures m.HostFailure? ==> r.0 == RerunAdvice
  {
    match m
    case Killed(byUser) => (IntentionalAdvice, KilledExplanation(byUser))
    case HostFailure(host) => (RerunAdvice, HostExplanation(host))
    case _ => Messages(m, rend)
  }

  /** The two differ exactly by the swap, and exactly for those two modes. */
  lemma {:induction false} MessagesAsWrittenSwapped(m: FailureMode, rend: Renderers)
    ensures MessagesAsWritten(m, rend)
         == if m.Killed? || m.HostFailure? then Swap(Messages(m, rend)) else Messages(m, rend)
    ensures ExplanationFirst(MessagesAsWritten(m, rend)) <==> !(m.Killed? || m.HostFailure?)
  {
    var r := Messages(m, rend);
    assert ExplanationFirst(r);
  }

  // ---------------------------------------------------------------------
  // The whole output

  /** The amounts an out-of-memory or timeout mode carries are the
      analysis's measured fields, zero where nothing was measured. */
  predicate Measured(a: FailureAnalysis) {
    && (a.mode.OutOfMemory? ==> a.mode.usedMb == a.maxMemMb.GetOr(0) && a.mode.limitMb == a.memLimitMb.GetOr(0))
    && (a.mode.Timeout? ==>
          a.mode.elapsedSeconds == a.runTimeSeconds.GetOr(0) && a.mode.limitSeconds == a.runLimitSeconds.GetOr(0))
  }

  /** `parse_bhist_output`: scan the lines, classify, explain. It never
      fails, so the result is the analysis itself. */
  function ParseBhistOutput(jobId: string, output: string, rend: Renderers): (r: FailureAnalysis)
    ensures r.jobId == jobId && Measured(r)
    ensures r.termReason == LastTrimmed(Lines(output), IsReasonLine).GetOr("")
    ensures r.maxMemMb == match LastTrimmed(Lines(output), IsMaxMemLine)
                         case None => None case Some(l) => MemoryFromLine(l, "MAX MEM:")
    ensures ExplanationFirst((r.explanation, r.suggestion))
    ensures (r.explanation, r.suggestion) == Messages(r.mode, rend)
    ensures r.mode.Unknown? ==> r.mode.termReason == if r.termReason == "" then "Unknown failure" else r.termReason
  {
    var lines := Lines(output);
    var sc := ScanLines(lines);
    ScanTermReason(lines);
    ScanMaxMem(lines);
    var mode := Classify(sc);
    var (explanation, suggestion) := Messages(mode, rend);
    FailureAnalysis(jobId, mode, explanation, suggestion, sc.termReason,
                    sc.maxMemMb, sc.memLimitMb, sc.runTimeSeconds, sc.runLimitSeconds)
  }

  /** `parse_bhist_output` as the source returns it: the same analysis,
      with the messages built by the as-written `explain`. */
  function ParseBhistOutputAsWritten(jobId: string, output: string, rend: Renderers): (r: FailureAnalysis)
    ensures (r.explanation, r.suggestion) == MessagesAsWritten(r.mode, rend)
    ensures r.jobId == jobId && Measured(r)
  {
    var a := ParseBhistOutput(jobId, output, rend);
    var (explanation, suggestion) := MessagesAsWritten(a.mode, rend);
    a.(explanation := explanation, suggestion := suggestion)
  }

  /** As written, the analysis differs from the corrected one only in its
      two messages, which are swapped exactly for a killed job and a host
      failure. */
  lemma {:induction false} ParseBhistOutputAsWrittenSwapped(jobId: string, output: string, rend: Renderers)
    ensures var w := ParseBhistOutputAsWritten(jobId, output, rend);
      var c := ParseBhistOutput(jobId, output, rend);
      && w.(explanation := c.explanation, suggestion := c.suggestion) == c
      && (c.mode.Killed? || c.mode.HostFailure? ==> w.explanation == c.suggestion && w.suggestion == c.explanation)
      && (!(c.mode.Killed? || c.mode.HostFailure?) ==> w == c)
  {
    MessagesAsWrittenSwapped(ParseBhistOutput(jobId, output, rend).mode, rend);
  }

  /** Empty output has no reason and is an unknown failure. */
  lemma {:induction false} ParseBhistOutputEmpty(jobId: string, rend: Renderers)
    ensures ParseBhistOutput(jobId, "", rend).mode == Unknown("Unknown failure")
  {
    LinesShape("");
    assert ScanLines([]) == Start;
  }
}

=== FILE: lsf_types.dfy ===
/** The job records the LSF side produces from bjobs and bhist output. */
module LsfTypes {
  import opened Wrappers
  import opened Parsers

  /** A job's state as LSF reports it: PEND, RUN, DONE, EXIT, PSUSP, USUSP,
      SSUSP, ZOMBI, or something else. */
  datatype LsfJobState =
    | Pending
    | Running
    | Done(exitCode: int, runtime: nat)
    | Exit(exitCode: int, error: string)
    | UserSuspendedPending
    | UserSuspended
    | SystemSuspended
    | Zombie
    | Unknown(name: string)

  /** One LSF job, parsed from a bjobs line or a bhist block. */
  datatype LsfJob = LsfJob(
    jobId: string,
    name: string,
    state: LsfJobState,
    queue: Option<string>,
    submitTime: Option<Timestamp>,
    startTime: Option<Timestamp>,
    endTime: Option<Timestamp>,
    execHost: Option<string>,
    nprocs: Option<nat>,
    memLimitMb: Option<nat>,
    memUsedMb: Option<nat>,
    runLimit: Option<nat>,
    description: Option<string>)
}

=== FILE: main_log.dfy ===
/** The main Snakemake log (the `.snakemake.log` file under `.snakemake/log`), read line by
    line: the host, the core count, the job-stats table, progress lines,
    completion lines and error lines. */
module MainLog {
  import opened Wrappers
  import opened Text

  /** What the log says about the pipeline as a whole. `targetRules` (rules
      without outputs, such as "all") is consumed by the state update but
      never filled in by this parser, so a parsed log always leaves it
      empty. */
  datatype LogInfo = LogInfo(
    totalJobs: Option<nat>,
    completedJobs: nat,
    jobsByRule: map<string, nat>,
    cores: Option<nat>,
    host: Option<string>,
    finished: bool,
    hasErrors: bool,
    errors: seq<string>,
    targetRules: seq<string>)

  const EmptyInfo: LogInfo := LogInfo(None, 0, map[], None, None, false, false, [], [])

  const HostPrefix: string := "host:"
  const CoresPrefix: string := "Provided cores:"
  const StatsHeader: string := "Job stats:"
  const FinalProgress: string := "steps (100%) done"
  const NothingToDo: string := "Nothing to be done"
  const JobFailedLine: string := "Exiting because a job execution failed"
  /** The line after the job-stats table that closes it. */
  const SelectJobs: string := "Select jobs"
  /** Error lines this long or longer are counted but not kept. */
  const MaxErrorLen: nat := 200

  /** The parser's state between lines: what has been read so far, and
      whether the job-stats table is open. */
  datatype Scan = Scan(info: LogInfo, inJobStats: bool)

  predicate IsProgressLine(t: string) {
    Contains(t, " of ") && Contains(t, " steps") && Contains(t, "done")
  }

  predicate IsCompletionLine(t: string) {
    Contains(t, FinalProgress) || Contains(t, NothingToDo)
  }

  predicate IsErrorLine(t: string) {
    StartsWith(t, "Error") || Contains(t, "error:") || Contains(t, "Exception")
  }

  /** A row of the job-stats table, "rule   count": the total row sets the
      job total, any other row the count of its rule; a row whose last word
      is not a count, or that has one word only, changes nothing. */
  function StatsRow(info: LogInfo, t: string): (r: LogInfo)
    ensures r.(totalJobs := info.totalJobs, jobsByRule := info.jobsByRule) == info
    ensures r.jobsByRule.Keys <= info.jobsByRule.Keys + set w | w in SplitWhitespace(t)
  {
    var parts := SplitWhitespace(t);
    if |parts| < 2 then info
    else
      match ParseU64(parts[|parts| - 1])
      case None => info
      case Some(n) =>
        if parts[0] == "total" then info.(totalJobs := Some(n))
        else info.(jobsByRule := info.jobsByRule[parts[0] := n])
  }

  /** The completed count of a progress line: the last word before the
      first " of ", when it is a number. */
  function ProgressCount(t: string): (r: Option<nat>)
    ensures r.Some? ==> Contains(t, " of ")
  {
    match Find(t, " of ")
    case None => None
    case Some(i) =>
      match LastToken(t[..i])
      case None => None
      case Some(w) => ParseU64(w)
  }

  /** The error branches: an error line is counted, and kept when shorter
      than `MaxErrorLen` UTF-8 bytes; the job-failure line is always kept
      (a line that is both is kept twice). */
  function RecordErrors(info: LogInfo, t: string): (r: LogInfo)
    ensures r.(hasErrors := info.hasErrors, errors := info.errors) == info
    ensures info.errors <= r.errors
    ensures r.hasErrors <==> info.hasErrors || IsErrorLine(t) || Contains(t, JobFailedLine)
    ensures forall i :: |info.errors| <= i < |r.errors| ==> r.errors[i] == t
    ensures |r.errors| > |info.errors| ==> (IsErrorLine(t) && ByteLen(t) < MaxErrorLen) || Contains(t, JobFailedLine)
  {
    var info1 :=
      if IsErrorLine(t) then
        info.(hasErrors := true, errors := if ByteLen(t) < MaxErrorLen then info.errors + [t] else info.errors)
      else info;
    if Contains(t, JobFailedLine) then info1.(hasErrors := true, errors := info1.errors + [t]) else info1
  }

  /** One line of `parse_log_content`. The branches are tried in order and
      the first that applies consumes the line. With `finalSetsFinished`
      false this is the code as written, where a progress line
      "N of N steps (100%) done" is consumed by the progress branch before
      the completion check can see it; with it true, that line also marks
      the pipeline finished, as the completion check evidently intends. */
  function StepWith(sc: Scan, line: string, finalSetsFinished: bool): (r: Scan)
    ensures r.info.targetRules == sc.info.targetRules
    ensures r.info.errors == sc.info.errors || r.info == RecordErrors(sc.info, Trim(line))
    ensures sc.info.hasErrors ==> r.info.hasErrors
    ensures r.inJobStats <==>
      (Trim(line) == StatsHeader || (sc.inJobStats && |Trim(line)| > 0 && !StartsWith(Trim(line), SelectJobs)))
    ensures r.info.totalJobs != sc.info.totalJobs || r.info.jobsByRule != sc.info.jobsByRule ==>
      sc.inJobStats && r.inJobStats
    ensures sc.inJobStats && (StartsWith(Trim(line), "job") || StartsWith(Trim(line), "---")) ==> r == sc
    ensures r.info.host != sc.info.host ==> StartsWith(Trim(line), HostPrefix)
    ensures r.info.cores != sc.info.cores ==> StartsWith(Trim(line), CoresPrefix)
  {
    var t := Trim(line);
    var info := sc.info;
    StartsWithHead(t, HostPrefix);
    StartsWithHead(t, CoresPrefix);
    StartsWithHead(t, SelectJobs);
    StartsWithHead(t, "job");
    StartsWithHead(t, "---");
    if StartsWith(t, HostPrefix) then
      Scan(info.(host := Some(Trim(TrimStartMatches(t, HostPrefix)))), sc.inJobStats)
    else if StartsWith(t, CoresPrefix) then
      Scan(info.(cores := ParseU64(Trim(t[|CoresPrefix|..]))), sc.inJobStats)
    else if t == StatsHeader then
      Scan(info, true)
    else if sc.inJobStats then
      if |t| == 0 || StartsWith(t, SelectJobs) then Scan(info, false)
      else if StartsWith(t, "job") || StartsWith(t, "---") then sc
      else Scan(StatsRow(info, t), true)
    else if IsProgressLine(t) then
      var counted := match ProgressCount(t)
        case Some(c) => info.(completedJobs := c)
        case None => info;
      Scan(if finalSetsFinished && Contains(t, FinalProgress) then counted.(finished := true) else counted, false)
    else if IsCompletionLine(t) then
      Scan(info.(finished := true), false)
    else
      Scan(RecordErrors(info, t), false)
  }

  /** Errors only accumulate: once seen, the flag stays and every kept
      line stays, in order. */
  function ScanLines(sc: Scan, lines: seq<string>, finalSetsFinished: bool): (r: Scan)
    ensures sc.info.errors <= r.info.errors
    ensures sc.info.hasErrors ==> r.info.hasErrors
    decreases |lines|
  {
    if |lines| == 0 then sc else ScanLines(StepWith(sc, lines[0], finalSetsFinished), lines[1..], finalSetsFinished)
  }

  /** `parse_log_content` as written. */
  function ParseLogContentAsWritten(content: string): (r: LogInfo)
    ensures r.targetRules == []
  {
    ScanLinesTargets(Scan(EmptyInfo, false), Lines(content), false);
    ScanLines(Scan(EmptyInfo, false), Lines(content), false).info
  }

  /** `parse_log_content` with the final progress line marking the pipeline
      finished. It reads everything else exactly as the code as written
      does, and is finished whenever that is. */
  function ParseLogContent(content: string): (r: LogInfo)
    ensures r.targetRules == []
    ensures r.(finished := false) == ParseLogContentAsWritten(content).(finished := false)
    ensures ParseLogContentAsWritten(content).finished ==> r.finished
  {
    ScanLinesTargets(Scan(EmptyInfo, false), Lines(content), true);
    ScanLinesFinishedAtLeast(Scan(EmptyInfo, false), Scan(EmptyInfo, false), Lines(content));
    ScanLines(Scan(EmptyInfo, false), Lines(content), true).info
  }

  /** `b` agrees with `a` on everything but `finished`, and is finished
      whenever `a` is. */
  predicate FinishedAtLeast(a: Scan, b: Scan) {
    a.inJobStats == b.inJobStats && a.info.(finished := false) == b.info.(finished := false)
    && (a.info.finished ==> b.info.finished)
  }

  /** The only difference the final-progress fix makes to one line is that
      it may set `finished`. */
  lemma {:induction false} StepFinishedAtLeast(a: Scan, b: Scan, line: string)
    requires FinishedAtLeast(a, b)
    ensures FinishedAtLeast(StepWith(a, line, false), StepWith(b, line, true))
  {
    var t := Trim(line);
    var f := a.info.finished;
    assert a.info == b.info.(finished := f);
    if StartsWith(t, HostPrefix) || StartsWith(t, CoresPrefix) || t == StatsHeader {
    } else if a.inJobStats {
      StatsRowFinished(b.info, t, f);
    } else if IsProgressLine(t) {
      ProgressFinishedAtLeast(a, b, line);
    } else if IsCompletionLine(t) {
    } else {
      RecordErrorsFinished(b.info, t, f);
    }
  }

  lemma {:induction false} ProgressFinishedAtLeast(a: Scan, b: Scan, line: string)
    requires FinishedAtLeast(a, b) && !a.inJobStats
    requires var t := Trim(line);
      !StartsWith(t, HostPrefix) && !StartsWith(t, CoresPrefix) && t != StatsHeader && IsProgressLine(t)
    ensures FinishedAtLeast(StepWith(a, line, false), StepWith(b, line, true))
  {
  }

  lemma {:induction false} StatsRowFinished(info: LogInfo, t: string, f: bool)
    ensures StatsRow(info.(finished := f), t) == StatsRow(info, t).(finished := f)
  {
  }

  lemma {:induction false} RecordErrorsFinished(info: LogInfo, t: string, f: bool)
    ensures RecordErrors(info.(finished := f), t) == RecordErrors(info, t).(finished := f)
  {
  }

  lemma {:induction false} ScanLinesFinishedAtLeast(a: Scan, b: Scan, lines: seq<string>)
    requires FinishedAtLeast(a, b)
    ensures FinishedAtLeast(ScanLines(a, lines, false), ScanLines(b, lines, true))
    decreases |lines|
  {
    if |lines| > 0 {
      StepFinishedAtLeast(a, b, lines[0]);
      ScanLinesFinishedAtLeast(StepWith(a, lines[0], false), StepWith(b, lines[0], true), lines[1..]);
    }
  }

  lemma {:induction false} ScanLinesTargets(sc: Scan, lines: seq<string>, fix: bool)
    ensures ScanLines(sc, lines, fix).info.targetRules == sc.info.targetRules
    decreases |lines|
  {
    if |lines| > 0 {
      ScanLinesTargets(StepWith(sc, lines[0], fix), lines[1..], fix);
    }
  }

  /** Empty content gives the default information. */
  lemma {:induction false} ParseLogContentEmpty()
    ensures ParseLogContent("") == EmptyInfo
    ensures ParseLogContentAsWritten("") == EmptyInfo
  {
    LinesShape("");
  }

  /** What may sit in the error list: a trimmed line that is an error line
      shorter than `MaxErrorLen` bytes, or one that reports the job failure. */
  predicate Recorded(e: string) {
    Trim(e) == e && ((IsErrorLine(e) && ByteLen(e) < MaxErrorLen) || Contains(e, JobFailedLine))
  }

  predicate ErrorsWellFormed(info: LogInfo) {
    (|info.errors| > 0 ==> info.hasErrors) && forall i :: 0 <= i < |info.errors| ==> Recorded(info.errors[i])
  }

  lemma {:induction false} StepErrors(sc: Scan, line: string, fix: bool)
    requires ErrorsWellFormed(sc.info)
    ensures ErrorsWellFormed(StepWith(sc, line, fix).info)
  {
    TrimIdempotent(line);
  }

  /** Errors are only ever appended, every kept error is a recorded line,
      and any kept error raises the error flag. */
  lemma {:induction false} ScanLinesErrors(sc: Scan, lines: seq<string>, fix: bool)
    requires ErrorsWellFormed(sc.info)
    ensures ErrorsWellFormed(ScanLines(sc, lines, fix).info)
    ensures sc.info.errors <= ScanLines(sc, lines, fix).info.errors
    decreases |lines|
  {
    if |lines| > 0 {
      StepErrors(sc, lines[0], fix);
      ScanLinesErrors(StepWith(sc, lines[0], fix), lines[1..], fix);
    }
  }

  /** The whole log: every kept error is a recorded line. */
  lemma {:induction false} ParseLogContentErrors(content: string)
    ensures ErrorsWellFormed(ParseLogContent(content))
    ensures ErrorsWellFormed(ParseLogContentAsWritten(content))
  {
    ScanLinesErrors(Scan(EmptyInfo, false), Lines(content), true);
    ScanLinesErrors(Scan(EmptyInfo, false), Lines(content), false);
  }

  /** Outside the stats table, the job-failure line is always kept, whatever
      its length, provided no earlier branch claims it. */
  lemma {:induction false} JobFailedLineKept(sc: Scan, line: string, fix: bool)
    requires !sc.inJobStats
    requires var t := Trim(line);
      !StartsWith(t, HostPrefix) && !StartsWith(t, CoresPrefix) && t != StatsHeader
      && !IsProgressLine(t) && !IsCompletionLine(t) && Contains(t, JobFailedLine)
    ensures var r := StepWith(sc, line, fix).info;
      r.hasErrors && |r.errors| > 0 && r.errors[|r.errors| - 1] == Trim(line)
  {
  }

  /** A stats row "rule count" sets the count of its rule, or the total
      for the row "total". */
  lemma {:induction false} StatsRowSets(info: LogInfo, rule: string, gap: string, n: nat)
    requires |rule| > 0 && NoWhitespace(rule)
    requires |gap| > 0 && AllWhitespace(gap)
    requires n <= U64_MAX
    ensures StatsRow(info, rule + gap + NatToString(n))
      == if rule == "total" then info.(totalJobs := Some(n)) else info.(jobsByRule := info.jobsByRule[rule := n])
  {
    var d := NatToString(n);
    AllDigitsAt(d);
    assert NoWhitespace(d);
    SplitWhitespaceCons(d, "");
    assert d + "" == d;
    SplitWhitespaceSkip(gap, d);
    SplitWhitespaceCons(rule, gap + d);
    assert rule + gap + d == rule + (gap + d);
    ParseNatToString(n, U64_MAX);
  }

  /** The progress count is the number in front of " of ". */
  lemma {:induction false} ProgressCountOf(n: nat, rest: string)
    requires n <= U64_MAX
    ensures ProgressCount(NatToString(n) + " of " + rest) == Some(n)
  {
    var d := NatToString(n);
    var t := d + " of " + rest;
    assert t[..|d|] == d;
    assert StartsWith(t, d);
    DigitsFree(d, ' ');
    assert t[|d|..|d| + 4] == " of ";
    FindAtMost(t, " of ", |d|);
    FindAfterPrefix(t, d, " of ");
    AllDigitsAt(d);
    assert NoWhitespace(d);
    SplitWhitespaceCons(d, "");
    assert d + "" == d;
    ParseNatToString(n, U64_MAX);
  }

  /** The final progress line of a run, "27 of 27 steps (100%) done", read
      on its own: as written, the progress branch consumes it and the
      pipeline is not marked finished. */
  lemma {:induction false} FinalProgressIgnored(c: string)
    requires c == "27 of 27 steps (100%) done"
    ensures ParseLogContentAsWritten(c).finished == false
    ensures ParseLogContentAsWritten(c).completedJobs == 27
  {
    FinalLineAlone(c, false);
  }

  /** With the correction the same line marks the pipeline finished. */
  lemma {:induction false} FinalProgressFinishes(c: string)
    requires c == "27 of 27 steps (100%) done"
    ensures ParseLogContent(c).finished == true
    ensures ParseLogContent(c).completedJobs == 27
  {
    FinalLineAlone(c, true);
  }

  /** The line read as a whole log is the line read as one step. */
  lemma {:induction false} FinalLineAlone(c: string, fix: bool)
    requires c == "27 of 27 steps (100%) done"
    ensures ScanLines(Scan(EmptyInfo, false), Lines(c), fix).info.finished == fix
    ensures ScanLines(Scan(EmptyInfo, false), Lines(c), fix).info.completedJobs == 27
  {
    FinalLineShape(c);
    FinalLineBranches(c);
    FinalLineProgress(c);
    FinalLineCount(c);
    FinalProgressStep(Scan(EmptyInfo, false), c);
    var sc := StepWith(Scan(EmptyInfo, false), c, fix);
    assert ScanLines(Scan(EmptyInfo, false), [c], fix) == ScanLines(sc, [], fix);
  }

  lemma {:induction false} FinalLineShape(c: string)
    requires c == "27 of 27 steps (100%) done"
    ensures Lines(c) == [c] && Trim(c) == c
  {
    assert Split(c, '\n') == [c] by {
      assert Free(c, '\n');
      SplitFreeSingle(c, '\n');
    }
    assert Trim(c) == c by {
      assert c[0] == '2' && c[|c| - 1] == 'e';
      TrimNoEdges(c);
    }
  }

  lemma {:induction false} FinalLineBranches(c: string)
    requires c == "27 of 27 steps (100%) done"
    ensures !StartsWith(c, HostPrefix) && !StartsWith(c, CoresPrefix) && c != StatsHeader
  {
    assert c[0] == '2';
  }

  lemma {:induction false} FinalLineProgress(c: string)
    requires c == "27 of 27 steps (100%) done"
    ensures IsProgressLine(c) && Contains(c, FinalProgress)
  {
    FinalLineOf(c);
    FinalLineSteps(c);
    FinalLineDone(c);
    FinalLineFinal(c);
  }

  lemma {:induction false} FinalLineOf(c: string)
    requires c == "27 of 27 steps (100%) done"
    ensures Contains(c, " of ")
  {
    assert c == "27" + " of " + "27 steps (100%) done";
    ContainsMiddle("27", " of ", "27 steps (100%) done");
  }

  lemma {:induction false} FinalLineSteps(c: string)
    requires c == "27 of 27 steps (100%) done"
    ensures Contains(c, " steps")
  {
    assert c == "27 of 27" + " steps" + " (100%) done";
    ContainsMiddle("27 of 27", " steps", " (100%) done");
  }

  lemma {:induction false} FinalLineDone(c: string)
    requires c == "27 of 27 steps (100%) done"
    ensures Contains(c, "done")
  {
    assert c == "27 of 27 steps (100%) " + "done" + "";
    ContainsMiddle("27 of 27 steps (100%) ", "done", "");
  }

  lemma {:induction false} FinalLineFinal(c: string)
    requires c == "27 of 27 steps (100%) done"
    ensures Contains(c, FinalProgress)
  {
    assert c == "27 of 27 " + FinalProgress + "";
    ContainsMiddle("27 of 27 ", FinalProgress, "");
  }

  lemma {:induction false} FinalLineCount(c: string)
    requires c == "27 of 27 steps (100%) done"
    ensures ProgressCount(c) == Some(27)
  {
    TwentySeven();
    assert c == "27" + " of " + "27 steps (100%) done";
    ProgressCountOf(27, "27 steps (100%) done");
  }

  lemma {:induction false} TwentySeven()
    ensures NatToString(27) == "27"
  {
    assert NatToString(2) == "2";
    assert NatToString(27) == NatToString(2) + "7";
  }

  /** In general: outside the stats table, a progress line that also
      reports 100% leaves `finished` as it was in the code as written, and
      sets it in the corrected step. */
  lemma {:induction false} FinalProgressStep(sc: Scan, line: string)
    requires !sc.inJobStats
    requires var t := Trim(line);
      !StartsWith(t, HostPrefix) && !StartsWith(t, CoresPrefix) && t != StatsHeader
      && IsProgressLine(t) && Contains(t, FinalProgress)
    ensures StepWith(sc, line, false).info.finished == sc.info.finished
    ensures StepWith(sc, line, true).info.finished
    ensures ProgressCount(Trim(line)).Some? ==>
      StepWith(sc, line, false).info.completedJobs == ProgressCount(Trim(line)).value
      && StepWith(sc, line, true).info.completedJobs == ProgressCount(Trim(line)).value
  {
  }

  // ---------------------------------------------------------------------
  // The host, the cores and the job-stats table

  /** "host:", whitespace and a name set the host to the name and change
      nothing else, inside the stats table or out of it. */
  lemma {:induction false} StepHost(sc: Scan, pad: string, name: string, fix: bool)
    requires |pad| > 0 && AllWhitespace(pad)
    requires |name| > 0 && !IsWhitespace(name[0]) && !IsWhitespace(name[|name| - 1])
    ensures StepWith(sc, HostPrefix + pad + name, fix) == Scan(sc.info.(host := Some(name)), sc.inJobStats)
  {
    var line := HostPrefix + pad + name;
    assert line[0] == 'h' && line[|line| - 1] == name[|name| - 1];
    TrimNoEdges(line);
    assert line[..|HostPrefix|] == HostPrefix;
    var after := pad + name;
    assert line[|HostPrefix|..] == after;
    StartsWithHead(after, HostPrefix);
    assert TrimStartMatches(line, HostPrefix) == after;
    LeadingWsPrefix(pad, name);
    TrailingWsSuffix(name, "");
    assert name + "" == name;
  }

  /** "Provided cores:", optional whitespace and a count set the cores to
      the count and change nothing else. */
  lemma {:induction false} StepCores(sc: Scan, pad: string, n: nat, fix: bool)
    requires AllWhitespace(pad) && n <= U64_MAX
    ensures StepWith(sc, CoresPrefix + pad + NatToString(n), fix) == Scan(sc.info.(cores := Some(n)), sc.inJobStats)
  {
    var line := CoresPrefix + pad + NatToString(n);
    CoresLine(pad, n);
    StartsWithHead(line, HostPrefix);
  }

  /** The pieces of a cores line: it is already trimmed, and what follows
      the prefix reads as the count. */
  lemma {:induction false} CoresLine(pad: string, n: nat)
    requires AllWhitespace(pad) && n <= U64_MAX
    ensures var line := CoresPrefix + pad + NatToString(n);
      Trim(line) == line && line[0] == 'P' && StartsWith(line, CoresPrefix)
      && ParseU64(Trim(line[|CoresPrefix|..])) == Some(n)
  {
    var d := NatToString(n);
    var line := CoresPrefix + pad + d;
    AllDigitsAt(d);
    assert line[0] == 'P' && line[|line| - 1] == d[|d| - 1];
    TrimNoEdges(line);
    assert line[..|CoresPrefix|] == CoresPrefix;
    assert line[|CoresPrefix|..] == pad + d;
    LeadingWsPrefix(pad, d);
    TrailingWsSuffix(d, "");
    assert d + "" == d;
    ParseNatToString(n, U64_MAX);
  }

  /** Inside the stats table, a row "rule count" that no earlier branch
      claims sets the total or its rule's count and keeps the table open. */
  lemma {:induction false} StatsRowStep(sc: Scan, rule: string, gap: string, n: nat, fix: bool)
    requires sc.inJobStats
    requires |rule| > 0 && NoWhitespace(rule) && |gap| > 0 && AllWhitespace(gap) && n <= U64_MAX
    requires var line := rule + gap + NatToString(n);
      !StartsWith(line, HostPrefix) && !StartsWith(line, CoresPrefix) && line != StatsHeader
      && !StartsWith(line, SelectJobs) && !StartsWith(line, "job") && !StartsWith(line, "---")
    ensures StepWith(sc, rule + gap + NatToString(n), fix) == Scan(
      if rule == "total" then sc.info.(totalJobs := Some(n)) else sc.info.(jobsByRule := sc.info.jobsByRule[rule := n]),
      true)
  {
    var d := NatToString(n);
    var line := rule + gap + d;
    AllDigitsAt(d);
    assert line[0] == rule[0] && line[|line| - 1] == d[|d| - 1];
    TrimNoEdges(line);
    StatsRowSets(sc.info, rule, gap, n);
  }

  /** Lines outside the stats table never change the job total or the
      per-rule counts. */
  lemma {:induction false} ScanLinesStatsOutside(sc: Scan, lines: seq<string>, fix: bool)
    requires !sc.inJobStats
    requires forall i :: 0 <= i < |lines| ==> Trim(lines[i]) != StatsHeader
    ensures var r := ScanLines(sc, lines, fix);
      !r.inJobStats && r.info.totalJobs == sc.info.totalJobs && r.info.jobsByRule == sc.info.jobsByRule
    decreases |lines|
  {
    if |lines| > 0 {
      ScanLinesStatsOutside(StepWith(sc, lines[0], fix), lines[1..], fix);
    }
  }

  /** The host test of main_log.rs: "host: myserver" names the host. */
  lemma {:induction false} ParseHostExample(content: string)
    requires content == "host: myserver\n"
    ensures ParseLogContentAsWritten(content).host == Some("myserver")
  {
    var line := HostPrefix + " " + "myserver";
    assert content == line + "\n" + "";
    assert Free(line, '\n');
    LinesCons(line, "");
    LinesShape("");
    var s0 := Scan(EmptyInfo, false);
    StepHost(s0, " ", "myserver", false);
    assert ScanLines(s0, [line], false) == ScanLines(StepWith(s0, line, false), [], false);
  }

  /** The cores test of main_log.rs: "Provided cores: 4" gives 4 cores. */
  lemma {:induction false} ParseCoresExample(content: string)
    requires content == "Provided cores: 4\n"
    ensures ParseLogContentAsWritten(content).cores == Some(4)
  {
    assert NatToString(4) == "4";
    var line := CoresPrefix + " " + NatToString(4);
    assert content == line + "\n" + "";
    assert Free(line, '\n');
    LinesCons(line, "");
    LinesShape("");
    var s0 := Scan(EmptyInfo, false);
    StepCores(s0, " ", 4, false);
    assert ScanLines(s0, [line], false) == ScanLines(StepWith(s0, line, false), [], false);
  }

  /** Scanning two runs of lines is scanning the first, then the second. */
  lemma {:induction false} ScanLinesAppend(sc: Scan, a: seq<string>, b: seq<string>, fix: bool)
    ensures ScanLines(sc, a + b, fix) == ScanLines(ScanLines(sc, a, fix), b, fix)
    decreases |a|
  {
    if |a| > 0 {
      assert (a + b)[0] == a[0] && (a + b)[1..] == a[1..] + b;
      ScanLinesAppend(StepWith(sc, a[0], fix), a[1..], b, fix);
    } else {
      assert a + b == b;
    }
  }

  /** The lines of the job-stats test of main_log.rs. */
  const StatsTestLines: seq<string> := [
    "", "Building DAG of jobs...", "Job stats:", "job                      count",
    "---------------------  -------", "align_sample                 4", "process_sample               4",
    "total                        8", "", "Select jobs to execute..."]

  lemma {:induction false} StatsTestLinesFreeA()
    ensures Free("Building DAG of jobs...", '\n')
    ensures Free("Job stats:", '\n')
    ensures Free("job                      count", '\n')
    ensures Free("---------------------  -------", '\n')
  {
  }

  lemma {:induction false} StatsTestLinesFreeB()
    ensures Free("align_sample                 4", '\n')
    ensures Free("process_sample               4", '\n')
    ensures Free("total                        8", '\n')
    ensures Free("Select jobs to execute...", '\n')
  {
  }

  /** A line with neither a line break nor a trailing '\r', as `Lines`
      gives it back. */
  predicate PlainLine(l: string) {
    Free(l, '\n') && (|l| > 0 ==> l[|l| - 1] != '\r')
  }

  /** Five lines each ended by '\n' come first, followed by the lines of
      the rest. */
  lemma {:induction false} LinesFive(a: string, b: string, c: string, d: string, e: string, rest: string)
    requires PlainLine(a) && PlainLine(b) && PlainLine(c) && PlainLine(d) && PlainLine(e)
    ensures Lines((a + "\n") + ((b + "\n") + ((c + "\n") + ((d + "\n") + ((e + "\n") + rest)))))
         == [a] + ([b] + ([c] + ([d] + ([e] + Lines(rest)))))
  {
    var r4 := (e + "\n") + rest;
    var r3 := (d + "\n") + r4;
    var r2 := (c + "\n") + r3;
    var r1 := (b + "\n") + r2;
    LinesCons(e, rest);
    LinesCons(d, r4);
    LinesCons(c, r3);
    LinesCons(b, r2);
    LinesCons(a, r1);
  }

  /** The last five lines of the job-stats test. */
  lemma {:induction false} StatsTestLinesTail(rest: string)
    requires rest ==
      "align_sample                 4\n"
      + ("process_sample               4\n"
      + ("total                        8\n"
      + ("\n"
      + ("Select jobs to execute...\n"))))
    ensures Lines(rest) == StatsTestLines[5..]
  {
    assert "align_sample                 4\n" == "align_sample                 4" + "\n";
    assert "process_sample               4\n" == "process_sample               4" + "\n";
    assert "total                        8\n" == "total                        8" + "\n";
    assert "\n" == "" + "\n";
    assert "Select jobs to execute...\n" == ("Select jobs to execute..." + "\n") + "";
    StatsTestLinesFreeB();
    LinesShape("");
    LinesFive("align_sample                 4", "process_sample               4", "total                        8",
      "", "Select jobs to execute...", "");
  }

  /** The content of the job-stats test of main_log.rs, read as lines. */
  lemma {:induction false} StatsTestLinesOf(content: string)
    requires content ==
      "\n"
      + ("Building DAG of jobs...\n"
      + ("Job stats:\n"
      + ("job                      count\n"
      + ("---------------------  -------\n"
      + ("align_sample                 4\n"
      + ("process_sample               4\n"
      + ("total                        8\n"
      + ("\n"
      + ("Select jobs to execute...\n")))))))))
    ensures Lines(content) == StatsTestLines
  {
    var r5 := "align_sample                 4\n" + ("process_sample               4\n" + ("total                        8\n"
      + ("\n" + ("Select jobs to execute...\n"))));
    StatsTestLinesTail(r5);
    assert "\n" == "" + "\n";
    assert "Building DAG of jobs...\n" == "Building DAG of jobs..." + "\n";
    assert "Job stats:\n" == "Job stats:" + "\n";
    assert "job                      count\n" == "job                      count" + "\n";
    assert "---------------------  -------\n" == "---------------------  -------" + "\n";
    StatsTestLinesFreeA();
    LinesFive("", "Building DAG of jobs...", "Job stats:", "job                      count",
      "---------------------  -------", r5);
  }

  /** A table row of the job-stats test starts with none of the patterns
      the branches before the row branch look for. */
  lemma {:induction false} StatsRowLine(rule: string, gap: string, n: nat)
    requires |rule| > 0 && rule[0] in "apt" && |gap| > 0 && gap[0] == ' '
    ensures var line := rule + gap + NatToString(n);
      !StartsWith(line, HostPrefix) && !StartsWith(line, CoresPrefix) && line != StatsHeader
      && !StartsWith(line, SelectJobs) && !StartsWith(line, "job") && !StartsWith(line, "---")
  {
    var line := rule + gap + NatToString(n);
    assert line[0] == rule[0];
    StartsWithHead(line, HostPrefix);
    StartsWithHead(line, CoresPrefix);
    StartsWithHead(line, SelectJobs);
    StartsWithHead(line, "job");
    StartsWithHead(line, "---");
  }

  /** The two lines before the table leave it closed and its counts alone. */
  lemma {:induction false} StatsTestPreamble(sc: Scan, fix: bool)
    requires !sc.inJobStats
    ensures var r := ScanLines(sc, StatsTestLines[..2], fix);
      !r.inJobStats && r.info.totalJobs == sc.info.totalJobs && r.info.jobsByRule == sc.info.jobsByRule
  {
    TrimNoEdges(StatsTestLines[1]);
    ScanLinesStatsOutside(sc, StatsTestLines[..2], fix);
  }

  /** The header opens the table and changes nothing else. */
  lemma {:induction false} StepHeader(sc: Scan, line: string, fix: bool)
    requires Trim(line) == StatsHeader
    ensures StepWith(sc, line, fix) == Scan(sc.info, true)
  {
    StartsWithHead(line, HostPrefix);
  }

  /** Inside the table, a line that starts with "job" or "---" changes
      nothing. */
  lemma {:induction false} StepTitle(sc: Scan, line: string, fix: bool)
    requires sc.inJobStats && (StartsWith(Trim(line), "job") || StartsWith(Trim(line), "---"))
    ensures StepWith(sc, line, fix) == sc
  {
  }

  /** The header opens the table, and the column titles and the rule under
      them change nothing. */
  lemma {:induction false} StatsTestOpen(sc: Scan, fix: bool)
    ensures ScanLines(sc, StatsTestLines[2..5], fix) == Scan(sc.info, true)
  {
    assert StatsTestLines[2..5] == [StatsTestLines[2], StatsTestLines[3], StatsTestLines[4]];
    StatsTestOpenLines();
    OpenSteps(sc, StatsTestLines[2], StatsTestLines[3], StatsTestLines[4], fix);
  }

  lemma {:induction false} OpenSteps(sc: Scan, header: string, title: string, rule: string, fix: bool)
    requires Trim(header) == StatsHeader
    requires StartsWith(Trim(title), "job") && StartsWith(Trim(rule), "---")
    ensures ScanLines(sc, [header, title, rule], fix) == Scan(sc.info, true)
  {
    var t := Scan(sc.info, true);
    StepHeader(sc, header, fix);
    StepTitle(t, title, fix);
    StepTitle(t, rule, fix);
    assert [header, title, rule][1..] == [title, rule];
    assert [title, rule][1..] == [rule];
    assert [rule][1..] == [];
    assert ScanLines(t, [rule], fix) == ScanLines(t, [], fix);
    assert ScanLines(t, [title, rule], fix) == ScanLines(t, [rule], fix);
    assert ScanLines(sc, [header, title, rule], fix) == ScanLines(t, [title, rule], fix);
  }

  /** The header, the column titles and the rule under them, trimmed. */
  lemma {:induction false} StatsTestOpenLines()
    ensures Trim(StatsTestLines[2]) == StatsHeader
    ensures StartsWith(Trim(StatsTestLines[3]), "job")
    ensures StartsWith(Trim(StatsTestLines[4]), "---")
  {
    StatsTestHeaderLine();
    StatsTestTitleLine();
    StatsTestRuleLine();
  }

  lemma {:induction false} StatsTestHeaderLine()
    ensures Trim(StatsTestLines[2]) == StatsHeader
  {
    TrimmedLine(StatsTestLines[2]);
  }

  lemma {:induction false} StatsTestTitleLine()
    ensures StartsWith(Trim(StatsTestLines[3]), "job")
  {
    TrimmedLine(StatsTestLines[3]);
    assert StatsTestLines[3][..3] == "job";
  }

  lemma {:induction false} StatsTestRuleLine()
    ensures StartsWith(Trim(StatsTestLines[4]), "---")
  {
    TrimmedLine(StatsTestLines[4]);
    assert StatsTestLines[4][..3] == "---";
  }

  /** A line that starts and ends with a printable ASCII character other
      than a space is its own trim. */
  lemma {:induction false} TrimmedLine(l: string)
    requires |l| > 0 && '!' <= l[0] <= '~' && '!' <= l[|l| - 1] <= '~'
    ensures Trim(l) == l
  {
    TrimNoEdges(l);
  }

  /** Each row of the test, read inside the table. */
  lemma {:induction false} StatsTestRow5(sc: Scan, fix: bool)
    requires sc.inJobStats
    ensures StepWith(sc, "align_sample" + "                 " + NatToString(4), fix) == Scan(sc.info.(jobsByRule := sc.info.jobsByRule["align_sample" := 4]), true)
  {
    StatsRowLine("align_sample", "                 ", 4);
    StatsRowStep(sc, "align_sample", "                 ", 4, fix);
  }

  lemma {:induction false} StatsTestRow6(sc: Scan, fix: bool)
    requires sc.inJobStats
    ensures StepWith(sc, "process_sample" + "               " + NatToString(4), fix) == Scan(sc.info.(jobsByRule := sc.info.jobsByRule["process_sample" := 4]), true)
  {
    StatsRowLine("process_sample", "               ", 4);
    StatsRowStep(sc, "process_sample", "               ", 4, fix);
  }

  lemma {:induction false} StatsTestRow7(sc: Scan, fix: bool)
    requires sc.inJobStats
    ensures StepWith(sc, "total" + "                        " + NatToString(8), fix) == Scan(sc.info.(totalJobs := Some(8)), true)
  {
    StatsRowLine("total", "                        ", 8);
    StatsRowStep(sc, "total", "                        ", 8, fix);
  }

  /** The rows of the test, each a rule, a gap and a count. */
  lemma {:induction false} StatsTestLine5()
    ensures StatsTestLines[5] == "align_sample" + "                 " + NatToString(4)
  {
    assert NatToString(4) == "4";
  }

  lemma {:induction false} StatsTestLine6()
    ensures StatsTestLines[6] == "process_sample" + "               " + NatToString(4)
  {
    assert NatToString(4) == "4";
  }

  lemma {:induction false} StatsTestLine7()
    ensures StatsTestLines[7] == "total" + "                        " + NatToString(8)
  {
    assert NatToString(8) == "8";
  }

  /** The three rows set the two rule counts and the total. */
  lemma {:induction false} StatsTestRows(sc: Scan, fix: bool)
    requires sc.inJobStats
    ensures var r := ScanLines(sc, StatsTestLines[5..8], fix);
      r.inJobStats && r.info.totalJobs == Some(8)
      && r.info.jobsByRule == sc.info.jobsByRule["align_sample" := 4]["process_sample" := 4]
  {
    StatsTestLine5();
    StatsTestLine6();
    StatsTestLine7();
    var ls := StatsTestLines[5..8];
    assert ls[0] == StatsTestLines[5] && ls[1] == StatsTestLines[6] && ls[2] == StatsTestLines[7];
    StatsTestRow5(sc, fix);
    var t5 := StepWith(sc, ls[0], fix);
    StatsTestRow6(t5, fix);
    var t6 := StepWith(t5, ls[1], fix);
    StatsTestRow7(t6, fix);
    var t7 := StepWith(t6, ls[2], fix);
    assert ScanLines(sc, ls, fix) == ScanLines(t5, ls[1..], fix);
    assert ScanLines(t5, ls[1..], fix) == ScanLines(t6, ls[2..], fix);
    assert ScanLines(t6, ls[2..], fix) == ScanLines(t7, [], fix);
  }

  /** The empty line closes the table, and the line after it is outside. */
  lemma {:induction false} StatsTestClose(sc: Scan, fix: bool)
    requires sc.inJobStats
    ensures var r := ScanLines(sc, StatsTestLines[8..], fix);
      !r.inJobStats && r.info.totalJobs == sc.info.totalJobs && r.info.jobsByRule == sc.info.jobsByRule
  {
    var ls := StatsTestLines[8..];
    var t := StepWith(sc, ls[0], fix);
    TrimNoEdges(ls[1]);
    ScanLinesStatsOutside(t, ls[1..], fix);
    assert ScanLines(sc, ls, fix) == ScanLines(t, ls[1..], fix);
  }

  /** The job-stats test of main_log.rs: the table gives 8 jobs in total,
      4 of align_sample and 4 of process_sample. */
  lemma {:induction false} ParseJobStatsExample(content: string)
    requires content ==
      "\n"
      + ("Building DAG of jobs...\n"
      + ("Job stats:\n"
      + ("job                      count\n"
      + ("---------------------  -------\n"
      + ("align_sample                 4\n"
      + ("process_sample               4\n"
      + ("total                        8\n"
      + ("\n"
      + ("Select jobs to execute...\n")))))))))
    ensures ParseLogContentAsWritten(content).totalJobs == Some(8)
    ensures ParseLogContentAsWritten(content).jobsByRule == map["align_sample" := 4, "process_sample" := 4]
  {
    StatsTestLinesOf(content);
    var ls := StatsTestLines;
    var s0 := Scan(EmptyInfo, false);
    assert ls == ls[..2] + ls[2..5] + ls[5..8] + ls[8..];
    ScanLinesAppend(s0, ls[..2] + ls[2..5] + ls[5..8], ls[8..], false);
    ScanLinesAppend(s0, ls[..2] + ls[2..5], ls[5..8], false);
    ScanLinesAppend(s0, ls[..2], ls[2..5], false);
    StatsTestPreamble(s0, false);
    var s2 := ScanLines(s0, ls[..2], false);
    StatsTestOpen(s2, false);
    var s5 := Scan(s2.info, true);
    StatsTestRows(s5, false);
    var s8 := ScanLines(s5, ls[5..8], false);
    StatsTestClose(s8, false);
  }
}

=== FILE: merge.dfy ===
/** Folding scheduler records and Snakemake metadata into the pipeline
    state: `merge_slurm_jobs`, `merge_lsf_jobs` and `merge_snakemake_jobs`.
    The SLURM and LSF merges have one shape, modelled once over a
    scheduler-neutral record; they differ only in how a record is read and
    in which data-source flag they set. */
module Merge {
  import opened Wrappers
  import opened Text
  import opened Parsers
  import opened StateTypes
  import opened Comment
  import opened Pipeline
  import S = SlurmTypes
  import L = LsfTypes

  // ---------------------------------------------------------------------
  // Data sources

  /** The scheduler query a batch came from. */
  datatype Source = Squeue | Sacct | Bjobs | Bhist

  /** The data-source flag that belongs to `src`. */
  predicate HasSource(ds: DataSources, src: Source) {
    match src
    case Squeue => ds.hasSlurmSqueue
    case Sacct => ds.hasSlurmSacct
    case Bjobs => ds.hasLsfBjobs
    case Bhist => ds.hasLsfBhist
  }

  /** Every flag set in `a` is set in `b`. */
  predicate SourcesGrow(a: DataSources, b: DataSources) {
    (a.hasSnakemakeMetadata ==> b.hasSnakemakeMetadata) && (a.hasSlurmSqueue ==> b.hasSlurmSqueue)
    && (a.hasSlurmSacct ==> b.hasSlurmSacct) && (a.hasLsfBjobs ==> b.hasLsfBjobs)
    && (a.hasLsfBhist ==> b.hasLsfBhist)
  }

  /** The flag of `src` is the only one set. */
  predicate OnlySource(ds: DataSources, src: Source) {
    HasSource(ds, src) && !ds.hasSnakemakeMetadata
    && forall other: Source :: other != src ==> !HasSource(ds, other)
  }

  /** Sets the flag of `src`; flags are only ever set, never cleared. */
  function MarkSource(ds: DataSources, src: Source): (r: DataSources)
    ensures HasSource(r, src) && SourcesGrow(ds, r)
    ensures r.hasSnakemakeMetadata == ds.hasSnakemakeMetadata
    ensures forall other: Source :: other != src ==> HasSource(r, other) == HasSource(ds, other)
    ensures HasSource(ds, src) ==> r == ds
  {
    match src
    case Squeue => ds.(hasSlurmSqueue := true)
    case Sacct => ds.(hasSlurmSacct := true)
    case Bjobs => ds.(hasLsfBjobs := true)
    case Bhist => ds.(hasLsfBhist := true)
  }

  // ---------------------------------------------------------------------
  // Scheduler records

  /** What the scheduler merges read from one record. `snakemake` records
      that the key came from a Snakemake comment. */
  datatype SchedRecord = SchedRecord(
    rule: string,
    wildcards: Option<string>,
    snakemake: bool,
    name: string,
    jobId: string,
    status: JobStatus,
    error: Option<JobError>,
    timing: JobTiming,
    resources: JobResources)

  /** The rule and wildcards a comment names, or the job name and no
      wildcards when there is no comment or it is not a Snakemake one. */
  function KeyParts(comment: Option<string>, name: string): (r: (string, Option<string>))
    ensures comment.Some? && StartsWith(comment.value, RulePrefix) ==> r == ParseSlurmComment(comment.value).value
    ensures comment.None? || !StartsWith(comment.value, RulePrefix) ==> r == (name, None)
  {
    match comment
    case None => (name, None)
    case Some(c) => ParseSlurmComment(c).GetOr((name, None))
  }

  /** A squeue or sacct record as the SLURM merge reads it. */
  function SlurmRecord(j: S.SlurmJob): (r: SchedRecord)
    ensures (r.rule, r.wildcards) == KeyParts(j.comment, j.name)
    ensures r.snakemake <==> j.comment.Some? && StartsWith(j.comment.value, RulePrefix)
    ensures r.status == SlurmStatus(j.state) && r.error == SlurmError(j.state)
    ensures r.resources == JobResources(j.cpus, j.memMb, j.timeLimit, j.partition, j.nodelist)
  {
    var parts := KeyParts(j.comment, j.name);
    SchedRecord(parts.0, parts.1, j.comment.Some? && ParseSlurmComment(j.comment.value).Some?, j.name, j.jobId,
                SlurmStatus(j.state), SlurmError(j.state), JobTiming(j.submitTime, j.startTime, j.endTime),
                JobResources(j.cpus, j.memMb, j.timeLimit, j.partition, j.nodelist))
  }

  /** A bjobs or bhist record as the LSF merge reads it: the description
      plays the comment's part and the queue the partition's. */
  function LsfRecord(j: L.LsfJob): (r: SchedRecord)
    ensures (r.rule, r.wildcards) == KeyParts(j.description, j.name)
    ensures !r.snakemake
    ensures r.status == LsfStatus(j.state) && r.error == LsfError(j.state)
    ensures r.resources == JobResources(j.nprocs, j.memLimitMb, j.runLimit, j.queue, j.execHost)
  {
    var parts := match j.description
      case None => (j.name, None)
      case Some(d) => ParseLsfDescription(d).GetOr((j.name, None));
    SchedRecord(parts.0, parts.1, false, j.name, j.jobId, LsfStatus(j.state), LsfError(j.state),
                JobTiming(j.submitTime, j.startTime, j.endTime),
                JobResources(j.nprocs, j.memLimitMb, j.runLimit, j.queue, j.execHost))
  }

  /** The key a record is merged under. */
  function RecordKey(r: SchedRecord): string {
    MakeJobId(r.rule, r.wildcards)
  }

  /** A SLURM job whose comment was written from a rule and non-empty
      wildcards is keyed "rule[wildcards]" and counts as a Snakemake job;
      one without a Snakemake comment is keyed by its name. */
  lemma {:induction false} SlurmRecordKey(j: S.SlurmJob, rule: string, w: string)
    requires |w| > 0 && !Contains(rule, WildcardsMarker) && !EndsWith(rule, "_wildcards")
    ensures j.comment == Some(RulePrefix + rule + WildcardsMarker + w) ==>
      RecordKey(SlurmRecord(j)) == rule + "[" + w + "]" && SlurmRecord(j).snakemake
    ensures j.comment.None? ==> RecordKey(SlurmRecord(j)) == j.name && !SlurmRecord(j).snakemake
  {
    if j.comment == Some(RulePrefix + rule + WildcardsMarker + w) {
      var c := RulePrefix + rule + WildcardsMarker + w;
      ParseSlurmCommentRoundTrip(rule, w);
      assert c[..|RulePrefix|] == RulePrefix;
    }
  }

  // ---------------------------------------------------------------------
  // One record

  /** A record about a job already in the map: the scheduler id, status,
      resources and error are replaced (so a Completed job can go back to
      Running), the queue time is filled only when missing, the query's
      flag is set, and nothing else changes. */
  function UpdateJob(j: Job, r: SchedRecord, src: Source): (u: Job)
    ensures u.schedulerJobId == Some(r.jobId) && u.status == r.status
    ensures u.resources == r.resources && u.error == r.error
    ensures u.timing.queuedAt == j.timing.queuedAt.Or(r.timing.queuedAt)
    ensures u.timing.startedAt == j.timing.startedAt && u.timing.completedAt == j.timing.completedAt
    ensures u.dataSources == MarkSource(j.dataSources, src)
    ensures HasSource(u.dataSources, src) && SourcesGrow(j.dataSources, u.dataSources)
    ensures u.id == j.id && u.rule == j.rule && u.wildcards == j.wildcards && u.inputs == j.inputs
    ensures u.outputs == j.outputs && u.shellcmd == j.shellcmd && u.usage == j.usage
    ensures u.logFiles == j.logFiles && u.condaEnv == j.condaEnv && u.containerImgUrl == j.containerImgUrl
    ensures u.isTarget == j.isTarget && u.isSnakemakeJob == j.isSnakemakeJob
  {
    var queued := if j.timing.queuedAt.None? then r.timing.queuedAt else j.timing.queuedAt;
    j.(schedulerJobId := Some(r.jobId), status := r.status, resources := r.resources, error := r.error,
       timing := j.timing.(queuedAt := queued), dataSources := MarkSource(j.dataSources, src))
  }

  /** A record about a new key: a job with the record's rule, wildcards,
      status, times, resources and error, no files, no usage, and only the
      query's flag set. */
  function NewJob(key: string, r: SchedRecord, src: Source): (u: Job)
    ensures u.id == key && u.rule == r.rule && u.wildcards == r.wildcards
    ensures |u.inputs| == 0 && |u.outputs| == 0 && |u.logFiles| == 0 && u.usage.None? && u.shellcmd == ""
    ensures u.schedulerJobId == Some(r.jobId) && u.status == r.status && u.timing == r.timing
    ensures u.resources == r.resources && u.error == r.error
    ensures OnlySource(u.dataSources, src)
    ensures !u.isTarget && (u.isSnakemakeJob <==> r.snakemake)
  {
    Job(key, r.rule, r.wildcards, [], [], r.status, Some(r.jobId), "", r.timing, r.resources, None, [],
        r.error, None, None, MarkSource(NoSources, src), false, r.snakemake)
  }

  /** The ids listed under `rule`, none when the rule is not indexed. */
  function IndexOf(index: map<string, seq<string>>, rule: string): seq<string> {
    if rule in index then index[rule] else []
  }

  /** One iteration of the merge loop. */
  function MergeRecord(st: PipelineState, r: SchedRecord, src: Source): (t: PipelineState)
    ensures t.jobs.Keys == st.jobs.Keys + {RecordKey(r)}
    ensures forall k :: k in st.jobs && k != RecordKey(r) ==> t.jobs[k] == st.jobs[k]
    ensures RecordKey(r) in st.jobs ==>
      t.jobs[RecordKey(r)] == UpdateJob(st.jobs[RecordKey(r)], r, src) && t.jobsByRule == st.jobsByRule
    ensures RecordKey(r) !in st.jobs ==>
      t.jobs[RecordKey(r)] == NewJob(RecordKey(r), r, src)
      && t.jobsByRule == st.jobsByRule[r.rule := IndexOf(st.jobsByRule, r.rule) + [RecordKey(r)]]
    ensures t.runUuid == st.runUuid.Or(Some(r.name))
    ensures t.(jobs := st.jobs, jobsByRule := st.jobsByRule, runUuid := st.runUuid) == st
  {
    var key := RecordKey(r);
    var uuid := if st.runUuid.None? then Some(r.name) else st.runUuid;
    if key in st.jobs then
      st.(runUuid := uuid, jobs := st.jobs[key := UpdateJob(st.jobs[key], r, src)])
    else
      st.(runUuid := uuid, jobs := st.jobs[key := NewJob(key, r, src)],
          jobsByRule := st.jobsByRule[r.rule := IndexOf(st.jobsByRule, r.rule) + [key]])
  }

  /** The merge loop over a batch. */
  function MergeRecords(st: PipelineState, rs: seq<SchedRecord>, src: Source): (t: PipelineState)
    ensures t.jobs.Keys == st.jobs.Keys + set i | 0 <= i < |rs| :: RecordKey(rs[i])
    ensures t.runUuid == if |rs| == 0 then st.runUuid else st.runUuid.Or(Some(rs[0].name))
    ensures t.(jobs := st.jobs, jobsByRule := st.jobsByRule, runUuid := st.runUuid) == st
    decreases |rs|
  {
    if |rs| == 0 then st
    else
      RecordKeysCons(rs);
      MergeRecords(MergeRecord(st, rs[0], src), rs[1..], src)
  }

  /** The keys of a batch are its first record's key and the rest's keys. */
  lemma {:induction false} RecordKeysCons(rs: seq<SchedRecord>)
    requires |rs| > 0
    ensures (set i | 0 <= i < |rs| :: RecordKey(rs[i]))
      == {RecordKey(rs[0])} + set i | 0 <= i < |rs[1..]| :: RecordKey(rs[1..][i])
  {
    assert forall i :: 1 <= i < |rs| ==> rs[i] == rs[1..][i - 1];
  }

  /** A scheduler merge: the loop, then the update stamp. */
  function MergeScheduler(st: PipelineState, rs: seq<SchedRecord>, src: Source, now: Timestamp): (t: PipelineState)
    ensures t.jobs.Keys == st.jobs.Keys + set i | 0 <= i < |rs| :: RecordKey(rs[i])
    ensures t.lastUpdated == now
  {
    MergeRecords(st, rs, src).(lastUpdated := now)
  }

  /** `merge_slurm_jobs`; `fromSacct` picks the flag. */
  function MergeSlurmJobs(st: PipelineState, jobs: seq<S.SlurmJob>, fromSacct: bool, now: Timestamp): (t: PipelineState)
    ensures t == MergeScheduler(st, SlurmRecords(jobs), if fromSacct then Sacct else Squeue, now)
    ensures t.jobs.Keys == st.jobs.Keys + set i | 0 <= i < |jobs| :: RecordKey(SlurmRecord(jobs[i]))
  {
    var rs := SlurmRecords(jobs);
    assert (set i | 0 <= i < |rs| :: RecordKey(rs[i])) == set i | 0 <= i < |jobs| :: RecordKey(SlurmRecord(jobs[i]));
    MergeScheduler(st, rs, if fromSacct then Sacct else Squeue, now)
  }

  function SlurmRecords(jobs: seq<S.SlurmJob>): (rs: seq<SchedRecord>)
    ensures |rs| == |jobs| && forall i :: 0 <= i < |jobs| ==> rs[i] == SlurmRecord(jobs[i])
  {
    seq(|jobs|, i requires 0 <= i < |jobs| => SlurmRecord(jobs[i]))
  }

  /** `merge_lsf_jobs`; `fromBhist` picks the flag. */
  function MergeLsfJobs(st: PipelineState, jobs: seq<L.LsfJob>, fromBhist: bool, now: Timestamp): (t: PipelineState)
    ensures t == MergeScheduler(st, LsfRecords(jobs), if fromBhist then Bhist else Bjobs, now)
    ensures t.jobs.Keys == st.jobs.Keys + set i | 0 <= i < |jobs| :: RecordKey(LsfRecord(jobs[i]))
  {
    var rs := LsfRecords(jobs);
    assert (set i | 0 <= i < |rs| :: RecordKey(rs[i])) == set i | 0 <= i < |jobs| :: RecordKey(LsfRecord(jobs[i]));
    MergeScheduler(st, rs, if fromBhist then Bhist else Bjobs, now)
  }

  function LsfRecords(jobs: seq<L.LsfJob>): (rs: seq<SchedRecord>)
    ensures |rs| == |jobs| && forall i :: 0 <= i < |jobs| ==> rs[i] == LsfRecord(jobs[i])
  {
    seq(|jobs|, i requires 0 <= i < |jobs| => LsfRecord(jobs[i]))
  }

  // ---------------------------------------------------------------------
  // The merge seen one key at a time

  function Get(m: map<string, Job>, k: string): Option<Job> {
    if k in m then Some(m[k]) else None
  }

  /** One record's effect on the entry under `k`. */
  function StepKey(o: Option<Job>, r: SchedRecord, k: string, src: Source): Option<Job> {
    if RecordKey(r) != k then o
    else match o
      case None => Some(NewJob(k, r, src))
      case Some(j) => Some(UpdateJob(j, r, src))
  }

  /** A batch's effect on the entry under `k`. */
  function ApplyKey(o: Option<Job>, rs: seq<SchedRecord>, k: string, src: Source): Option<Job>
    decreases |rs|
  {
    if |rs| == 0 then o else ApplyKey(StepKey(o, rs[0], k, src), rs[1..], k, src)
  }

  /** The entry under each key evolves on its own: only the records with
      that key touch it. */
  lemma {:induction false} MergeRecordsPerKey(st: PipelineState, rs: seq<SchedRecord>, src: Source, k: string)
    ensures Get(MergeRecords(st, rs, src).jobs, k) == ApplyKey(Get(st.jobs, k), rs, k, src)
    decreases |rs|
  {
    if |rs| > 0 {
      var st1 := MergeRecord(st, rs[0], src);
      assert Get(st1.jobs, k) == StepKey(Get(st.jobs, k), rs[0], k, src);
      MergeRecordsPerKey(st1, rs[1..], src, k);
    }
  }

  lemma {:induction false} ApplyKeySnoc(o: Option<Job>, rs: seq<SchedRecord>, r: SchedRecord, k: string, src: Source)
    ensures ApplyKey(o, rs + [r], k, src) == StepKey(ApplyKey(o, rs, k, src), r, k, src)
    decreases |rs|
  {
    if |rs| > 0 {
      assert (rs + [r])[1..] == rs[1..] + [r];
      ApplyKeySnoc(StepKey(o, rs[0], k, src), rs[1..], r, k, src);
    }
  }

  /** No record of the batch has key `k`. */
  predicate NoKey(rs: seq<SchedRecord>, k: string) {
    forall i :: 0 <= i < |rs| ==> RecordKey(rs[i]) != k
  }

  /** Every record of the batch with key `k` lacks a submit time. */
  predicate SubmitsNone(rs: seq<SchedRecord>, k: string) {
    forall i :: 0 <= i < |rs| && RecordKey(rs[i]) == k ==> rs[i].timing.queuedAt.None?
  }

  /** An entry is missing after the batch only if it was missing before and
      no record has its key. */
  lemma {:induction false} ApplyKeyMissing(o: Option<Job>, rs: seq<SchedRecord>, k: string, src: Source)
    ensures ApplyKey(o, rs, k, src).None? <==> o.None? && NoKey(rs, k)
    decreases |rs|
  {
    if |rs| > 0 {
      ApplyKeyMissing(StepKey(o, rs[0], k, src), rs[1..], k, src);
      assert forall i :: 1 <= i < |rs| ==> rs[i] == rs[1..][i - 1];
    }
  }

  /** A queue time, once present, stays; so a missing entry or queue time
      after the batch means no record with the key had one, nor the entry
      before. */
  lemma {:induction false} ApplyKeyQueuedNone(o: Option<Job>, rs: seq<SchedRecord>, k: string, src: Source)
    requires ApplyKey(o, rs, k, src).None? || ApplyKey(o, rs, k, src).value.timing.queuedAt.None?
    ensures SubmitsNone(rs, k) && (o.Some? ==> o.value.timing.queuedAt.None?)
    decreases |rs|
  {
    if |rs| > 0 {
      var o1 := StepKey(o, rs[0], k, src);
      ApplyKeyQueuedNone(o1, rs[1..], k, src);
      assert forall i :: 1 <= i < |rs| ==> rs[i] == rs[1..][i - 1];
    }
  }

  /** `a` and `b` differ at most in what a scheduler update writes. */
  predicate SameBase(a: Job, b: Job) {
    a.(schedulerJobId := b.schedulerJobId, status := b.status, resources := b.resources, error := b.error,
       timing := a.timing.(queuedAt := b.timing.queuedAt)) == b
  }

  /** Starting from a present entry whose query flag is already set, a
      batch changes only the fields a scheduler update writes, keeps a
      present queue time, and adds none when no record has one. */
  lemma {:induction false} ApplyKeyFromJob(j: Job, rs: seq<SchedRecord>, k: string, src: Source)
    requires HasSource(j.dataSources, src)
    ensures var o := ApplyKey(Some(j), rs, k, src);
      o.Some? && SameBase(j, o.value) && HasSource(o.value.dataSources, src)
      && (j.timing.queuedAt.Some? ==> o.value.timing.queuedAt == j.timing.queuedAt)
      && (j.timing.queuedAt.None? && SubmitsNone(rs, k) ==> o.value.timing.queuedAt.None?)
    decreases |rs|
  {
    if |rs| > 0 {
      var o1 := StepKey(Some(j), rs[0], k, src);
      var j1 := o1.value;
      assert SameBase(j, j1) && HasSource(j1.dataSources, src);
      ApplyKeyFromJob(j1, rs[1..], k, src);
      assert forall i :: 1 <= i < |rs| ==> rs[i] == rs[1..][i - 1];
    }
  }

  /** Replaying a batch on its own result changes nothing under `k`. */
  lemma {:induction false} ApplyKeyIdempotent(o: Option<Job>, rs: seq<SchedRecord>, k: string, src: Source)
    ensures ApplyKey(ApplyKey(o, rs, k, src), rs, k, src) == ApplyKey(o, rs, k, src)
    decreases |rs|
  {
    if |rs| > 0 {
      var pre := rs[..|rs| - 1];
      var r := rs[|rs| - 1];
      assert rs == pre + [r];
      var x := ApplyKey(o, pre, k, src);
      var o' := ApplyKey(o, rs, k, src);
      ApplyKeySnoc(o, pre, r, k, src);
      ApplyKeySnoc(o', pre, r, k, src);
      if RecordKey(r) != k {
        ApplyKeyIdempotent(o, pre, k, src);
      } else {
        var big := o'.value;
        ApplyKeyFromJob(big, pre, k, src);
        var big' := ApplyKey(o', pre, k, src).value;
        if big.timing.queuedAt.None? {
          assert x.Some? ==> x.value.timing.queuedAt.None?;
          ApplyKeyQueuedNone(o, pre, k, src);
        }
        var u := UpdateJob(big', r, src);
        assert u.timing == big.timing;
        assert u.dataSources == big.dataSources;
        assert u == big;
      }
    }
  }

  // ---------------------------------------------------------------------
  // Whole batches

  /** Replaying a batch changes nothing: merging the same records twice
      gives the state after one merge. */
  lemma {:induction false} MergeRecordsIdempotent(st: PipelineState, rs: seq<SchedRecord>, src: Source)
    ensures MergeRecords(MergeRecords(st, rs, src), rs, src) == MergeRecords(st, rs, src)
  {
    var t := MergeRecords(st, rs, src);
    MergeRecordsJobsIdempotent(st, rs, src);
    MergeRecordsKnownKeys(t, rs, src);
  }

  lemma {:induction false} MergeRecordsJobsIdempotent(st: PipelineState, rs: seq<SchedRecord>, src: Source)
    ensures MergeRecords(MergeRecords(st, rs, src), rs, src).jobs == MergeRecords(st, rs, src).jobs
  {
    var t := MergeRecords(st, rs, src);
    var t2 := MergeRecords(t, rs, src);
    forall k ensures Get(t2.jobs, k) == Get(t.jobs, k) {
      MergeRecordsPerKey(st, rs, src, k);
      MergeRecordsPerKey(t, rs, src, k);
      ApplyKeyIdempotent(Get(st.jobs, k), rs, k, src);
    }
    SameGets(t2.jobs, t.jobs);
  }

  /** Maps that agree on every lookup are equal. */
  lemma {:induction false} SameGets(a: map<string, Job>, b: map<string, Job>)
    requires forall k :: Get(a, k) == Get(b, k)
    ensures a == b
  {
    assert a.Keys == b.Keys by {
      forall k ensures k in a <==> k in b {
        assert Get(a, k) == Get(b, k);
      }
    }
    forall k | k in a ensures a[k] == b[k] {
      assert Get(a, k) == Get(b, k);
    }
  }

  /** A batch whose keys are all present leaves the rule index alone. */
  lemma {:induction false} MergeRecordsKnownKeys(st: PipelineState, rs: seq<SchedRecord>, src: Source)
    requires forall i :: 0 <= i < |rs| ==> RecordKey(rs[i]) in st.jobs
    ensures MergeRecords(st, rs, src).jobsByRule == st.jobsByRule
    decreases |rs|
  {
    if |rs| > 0 {
      var st1 := MergeRecord(st, rs[0], src);
      assert forall i :: 1 <= i < |rs| ==> rs[1..][i - 1] == rs[i];
      MergeRecordsKnownKeys(st1, rs[1..], src);
    }
  }

  /** `merge_slurm_jobs` run twice on the same batch gives the state after
      one run. */
  lemma {:induction false} MergeSlurmJobsIdempotent(st: PipelineState, jobs: seq<S.SlurmJob>, fromSacct: bool, now: Timestamp)
    ensures MergeSlurmJobs(MergeSlurmJobs(st, jobs, fromSacct, now), jobs, fromSacct, now)
      == MergeSlurmJobs(st, jobs, fromSacct, now)
  {
    var src := if fromSacct then Sacct else Squeue;
    var rs := SlurmRecords(jobs);
    var t := MergeRecords(st, rs, src);
    MergeRecordsIdempotent(st, rs, src);
    MergeRecordsLastUpdated(t, rs, src, now);
  }

  /** `merge_lsf_jobs` run twice on the same batch gives the state after one
      run. */
  lemma {:induction false} MergeLsfJobsIdempotent(st: PipelineState, jobs: seq<L.LsfJob>, fromBhist: bool, now: Timestamp)
    ensures MergeLsfJobs(MergeLsfJobs(st, jobs, fromBhist, now), jobs, fromBhist, now)
      == MergeLsfJobs(st, jobs, fromBhist, now)
  {
    var src := if fromBhist then Bhist else Bjobs;
    var rs := LsfRecords(jobs);
    var t := MergeRecords(st, rs, src);
    MergeRecordsIdempotent(st, rs, src);
    MergeRecordsLastUpdated(t, rs, src, now);
  }

  /** The loop ignores the update stamp. */
  lemma {:induction false} MergeRecordsLastUpdated(st: PipelineState, rs: seq<SchedRecord>, src: Source, now: Timestamp)
    ensures MergeRecords(st.(lastUpdated := now), rs, src) == MergeRecords(st, rs, src).(lastUpdated := now)
    decreases |rs|
  {
    if |rs| > 0 {
      assert MergeRecord(st.(lastUpdated := now), rs[0], src) == MergeRecord(st, rs[0], src).(lastUpdated := now);
      MergeRecordsLastUpdated(MergeRecord(st, rs[0], src), rs[1..], src, now);
    }
  }

  /** How the rule index may change: every indexed rule stays indexed, its
      list only grows at the end, and every id added names a job that was
      not in `a`; jobs are never removed. */
  predicate IndexGrows(a: PipelineState, b: PipelineState) {
    a.jobs.Keys <= b.jobs.Keys
    && (forall rule :: rule in a.jobsByRule ==> rule in b.jobsByRule && a.jobsByRule[rule] <= b.jobsByRule[rule])
    && forall rule, i :: rule in b.jobsByRule && |IndexOf(a.jobsByRule, rule)| <= i < |b.jobsByRule[rule]|
         ==> b.jobsByRule[rule][i] !in a.jobs
  }

  lemma {:induction false} IndexGrowsTrans(a: PipelineState, b: PipelineState, c: PipelineState)
    requires IndexGrows(a, b) && IndexGrows(b, c)
    ensures IndexGrows(a, c)
  {
    forall rule, i | rule in c.jobsByRule && |IndexOf(a.jobsByRule, rule)| <= i < |c.jobsByRule[rule]|
      ensures c.jobsByRule[rule][i] !in a.jobs
    {
      if i < |IndexOf(b.jobsByRule, rule)| {
        assert c.jobsByRule[rule][i] == b.jobsByRule[rule][i];
      }
    }
  }

  /** A scheduler merge adds to the rule index only the ids of the jobs it
      creates. */
  lemma {:induction false} MergeRecordsIndex(st: PipelineState, rs: seq<SchedRecord>, src: Source)
    ensures IndexGrows(st, MergeRecords(st, rs, src))
    decreases |rs|
  {
    if |rs| > 0 {
      var st1 := MergeRecord(st, rs[0], src);
      MergeRecordIndex(st, rs[0], src);
      MergeRecordsIndex(st1, rs[1..], src);
      IndexGrowsTrans(st, st1, MergeRecords(st1, rs[1..], src));
    } else {
      assert IndexGrows(st, st);
    }
  }

  /** One record adds to the index at most its own key, and only when the
      key is new. */
  lemma {:induction false} MergeRecordIndex(st: PipelineState, r: SchedRecord, src: Source)
    ensures IndexGrows(st, MergeRecord(st, r, src))
  {
    var t := MergeRecord(st, r, src);
    if RecordKey(r) !in st.jobs {
      forall rule, i | rule in t.jobsByRule && |IndexOf(st.jobsByRule, rule)| <= i < |t.jobsByRule[rule]|
        ensures t.jobsByRule[rule][i] !in st.jobs
      {
        assert rule == r.rule && t.jobsByRule[rule][i] == RecordKey(r);
      }
    }
  }

  /** The rule index is sound: every id it lists names a job of that
      rule. */
  predicate WellIndexed(st: PipelineState) {
    forall rule, i :: rule in st.jobsByRule && 0 <= i < |st.jobsByRule[rule]| ==>
      st.jobsByRule[rule][i] in st.jobs && st.jobs[st.jobsByRule[rule][i]].rule == rule
  }

  /** Scheduler merges keep the rule index sound. */
  lemma {:induction false} MergeRecordsWellIndexed(st: PipelineState, rs: seq<SchedRecord>, src: Source)
    requires WellIndexed(st)
    ensures WellIndexed(MergeRecords(st, rs, src))
    decreases |rs|
  {
    if |rs| > 0 {
      var st1 := MergeRecord(st, rs[0], src);
      MergeRecordWellIndexed(st, rs[0], src);
      MergeRecordsWellIndexed(st1, rs[1..], src);
    }
  }

  /** One record keeps the rule index sound: an updated job keeps its rule,
      and a new job is listed under its own rule. */
  lemma {:induction false} MergeRecordWellIndexed(st: PipelineState, r: SchedRecord, src: Source)
    requires WellIndexed(st)
    ensures WellIndexed(MergeRecord(st, r, src))
  {
    var t := MergeRecord(st, r, src);
    var key := RecordKey(r);
    forall rule, i | rule in t.jobsByRule && 0 <= i < |t.jobsByRule[rule]|
      ensures t.jobsByRule[rule][i] in t.jobs && t.jobs[t.jobsByRule[rule][i]].rule == rule
    {
      var id := t.jobsByRule[rule][i];
      if key in st.jobs {
        assert id in st.jobs && st.jobs[id].rule == rule;
      } else if rule == r.rule && i == |IndexOf(st.jobsByRule, r.rule)| {
        assert id == key;
      } else {
        assert rule in st.jobsByRule && id == st.jobsByRule[rule][i];
      }
    }
  }

  // ---------------------------------------------------------------------
  // Snakemake metadata

  /** The fields of a metadata record the merge reads. The start and end
      times arrive already converted to whole seconds. */
  datatype SnakemakeMetadata = SnakemakeMetadata(
    rule: string,
    input: seq<string>,
    log: seq<string>,
    shellcmd: string,
    incomplete: bool,
    starttime: Option<Timestamp>,
    endtime: Option<Timestamp>,
    condaEnv: Option<string>,
    containerImgUrl: Option<string>)

  /** A metadata record with the output path its file name encodes. */
  datatype SnakemakeJob = SnakemakeJob(outputPath: string, metadata: SnakemakeMetadata)

  /** The output file's name up to its first '.'. */
  function BaseName(path: string): string {
    var parts := Split(path, '/');
    Split(parts[|parts| - 1], '.')[0]
  }

  /** The wildcard guesses for a base name: a base without '_' is a
      sample; "a_b" is a sample with a chromosome when b starts with "chr",
      else a sample with a variant; more '_' give no guess. */
  function WildcardGuesses(base: string): seq<string> {
    if Free(base, '_') then ["sample=" + base]
    else
      var segments := Split(base, '_');
      if |segments| == 2 then
        if StartsWith(segments[1], "chr") then ["sample=" + segments[0], "chrom=" + segments[1]]
        else ["sample=" + segments[0], "var=" + segments[1]]
      else if |segments| == 1 then ["sample=" + segments[0]]
      else []
  }

  /** `extract_wildcards`: a guess at the wildcards from the output path,
      none for a path without a directory. */
  function ExtractWildcards(path: string): (r: Option<string>)
    ensures r.Some? ==> |Split(path, '/')| >= 2 && |WildcardGuesses(BaseName(path))| > 0
  {
    if |Split(path, '/')| < 2 then None
    else
      var wildcards := WildcardGuesses(BaseName(path));
      if |wildcards| == 0 then None else Some(Join(wildcards, ", "))
  }

  /** No wildcards exactly when the path has no directory or the base name
      has two or more '_'. */
  lemma {:induction false} ExtractWildcardsNone(path: string)
    ensures ExtractWildcards(path).None? <==> Free(path, '/') || CountChar(BaseName(path), '_') >= 2
  {
    SplitCount(path, '/');
    CountCharFree(path, '/');
    var base := BaseName(path);
    SplitCount(base, '_');
    CountCharFree(base, '_');
  }

  /** The base name of "dir/<base>.<ext>" is `base`. */
  lemma {:induction false} PathBase(dir: string, base: string, ext: string)
    requires Free(base, '/') && Free(base, '.') && Free(ext, '/')
    ensures var path := dir + "/" + base + "." + ext;
      |Split(path, '/')| >= 2 && BaseName(path) == base
  {
    var file := base + "." + ext;
    var path := dir + "/" + file;
    assert Free(file, '/') by {
      assert forall i :: 0 <= i < |file| ==> file[i] == if i < |base| then base[i] else ("." + ext)[i - |base|];
    }
    assert path == dir + ['/'] + file;
    SplitLast(dir, file, '/');
    assert file == base + ['.'] + ext;
    SplitFirst(base, ext, '.');
    assert dir + "/" + base + "." + ext == path;
  }

  /** "dir/<base>.<ext>" with a '_'-free base names the sample. */
  lemma {:induction false} ExtractWildcardsSample(dir: string, base: string, ext: string)
    requires Free(base, '/') && Free(base, '.') && Free(base, '_') && Free(ext, '/')
    ensures ExtractWildcards(dir + "/" + base + "." + ext) == Some("sample=" + base)
  {
    PathBase(dir, base, ext);
    assert WildcardGuesses(base) == ["sample=" + base];
  }

  /** A base name "a_b" gives a sample and a chromosome or a variant. */
  lemma {:induction false} WildcardGuessesPair(a: string, b: string)
    requires Free(a, '_') && Free(b, '_')
    ensures var g := WildcardGuesses(a + "_" + b);
      (StartsWith(b, "chr") ==> g == ["sample=" + a, "chrom=" + b])
      && (!StartsWith(b, "chr") ==> g == ["sample=" + a, "var=" + b])
  {
    var base := a + "_" + b;
    assert base == a + ['_'] + b;
    SplitTwo(a, b, '_');
    assert !Free(base, '_') by {
      assert base[|a|] == '_';
    }
  }

  /** "dir/<a>_<b>.<ext>" names a sample and a chromosome when b starts
      with "chr", else a sample and a variant. */
  lemma {:induction false} ExtractWildcardsPair(dir: string, a: string, b: string, ext: string)
    requires Free(a, '/') && Free(a, '.') && Free(a, '_') && Free(b, '/') && Free(b, '.') && Free(b, '_')
    requires Free(ext, '/')
    ensures var w := ExtractWildcards(dir + "/" + a + "_" + b + "." + ext);
      (StartsWith(b, "chr") ==> w == Some("sample=" + a + ", chrom=" + b))
      && (!StartsWith(b, "chr") ==> w == Some("sample=" + a + ", var=" + b))
  {
    var base := a + "_" + b;
    assert Free(base, '/') && Free(base, '.') by {
      assert forall i :: 0 <= i < |base| ==> base[i] == if i < |a| then a[i] else ("_" + b)[i - |a|];
    }
    PathBase(dir, base, ext);
    assert dir + "/" + a + "_" + b + "." + ext == dir + "/" + base + "." + ext;
    WildcardGuessesPair(a, b);
    JoinTwo("sample=" + a, "chrom=" + b, ", ");
    JoinTwo("sample=" + a, "var=" + b, ", ");
    assert "sample=" + a + ", chrom=" + b == ("sample=" + a) + ", " + ("chrom=" + b);
    assert "sample=" + a + ", var=" + b == ("sample=" + a) + ", " + ("var=" + b);
  }

  /** A new job's status from its metadata: Running while incomplete,
      Completed once it has an end time, else Pending. */
  function MetaStatus(m: SnakemakeMetadata): (s: JobStatus)
    ensures s == Running <==> m.incomplete
    ensures s == Completed <==> !m.incomplete && m.endtime.Some?
    ensures s == Pending <==> !m.incomplete && m.endtime.None?
  {
    if m.incomplete then Running else if m.endtime.Some? then Completed else Pending
  }

  /** Metadata about a job already in the map: the command, inputs, logs
      and environment are replaced, the wildcards and the start and end
      times are filled only when missing, the job is marked as seen in the
      metadata, and the status, rule, outputs, resources and scheduler
      fields stay. */
  function MetaUpdate(j: Job, sj: SnakemakeJob): (u: Job)
    ensures u.status == j.status && u.rule == j.rule && u.outputs == j.outputs && u.id == j.id
    ensures u.resources == j.resources && u.schedulerJobId == j.schedulerJobId && u.error == j.error
    ensures u.usage == j.usage && u.isTarget == j.isTarget
    ensures u.shellcmd == sj.metadata.shellcmd && u.inputs == sj.metadata.input && u.logFiles == sj.metadata.log
    ensures u.condaEnv == sj.metadata.condaEnv && u.containerImgUrl == sj.metadata.containerImgUrl
    ensures u.wildcards == j.wildcards.Or(ExtractWildcards(sj.outputPath))
    ensures u.timing == JobTiming(j.timing.queuedAt, j.timing.startedAt.Or(sj.metadata.starttime),
                                  j.timing.completedAt.Or(sj.metadata.endtime))
    ensures u.dataSources == j.dataSources.(hasSnakemakeMetadata := true) && u.isSnakemakeJob
  {
    var m := sj.metadata;
    j.(shellcmd := m.shellcmd, inputs := m.input, logFiles := m.log, condaEnv := m.condaEnv,
       containerImgUrl := m.containerImgUrl,
       wildcards := if j.wildcards.None? then ExtractWildcards(sj.outputPath) else j.wildcards,
       timing := j.timing.(startedAt := if j.timing.startedAt.None? then m.starttime else j.timing.startedAt,
                           completedAt := if j.timing.completedAt.None? then m.endtime else j.timing.completedAt),
       dataSources := j.dataSources.(hasSnakemakeMetadata := true), isSnakemakeJob := true)
  }

  /** Metadata about a new output path: a job keyed and named by the path,
      producing just that path, with no scheduler data. */
  function MetaNew(sj: SnakemakeJob): (u: Job)
    ensures u.id == sj.outputPath && u.outputs == [sj.outputPath] && u.rule == sj.metadata.rule
    ensures u.status == MetaStatus(sj.metadata) && u.wildcards == ExtractWildcards(sj.outputPath)
    ensures u.schedulerJobId.None? && u.resources == NoResources && u.error.None? && u.usage.None?
    ensures u.timing == JobTiming(None, sj.metadata.starttime, sj.metadata.endtime)
    ensures u.dataSources == NoSources.(hasSnakemakeMetadata := true) && u.isSnakemakeJob && !u.isTarget
  {
    var m := sj.metadata;
    Job(sj.outputPath, m.rule, ExtractWildcards(sj.outputPath), [sj.outputPath], m.input, MetaStatus(m), None,
        m.shellcmd, JobTiming(None, m.starttime, m.endtime), NoResources, None, m.log, None, m.condaEnv,
        m.containerImgUrl, NoSources.(hasSnakemakeMetadata := true), false, true)
  }

  /** Metadata applied twice is metadata applied once, to a job found in
      the map or to one it created. */
  lemma {:induction false} MetaUpdateIdempotent(j: Job, sj: SnakemakeJob)
    ensures MetaUpdate(MetaUpdate(j, sj), sj) == MetaUpdate(j, sj)
    ensures MetaUpdate(MetaNew(sj), sj) == MetaNew(sj)
  {
  }

  /** One iteration of `merge_snakemake_jobs`: the key is the output
      path. */
  function MergeMeta(st: PipelineState, sj: SnakemakeJob): (t: PipelineState)
    ensures t.jobs.Keys == st.jobs.Keys + {sj.outputPath}
    ensures forall k :: k in st.jobs && k != sj.outputPath ==> t.jobs[k] == st.jobs[k]
    ensures sj.outputPath in st.jobs ==>
      t.jobs[sj.outputPath] == MetaUpdate(st.jobs[sj.outputPath], sj) && t.jobsByRule == st.jobsByRule
    ensures sj.outputPath !in st.jobs ==>
      t.jobs[sj.outputPath] == MetaNew(sj)
      && t.jobsByRule == st.jobsByRule[sj.metadata.rule := IndexOf(st.jobsByRule, sj.metadata.rule) + [sj.outputPath]]
    ensures t.(jobs := st.jobs, jobsByRule := st.jobsByRule) == st
  {
    var key := sj.outputPath;
    if key in st.jobs then st.(jobs := st.jobs[key := MetaUpdate(st.jobs[key], sj)])
    else
      st.(jobs := st.jobs[key := MetaNew(sj)],
          jobsByRule := st.jobsByRule[sj.metadata.rule := IndexOf(st.jobsByRule, sj.metadata.rule) + [key]])
  }

  /** The loop of `merge_snakemake_jobs`. */
  function MergeMetas(st: PipelineState, sjs: seq<SnakemakeJob>): (t: PipelineState)
    ensures t.jobs.Keys == st.jobs.Keys + set i | 0 <= i < |sjs| :: sjs[i].outputPath
    ensures t.(jobs := st.jobs, jobsByRule := st.jobsByRule) == st
    decreases |sjs|
  {
    if |sjs| == 0 then st
    else
      OutputPathsCons(sjs);
      MergeMetas(MergeMeta(st, sjs[0]), sjs[1..])
  }

  /** The output paths of a batch are the first record's and the rest's. */
  lemma {:induction false} OutputPathsCons(sjs: seq<SnakemakeJob>)
    requires |sjs| > 0
    ensures (set i | 0 <= i < |sjs| :: sjs[i].outputPath)
      == {sjs[0].outputPath} + set i | 0 <= i < |sjs[1..]| :: sjs[1..][i].outputPath
  {
    assert forall i :: 1 <= i < |sjs| ==> sjs[i] == sjs[1..][i - 1];
  }

  /** `merge_snakemake_jobs`: the loop, then the update stamp. */
  function MergeSnakemakeJobs(st: PipelineState, sjs: seq<SnakemakeJob>, now: Timestamp): (t: PipelineState)
    ensures t.jobs.Keys == st.jobs.Keys + set i | 0 <= i < |sjs| :: sjs[i].outputPath
    ensures t.lastUpdated == now && t.runUuid == st.runUuid
  {
    MergeMetas(st, sjs).(lastUpdated := now)
  }

  /** Metadata never changes what the schedulers own: an existing job keeps
      its status, rule, outputs, resources, scheduler id and error through a
      whole batch. */
  lemma {:induction false} MergeMetasKeeps(st: PipelineState, sjs: seq<SnakemakeJob>)
    ensures var t := MergeMetas(st, sjs);
      forall k :: k in st.jobs ==> SchedulerOwned(t.jobs[k]) == SchedulerOwned(st.jobs[k])
    decreases |sjs|
  {
    if |sjs| > 0 {
      MergeMetasKeeps(MergeMeta(st, sjs[0]), sjs[1..]);
    }
  }

  /** The fields only the scheduler merges write, with the rule and
      outputs. */
  function SchedulerOwned(j: Job): (JobStatus, string, seq<string>, JobResources, Option<string>, Option<JobError>) {
    (j.status, j.rule, j.outputs, j.resources, j.schedulerJobId, j.error)
  }

  /** A job whose key is no record's output path is left exactly as it
      was: the metadata and the scheduler meet only where the output path
      equals the scheduler key. */
  lemma {:induction false} MergeMetasFrame(st: PipelineState, sjs: seq<SnakemakeJob>, k: string)
    requires k in st.jobs && forall i :: 0 <= i < |sjs| ==> sjs[i].outputPath != k
    ensures MergeMetas(st, sjs).jobs[k] == st.jobs[k]
    decreases |sjs|
  {
    if |sjs| > 0 {
      assert forall i :: 1 <= i < |sjs| ==> sjs[1..][i - 1] == sjs[i];
      MergeMetasFrame(MergeMeta(st, sjs[0]), sjs[1..], k);
    }
  }

  /** The metadata merge adds to the rule index only the ids of the jobs it
      creates. */
  lemma {:induction false} MergeMetasIndex(st: PipelineState, sjs: seq<SnakemakeJob>)
    ensures IndexGrows(st, MergeMetas(st, sjs))
    decreases |sjs|
  {
    if |sjs| > 0 {
      var st1 := MergeMeta(st, sjs[0]);
      MergeMetaIndex(st, sjs[0]);
      MergeMetasIndex(st1, sjs[1..]);
      IndexGrowsTrans(st, st1, MergeMetas(st1, sjs[1..]));
    } else {
      assert IndexGrows(st, st);
    }
  }

  /** The metadata merge keeps the rule index sound. */
  lemma {:induction false} MergeMetasWellIndexed(st: PipelineState, sjs: seq<SnakemakeJob>)
    requires WellIndexed(st)
    ensures WellIndexed(MergeMetas(st, sjs))
    decreases |sjs|
  {
    if |sjs| > 0 {
      var st1 := MergeMeta(st, sjs[0]);
      MergeMetaWellIndexed(st, sjs[0]);
      MergeMetasWellIndexed(st1, sjs[1..]);
    }
  }

  /** One metadata record adds to the index at most its own path, and only
      when the path is new. */
  lemma {:induction false} MergeMetaIndex(st: PipelineState, sj: SnakemakeJob)
    ensures IndexGrows(st, MergeMeta(st, sj))
  {
    var t := MergeMeta(st, sj);
    if sj.outputPath !in st.jobs {
      forall rule, i | rule in t.jobsByRule && |IndexOf(st.jobsByRule, rule)| <= i < |t.jobsByRule[rule]|
        ensures t.jobsByRule[rule][i] !in st.jobs
      {
        assert rule == sj.metadata.rule && t.jobsByRule[rule][i] == sj.outputPath;
      }
    }
  }

  /** One metadata record keeps the rule index sound. */
  lemma {:induction false} MergeMetaWellIndexed(st: PipelineState, sj: SnakemakeJob)
    requires WellIndexed(st)
    ensures WellIndexed(MergeMeta(st, sj))
  {
    var t := MergeMeta(st, sj);
    var key := sj.outputPath;
    forall rule, i | rule in t.jobsByRule && 0 <= i < |t.jobsByRule[rule]|
      ensures t.jobsByRule[rule][i] in t.jobs && t.jobs[t.jobsByRule[rule][i]].rule == rule
    {
      var id := t.jobsByRule[rule][i];
      if key in st.jobs {
        assert id in st.jobs && st.jobs[id].rule == rule;
      } else if rule == sj.metadata.rule && i == |IndexOf(st.jobsByRule, sj.metadata.rule)| {
        assert id == key;
      } else {
        assert rule in st.jobsByRule && id == st.jobsByRule[rule][i];
      }
    }
  }
}

=== FILE: parsers.dfy ===
/** The shared parsing helpers of charmer-parsers: placeholder filtering,
    pipe-delimited fields, durations, exit codes, memory amounts and the
    placeholder handling around timestamps. */
module Parsers {
  import opened Wrappers
  import opened Text

  /** A point in time, as whole seconds since the Unix epoch. */
  type Timestamp = int

  /** u64 arithmetic as a release build performs it: modulo 2^64. */
  function Wrap64(x: nat): (r: nat)
    ensures r <= U64_MAX
    ensures x <= U64_MAX ==> r == x
  {
    x % (U64_MAX + 1)
  }

  // ---------------------------------------------------------------------
  // Placeholders and fields

  predicate IsPlaceholder(t: string) {
    t == "" || t == "-" || t == "N/A" || t == "Unknown"
  }

  /** `non_empty_string`: the trimmed text, unless it is empty or one of the
      placeholders "-", "N/A", "Unknown". */
  function NonEmptyString(s: string): (r: Option<string>)
    ensures r.None? <==> IsPlaceholder(Trim(s))
    ensures r.Some? ==> r.value == Trim(s) && |r.value| > 0
  {
    var t := Trim(s);
    if IsPlaceholder(t) then None else Some(t)
  }

  /** A value `non_empty_string` returns has no surrounding whitespace and
      is a fixed point of it. */
  lemma {:induction false} NonEmptyStringIdempotent(s: string)
    requires NonEmptyString(s).Some?
    ensures var v := NonEmptyString(s).value;
      !IsWhitespace(v[0]) && !IsWhitespace(v[|v| - 1]) && NonEmptyString(v) == Some(v)
  {
    TrimEdges(s);
    TrimIdempotent(s);
  }

  /** Whitespace around a value that is not a placeholder is dropped. */
  lemma {:induction false} NonEmptyStringPadded(w1: string, v: string, w2: string)
    requires AllWhitespace(w1) && AllWhitespace(w2)
    requires |v| > 0 && !IsWhitespace(v[0]) && !IsWhitespace(v[|v| - 1])
    requires !IsPlaceholder(v)
    ensures NonEmptyString(w1 + v + w2) == Some(v)
  {
    var s := w1 + v + w2;
    LeadingWsPrefix(w1, v + w2);
    assert s == w1 + (v + w2);
    assert TrimStart(s) == v + w2;
    TrailingWsSuffix(v, w2);
    assert TrimEnd(v + w2) == v;
  }

  /** `split_delimited`: the '|'-separated fields when there are at least
      `minFields` of them, otherwise the error message. */
  function SplitDelimited(line: string, minFields: nat): (r: Result<seq<string>, string>)
    ensures r.Ok? <==> CountChar(line, '|') + 1 >= minFields
    ensures r.Ok? ==> |r.value| == CountChar(line, '|') + 1
    ensures r.Err? ==> r.error == "Expected " + NatToString(minFields) + " fields, got "
                         + NatToString(CountChar(line, '|') + 1) + ": " + line
  {
    var fields := Split(line, '|');
    SplitCount(line, '|');
    if |fields| < minFields then
      Err("Expected " + NatToString(minFields) + " fields, got " + NatToString(|fields|) + ": " + line)
    else Ok(fields)
  }

  /** The accepted fields contain no '|' and rejoin to the line. */
  lemma {:induction false} SplitDelimitedRejoin(line: string, minFields: nat)
    requires SplitDelimited(line, minFields).Ok?
    ensures var f := SplitDelimited(line, minFields).value;
      Join(f, "|") == line && forall i :: 0 <= i < |f| ==> Free(f[i], '|')
  {
    JoinSplit(line, '|');
    SplitFree(line, '|');
  }

  /** Joining '|'-free fields and splitting again gives the fields back. */
  lemma {:induction false} SplitDelimitedJoin(fields: seq<string>, minFields: nat)
    requires |fields| >= 1 && |fields| >= minFields
    requires forall i :: 0 <= i < |fields| ==> Free(fields[i], '|')
    ensures SplitDelimited(Join(fields, "|"), minFields) == Ok(fields)
  {
    SplitJoin(fields, '|');
  }

  // ---------------------------------------------------------------------
  // Durations and exit codes

  /** `filter_map(|p| p.parse::<u64>().ok())`: the fields that parse, in order. */
  function ParseEachU64(ps: seq<string>): (r: seq<nat>)
    ensures |r| <= |ps|
    ensures forall i :: 0 <= i < |r| ==> r[i] <= U64_MAX
  {
    if |ps| == 0 then []
    else
      var tail := ParseEachU64(ps[1..]);
      match ParseU64(ps[0])
      case Some(v) => [v] + tail
      case None => tail
  }

  /** The seconds a list of ':'-separated numbers denotes: H:M:S, M:S or S. */
  function ClockSeconds(t: seq<nat>): Option<nat> {
    if |t| == 3 then Some(t[0] * 3600 + t[1] * 60 + t[2])
    else if |t| == 2 then Some(t[0] * 60 + t[1])
    else if |t| == 1 then Some(t[0])
    else None
  }

  /** `parse_duration`, in whole seconds: "D-HH:MM:SS", "HH:MM:SS", "MM:SS"
      or plain seconds; None for "", "UNLIMITED" and "-". A field that does
      not parse as a number is skipped, and an unparsable day count is 0. */
  function ParseDuration(s: string): (r: Option<nat>)
    ensures s == "" || s == "UNLIMITED" || s == "-" ==> r.None?
    ensures r.Some? ==> r.value <= U64_MAX
  {
    if s == "" || s == "UNLIMITED" || s == "-" then None
    else
      var parts := Split(s, '-');
      var days := if |parts| == 2 then ParseU64(parts[0]).GetOr(0) else 0;
      var timePart := if |parts| == 2 then parts[1] else parts[0];
      match ClockSeconds(ParseEachU64(Split(timePart, ':')))
      case None => None
      case Some(secs) => Some(Wrap64(days * 86400 + secs))
  }

  /** The source never defines `parse_duration_secs`; its call sites use it
      as `parse_duration` measured in seconds, which is what this is. */
  function ParseDurationSecs(s: string): (r: Option<nat>)
    ensures r == ParseDuration(s)
  {
    ParseDuration(s)
  }

  /** A non-empty run of ASCII digits whose value fits in a u64. */
  predicate IsNumeral(t: string) {
    |t| > 0 && AllDigits(t) && DigitsValue(t) <= U64_MAX
  }

  lemma {:induction false} NumeralParses(t: string)
    requires IsNumeral(t)
    ensures ParseU64(t) == Some(DigitsValue(t))
    ensures Free(t, '-') && Free(t, ':')
  {
    ParseNatDigits(t, U64_MAX);
    DigitsFree(t, '-');
    DigitsFree(t, ':');
  }

  /** Fields that are all numerals all survive the filter. */
  lemma {:induction false} NumeralFields(ps: seq<string>)
    requires forall i :: 0 <= i < |ps| ==> IsNumeral(ps[i])
    ensures |ParseEachU64(ps)| == |ps|
    ensures forall i :: 0 <= i < |ps| ==> IsNumeral(ps[i]) && ParseEachU64(ps)[i] == DigitsValue(ps[i])
    decreases |ps|
  {
    if |ps| > 0 {
      NumeralParses(ps[0]);
      NumeralFields(ps[1..]);
    }
  }

  /** Without a '-', the whole text is the clock part. */
  lemma {:induction false} ClockPart(text: string, secs: nat)
    requires text != "" && text != "-" && text != "UNLIMITED"
    requires Free(text, '-')
    requires ClockSeconds(ParseEachU64(Split(text, ':'))) == Some(secs)
    requires secs <= U64_MAX
    ensures ParseDuration(text) == Some(secs)
  {
    SplitFreeSingle(text, '-');
  }

  /** The clock value of "H:M:S" with numerals H, M and S. */
  lemma {:induction false} ClockHms(h: string, m: string, s: string)
    requires IsNumeral(h) && IsNumeral(m) && IsNumeral(s)
    ensures Free(h + ":" + m + ":" + s, '-')
    ensures ClockSeconds(ParseEachU64(Split(h + ":" + m + ":" + s, ':')))
         == Some(DigitsValue(h) * 3600 + DigitsValue(m) * 60 + DigitsValue(s))
  {
    NumeralParses(h);
    NumeralParses(m);
    NumeralParses(s);
    SplitThree(h, m, s, ':');
    NumeralFields([h, m, s]);
    FreeAppend(h, ":", '-');
    FreeAppend(h + ":", m, '-');
    FreeAppend(h + ":" + m, ":", '-');
    FreeAppend(h + ":" + m + ":", s, '-');
  }

  /** "H:M:S" with numerals H, M and S is H·3600 + M·60 + S seconds. */
  lemma {:induction false} ParseDurationHms(h: string, m: string, s: string)
    requires IsNumeral(h) && IsNumeral(m) && IsNumeral(s)
    requires DigitsValue(h) * 3600 + DigitsValue(m) * 60 + DigitsValue(s) <= U64_MAX
    ensures ParseDuration(h + ":" + m + ":" + s)
         == Some(DigitsValue(h) * 3600 + DigitsValue(m) * 60 + DigitsValue(s))
  {
    var text := h + ":" + m + ":" + s;
    ClockHms(h, m, s);
    assert text[|h|] == ':';
    assert text != "-" && text != "UNLIMITED";
    ClockPart(text, DigitsValue(h) * 3600 + DigitsValue(m) * 60 + DigitsValue(s));
  }

  /** "M:S" with numerals M and S is M·60 + S seconds. */
  lemma {:induction false} ParseDurationMs(m: string, s: string)
    requires IsNumeral(m) && IsNumeral(s)
    requires DigitsValue(m) * 60 + DigitsValue(s) <= U64_MAX
    ensures ParseDuration(m + ":" + s) == Some(DigitsValue(m) * 60 + DigitsValue(s))
  {
    var text := m + ":" + s;
    NumeralParses(m);
    NumeralParses(s);
    SplitTwo(m, s, ':');
    NumeralFields([m, s]);
    assert text[|m|] == ':';
    FreeAppend(m, ":", '-');
    FreeAppend(m + ":", s, '-');
    ClockPart(text, DigitsValue(m) * 60 + DigitsValue(s));
  }

  /** A lone numeral is that many seconds. */
  lemma {:induction false} ParseDurationS(s: string)
    requires IsNumeral(s)
    ensures ParseDuration(s) == Some(DigitsValue(s))
  {
    NumeralParses(s);
    SplitFreeSingle(s, ':');
    NumeralFields([s]);
    AllDigitsAt(s);
    assert IsDigit(s[0]);
    ClockPart(s, DigitsValue(s));
  }

  /** "D-H:M:S" is D·86400 + H·3600 + M·60 + S seconds. */
  lemma {:induction false} ParseDurationDhms(d: string, h: string, m: string, s: string)
    requires IsNumeral(d) && IsNumeral(h) && IsNumeral(m) && IsNumeral(s)
    requires DigitsValue(d) * 86400 + DigitsValue(h) * 3600 + DigitsValue(m) * 60 + DigitsValue(s) <= U64_MAX
    ensures ParseDuration(d + "-" + h + ":" + m + ":" + s)
         == Some(DigitsValue(d) * 86400 + DigitsValue(h) * 3600 + DigitsValue(m) * 60 + DigitsValue(s))
  {
    var clock := h + ":" + m + ":" + s;
    var text := d + "-" + clock;
    ClockHms(h, m, s);
    NumeralParses(d);
    SplitTwo(d, clock, '-');
    assert text[|d|] == '-';
    assert text != "UNLIMITED";
    assert d + "-" + h + ":" + m + ":" + s == text;
    ParseDurationWithDays(text, DigitsValue(d), clock,
      DigitsValue(h) * 3600 + DigitsValue(m) * 60 + DigitsValue(s));
  }

  /** The last step of `parse_duration` when there is a day part. */
  lemma {:induction false} ParseDurationWithDays(text: string, days: nat, clock: string, secs: nat)
    requires text != "" && text != "-" && text != "UNLIMITED"
    requires Split(text, '-') == [Split(text, '-')[0], clock]
    requires ParseU64(Split(text, '-')[0]) == Some(days)
    requires ClockSeconds(ParseEachU64(Split(clock, ':'))) == Some(secs)
    requires days * 86400 + secs <= U64_MAX
    ensures ParseDuration(text) == Some(days * 86400 + secs)
  {
  }

  /** The source's test vector "1:00:00" is an hour. */
  lemma {:induction false} ParseDurationHourExample(a: string)
    requires a == "1:00:00"
    ensures ParseDuration(a) == Some(3600)
  {
    var one, zero := NatToString(1), Pad2(0);
    assert one == "1" && zero == "00";
    ParseDurationHms(one, zero, zero);
    assert a == one + ":" + zero + ":" + zero;
  }

  /** The source's test vector "1-00:00:00" is a day. */
  lemma {:induction false} ParseDurationDayExample(b: string)
    requires b == "1-00:00:00"
    ensures ParseDuration(b) == Some(86400)
  {
    var one, zero := NatToString(1), Pad2(0);
    assert one == "1" && zero == "00";
    ParseDurationDhms(one, zero, zero, zero);
    assert b == one + "-" + zero + ":" + zero + ":" + zero;
  }

  /** The source's test vector "30:00" is half an hour. */
  lemma {:induction false} ParseDurationHalfHourExample(c: string)
    requires c == "30:00"
    ensures ParseDuration(c) == Some(1800)
  {
    var thirty, zero := NatToString(30), Pad2(0);
    assert thirty == "30" && zero == "00";
    ParseDurationMs(thirty, zero);
    assert c == thirty + ":" + zero;
  }

  /** The source's test vector "3600" is plain seconds. */
  lemma {:induction false} ParseDurationSecondsExample(d: string)
    requires d == "3600"
    ensures ParseDuration(d) == Some(3600)
  {
    var big := NatToString(3600);
    assert big == "3600";
    ParseDurationS(big);
  }

  /** `parse_exit_code`: the number before the first ':' of "code:signal",
      or 0 when it does not parse as an i32. */
  function ParseExitCode(s: string): (r: int)
    ensures I32_MIN <= r <= I32_MAX
  {
    ParseI32(Split(s, ':')[0]).GetOr(0)
  }

  /** Without a ':', the whole text is the code. */
  lemma {:induction false} ParseExitCodeNoSignal(s: string)
    requires Free(s, ':')
    ensures ParseExitCode(s) == ParseI32(s).GetOr(0)
  {
    SplitFreeSingle(s, ':');
  }

  /** The exit code part of a rendered "code:signal" pair is recovered. */
  lemma {:induction false} ParseExitCodeOfPair(code: nat, signal: nat)
    requires code <= I32_MAX
    ensures ParseExitCode(NatToString(code) + ":" + NatToString(signal)) == code
  {
    var a := NatToString(code);
    var b := NatToString(signal);
    DigitsFree(a, ':');
    DigitsFree(b, ':');
    SplitTwo(a, b, ':');
    ParseIntToString(code, I32_MIN, I32_MAX);
  }

  /** The source's test vectors "0:0", "1:0", "137:9" and "". */
  lemma {:induction false} ParseExitCodeExamples(a: string, b: string, c: string)
    requires a == "0:0" && b == "1:0" && c == "137:9"
    ensures ParseExitCode(a) == 0 && ParseExitCode(b) == 1 && ParseExitCode(c) == 137
    ensures ParseExitCode("") == 0
  {
    ParseExitCodeOfPair(0, 0);
    ParseExitCodeOfPair(1, 0);
    ParseExitCodeOfPair(137, 9);
    assert NatToString(0) == "0" && NatToString(1) == "1";
    assert NatToString(137) == "137" && NatToString(9) == "9";
    assert a == NatToString(0) + ":" + NatToString(0);
    assert b == NatToString(1) + ":" + NatToString(0);
    assert c == NatToString(137) + ":" + NatToString(9);
  }

  // ---------------------------------------------------------------------
  // Timestamps

  /** `parse_slurm_timestamp`: None for the placeholders, otherwise whatever
      the calendar parser (`%Y-%m-%dT%H:%M:%S`) makes of the text. */
  function ParseSlurmTimestamp(s: string, calendar: string -> Option<Timestamp>): (r: Option<Timestamp>)
    ensures s == "" || s == "N/A" || s == "Unknown" || s == "None" ==> r.None?
    ensures !(s == "" || s == "N/A" || s == "Unknown" || s == "None") ==> r == calendar(s)
  {
    if s == "" || s == "N/A" || s == "Unknown" || s == "None" then None else calendar(s)
  }

  /** `parse_lsf_timestamp`: None for "" and "-"; otherwise the text parsed
      as "Mon DD HH:MM YYYY", or failing that with the current year
      appended. */
  function ParseLsfTimestamp(s: string, currentYear: int, calendar: string -> Option<Timestamp>): (r: Option<Timestamp>)
    ensures s == "" || s == "-" ==> r.None?
    ensures s != "" && s != "-" && calendar(s).Some? ==> r == calendar(s)
    ensures s != "" && s != "-" && calendar(s).None? ==> r == calendar(s + " " + IntToString(currentYear))
  {
    if s == "" || s == "-" then None
    else calendar(s).Or(calendar(s + " " + IntToString(currentYear)))
  }

  // ---------------------------------------------------------------------
  // Memory

  datatype MemoryFormat = Slurm | SlurmSacct | Lsf

  /** SLURM memory: a number with an optional G, M or K suffix, in MB. */
  function ParseSlurmMemory(s0: string): (r: Option<nat>)
    ensures r.Some? ==> r.value <= U64_MAX
  {
    var s := Trim(s0);
    if EndsWith(s, "G") then
      match ParseU64(s[..|s| - 1])
      case Some(v) => Some(Wrap64(v * 1024))
      case None => None
    else if EndsWith(s, "M") then ParseU64(s[..|s| - 1])
    else if EndsWith(s, "K") then
      match ParseU64(s[..|s| - 1])
      case Some(v) => Some(v / 1024)
      case None => None
    else ParseU64(s)
  }

  /** sacct memory: as SLURM memory after dropping the per-node 'n' and
      per-core 'c' markers. */
  function ParseSlurmSacctMemory(s: string): (r: Option<nat>)
    ensures r.Some? ==> r.value <= U64_MAX
  {
    ParseSlurmMemory(TrimEndChar(TrimEndChar(Trim(s), 'n'), 'c'))
  }

  /** A decimal number as `f64::from_str` reads it, kept exact: `num / den`
      with an optional sign, digits and an optional fractional part. */
  datatype Decimal = Decimal(num: int, den: nat)

  function Pow10(n: nat): (r: nat)
    ensures r >= 1
  {
    if n == 0 then 1 else 10 * Pow10(n - 1)
  }

  function ParseUnsignedDecimal(s: string): (r: Option<Decimal>)
    ensures r.Some? ==> r.value.num >= 0 && r.value.den >= 1
    ensures |s| > 0 && AllDigits(s) ==> r == Some(Decimal(DigitsValue(s), 1))
    ensures Free(s, '.') && !(|s| > 0 && AllDigits(s)) ==> r.None?
  {
    var parts := Split(s, '.');
    assert AllDigits(s) || Free(s, '.') ==> parts == [s] by {
      if AllDigits(s) { DigitsFree(s, '.'); }
      if Free(s, '.') { SplitFreeSingle(s, '.'); }
    }
    if |parts| == 1 then
      if |s| > 0 && AllDigits(s) then Some(Decimal(DigitsValue(s), 1)) else None
    else if |parts| == 2 then
      var ip := parts[0];
      var fp := parts[1];
      if |ip| + |fp| == 0 || !AllDigits(ip + fp) then None
      else Some(Decimal(DigitsValue(ip + fp), Pow10(|fp|)))
    else None
  }

  function ParseDecimal(s: string): (r: Option<Decimal>)
    ensures r.Some? ==> r.value.den >= 1
    ensures r.Some? && |s| > 0 && s[0] == '-' ==> r.value.num <= 0
    ensures r.Some? && !(|s| > 0 && s[0] == '-') ==> r.value.num >= 0
    ensures r.Some? ==> |s| > 0
  {
    if |s| > 0 && s[0] == '-' then
      match ParseUnsignedDecimal(s[1..])
      case Some(d) => Some(Decimal(-d.num, d.den))
      case None => None
    else if |s| > 0 && s[0] == '+' then ParseUnsignedDecimal(s[1..])
    else ParseUnsignedDecimal(s)
  }

  /** A whole number reads as itself over 1. */
  lemma {:induction false} ParseDecimalWhole(n: nat)
    ensures ParseDecimal(NatToString(n)) == Some(Decimal(n, 1))
  {
    var d := NatToString(n);
    DigitsFree(d, '.');
    SplitFreeSingle(d, '.');
    AllDigitsAt(d);
  }

  /** `as u64` on a float: truncated toward zero, negatives become 0 and
      values above the range become `u64::MAX`. */
  function SaturatingU64(num: int, den: nat): (r: nat)
    requires den >= 1
    ensures r <= U64_MAX
    ensures 0 <= num && num / den <= U64_MAX ==> r == num / den
    ensures num <= 0 ==> r == 0
    ensures num / den > U64_MAX ==> r == U64_MAX
  {
    if num <= 0 then 0
    else if num / den > U64_MAX then U64_MAX
    else num / den
  }

  /** LSF memory: "<number> <unit>", with GB/G, MB/M/none and KB/K in any
      case; any other unit is read as MB. */
  function ParseLsfMemory(s: string): (r: Option<nat>)
    ensures r.Some? ==> r.value <= U64_MAX
    ensures |SplitWhitespace(s)| == 0 ==> r.None?
  {
    var parts := SplitWhitespace(s);
    if |parts| == 0 then None
    else
      match ParseDecimal(parts[0])
      case None => None
      case Some(v) =>
        var unit := if |parts| > 1 then ToUpper(parts[1]) else "";
        if unit == "GB" || unit == "G" then Some(SaturatingU64(v.num * 1024, v.den))
        else if unit == "KB" || unit == "K" then Some(SaturatingU64(v.num, v.den * 1024))
        else Some(SaturatingU64(v.num, v.den))
  }

  /** `parse_memory_mb`: None for "" and "-", otherwise the format's parser. */
  function ParseMemoryMb(s: string, format: MemoryFormat): (r: Option<nat>)
    ensures s == "" || s == "-" ==> r.None?
    ensures r.Some? ==> r.value <= U64_MAX
  {
    if s == "" || s == "-" then None
    else
      match format
      case Slurm => ParseSlurmMemory(s)
      case SlurmSacct => ParseSlurmSacctMemory(s)
      case Lsf => ParseLsfMemory(s)
  }

  /** A rendered number with a one-letter suffix: trimming leaves it alone
      and cutting the letter gives the digits back. */
  lemma {:induction false} Suffixed(n: nat, u: char)
    requires !IsWhitespace(u)
    ensures var t := NatToString(n) + [u];
      Trim(t) == t && t[..|t| - 1] == NatToString(n) && EndsWith(t, [u])
  {
    var d := NatToString(n);
    var t := d + [u];
    AllDigitsAt(d);
    assert t[0] == d[0];
    TrimNoEdges(t);
    assert t[..|t| - 1] == d;
    assert t[|t| - 1..] == [u];
  }

  /** A rendered number has no suffix letter and is not a placeholder. */
  lemma {:induction false} Unsuffixed(n: nat)
    ensures var d := NatToString(n);
      Trim(d) == d && !EndsWith(d, "G") && !EndsWith(d, "M") && !EndsWith(d, "K")
      && d != "" && d != "-"
  {
    var d := NatToString(n);
    AllDigitsAt(d);
    TrimNoEdges(d);
    assert d[|d| - 1..] == [d[|d| - 1]];
  }

  /** "<n>G" is n gibibytes, in MB (wrapping like u64 arithmetic). */
  lemma {:induction false} SlurmMemoryG(n: nat)
    requires n <= U64_MAX
    ensures ParseMemoryMb(NatToString(n) + "G", Slurm) == Some(Wrap64(n * 1024))
  {
    Suffixed(n, 'G');
    ParseNatToString(n, U64_MAX);
  }

  /** "<n>M" is n megabytes. */
  lemma {:induction false} SlurmMemoryM(n: nat)
    requires n <= U64_MAX
    ensures ParseMemoryMb(NatToString(n) + "M", Slurm) == Some(n)
  {
    Suffixed(n, 'M');
    ParseNatToString(n, U64_MAX);
  }

  /** "<n>K" is n kibibytes, rounded down to whole MB. */
  lemma {:induction false} SlurmMemoryK(n: nat)
    requires n <= U64_MAX
    ensures ParseMemoryMb(NatToString(n) + "K", Slurm) == Some(n / 1024)
  {
    Suffixed(n, 'K');
    ParseNatToString(n, U64_MAX);
  }

  /** A bare number is megabytes, in every SLURM format. */
  lemma {:induction false} SlurmMemoryPlain(n: nat)
    requires n <= U64_MAX
    ensures ParseMemoryMb(NatToString(n), Slurm) == Some(n)
    ensures ParseMemoryMb(NatToString(n), SlurmSacct) == Some(n)
  {
    var d := NatToString(n);
    Unsuffixed(n);
    ParseNatToString(n, U64_MAX);
    assert TrimEndChar(d, 'n') == d;
    assert TrimEndChar(d, 'c') == d;
  }

  /** The sacct format is the SLURM format applied to the text left after
      trimming and cutting the markers. */
  lemma {:induction false} SacctReduces(s: string, t: string)
    requires s != "" && s != "-" && t != "" && t != "-"
    requires TrimEndChar(TrimEndChar(Trim(s), 'n'), 'c') == t
    ensures ParseMemoryMb(s, SlurmSacct) == ParseMemoryMb(t, Slurm)
  {
  }

  /** sacct's per-node 'n' marker after a unit letter does not change the
      amount. */
  lemma {:induction false} SacctPerNode(n: nat, u: char)
    requires u == 'G' || u == 'M' || u == 'K'
    ensures ParseMemoryMb(NatToString(n) + [u] + "n", SlurmSacct)
         == ParseMemoryMb(NatToString(n) + [u], Slurm)
  {
    var base := NatToString(n) + [u];
    var t := base + "n";
    Suffixed(n, u);
    TrimNoEdges(t);
    TrimEndCharOne(base, 'n');
    TrimEndCharStop(base, 'c');
    assert base[0] == t[0];
    SacctReduces(t, base);
  }

  /** sacct's per-core 'c' marker after a unit letter does not change the
      amount. */
  lemma {:induction false} SacctPerCore(n: nat, u: char)
    requires u == 'G' || u == 'M' || u == 'K'
    ensures ParseMemoryMb(NatToString(n) + [u] + "c", SlurmSacct)
         == ParseMemoryMb(NatToString(n) + [u], Slurm)
  {
    var base := NatToString(n) + [u];
    var t := base + "c";
    Suffixed(n, u);
    TrimNoEdges(t);
    TrimEndCharStop(t, 'n');
    TrimEndCharOne(base, 'c');
    assert base[0] == t[0];
    SacctReduces(t, base);
  }

  /** The tokens of "<n> <unit>". */
  lemma {:induction false} LsfTokens(n: nat, unit: string)
    requires |unit| > 0 && NoWhitespace(unit)
    ensures var t := NatToString(n) + " " + unit;
      SplitWhitespace(t) == [NatToString(n), unit] && t != "" && t != "-"
  {
    var d := NatToString(n);
    AllDigitsAt(d);
    assert NoWhitespace(d);
    SplitWhitespaceCons(unit, "");
    assert unit + "" == unit;
    SplitWhitespaceSkip(" ", unit);
    SplitWhitespaceCons(d, " " + unit);
    assert d + " " + unit == d + (" " + unit);
    assert (d + " " + unit)[0] == d[0];
  }

  /** The single token of "<n>". */
  lemma {:induction false} LsfToken(n: nat)
    ensures SplitWhitespace(NatToString(n)) == [NatToString(n)]
  {
    var d := NatToString(n);
    AllDigitsAt(d);
    assert NoWhitespace(d);
    SplitWhitespaceCons(d, "");
    assert d + "" == d;
  }

  /** The LSF format on "<text> <unit>" where the text is a rendered whole
      number. */
  lemma {:induction false} LsfWhole(n: nat, s: string, unit: string)
    requires SplitWhitespace(s) == [NatToString(n), unit] && s != "" && s != "-"
    ensures ParseMemoryMb(s, Lsf) == Some(
      if ToUpper(unit) == "GB" || ToUpper(unit) == "G" then SaturatingU64(n * 1024, 1)
      else if ToUpper(unit) == "KB" || ToUpper(unit) == "K" then SaturatingU64(n, 1024)
      else SaturatingU64(n, 1))
  {
    ParseDecimalWhole(n);
  }

  /** "<n> GB" is n gibibytes. */
  lemma {:induction false} LsfGb(n: nat)
    requires n * 1024 <= U64_MAX
    ensures ParseMemoryMb(NatToString(n) + " GB", Lsf) == Some(n * 1024)
  {
    LsfTokens(n, "GB");
    assert NatToString(n) + " GB" == NatToString(n) + " " + "GB";
    assert ToUpper("GB") == "GB";
    LsfWhole(n, NatToString(n) + " GB", "GB");
  }

  /** "<n> MB" is n megabytes. */
  lemma {:induction false} LsfMb(n: nat)
    requires n <= U64_MAX
    ensures ParseMemoryMb(NatToString(n) + " MB", Lsf) == Some(n)
  {
    LsfTokens(n, "MB");
    assert NatToString(n) + " MB" == NatToString(n) + " " + "MB";
    assert ToUpper("MB") == "MB";
    LsfWhole(n, NatToString(n) + " MB", "MB");
  }

  /** "<n> KB" is n kibibytes, rounded down to whole MB. */
  lemma {:induction false} LsfKb(n: nat)
    requires n <= U64_MAX
    ensures ParseMemoryMb(NatToString(n) + " KB", Lsf) == Some(n / 1024)
  {
    LsfTokens(n, "KB");
    assert NatToString(n) + " KB" == NatToString(n) + " " + "KB";
    assert ToUpper("KB") == "KB";
    LsfWhole(n, NatToString(n) + " KB", "KB");
  }

  /** A bare number is megabytes in the LSF format too. */
  lemma {:induction false} LsfPlain(n: nat)
    requires n <= U64_MAX
    ensures ParseMemoryMb(NatToString(n), Lsf) == Some(n)
  {
    var d := NatToString(n);
    assert d != "" && d != "-" by {
      AllDigitsAt(d);
      assert IsDigit(d[0]);
    }
    LsfToken(n);
    ParseDecimalWhole(n);
    assert ParseLsfMemory(d) == Some(SaturatingU64(n, 1));
  }

  /** LSF's "<n> GB", "<n> MB", "<n> KB" and "<n>" agree with SLURM's
      "<n>G", "<n>M", "<n>K" and "<n>" on whole numbers in range. */
  lemma {:induction false} LsfAgreesWithSlurm(n: nat)
    requires n * 1024 <= U64_MAX
    ensures ParseMemoryMb(NatToString(n) + " GB", Lsf) == ParseMemoryMb(NatToString(n) + "G", Slurm)
    ensures ParseMemoryMb(NatToString(n) + " MB", Lsf) == ParseMemoryMb(NatToString(n) + "M", Slurm)
    ensures ParseMemoryMb(NatToString(n) + " KB", Lsf) == ParseMemoryMb(NatToString(n) + "K", Slurm)
    ensures ParseMemoryMb(NatToString(n), Lsf) == ParseMemoryMb(NatToString(n), Slurm)
  {
    LsfGb(n);
    SlurmMemoryG(n);
    LsfMb(n);
    SlurmMemoryM(n);
    LsfKb(n);
    SlurmMemoryK(n);
    LsfPlain(n);
    SlurmMemoryPlain(n);
  }
}

=== FILE: pipeline.dfy ===
/** `PipelineState`: the job map, the per-rule index and the pipeline-level
    facts from the main log, with the job counts, the time-remaining
    estimate and the update from the main log's information. */
module Pipeline {
  import opened Wrappers
  import opened Text
  import opened Parsers
  import opened StateTypes
  import ML = MainLog

  datatype PipelineState = PipelineState(
    runUuid: Option<string>,
    jobs: map<string, Job>,
    jobsByRule: map<string, seq<string>>,
    lastUpdated: Timestamp,
    totalJobs: Option<nat>,
    cores: Option<nat>,
    host: Option<string>,
    pipelineFinished: bool,
    pipelineErrors: seq<PipelineError>)

  /** `PipelineState::new`, stamped with the caller's clock. */
  function NewState(now: Timestamp): (r: PipelineState)
    ensures |r.jobs| == 0 && |r.jobsByRule| == 0 && !r.pipelineFinished && r.runUuid.None?
  {
    PipelineState(None, map[], map[], now, None, None, None, false, [])
  }

  // ---------------------------------------------------------------------
  // Job counts

  datatype JobCounts = JobCounts(
    total: nat,
    pending: nat,
    queued: nat,
    running: nat,
    completed: nat,
    failed: nat,
    cancelled: nat,
    unknown: nat)

  /** The count `c` keeps for status `s`. */
  function CountOf(c: JobCounts, s: JobStatus): nat {
    match s
    case Pending => c.pending
    case Queued => c.queued
    case Running => c.running
    case Completed => c.completed
    case Failed => c.failed
    case Cancelled => c.cancelled
    case Unknown => c.unknown
  }

  /** The ids of the jobs with status `s`. */
  function WithStatus(jobs: map<string, Job>, s: JobStatus): set<string> {
    set id | id in jobs && jobs[id].status == s
  }

  /** `job_counts`: the number of jobs in each status, and the number of
      jobs. */
  function CountJobs(jobs: map<string, Job>): (r: JobCounts)
    ensures r.total == |jobs|
    ensures forall s :: CountOf(r, s) == |WithStatus(jobs, s)|
  {
    JobCounts(|jobs|,
      |WithStatus(jobs, Pending)|, |WithStatus(jobs, Queued)|, |WithStatus(jobs, Running)|,
      |WithStatus(jobs, Completed)|, |WithStatus(jobs, Failed)|, |WithStatus(jobs, JobStatus.Cancelled)|,
      |WithStatus(jobs, JobStatus.Unknown)|)
  }

  function CountSum(c: JobCounts): nat {
    c.pending + c.queued + c.running + c.completed + c.failed + c.cancelled + c.unknown
  }

  /** Removing one job lowers exactly the count of its status. */
  lemma {:induction false} WithStatusRemove(jobs: map<string, Job>, k: string, s: JobStatus)
    requires k in jobs
    ensures |WithStatus(jobs, s)| == |WithStatus(jobs - {k}, s)| + (if jobs[k].status == s then 1 else 0)
  {
    var rest := jobs - {k};
    var a, b := WithStatus(jobs, s), WithStatus(rest, s);
    var extra: set<string> := if jobs[k].status == s then {k} else {};
    forall x ensures x in a <==> x in b + extra {
      if x != k {
        assert x in jobs <==> x in rest;
      }
    }
    assert a == b + extra;
    assert k !in b;
  }

  /** Removing one job lowers the map's size by one. */
  lemma {:induction false} MapRemoveSize(jobs: map<string, Job>, k: string)
    requires k in jobs
    ensures |jobs - {k}| == |jobs| - 1
  {
    assert (jobs - {k}).Keys == jobs.Keys - {k};
  }

  /** Removing one job lowers the counts' sum by one. */
  lemma {:induction false} CountJobsRemove(jobs: map<string, Job>, k: string)
    requires k in jobs
    ensures CountSum(CountJobs(jobs)) == CountSum(CountJobs(jobs - {k})) + 1
  {
    var a, b := CountJobs(jobs), CountJobs(jobs - {k});
    forall s: JobStatus ensures CountOf(a, s) == CountOf(b, s) + (if jobs[k].status == s then 1 else 0) {
      WithStatusRemove(jobs, k, s);
    }
    match jobs[k].status
    case Pending => assert CountOf(a, Pending) == CountOf(b, Pending) + 1;
    case Queued => assert CountOf(a, Queued) == CountOf(b, Queued) + 1;
    case Running => assert CountOf(a, Running) == CountOf(b, Running) + 1;
    case Completed => assert CountOf(a, Completed) == CountOf(b, Completed) + 1;
    case Failed => assert CountOf(a, Failed) == CountOf(b, Failed) + 1;
    case Cancelled => assert CountOf(a, JobStatus.Cancelled) == CountOf(b, JobStatus.Cancelled) + 1;
    case Unknown => assert CountOf(a, JobStatus.Unknown) == CountOf(b, JobStatus.Unknown) + 1;
  }

  /** Every job is counted in exactly one status: the seven counts add up
      to the total. */
  lemma {:induction false} CountJobsSum(jobs: map<string, Job>)
    ensures CountSum(CountJobs(jobs)) == CountJobs(jobs).total
    decreases |jobs|
  {
    if |jobs| > 0 {
      var k :| k in jobs;
      CountJobsRemove(jobs, k);
      MapRemoveSize(jobs, k);
      CountJobsSum(jobs - {k});
    } else {
      assert forall s :: WithStatus(jobs, s) == {};
    }
  }

  // ---------------------------------------------------------------------
  // Time remaining

  /** `order` lists each job id exactly once: the iteration order of the
      job map, which the sums below do not depend on in the source but
      which the model makes explicit. */
  predicate EnumeratesKeys(order: seq<string>, jobs: map<string, Job>) {
    (forall i :: 0 <= i < |order| ==> order[i] in jobs)
    && (forall id :: id in jobs ==> exists i :: 0 <= i < |order| && order[i] == id)
    && (forall i, j :: 0 <= i < j < |order| ==> order[i] != order[j])
  }

  /** The run time of a finished job, negative spans counting as zero. */
  function Runtime(j: Job): nat
    requires j.timing.startedAt.Some? && j.timing.completedAt.Some?
  {
    var d := j.timing.completedAt.value - j.timing.startedAt.value;
    if d < 0 then 0 else d
  }

  predicate Timed(j: Job) {
    j.status == Completed && j.timing.startedAt.Some? && j.timing.completedAt.Some?
  }

  /** The summed run time and the number of completed jobs with both
      timestamps, over the ids in `order`. */
  function TimedTotals(jobs: map<string, Job>, order: seq<string>): (r: (nat, nat))
    requires forall i :: 0 <= i < |order| ==> order[i] in jobs
    ensures r.1 <= |order|
    ensures r.1 == 0 ==> r.0 == 0
    decreases |order|
  {
    if |order| == 0 then (0, 0)
    else
      var rest := TimedTotals(jobs, order[1..]);
      var j := jobs[order[0]];
      if Timed(j) then (rest.0 + Runtime(j), rest.1 + 1) else rest
  }

  /** A timed job is found by the sum, so no timed job means a zero count. */
  lemma {:induction false} TimedTotalsCount(jobs: map<string, Job>, order: seq<string>)
    requires forall i :: 0 <= i < |order| ==> order[i] in jobs
    ensures TimedTotals(jobs, order).1 == 0 <==> forall i :: 0 <= i < |order| ==> !Timed(jobs[order[i]])
    decreases |order|
  {
    if |order| > 0 {
      TimedTotalsCount(jobs, order[1..]);
      assert forall i :: 1 <= i < |order| ==> order[i] == order[1..][i - 1];
    }
  }

  function SatSub(a: nat, b: nat): nat {
    if a >= b then a - b else 0
  }

  /** The pieces of the estimate: the average run time of timed jobs, the
      jobs still to finish, and the running count. */
  function EtaFormula(avg: nat, remaining: nat, running: nat): nat {
    running * avg / 2 + SatSub(remaining, running) * avg
  }

  /** The mean run time of the timed jobs, given their total and count. */
  function Average(tt: (nat, nat)): nat
    requires tt.1 > 0
  {
    tt.0 / tt.1
  }

  /** The estimate is trusted once at least three jobs and at least a fifth
      of the total are completed. */
  predicate Confident(completed: nat, total: nat) {
    completed > 2 && completed * 5 >= total
  }

  /** `estimate_eta`: None when no job is completed or none has both
      timestamps; otherwise half the average run time for each running job
      plus the full average for each job not yet started, and whether the
      estimate is trusted. The total is the main log's job total when
      known, else the number of jobs. */
  function EstimateEta(st: PipelineState, order: seq<string>): (r: Option<(nat, bool)>)
    requires EnumeratesKeys(order, st.jobs)
    ensures var c := CountJobs(st.jobs); var tt := TimedTotals(st.jobs, order);
      r.None? <==> c.completed == 0 || tt.1 == 0
    ensures var c := CountJobs(st.jobs); var total := st.totalJobs.GetOr(c.total);
      var tt := TimedTotals(st.jobs, order);
      r.Some? ==> tt.1 > 0 && r.value == (EtaFormula(Average(tt), SatSub(total, c.completed), c.running), Confident(c.completed, total))
  {
    var c := CountJobs(st.jobs);
    var total := st.totalJobs.GetOr(c.total);
    if c.completed == 0 then None
    else
      var tt := TimedTotals(st.jobs, order);
      if tt.1 == 0 then None
      else Some((EtaFormula(Average(tt), SatSub(total, c.completed), c.running), Confident(c.completed, total)))
  }

  /** The estimate never exceeds the average run time for every job still
      to finish, and is zero when nothing remains and nothing runs. */
  lemma {:induction false} EtaFormulaBounds(avg: nat, remaining: nat, running: nat)
    requires running <= remaining
    ensures EtaFormula(avg, remaining, running) <= remaining * avg
    ensures remaining == 0 ==> EtaFormula(avg, remaining, running) == 0
  {
    assert running * avg / 2 <= running * avg;
    assert SatSub(remaining, running) * avg == remaining * avg - running * avg by {
      assert SatSub(remaining, running) == remaining - running;
    }
  }

  /** A produced estimate is at most the average run time for every job
      still to finish (when no more jobs run than remain), zero when none
      remains, and trusted only with at least three and a fifth completed. */
  lemma {:induction false} EstimateEtaBounds(st: PipelineState, order: seq<string>)
    requires EnumeratesKeys(order, st.jobs)
    ensures EstimateEta(st, order).Some? ==>
      var c := CountJobs(st.jobs); var total := st.totalJobs.GetOr(c.total);
      var tt := TimedTotals(st.jobs, order); var remaining := SatSub(total, c.completed);
      var e := EstimateEta(st, order).value;
      && c.completed > 0 && tt.1 > 0
      && (c.running <= remaining ==> e.0 <= remaining * Average(tt))
      && (c.running <= remaining && remaining == 0 ==> e.0 == 0)
      && (e.1 <==> c.completed >= 3 && c.completed * 5 >= total)
  {
    var c := CountJobs(st.jobs);
    var total := st.totalJobs.GetOr(c.total);
    var tt := TimedTotals(st.jobs, order);
    if EstimateEta(st, order).Some? && c.running <= SatSub(total, c.completed) {
      EtaFormulaBounds(Average(tt), SatSub(total, c.completed), c.running);
    }
  }

  /** More running jobs, with the rest of the work fixed, never raise the
      estimate. */
  lemma {:induction false} EtaFormulaRunningHelps(avg: nat, remaining: nat, running: nat)
    requires running < remaining
    ensures EtaFormula(avg, remaining, running + 1) <= EtaFormula(avg, remaining, running)
  {
    assert (running + 1) * avg == running * avg + avg;
    assert SatSub(remaining, running) * avg == SatSub(remaining, running + 1) * avg + avg;
  }

  /** `eta_string`'s time: "XhYm" from an hour, "Ym" from a minute, else
      "Xs". */
  function FormatEtaTime(secs: nat): (r: string)
    ensures |r| > 0 && (r[|r| - 1] == 's' <==> secs < 60) && (r[|r| - 1] == 'm' <==> secs >= 60)
  {
    if secs >= 3600 then NatToString(secs / 3600) + "h" + NatToString(secs % 3600 / 60) + "m"
    else if secs >= 60 then NatToString(secs / 60) + "m"
    else NatToString(secs) + "s"
  }

  /** Reads a time written by `FormatEtaTime` back as seconds. */
  function ReadEtaTime(t: string): Option<nat> {
    if |t| == 0 then None
    else
      var body := t[..|t| - 1];
      if t[|t| - 1] == 's' then DigitsOf(body)
      else if t[|t| - 1] != 'm' then None
      else
        match Find(body, "h")
        case None =>
          (match DigitsOf(body) case Some(m) => Some(m * 60) case None => None)
        case Some(i) =>
          match (DigitsOf(body[..i]), DigitsOf(body[i + 1..]))
          case (Some(h), Some(m)) => Some(h * 3600 + m * 60)
          case _ => None
  }

  function DigitsOf(s: string): Option<nat> {
    if |s| > 0 && AllDigits(s) then Some(DigitsValue(s)) else None
  }

  lemma {:induction false} DigitsOfString(n: nat)
    ensures DigitsOf(NatToString(n)) == Some(n)
  {
  }

  /** The rendering drops only the seconds of times of a minute or more:
      reading it back gives the time rounded down to whole minutes. */
  lemma {:induction false} EtaTimeRoundTrip(secs: nat)
    ensures ReadEtaTime(FormatEtaTime(secs)) == Some(if secs >= 60 then secs / 60 * 60 else secs)
  {
    var t := FormatEtaTime(secs);
    if secs >= 3600 {
      ReadHoursMinutes(secs / 3600, secs % 3600 / 60);
      WholeMinutes(secs);
    } else if secs >= 60 {
      ReadMinutes(secs / 60);
    } else {
      assert t[..|t| - 1] == NatToString(secs);
    }
  }

  lemma {:induction false} WholeMinutes(secs: nat)
    ensures secs / 3600 * 3600 + secs % 3600 / 60 * 60 == secs / 60 * 60
  {
    var h := secs / 3600;
    var r := secs % 3600;
    assert secs == h * 3600 + r;
    assert secs / 60 == h * 60 + r / 60;
  }

  /** "XhYm" reads back as X hours and Y minutes. */
  lemma {:induction false} ReadHoursMinutes(hours: nat, mins: nat)
    ensures ReadEtaTime(NatToString(hours) + "h" + NatToString(mins) + "m") == Some(hours * 3600 + mins * 60)
  {
    var h := NatToString(hours);
    var m := NatToString(mins);
    var body := h + "h" + m;
    var t := body + "m";
    assert t[..|t| - 1] == body;
    DigitsFree(h, 'h');
    assert body[..|h|] == h;
    assert body[|h|..|h| + 1] == "h";
    FindAtMost(body, "h", |h|);
    FindAfterPrefix(body, h, "h");
    assert body[|h| + 1..] == m;
  }

  /** "Ym" reads back as Y minutes. */
  lemma {:induction false} ReadMinutes(mins: nat)
    ensures ReadEtaTime(NatToString(mins) + "m") == Some(mins * 60)
  {
    var m := NatToString(mins);
    var t := m + "m";
    assert t[..|t| - 1] == m;
    DigitsFree(m, 'h');
    forall j: nat ensures !OccursAt(m, "h", j) {
      NotOccursAt(m, "h", j, 0);
    }
    FindNone(m, "h");
  }

  /** `eta_string`: "~" and the time, with "?" added when the estimate is
      not reliable. */
  function EtaString(eta: Option<(nat, bool)>): (r: Option<string>)
    ensures r.Some? <==> eta.Some?
    ensures r.Some? ==> |r.value| >= 2 && r.value[0] == '~'
    ensures r.Some? ==> (r.value[|r.value| - 1] == '?' <==> !eta.value.1)
  {
    match eta
    case None => None
    case Some((secs, reliable)) =>
      var t := FormatEtaTime(secs);
      assert t[|t| - 1] != '?';
      Some(if reliable then "~" + t else "~" + t + "?")
  }

  /** The time inside an ETA string reads back as the estimate, to the
      minute. */
  lemma {:induction false} EtaStringReadsBack(secs: nat, reliable: bool)
    ensures var s := EtaString(Some((secs, reliable))).value;
      var t := if reliable then s[1..] else s[1..|s| - 1];
      ReadEtaTime(t) == Some(if secs >= 60 then secs / 60 * 60 else secs)
  {
    var t := FormatEtaTime(secs);
    var s := EtaString(Some((secs, reliable))).value;
    if reliable {
      assert s[1..] == t;
    } else {
      assert s[1..|s| - 1] == t;
    }
    EtaTimeRoundTrip(secs);
  }

  // ---------------------------------------------------------------------
  // Update from the main log

  /** The id of the synthetic job standing for a target rule. */
  function TargetJobId(rule: string): string {
    "__target_" + rule + "__"
  }

  /** Target rules finish with the pipeline: Completed when it finished
      without errors, Failed when it finished with some, else Pending. */
  function TargetStatus(finished: bool, errors: seq<PipelineError>): (r: JobStatus)
    ensures r == Completed <==> finished && |errors| == 0
    ensures r == Failed <==> finished && |errors| > 0
    ensures r == Pending <==> !finished
  {
    if finished && |errors| == 0 then Completed else if finished then Failed else Pending
  }

  /** The synthetic job created for a target rule that has no jobs. */
  function TargetJob(rule: string, status: JobStatus): (j: Job)
    ensures j.isTarget && j.status == status && |j.outputs| == 0 && j.id == TargetJobId(rule) && j.rule == rule
  {
    Job(TargetJobId(rule), rule, None, [], [], status, None, "", NoTiming, NoResources, None, [], None,
        None, None, NoSources, true, false)
  }

  /** The first loop: every target rule without an entry in the rule index
      gets a synthetic job, indexed under the rule. */
  function AddTargets(st: PipelineState, rules: seq<string>, status: JobStatus): (r: PipelineState)
    ensures r.(jobs := st.jobs, jobsByRule := st.jobsByRule) == st
    ensures r.jobsByRule.Keys == st.jobsByRule.Keys + set i | 0 <= i < |rules| :: rules[i]
    ensures r.jobs.Keys == st.jobs.Keys + set i | 0 <= i < |rules| && rules[i] !in st.jobsByRule :: TargetJobId(rules[i])
    decreases |rules|
  {
    if |rules| == 0 then st
    else
      var rule := rules[0];
      var st1 :=
        if rule in st.jobsByRule then st
        else st.(jobs := st.jobs[TargetJobId(rule) := TargetJob(rule, status)],
                 jobsByRule := st.jobsByRule[rule := [TargetJobId(rule)]]);
      RulesCons(rules);
      TargetIdsCons(rules, st.jobsByRule, st1.jobsByRule);
      AddTargets(st1, rules[1..], status)
  }

  lemma {:induction false} RulesCons(rules: seq<string>)
    requires |rules| > 0
    ensures (set i | 0 <= i < |rules| :: rules[i]) == {rules[0]} + set i | 0 <= i < |rules[1..]| :: rules[1..][i]
  {
    assert forall i :: 1 <= i < |rules| ==> rules[1..][i - 1] == rules[i];
  }

  /** The synthetic ids the first loop adds: the first rule's, when it was
      not indexed, and those of the later rules not indexed after it. */
  lemma {:induction false} TargetIdsCons(rules: seq<string>, index: map<string, seq<string>>, index1: map<string, seq<string>>)
    requires |rules| > 0 && index1.Keys == index.Keys + {rules[0]}
    ensures (set i | 0 <= i < |rules| && rules[i] !in index :: TargetJobId(rules[i]))
      == (if rules[0] in index then {} else {TargetJobId(rules[0])})
         + set i | 0 <= i < |rules[1..]| && rules[1..][i] !in index1 :: TargetJobId(rules[1..][i])
  {
    assert forall i :: 1 <= i < |rules| ==> rules[1..][i - 1] == rules[i];
  }

  /** Marks the listed jobs without outputs as targets with `status`. */
  function MarkTargets(jobs: map<string, Job>, ids: seq<string>, status: JobStatus): (r: map<string, Job>)
    ensures r.Keys == jobs.Keys
    decreases |ids|
  {
    if |ids| == 0 then jobs
    else MarkTargets(MarkOne(jobs, ids[0], status), ids[1..], status)
  }

  /** Marks one listed job, if it exists and has no outputs. */
  function MarkOne(jobs: map<string, Job>, id: string, status: JobStatus): (r: map<string, Job>)
    ensures r.Keys == jobs.Keys
  {
    if id in jobs && |jobs[id].outputs| == 0 then jobs[id := jobs[id].(isTarget := true, status := status)]
    else jobs
  }

  /** One rule of the second loop: the rule's synthetic job, if it is a
      target, takes the pipeline's status (and the completion time when the
      pipeline has finished and none was recorded), and so does every job
      indexed under the rule that has no outputs. */
  function SettleRule(jobs: map<string, Job>, index: map<string, seq<string>>, rule: string,
                      status: JobStatus, finished: bool, now: Timestamp): (r: map<string, Job>)
    ensures r.Keys == jobs.Keys
  {
    var jobs1 := SettleTarget(jobs, rule, status, finished, now);
    if rule in index then MarkTargets(jobs1, index[rule], status) else jobs1
  }

  /** The rule's synthetic job, when it is a target, takes the status, and
      the completion time when the pipeline finished and it had none. */
  function SettleTarget(jobs: map<string, Job>, rule: string, status: JobStatus, finished: bool, now: Timestamp): (r: map<string, Job>)
    ensures r.Keys == jobs.Keys
  {
    var id := TargetJobId(rule);
    if id in jobs && jobs[id].isTarget then
      var j := jobs[id];
      var timing := if finished && j.timing.completedAt.None? then j.timing.(completedAt := Some(now)) else j.timing;
      jobs[id := j.(status := status, timing := timing)]
    else jobs
  }

  /** The second loop, over the target rules in order. */
  function SettleRules(jobs: map<string, Job>, index: map<string, seq<string>>, rules: seq<string>,
                       status: JobStatus, finished: bool, now: Timestamp): (r: map<string, Job>)
    ensures r.Keys == jobs.Keys
    decreases |rules|
  {
    if |rules| == 0 then jobs
    else SettleRules(SettleRule(jobs, index, rules[0], status, finished, now), index, rules[1..], status, finished, now)
  }

  /** `update_from_log_info`, with the clock and the error parser's
      patterns as parameters. Job total, cores and host are overwritten
      only by known values, errors only by a non-empty list, and the
      finished flag always. */
  function UpdateFromLogInfo(st: PipelineState, info: ML.LogInfo, now: Timestamp, pats: ErrorPatterns): (r: PipelineState)
    ensures r.totalJobs == info.totalJobs.Or(st.totalJobs)
    ensures r.cores == info.cores.Or(st.cores)
    ensures r.host == info.host.Or(st.host)
    ensures r.pipelineFinished == info.finished
    ensures |info.errors| == 0 ==> r.pipelineErrors == st.pipelineErrors
    ensures |info.errors| > 0 ==>
      (|r.pipelineErrors| == |info.errors|
       && forall i :: 0 <= i < |info.errors| ==> r.pipelineErrors[i] == ParseErrorString(info.errors[i], pats))
    ensures r.runUuid == st.runUuid && r.lastUpdated == st.lastUpdated
  {
    var st1 := UpdateFields(st, info, pats);
    var status := TargetStatus(info.finished, st1.pipelineErrors);
    var st2 := AddTargets(st1, info.targetRules, status);
    st2.(jobs := SettleRules(st2.jobs, st2.jobsByRule, info.targetRules, status, info.finished, now))
  }

  /** The scalar part of the update. */
  function UpdateFields(st: PipelineState, info: ML.LogInfo, pats: ErrorPatterns): (r: PipelineState)
    ensures r.jobs == st.jobs && r.jobsByRule == st.jobsByRule
    ensures r.runUuid == st.runUuid && r.lastUpdated == st.lastUpdated
  {
    st.(
      totalJobs := info.totalJobs.Or(st.totalJobs),
      cores := info.cores.Or(st.cores),
      host := info.host.Or(st.host),
      pipelineFinished := info.finished,
      pipelineErrors :=
        if |info.errors| > 0 then seq(|info.errors|, i requires 0 <= i < |info.errors| => ParseErrorString(info.errors[i], pats))
        else st.pipelineErrors)
  }

  /** A job that is a target with the pipeline's status. */
  predicate Settled(j: Job, status: JobStatus) {
    j.isTarget && j.status == status
  }

  /** How the second loop may change the job map: the same ids, the same
      outputs, and every job it touches ends a settled target. */
  predicate Keeps(a: map<string, Job>, b: map<string, Job>, status: JobStatus) {
    a.Keys == b.Keys
    && forall id :: id in a ==> b[id].outputs == a[id].outputs && (b[id] == a[id] || Settled(b[id], status))
  }

  lemma {:induction false} KeepsTrans(a: map<string, Job>, b: map<string, Job>, c: map<string, Job>, status: JobStatus)
    requires Keeps(a, b, status) && Keeps(b, c, status)
    ensures Keeps(a, c, status)
  {
  }

  /** The rule's jobs are settled: every job indexed under it without
      outputs, and its synthetic job if that is a target. */
  predicate RuleSettled(jobs: map<string, Job>, index: map<string, seq<string>>, rule: string, status: JobStatus) {
    (rule in index ==>
      forall i :: 0 <= i < |index[rule]| && index[rule][i] in jobs && |jobs[index[rule][i]].outputs| == 0
        ==> Settled(jobs[index[rule][i]], status))
    && (TargetJobId(rule) in jobs && jobs[TargetJobId(rule)].isTarget ==> Settled(jobs[TargetJobId(rule)], status))
  }

  lemma {:induction false} RuleSettledKept(a: map<string, Job>, b: map<string, Job>, index: map<string, seq<string>>,
                                           rule: string, status: JobStatus)
    requires RuleSettled(a, index, rule, status) && Keeps(a, b, status)
    ensures RuleSettled(b, index, rule, status)
  {
  }

  lemma {:induction false} MarkOneSettles(jobs: map<string, Job>, id: string, status: JobStatus)
    ensures Keeps(jobs, MarkOne(jobs, id, status), status)
    ensures id in jobs && |jobs[id].outputs| == 0 ==> Settled(MarkOne(jobs, id, status)[id], status)
  {
  }

  lemma {:induction false} MarkTargetsSettles(jobs: map<string, Job>, ids: seq<string>, status: JobStatus)
    ensures Keeps(jobs, MarkTargets(jobs, ids, status), status)
    ensures var r := MarkTargets(jobs, ids, status);
      forall i :: 0 <= i < |ids| && ids[i] in jobs && |jobs[ids[i]].outputs| == 0 ==> Settled(r[ids[i]], status)
    decreases |ids|
  {
    if |ids| > 0 {
      var jobs1 := MarkOne(jobs, ids[0], status);
      var r := MarkTargets(jobs1, ids[1..], status);
      MarkOneSettles(jobs, ids[0], status);
      MarkTargetsSettles(jobs1, ids[1..], status);
      KeepsTrans(jobs, jobs1, r, status);
      forall i | 0 <= i < |ids| && ids[i] in jobs && |jobs[ids[i]].outputs| == 0 ensures Settled(r[ids[i]], status) {
        if i > 0 {
          assert ids[i] == ids[1..][i - 1];
        }
      }
    }
  }

  /** One rule of the second loop settles that rule's jobs and touches
      nothing else unsettled. */
  lemma {:induction false} SettleRuleSettles(jobs: map<string, Job>, index: map<string, seq<string>>, rule: string,
                                             status: JobStatus, finished: bool, now: Timestamp)
    ensures Keeps(jobs, SettleRule(jobs, index, rule, status, finished, now), status)
    ensures RuleSettled(SettleRule(jobs, index, rule, status, finished, now), index, rule, status)
  {
    var jobs1 := SettleTarget(jobs, rule, status, finished, now);
    SettleTargetSettles(jobs, rule, status, finished, now);
    if rule in index {
      MarkTargetsSettles(jobs1, index[rule], status);
      KeepsTrans(jobs, jobs1, MarkTargets(jobs1, index[rule], status), status);
      RuleSettledKept(jobs1, MarkTargets(jobs1, index[rule], status), map[], rule, status);
    }
  }

  lemma {:induction false} SettleTargetSettles(jobs: map<string, Job>, rule: string, status: JobStatus, finished: bool, now: Timestamp)
    ensures Keeps(jobs, SettleTarget(jobs, rule, status, finished, now), status)
    ensures RuleSettled(SettleTarget(jobs, rule, status, finished, now), map[], rule, status)
  {
  }

  /** The second loop settles every target rule's jobs. */
  lemma {:induction false} SettleRulesSettles(jobs: map<string, Job>, index: map<string, seq<string>>, rules: seq<string>,
                                              status: JobStatus, finished: bool, now: Timestamp)
    ensures Keeps(jobs, SettleRules(jobs, index, rules, status, finished, now), status)
    ensures forall k :: 0 <= k < |rules| ==>
      RuleSettled(SettleRules(jobs, index, rules, status, finished, now), index, rules[k], status)
    decreases |rules|
  {
    if |rules| > 0 {
      var jobs1 := SettleRule(jobs, index, rules[0], status, finished, now);
      var r := SettleRules(jobs1, index, rules[1..], status, finished, now);
      SettleRuleSettles(jobs, index, rules[0], status, finished, now);
      SettleRulesSettles(jobs1, index, rules[1..], status, finished, now);
      KeepsTrans(jobs, jobs1, r, status);
      RuleSettledKept(jobs1, r, index, rules[0], status);
      assert SettleRules(jobs, index, rules, status, finished, now) == r;
      forall k | 0 <= k < |rules| ensures RuleSettled(r, index, rules[k], status) {
        if k > 0 {
          assert rules[k] == rules[1..][k - 1];
        }
      }
    }
  }

  /** The first loop leaves the lists of rules indexed before it alone. */
  lemma {:induction false} AddTargetsKeepsIndex(st: PipelineState, rules: seq<string>, status: JobStatus)
    ensures var r := AddTargets(st, rules, status);
      forall rule :: rule in st.jobsByRule ==> r.jobsByRule[rule] == st.jobsByRule[rule]
    decreases |rules|
  {
    if |rules| > 0 {
      var rule := rules[0];
      var st1 :=
        if rule in st.jobsByRule then st
        else st.(jobs := st.jobs[TargetJobId(rule) := TargetJob(rule, status)],
                 jobsByRule := st.jobsByRule[rule := [TargetJobId(rule)]]);
      AddTargetsKeepsIndex(st1, rules[1..], status);
    }
  }

  /** The first loop keeps settled jobs settled. */
  lemma {:induction false} AddTargetsKeepsSettled(st: PipelineState, rules: seq<string>, status: JobStatus)
    ensures var r := AddTargets(st, rules, status);
      forall id :: id in st.jobs && Settled(st.jobs[id], status) ==> Settled(r.jobs[id], status)
    decreases |rules|
  {
    if |rules| > 0 {
      var rule := rules[0];
      var st1 :=
        if rule in st.jobsByRule then st
        else st.(jobs := st.jobs[TargetJobId(rule) := TargetJob(rule, status)],
                 jobsByRule := st.jobsByRule[rule := [TargetJobId(rule)]]);
      AddTargetsKeepsSettled(st1, rules[1..], status);
    }
  }

  /** A rule the first loop indexes lists just its synthetic job, which
      ends a settled target. */
  lemma {:induction false} AddTargetsNewRules(st: PipelineState, rules: seq<string>, status: JobStatus)
    ensures var r := AddTargets(st, rules, status);
      forall rule :: rule in r.jobsByRule && rule !in st.jobsByRule ==>
        r.jobsByRule[rule] == [TargetJobId(rule)] && TargetJobId(rule) in r.jobs
        && Settled(r.jobs[TargetJobId(rule)], status)
    decreases |rules|
  {
    if |rules| > 0 {
      var rule := rules[0];
      var st1 :=
        if rule in st.jobsByRule then st
        else st.(jobs := st.jobs[TargetJobId(rule) := TargetJob(rule, status)],
                 jobsByRule := st.jobsByRule[rule := [TargetJobId(rule)]]);
      var r := AddTargets(st1, rules[1..], status);
      AddTargetsNewRules(st1, rules[1..], status);
      if rule !in st.jobsByRule {
        AddTargetsKeepsIndex(st1, rules[1..], status);
        AddTargetsKeepsSettled(st1, rules[1..], status);
        assert Settled(st1.jobs[TargetJobId(rule)], status);
      }
    }
  }

  /** The update indexes every target rule and adds a synthetic job for
      each target rule that was not indexed, and no other job. */
  lemma {:induction false} UpdateKeys(st: PipelineState, info: ML.LogInfo, now: Timestamp, pats: ErrorPatterns)
    ensures var r := UpdateFromLogInfo(st, info, now, pats);
      && r.jobsByRule.Keys == st.jobsByRule.Keys + (set i | 0 <= i < |info.targetRules| :: info.targetRules[i])
      && r.jobs.Keys == st.jobs.Keys
           + (set i | 0 <= i < |info.targetRules| && info.targetRules[i] !in st.jobsByRule :: TargetJobId(info.targetRules[i]))
  {
    var st1 := UpdateFields(st, info, pats);
    var status := TargetStatus(info.finished, st1.pipelineErrors);
    var st2 := AddTargets(st1, info.targetRules, status);
    assert UpdateFromLogInfo(st, info, now, pats).jobs.Keys == st2.jobs.Keys;
  }

  /** After the update every target rule is indexed, and every job indexed
      under a target rule that has no outputs, and each target rule's
      synthetic job, is a target whose status follows the pipeline:
      Completed when it finished cleanly, Failed when it finished with
      errors, else Pending. */
  lemma {:induction false} UpdateSettlesTargets(st: PipelineState, info: ML.LogInfo, now: Timestamp, pats: ErrorPatterns)
    ensures var r := UpdateFromLogInfo(st, info, now, pats);
      var status := TargetStatus(info.finished, r.pipelineErrors);
      forall k :: 0 <= k < |info.targetRules| ==>
        info.targetRules[k] in r.jobsByRule && RuleSettled(r.jobs, r.jobsByRule, info.targetRules[k], status)
  {
    var st1 := UpdateFields(st, info, pats);
    var status := TargetStatus(info.finished, st1.pipelineErrors);
    var st2 := AddTargets(st1, info.targetRules, status);
    AddTargetsNewRules(st1, info.targetRules, status);
    SettleRulesSettles(st2.jobs, st2.jobsByRule, info.targetRules, status, info.finished, now);
  }
}

=== FILE: polling.dfy ===
/** The pure part of the polling service: the conversion of either
    scheduler's failure analysis into the unified one, the choice of which
    jobs to ask the scheduler about, and how the answers are written back
    into the jobs. The scheduler queries themselves are parameters: `fetch`
    gives the answer for a scheduler job id, or None when the query failed
    or found nothing. */
module Polling {
  import opened Wrappers
  import opened Suggestions
  import opened StateTypes
  import P = Pipeline
  import SF = SlurmFailure
  import LF = LsfFailure
  import Sacct

  // ---------------------------------------------------------------------
  // Converting an analysis

  /** The unified mode of a SLURM mode: the same variant. */
  function SlurmMode(m: SF.FailureMode): (r: FailureMode)
    ensures r.OutOfMemory? <==> m.OutOfMemory?
    ensures r.Timeout? <==> m.Timeout?
    ensures r.ExitCode? <==> m.ExitCode?
    ensures r.Cancelled? <==> m.Cancelled?
    ensures r.NodeFailure? <==> m.NodeFailure?
    ensures r.Unknown? <==> m.Unknown?
  {
    match m
    case OutOfMemory(_, _, _) => FailureMode.OutOfMemory
    case Timeout(_, _, _) => FailureMode.Timeout
    case ExitCode(_, _) => FailureMode.ExitCode
    case Cancelled(_) => FailureMode.Cancelled
    case NodeFailure(_) => FailureMode.NodeFailure
    case Unknown(_) => FailureMode.Unknown
  }

  /** The unified mode of an LSF mode: a kill is a cancellation and a host
      failure is a node failure. */
  function LsfMode(m: LF.FailureMode): (r: FailureMode)
    ensures r.OutOfMemory? <==> m.OutOfMemory?
    ensures r.Timeout? <==> m.Timeout?
    ensures r.ExitCode? <==> m.ExitCode?
    ensures r.Cancelled? <==> m.Killed?
    ensures r.NodeFailure? <==> m.HostFailure?
    ensures r.Unknown? <==> m.Unknown?
  {
    match m
    case OutOfMemory(_, _, _) => FailureMode.OutOfMemory
    case Timeout(_, _, _) => FailureMode.Timeout
    case ExitCode(_, _) => FailureMode.ExitCode
    case Killed(_) => FailureMode.Cancelled
    case HostFailure(_) => FailureMode.NodeFailure
    case Unknown(_) => FailureMode.Unknown
  }

  /** `convert_slurm_analysis`: the amounts of an out-of-memory or timeout
      mode win over the measured fields; the texts are kept. */
  function ConvertSlurmAnalysis(a: SF.FailureAnalysis): (r: FailureAnalysis)
    ensures r.mode == SlurmMode(a.mode)
    ensures r.explanation == a.explanation && r.suggestion == a.suggestion
    ensures a.mode.OutOfMemory? ==> r.memoryUsedMb == Some(a.mode.usedMb) && r.memoryLimitMb == Some(a.mode.requestedMb)
    ensures !a.mode.OutOfMemory? ==> r.memoryUsedMb == a.maxRssMb && r.memoryLimitMb == a.reqMemMb
    ensures a.mode.Timeout? ==>
      r.runtimeSeconds == Some(a.mode.elapsedSeconds) && r.timeLimitSeconds == Some(a.mode.limitSeconds)
    ensures !a.mode.Timeout? ==> r.runtimeSeconds == a.elapsedSeconds && r.timeLimitSeconds == a.timeLimitSeconds
  {
    var (used, limit) :=
      match a.mode
      case OutOfMemory(u, q, _) => (Some(u), Some(q))
      case _ => (a.maxRssMb, a.reqMemMb);
    var (runtime, timeLimit) :=
      match a.mode
      case Timeout(e, l, _) => (Some(e), Some(l))
      case _ => (a.elapsedSeconds, a.timeLimitSeconds);
    FailureAnalysis(SlurmMode(a.mode), a.explanation, a.suggestion, used, limit, runtime, timeLimit)
  }

  /** `convert_lsf_analysis`, with the same rules. */
  function ConvertLsfAnalysis(a: LF.FailureAnalysis): (r: FailureAnalysis)
    ensures r.mode == LsfMode(a.mode)
    ensures r.explanation == a.explanation && r.suggestion == a.suggestion
    ensures a.mode.OutOfMemory? ==> r.memoryUsedMb == Some(a.mode.usedMb) && r.memoryLimitMb == Some(a.mode.limitMb)
    ensures !a.mode.OutOfMemory? ==> r.memoryUsedMb == a.maxMemMb && r.memoryLimitMb == a.memLimitMb
    ensures a.mode.Timeout? ==>
      r.runtimeSeconds == Some(a.mode.elapsedSeconds) && r.timeLimitSeconds == Some(a.mode.limitSeconds)
    ensures !a.mode.Timeout? ==> r.runtimeSeconds == a.runTimeSeconds && r.timeLimitSeconds == a.runLimitSeconds
  {
    var (used, limit) :=
      match a.mode
      case OutOfMemory(u, l, _) => (Some(u), Some(l))
      case _ => (a.maxMemMb, a.memLimitMb);
    var (runtime, timeLimit) :=
      match a.mode
      case Timeout(e, l, _) => (Some(e), Some(l))
      case _ => (a.runTimeSeconds, a.runLimitSeconds);
    FailureAnalysis(LsfMode(a.mode), a.explanation, a.suggestion, used, limit, runtime, timeLimit)
  }

  /** The unified amounts agree with what the analyser measured: wherever
      a measurement exists the conversion reports it, and the conversion
      reports an amount exactly where one was measured or the mode is
      about that amount. */
  lemma {:induction false} ConvertSlurmMeasured(a: SF.FailureAnalysis)
    requires SF.Measured(a)
    ensures var r := ConvertSlurmAnalysis(a);
      && (a.maxRssMb.Some? ==> r.memoryUsedMb == a.maxRssMb)
      && (a.reqMemMb.Some? ==> r.memoryLimitMb == a.reqMemMb)
      && (a.elapsedSeconds.Some? ==> r.runtimeSeconds == a.elapsedSeconds)
      && (a.timeLimitSeconds.Some? ==> r.timeLimitSeconds == a.timeLimitSeconds)
      && (r.memoryUsedMb.Some? <==> a.maxRssMb.Some? || r.mode.OutOfMemory?)
      && (r.runtimeSeconds.Some? <==> a.elapsedSeconds.Some? || r.mode.Timeout?)
  {
    var r := ConvertSlurmAnalysis(a);
    if a.mode.OutOfMemory? {
      assert r.memoryUsedMb == Some(a.maxRssMb.GetOr(0));
    }
    if a.mode.Timeout? {
      assert r.runtimeSeconds == Some(a.elapsedSeconds.GetOr(0));
    }
  }

  /** The same agreement for LSF. */
  lemma {:induction false} ConvertLsfMeasured(a: LF.FailureAnalysis)
    requires LF.Measured(a)
    ensures var r := ConvertLsfAnalysis(a);
      && (a.maxMemMb.Some? ==> r.memoryUsedMb == a.maxMemMb)
      && (a.memLimitMb.Some? ==> r.memoryLimitMb == a.memLimitMb)
      && (a.runTimeSeconds.Some? ==> r.runtimeSeconds == a.runTimeSeconds)
      && (a.runLimitSeconds.Some? ==> r.timeLimitSeconds == a.runLimitSeconds)
      && (r.memoryUsedMb.Some? <==> a.maxMemMb.Some? || r.mode.OutOfMemory?)
      && (r.runtimeSeconds.Some? <==> a.runTimeSeconds.Some? || r.mode.Timeout?)
  {
    var r := ConvertLsfAnalysis(a);
    if a.mode.OutOfMemory? {
      assert r.memoryUsedMb == Some(a.maxMemMb.GetOr(0));
    }
    if a.mode.Timeout? {
      assert r.runtimeSeconds == Some(a.runTimeSeconds.GetOr(0));
    }
  }

  /** What the analysers produce converts to an analysis whose explanation
      comes first and whose amounts agree with the measurements. */
  lemma {:induction false} ConvertParsedLsf(jobId: string, output: string, rend: Renderers)
    ensures var a := LF.ParseBhistOutput(jobId, output, rend);
      var r := ConvertLsfAnalysis(a);
      && ExplanationFirst((r.explanation, r.suggestion))
      && (a.maxMemMb.Some? ==> r.memoryUsedMb == a.maxMemMb)
      && (a.runTimeSeconds.Some? ==> r.runtimeSeconds == a.runTimeSeconds)
  {
    ConvertLsfMeasured(LF.ParseBhistOutput(jobId, output, rend));
  }

  /** The same for a parsed sacct failure line. */
  lemma {:induction false} ConvertParsedSlurm(jobId: string, line: string, rend: Renderers)
    requires SF.ParseFailureLine(jobId, line, rend).Ok?
    ensures var a := SF.ParseFailureLine(jobId, line, rend).value;
      var r := ConvertSlurmAnalysis(a);
      && ExplanationFirst((r.explanation, r.suggestion))
      && (a.maxRssMb.Some? ==> r.memoryUsedMb == a.maxRssMb)
      && (a.elapsedSeconds.Some? ==> r.runtimeSeconds == a.elapsedSeconds)
  {
    var a := SF.ParseFailureLine(jobId, line, rend).value;
    ConvertSlurmMeasured(a);
  }

  // ---------------------------------------------------------------------
  // Writing an analysis into a job

  /** What one answered failure analysis contributes to a job: the exit
      code a new error gets, its message, and the unified analysis. */
  datatype Outcome = Outcome(exitCode: int, message: string, analysis: FailureAnalysis)

  /** The exit code of a new error: the code of an exit-code mode, else -1. */
  function SlurmOutcome(a: SF.FailureAnalysis): (r: Outcome)
    ensures r.exitCode == (if a.mode.ExitCode? then a.mode.code else -1)
    ensures r.message == a.explanation && r.analysis == ConvertSlurmAnalysis(a)
  {
    Outcome(if a.mode.ExitCode? then a.mode.code else -1, a.explanation, ConvertSlurmAnalysis(a))
  }

  function LsfOutcome(a: LF.FailureAnalysis): (r: Outcome)
    ensures r.exitCode == (if a.mode.ExitCode? then a.mode.code else -1)
    ensures r.message == a.explanation && r.analysis == ConvertLsfAnalysis(a)
  {
    Outcome(if a.mode.ExitCode? then a.mode.code else -1, a.explanation, ConvertLsfAnalysis(a))
  }

  /** With the analyser as written, a cancelled or node-failed SLURM job
      reaches polling with the advice as its explanation, so a job without
      an error gets that advice as its error message. */
  lemma {:induction false} ConvertParsedSlurmAsWritten(jobId: string, line: string, rend: Renderers)
    requires SF.ParseFailureLineAsWritten(jobId, line, rend).Ok?
    ensures var a := SF.ParseFailureLineAsWritten(jobId, line, rend).value;
      var o := SlurmOutcome(a);
      && (ExplanationFirst((o.analysis.explanation, o.analysis.suggestion)) <==> !(a.mode.Cancelled? || a.mode.NodeFailure?))
      && (a.mode.Cancelled? ==> o.message == IntentionalAdvice)
      && (a.mode.NodeFailure? ==> o.message == RerunAdvice)
  {
    var a := SF.ParseFailureLineAsWritten(jobId, line, rend).value;
    SF.MessagesAsWrittenSwapped(a.mode, rend);
  }

  /** The same for LSF: a killed or host-failed job's error message is the
      advice. */
  lemma {:induction false} ConvertParsedLsfAsWritten(jobId: string, output: string, rend: Renderers)
    ensures var a := LF.ParseBhistOutputAsWritten(jobId, output, rend);
      var o := LsfOutcome(a);
      && (ExplanationFirst((o.analysis.explanation, o.analysis.suggestion)) <==> !(a.mode.Killed? || a.mode.HostFailure?))
      && (a.mode.Killed? ==> o.message == IntentionalAdvice)
      && (a.mode.HostFailure? ==> o.message == RerunAdvice)
  {
    var a := LF.ParseBhistOutputAsWritten(jobId, output, rend);
    LF.MessagesAsWrittenSwapped(a.mode, rend);
  }

  /** An existing error only gains the analysis; a job without one gets a
      new error. Nothing else about the job changes. */
  function AttachAnalysis(job: Job, o: Outcome): (r: Job)
    ensures r == job.(error := r.error)
    ensures r.error.Some? && r.error.value.analysis == Some(o.analysis)
    ensures job.error.Some? ==>
      r.error.value.exitCode == job.error.value.exitCode && r.error.value.message == job.error.value.message
    ensures job.error.None? ==> r.error.value == JobError(o.exitCode, o.message, Some(o.analysis))
  {
    match job.error
    case Some(e) => job.(error := Some(e.(analysis := Some(o.analysis))))
    case None => job.(error := Some(JobError(o.exitCode, o.message, Some(o.analysis))))
  }

  /** Usage answers are copied field by field. */
  function AttachUsage(job: Job, u: Sacct.SlurmResourceUsage): (r: Job)
    ensures r == job.(usage := r.usage)
    ensures r.usage == Some(ResourceUsage(u.maxRssMb, u.elapsedSeconds, u.cpuTimeSeconds))
  {
    job.(usage := Some(ResourceUsage(u.maxRssMb, u.elapsedSeconds, u.cpuTimeSeconds)))
  }

  // ---------------------------------------------------------------------
  // Choosing whom to ask

  /** The two questions the service asks the scheduler. */
  datatype Need = Analysis | Usage

  /** At most this many jobs are asked about per poll. */
  function Limit(need: Need): nat {
    match need
    case Analysis => 5
    case Usage => 10
  }

  /** A failed job with a scheduler id and no analysis yet needs one; a
      completed or failed job with a scheduler id and no usage yet needs
      its usage. */
  predicate Needs(need: Need, j: Job) {
    match need
    case Analysis =>
      j.status == JobStatus.Failed && j.schedulerJobId.Some? && (j.error.None? || j.error.value.analysis.None?)
    case Usage =>
      (j.status == JobStatus.Completed || j.status == JobStatus.Failed) && j.schedulerJobId.Some? && j.usage.None?
  }

  /** Every job of `order` that needs asking, with its scheduler id, in
      order: the filter and map before the `take`. */
  function Matching(order: seq<string>, jobs: map<string, Job>, need: Need): (r: seq<(string, string)>)
    ensures |r| <= |order|
    ensures forall k :: 0 <= k < |r| ==>
      r[k].0 in jobs && Needs(need, jobs[r[k].0]) && jobs[r[k].0].schedulerJobId == Some(r[k].1)
    decreases |order|
  {
    if |order| == 0 then []
    else
      var rest := Matching(order[1..], jobs, need);
      var id := order[0];
      if id in jobs && Needs(need, jobs[id]) then [(id, jobs[id].schedulerJobId.value)] + rest else rest
  }

  /** The candidates of one poll: the iteration stops once `limit` jobs are
      found. */
  function Select(order: seq<string>, jobs: map<string, Job>, need: Need, limit: nat): (r: seq<(string, string)>)
    ensures |r| <= limit
    decreases |order|
  {
    if |order| == 0 || limit == 0 then []
    else
      var id := order[0];
      if id in jobs && Needs(need, jobs[id]) then
        [(id, jobs[id].schedulerJobId.value)] + Select(order[1..], jobs, need, limit - 1)
      else Select(order[1..], jobs, need, limit)
  }

  function Min(a: nat, b: nat): nat {
    if a <= b then a else b
  }

  /** The candidates are the first `limit` of all jobs that need asking. */
  lemma {:induction false} SelectTakes(order: seq<string>, jobs: map<string, Job>, need: Need, limit: nat)
    ensures var all := Matching(order, jobs, need);
      Select(order, jobs, need, limit) == all[..Min(limit, |all|)]
    decreases |order|
  {
    if |order| > 0 && limit > 0 {
      SelectTakes(order[1..], jobs, need, limit - 1);
      SelectTakes(order[1..], jobs, need, limit);
    }
  }

  /** Fewer candidates than the limit means no job that needs asking was
      left out; so each candidate needs asking, and one is missing only
      when the limit is full. */
  lemma {:induction false} SelectComplete(order: seq<string>, jobs: map<string, Job>, need: Need, limit: nat)
    ensures var r := Select(order, jobs, need, limit);
      && (forall k :: 0 <= k < |r| ==>
            r[k].0 in jobs && Needs(need, jobs[r[k].0]) && jobs[r[k].0].schedulerJobId == Some(r[k].1))
      && (|r| < limit ==> r == Matching(order, jobs, need))
  {
    var all := Matching(order, jobs, need);
    SelectTakes(order, jobs, need, limit);
    assert all[..|all|] == all;
  }

  /** The ids of a candidate list are ids of `order`, and distinct when
      those are. */
  lemma {:induction false} SelectIds(order: seq<string>, jobs: map<string, Job>, need: Need, limit: nat)
    ensures forall k :: 0 <= k < |Select(order, jobs, need, limit)| ==> Select(order, jobs, need, limit)[k].0 in order
    ensures (forall i, j :: 0 <= i < j < |order| ==> order[i] != order[j]) ==>
      DistinctIds(Select(order, jobs, need, limit))
    decreases |order|
  {
    if |order| > 0 && limit > 0 {
      var id := order[0];
      var tail := order[1..];
      assert forall x :: x in tail ==> x in order;
      var distinct := forall i, j :: 0 <= i < j < |order| ==> order[i] != order[j];
      if distinct {
        assert id !in tail by {
          forall i | 0 <= i < |tail| ensures tail[i] != id {
            assert tail[i] == order[i + 1];
          }
        }
        assert forall i, j :: 0 <= i < j < |tail| ==> tail[i] != tail[j] by {
          forall i, j | 0 <= i < j < |tail| ensures tail[i] != tail[j] {
            assert tail[i] == order[i + 1] && tail[j] == order[j + 1];
          }
        }
      }
      if id in jobs && Needs(need, jobs[id]) {
        SelectIds(tail, jobs, need, limit - 1);
        var rest := Select(tail, jobs, need, limit - 1);
        assert forall k :: 1 <= k < |rest| + 1 ==> ([(id, jobs[id].schedulerJobId.value)] + rest)[k] == rest[k - 1];
      } else {
        SelectIds(tail, jobs, need, limit);
      }
    }
  }

  /** No job id appears twice. */
  predicate DistinctIds(cands: seq<(string, string)>) {
    forall k, m :: 0 <= k < m < |cands| ==> cands[k].0 != cands[m].0
  }

  // ---------------------------------------------------------------------
  // Asking and writing back

  /** The scheduler id a candidate list pairs with a job id. */
  function SchedulerIdOf(cands: seq<(string, string)>, id: string): (r: Option<string>)
    ensures r.Some? ==> exists k :: 0 <= k < |cands| && cands[k] == (id, r.value)
    ensures r.None? <==> forall k :: 0 <= k < |cands| ==> cands[k].0 != id
    decreases |cands|
  {
    if |cands| == 0 then None
    else if cands[0].0 == id then Some(cands[0].1)
    else SchedulerIdOf(cands[1..], id)
  }

  /** Ask about each candidate in turn and write every answer into the job
      it was asked for. */
  function AnswerAll<T>(jobs: map<string, Job>, cands: seq<(string, string)>,
                        fetch: string -> Option<T>, write: (Job, T) -> Job): (r: map<string, Job>)
    ensures r.Keys == jobs.Keys
    decreases |cands|
  {
    if |cands| == 0 then jobs
    else
      var (id, sid) := cands[0];
      var next :=
        match fetch(sid)
        case Some(answer) => if id in jobs then jobs[id := write(jobs[id], answer)] else jobs
        case None => jobs;
      AnswerAll(next, cands[1..], fetch, write)
  }

  /** With distinct candidate ids, a job is written exactly once when it
      was asked about and answered, with its original record as the base,
      and left alone otherwise. */
  lemma {:induction false} AnswerAllEffect<T>(jobs: map<string, Job>, cands: seq<(string, string)>,
                                              fetch: string -> Option<T>, write: (Job, T) -> Job, id: string)
    requires DistinctIds(cands) && id in jobs
    ensures var r := AnswerAll(jobs, cands, fetch, write);
      r[id] == match SchedulerIdOf(cands, id)
               case Some(sid) => (match fetch(sid) case Some(a) => write(jobs[id], a) case None => jobs[id])
               case None => jobs[id]
    decreases |cands|
  {
    if |cands| > 0 {
      var (cid, sid) := cands[0];
      var next :=
        match fetch(sid)
        case Some(answer) => if cid in jobs then jobs[cid := write(jobs[cid], answer)] else jobs
        case None => jobs;
      assert DistinctIds(cands[1..]) by {
        forall k, m | 0 <= k < m < |cands[1..]| ensures cands[1..][k].0 != cands[1..][m].0 {
          assert cands[1..][k] == cands[k + 1] && cands[1..][m] == cands[m + 1];
        }
      }
      AnswerAllEffect(next, cands[1..], fetch, write, id);
      if cid == id {
        assert SchedulerIdOf(cands[1..], id).None? by {
          forall k | 0 <= k < |cands[1..]| ensures cands[1..][k].0 != id {
            assert cands[1..][k] == cands[k + 1];
          }
        }
      } else {
        assert next[id] == jobs[id];
      }
    }
  }

  /** `enrich_failed_jobs_slurm` and `enrich_failed_jobs_lsf`: pick up to
      five failed jobs without an analysis, ask for each, and attach the
      answers. */
  function EnrichFailed(jobs: map<string, Job>, order: seq<string>, fetch: string -> Option<Outcome>): (r: map<string, Job>)
    ensures r.Keys == jobs.Keys
  {
    AnswerAll(jobs, Select(order, jobs, Analysis, Limit(Analysis)), fetch, AttachAnalysis)
  }

  /** `enrich_completed_jobs_slurm`: pick up to ten finished jobs without
      usage, ask for each, and record the answers. */
  function EnrichUsage(jobs: map<string, Job>, order: seq<string>,
                       fetch: string -> Option<Sacct.SlurmResourceUsage>): (r: map<string, Job>)
    ensures r.Keys == jobs.Keys
  {
    AnswerAll(jobs, Select(order, jobs, Usage, Limit(Usage)), fetch, AttachUsage)
  }

  /** After the failure enrichment each job either is unchanged, or was a
      candidate whose analysis was found and now carries it, so that it
      no longer needs one. */
  lemma {:induction false} EnrichFailedEffect(jobs: map<string, Job>, order: seq<string>,
                                              fetch: string -> Option<Outcome>, id: string)
    requires P.EnumeratesKeys(order, jobs) && id in jobs
    ensures var r := EnrichFailed(jobs, order, fetch);
      var cands := Select(order, jobs, Analysis, Limit(Analysis));
      && (r[id] == jobs[id] || (SchedulerIdOf(cands, id).Some? && !Needs(Analysis, r[id])))
      && (r[id] != jobs[id] ==> Needs(Analysis, jobs[id])
                                && fetch(jobs[id].schedulerJobId.value).Some?
                                && r[id] == AttachAnalysis(jobs[id], fetch(jobs[id].schedulerJobId.value).value))
  {
    var cands := Select(order, jobs, Analysis, Limit(Analysis));
    SelectIds(order, jobs, Analysis, Limit(Analysis));
    SelectComplete(order, jobs, Analysis, Limit(Analysis));
    AnswerAllEffect(jobs, cands, fetch, AttachAnalysis, id);
  }

  /** After the usage enrichment each job either is unchanged, or needed
      its usage, was a candidate, and now holds the answer. */
  lemma {:induction false} EnrichUsageEffect(jobs: map<string, Job>, order: seq<string>,
                                             fetch: string -> Option<Sacct.SlurmResourceUsage>, id: string)
    requires P.EnumeratesKeys(order, jobs) && id in jobs
    ensures var r := EnrichUsage(jobs, order, fetch);
      var cands := Select(order, jobs, Usage, Limit(Usage));
      && (r[id] == jobs[id] || (SchedulerIdOf(cands, id).Some? && !Needs(Usage, r[id])))
      && (r[id] != jobs[id] ==> Needs(Usage, jobs[id])
                                && fetch(jobs[id].schedulerJobId.value).Some?
                                && r[id] == AttachUsage(jobs[id], fetch(jobs[id].schedulerJobId.value).value))
  {
    var cands := Select(order, jobs, Usage, Limit(Usage));
    SelectIds(order, jobs, Usage, Limit(Usage));
    SelectComplete(order, jobs, Usage, Limit(Usage));
    AnswerAllEffect(jobs, cands, fetch, AttachUsage, id);
  }
}

=== FILE: rule_summary.dfy ===
/** The rule summary table: per rule, how many of its jobs exist, run,
    completed, failed or wait, and the average run time of the completed
    ones. */
module RuleSummary {
  import opened Wrappers
  import opened Text
  import opened Parsers
  import opened StateTypes
  import P = Pipeline
  import JL = JobList

  /** `RuleStats`; the run time total is a `u64` that wraps. */
  datatype RuleStats = RuleStats(
    total: nat,
    running: nat,
    completed: nat,
    failed: nat,
    pending: nat,
    totalRuntimeSecs: nat)

  const NoStats: RuleStats := RuleStats(0, 0, 0, 0, 0, 0)

  /** One present job counted: every job adds to the total, Pending and
      Queued both count as pending, Cancelled and Unknown only as the
      total, and a completed job with both timestamps adds its run time. */
  function CountJob(s: RuleStats, j: Job): (r: RuleStats)
    ensures r.total == s.total + 1
  {
    var t := s.(total := s.total + 1);
    match j.status
    case Running => t.(running := t.running + 1)
    case Completed =>
      var c := t.(completed := t.completed + 1);
      if j.timing.startedAt.Some? && j.timing.completedAt.Some? then
        c.(totalRuntimeSecs := Wrap64(c.totalRuntimeSecs + P.Runtime(j)))
      else c
    case Failed => t.(failed := t.failed + 1)
    case Pending => t.(pending := t.pending + 1)
    case Queued => t.(pending := t.pending + 1)
    case _ => t
  }

  /** The statistics of the listed ids, in order; ids with no job are
      skipped. */
  function Tally(jobs: map<string, Job>, ids: seq<string>): (r: RuleStats)
    ensures r.running + r.completed + r.failed + r.pending <= r.total <= |ids|
    decreases |ids|
  {
    if |ids| == 0 then NoStats
    else
      var s := Tally(jobs, ids[..|ids| - 1]);
      var id := ids[|ids| - 1];
      if id in jobs then CountJob(s, jobs[id]) else s
  }

  /** The statuses of the listed jobs that exist, as a bag. */
  function Statuses(jobs: map<string, Job>, ids: seq<string>): multiset<JobStatus>
    decreases |ids|
  {
    if |ids| == 0 then multiset{}
    else
      var id := ids[|ids| - 1];
      Statuses(jobs, ids[..|ids| - 1]) + if id in jobs then multiset{jobs[id].status} else multiset{}
  }

  /** The exact run time of the listed completed jobs with both timestamps. */
  function RuntimeSum(jobs: map<string, Job>, ids: seq<string>): nat
    decreases |ids|
  {
    if |ids| == 0 then 0
    else
      var id := ids[|ids| - 1];
      RuntimeSum(jobs, ids[..|ids| - 1]) + if id in jobs && P.Timed(jobs[id]) then P.Runtime(jobs[id]) else 0
  }

  lemma {:induction false} WrapAdd(a: nat, b: nat)
    ensures Wrap64(Wrap64(a) + b) == Wrap64(a + b)
  {
    var m := U64_MAX + 1;
    var q := a / m;
    assert a == q * m + a % m;
    assert a + b == q * m + (a % m + b);
  }

  /** What counting one job changes. */
  lemma {:induction false} CountJobEffect(s: RuleStats, j: Job)
    ensures var r := CountJob(s, j);
      && r.running == s.running + (if j.status == Running then 1 else 0)
      && r.completed == s.completed + (if j.status == Completed then 1 else 0)
      && r.failed == s.failed + (if j.status == Failed then 1 else 0)
      && r.pending == s.pending + (if j.status == Pending || j.status == Queued then 1 else 0)
      && r.totalRuntimeSecs == if P.Timed(j) then Wrap64(s.totalRuntimeSecs + P.Runtime(j)) else s.totalRuntimeSecs
  {
  }

  /** The counters are the status counts of the existing listed jobs. */
  lemma {:induction false} TallyCounts(jobs: map<string, Job>, ids: seq<string>)
    ensures var s := Tally(jobs, ids); var m := Statuses(jobs, ids);
      && s.total == |m|
      && s.running == m[Running]
      && s.completed == m[Completed]
      && s.failed == m[Failed]
      && s.pending == m[Pending] + m[Queued]
    decreases |ids|
  {
    if |ids| > 0 {
      var pre := ids[..|ids| - 1];
      TallyCounts(jobs, pre);
      var id := ids[|ids| - 1];
      if id in jobs {
        CountJobEffect(Tally(jobs, pre), jobs[id]);
      }
    }
  }

  /** The run time total is the exact sum taken modulo 2^64. */
  lemma {:induction false} TallyRuntime(jobs: map<string, Job>, ids: seq<string>)
    ensures Tally(jobs, ids).totalRuntimeSecs == Wrap64(RuntimeSum(jobs, ids))
    decreases |ids|
  {
    if |ids| > 0 {
      var pre := ids[..|ids| - 1];
      TallyRuntime(jobs, pre);
      var id := ids[|ids| - 1];
      if id in jobs {
        var j := jobs[id];
        CountJobEffect(Tally(jobs, pre), j);
        if P.Timed(j) {
          WrapAdd(RuntimeSum(jobs, pre), P.Runtime(j));
        }
      }
    }
  }

  /** The per-rule statistics for the listed rule names, in order. */
  function RuleStatsOf(st: P.PipelineState, ruleNames: seq<string>): (r: seq<(string, RuleStats)>)
    ensures |r| == |ruleNames|
    ensures forall i :: 0 <= i < |r| ==> r[i].0 == ruleNames[i]
    ensures forall i :: 0 <= i < |r| && ruleNames[i] !in st.jobsByRule ==> r[i].1 == NoStats
  {
    seq(|ruleNames|, i requires 0 <= i < |ruleNames| =>
      (ruleNames[i], if ruleNames[i] in st.jobsByRule then Tally(st.jobs, st.jobsByRule[ruleNames[i]]) else NoStats))
  }

  /** `avg_runtime_secs`: the run time total divided by the completed
      count, rounded down; None with nothing completed. */
  function AvgRuntimeSecs(s: RuleStats): (r: Option<nat>)
    ensures r.Some? <==> s.completed > 0
    ensures r.Some? ==> r.value * s.completed <= s.totalRuntimeSecs < (r.value + 1) * s.completed
  {
    if s.completed > 0 then
      var q := s.totalRuntimeSecs / s.completed;
      assert s.totalRuntimeSecs == q * s.completed + s.totalRuntimeSecs % s.completed;
      Some(q)
    else None
  }

  /** `format_duration` of the summary table. */
  function FormatDuration(secs: nat): (r: string) {
    if secs >= 3600 then NatToString(secs / 3600) + "h" + NatToString((secs % 3600) / 60) + "m"
    else if secs >= 60 then NatToString(secs / 60) + "m" + NatToString(secs % 60) + "s"
    else NatToString(secs) + "s"
  }

  /** The summary prints durations exactly as the job list does, so they
      read back to the second under an hour and to the minute above. */
  lemma {:induction false} FormatDurationMatchesJobList(secs: nat)
    ensures FormatDuration(secs) == JL.RuntimeLabel(secs)
    ensures JL.ReadRuntime(FormatDuration(secs)) == Some(if secs >= 3600 then secs - secs % 60 else secs)
  {
    var mins := secs / 60;
    assert (secs >= 3600) == (mins >= 60);
    assert secs >= 3600 ==> mins / 60 == secs / 3600 && mins % 60 == (secs % 3600) / 60;
    assert secs < 60 ==> secs % 60 == secs;
    JL.RuntimeLabelReadsBack(secs);
  }

  /** The average column: the average's duration, or "-". */
  function AverageLabel(s: RuleStats): (r: string)
    ensures r == "-" <==> s.completed == 0
  {
    match AvgRuntimeSecs(s)
    case Some(secs) =>
      FormatDurationMatchesJobList(secs);
      FormatDuration(secs)
    case None => "-"
  }

  /** The progress column: the completed share in whole percent, or "-"
      for a rule with no jobs. */
  function Progress(s: RuleStats): (r: string)
    ensures s.total == 0 <==> r == "-"
  {
    if s.total > 0 then NatToString(s.completed * 100 / s.total) + "%" else "-"
  }

  /** A whole percentage "N%". */
  function ReadPercent(t: string): Option<nat> {
    if |t| >= 1 && t[|t| - 1] == '%' then ReadNumeral(t[..|t| - 1]) else None
  }

  lemma {:induction false} DivBounds(a: nat, b: nat)
    requires b > 0
    ensures (a / b) * b <= a < (a / b + 1) * b
  {
    assert a == (a / b) * b + a % b;
  }

  lemma {:induction false} PercentAtMost100(c: nat, t: nat)
    requires 0 < t && c <= t
    ensures c * 100 / t <= 100
  {
    var q := c * 100 / t;
    DivBounds(c * 100, t);
    assert c * 100 <= t * 100;
    assert (q - 100) * t <= 0;
  }

  /** The progress reads back as the completed share rounded down, which is
      at most 100 when no more jobs completed than exist. */
  lemma {:induction false} ProgressReadsBack(s: RuleStats)
    requires s.total > 0
    ensures var p := ReadPercent(Progress(s));
      && p.Some?
      && p.value * s.total <= s.completed * 100 < (p.value + 1) * s.total
      && (s.completed <= s.total ==> p.value <= 100)
  {
    var q := s.completed * 100 / s.total;
    var t := NatToString(q) + "%";
    assert t[..|t| - 1] == NatToString(q);
    DivBounds(s.completed * 100, s.total);
    if s.completed <= s.total {
      PercentAtMost100(s.completed, s.total);
    }
  }

  /** Every tally's progress is at most 100 percent. */
  lemma {:induction false} TallyProgress(jobs: map<string, Job>, ids: seq<string>)
    requires Tally(jobs, ids).total > 0
    ensures ReadPercent(Progress(Tally(jobs, ids))).Some?
    ensures ReadPercent(Progress(Tally(jobs, ids))).value <= 100
  {
    ProgressReadsBack(Tally(jobs, ids));
  }
}

=== FILE: runs.dfy ===
/** The run registry of charmer-runs: one record per pipeline run, with
    its status derived from job counts, and the list of known runs kept
    newest first and at most fifty long. The clock is a parameter. */
module Runs {
  import opened Wrappers
  import opened Parsers

  datatype RunStatus = Running | Completed | Failed | Unknown

  datatype RunInfo = RunInfo(
    runUuid: string,
    workingDir: string,
    firstSeen: Timestamp,
    lastUpdated: Timestamp,
    status: RunStatus,
    totalJobs: Option<nat>,
    completedJobs: nat,
    failedJobs: nat,
    finished: bool,
    host: Option<string>)

  /** `RunInfo::new`: a running run with nothing counted, first seen and
      last updated now. */
  function NewRun(uuid: string, workingDir: string, now: Timestamp): (r: RunInfo)
    ensures r.runUuid == uuid && r.workingDir == workingDir
    ensures r.status == Running && !r.finished
    ensures r.completedJobs == 0 && r.failedJobs == 0 && r.totalJobs.None? && r.host.None?
    ensures r.firstSeen == r.lastUpdated == now
  {
    RunInfo(uuid, workingDir, now, now, Running, None, 0, 0, false, None)
  }

  /** `update_counts`: the counts are replaced, and a finished run is
      failed exactly when a job failed, while an unfinished one is
      running. */
  function UpdateCounts(run: RunInfo, completed: nat, failed: nat, total: Option<nat>, now: Timestamp): (r: RunInfo)
    ensures r.completedJobs == completed && r.failedJobs == failed && r.totalJobs == total
    ensures r.lastUpdated == now
    ensures r.status == Running <==> !run.finished
    ensures r.status == Failed <==> run.finished && failed > 0
    ensures r.status == Completed <==> run.finished && failed == 0
    ensures r == run.(completedJobs := completed, failedJobs := failed, totalJobs := total,
                      lastUpdated := now, status := r.status)
  {
    var status := if run.finished then (if failed > 0 then Failed else Completed) else Running;
    run.(completedJobs := completed, failedJobs := failed, totalJobs := total, lastUpdated := now, status := status)
  }

  /** `mark_finished`: the run is finished, completed when it succeeded
      and failed otherwise. */
  function MarkFinished(run: RunInfo, success: bool, now: Timestamp): (r: RunInfo)
    ensures r.finished && r.lastUpdated == now
    ensures r.status == Completed <==> success
    ensures r.status == Failed <==> !success
    ensures r == run.(finished := true, lastUpdated := now, status := r.status)
  {
    run.(finished := true, lastUpdated := now, status := if success then Completed else Failed)
  }

  /** Once finished, the counts decide the status: a later count update
      overrides what `mark_finished` was told, both ways. */
  lemma {:induction false} CountsOverrideSuccess(run: RunInfo, success: bool, t1: Timestamp,
                                                 completed: nat, failed: nat, total: Option<nat>, t2: Timestamp)
    ensures var r := UpdateCounts(MarkFinished(run, success, t1), completed, failed, total, t2);
      r.finished && (r.status == Completed <==> failed == 0) && (r.status == Failed <==> failed > 0)
  {
    var m := MarkFinished(run, success, t1);
    assert m.finished;
  }

  /** Counting never finishes a run: a new run stays running however its
      counts are updated. */
  lemma {:induction false} NewRunCountsRunning(uuid: string, dir: string, t1: Timestamp,
                                               completed: nat, failed: nat, total: Option<nat>, t2: Timestamp)
    ensures var r := UpdateCounts(NewRun(uuid, dir, t1), completed, failed, total, t2);
      r.status == Running && !r.finished && r.firstSeen == t1
  {
    var n := NewRun(uuid, dir, t1);
    assert !n.finished;
  }

  // ---------------------------------------------------------------------
  // The list of runs

  /** `RunsState::MAX_RUNS`. */
  const MaxRuns: nat := 50

  predicate SortedDesc(s: seq<RunInfo>) {
    forall i, j :: 0 <= i < j < |s| ==> s[i].lastUpdated >= s[j].lastUpdated
  }

  predicate DistinctUuids(s: seq<RunInfo>) {
    forall i, j :: 0 <= i < j < |s| ==> s[i].runUuid != s[j].runUuid
  }

  /** Place `x` into a newest-first list, ahead of the runs as recent as
      it, so that sorting keeps the original order among equal times. */
  function Insert(x: RunInfo, t: seq<RunInfo>): (r: seq<RunInfo>)
    ensures |r| == |t| + 1
    ensures multiset(r) == multiset(t) + multiset{x}
    decreases |t|
  {
    if |t| == 0 || x.lastUpdated >= t[0].lastUpdated then [x] + t
    else
      assert t == [t[0]] + t[1..];
      [t[0]] + Insert(x, t[1..])
  }

  /** Inserting into a newest-first list keeps it newest first. */
  lemma {:induction false} InsertSorted(x: RunInfo, t: seq<RunInfo>)
    requires SortedDesc(t)
    ensures SortedDesc(Insert(x, t))
    decreases |t|
  {
    if |t| > 0 && x.lastUpdated < t[0].lastUpdated {
      var tail := t[1..];
      InsertSorted(x, tail);
      InsertBelowHead(x, t);
      ConsSorted(t[0], Insert(x, tail));
    } else {
      ConsSorted(x, t);
    }
  }

  /** Inserting a run older than a list's head into the rest of the list
      gives runs no newer than the head. */
  lemma {:induction false} InsertBelowHead(x: RunInfo, t: seq<RunInfo>)
    requires SortedDesc(t) && |t| > 0 && x.lastUpdated < t[0].lastUpdated
    ensures forall y :: y in Insert(x, t[1..]) ==> y.lastUpdated <= t[0].lastUpdated
  {
    var tail := t[1..];
    var rest := Insert(x, tail);
    forall y | y in rest ensures y.lastUpdated <= t[0].lastUpdated {
      assert y in multiset(rest);
      if y != x {
        assert y in multiset(tail);
        var k :| 0 <= k < |tail| && tail[k] == y;
        assert t[k + 1] == y;
      }
    }
  }

  /** A run no older than every run of a newest-first list can lead it. */
  lemma {:induction false} ConsSorted(h: RunInfo, t: seq<RunInfo>)
    requires SortedDesc(t)
    requires forall y :: y in t ==> y.lastUpdated <= h.lastUpdated
    ensures SortedDesc([h] + t)
  {
    var r := [h] + t;
    forall a, b | 0 <= a < b < |r| ensures r[a].lastUpdated >= r[b].lastUpdated {
      assert r[b] == t[b - 1];
      if a > 0 {
        assert r[a] == t[a - 1];
      }
    }
  }

  /** The stable sort by `last_updated`, newest first. */
  function SortRuns(s: seq<RunInfo>): (r: seq<RunInfo>)
    ensures |r| == |s| && multiset(r) == multiset(s) && SortedDesc(r)
    decreases |s|
  {
    if |s| == 0 then []
    else
      assert s == [s[0]] + s[1..];
      var rest := SortRuns(s[1..]);
      InsertSorted(s[0], rest);
      Insert(s[0], rest)
  }

  /** The index of the first run with this uuid. */
  function FindUuid(runs: seq<RunInfo>, uuid: string): (r: Option<nat>)
    ensures r.Some? ==> r.value < |runs| && runs[r.value].runUuid == uuid
    ensures r.Some? ==> forall j :: 0 <= j < r.value ==> runs[j].runUuid != uuid
    ensures r.None? <==> forall j :: 0 <= j < |runs| ==> runs[j].runUuid != uuid
    decreases |runs|
  {
    if |runs| == 0 then None
    else if runs[0].runUuid == uuid then Some(0)
    else
      match FindUuid(runs[1..], uuid)
      case None => None
      case Some(i) => Some(i + 1)
  }

  /** `get_run`: the first run with the uuid. */
  function GetRun(runs: seq<RunInfo>, uuid: string): (r: Option<RunInfo>)
    ensures r.Some? ==> r.value in runs && r.value.runUuid == uuid
    ensures r.None? <==> forall j :: 0 <= j < |runs| ==> runs[j].runUuid != uuid
  {
    match FindUuid(runs, uuid)
    case None => None
    case Some(i) => Some(runs[i])
  }

  /** The list before sorting: the run replaces the entry with its uuid,
      or is appended. */
  function Replaced(runs: seq<RunInfo>, run: RunInfo): (r: seq<RunInfo>)
    ensures run in r
    ensures forall y :: y in runs && y.runUuid != run.runUuid ==> y in r
  {
    match FindUuid(runs, run.runUuid)
    case Some(i) =>
      var r := runs[i := run];
      assert r[i] == run;
      assert forall j :: 0 <= j < |runs| && j != i ==> r[j] == runs[j];
      r
    case None => runs + [run]
  }

  function Min(a: nat, b: nat): nat {
    if a <= b then a else b
  }

  /** `upsert_run`: replace or append, sort newest first, keep fifty. */
  function Upsert(runs: seq<RunInfo>, run: RunInfo): (r: seq<RunInfo>)
    ensures |r| <= MaxRuns && SortedDesc(r)
    ensures |r| == Min(MaxRuns, |Replaced(runs, run)|)
    ensures multiset(r) <= multiset(Replaced(runs, run))
  {
    var rep := Replaced(runs, run);
    var sorted := SortRuns(rep);
    var k := Min(MaxRuns, |sorted|);
    assert sorted == sorted[..k] + sorted[k..];
    assert multiset(sorted[..k]) <= multiset(rep) by {
      assert multiset(sorted) == multiset(sorted[..k]) + multiset(sorted[k..]);
    }
    sorted[..k]
  }

  /** Replacing keeps the length; appending adds one. */
  lemma {:induction false} ReplacedLength(runs: seq<RunInfo>, run: RunInfo)
    ensures |Replaced(runs, run)| <= |runs| + 1
    ensures (exists j :: 0 <= j < |runs| && runs[j].runUuid == run.runUuid) ==> |Replaced(runs, run)| == |runs|
  {
  }

  /** Replacing or appending keeps uuids distinct. */
  lemma {:induction false} ReplacedDistinct(runs: seq<RunInfo>, run: RunInfo)
    requires DistinctUuids(runs)
    ensures DistinctUuids(Replaced(runs, run))
  {
    var r := Replaced(runs, run);
    match FindUuid(runs, run.runUuid)
    case Some(i) =>
      forall a, b | 0 <= a < b < |r| ensures r[a].runUuid != r[b].runUuid {
        assert r[a].runUuid == runs[a].runUuid && r[b].runUuid == runs[b].runUuid;
      }
    case None =>
      forall a, b | 0 <= a < b < |r| ensures r[a].runUuid != r[b].runUuid {
        if b == |runs| {
          assert r[a] == runs[a];
        } else {
          assert r[a] == runs[a] && r[b] == runs[b];
        }
      }
  }

  /** A run ahead of a list with distinct uuids keeps them distinct
      exactly when its uuid is new. */
  lemma {:induction false} DistinctCons(y: RunInfo, s: seq<RunInfo>)
    ensures DistinctUuids([y] + s) <==> DistinctUuids(s) && forall z :: z in s ==> z.runUuid != y.runUuid
  {
    var r := [y] + s;
    assert forall k :: 0 <= k < |s| ==> r[k + 1] == s[k];
    if DistinctUuids(r) {
      forall z | z in s ensures z.runUuid != y.runUuid {
        var k :| 0 <= k < |s| && s[k] == z;
        assert r[0] == y && r[k + 1] == z;
      }
    }
    if DistinctUuids(s) && forall z :: z in s ==> z.runUuid != y.runUuid {
      forall a, b | 0 <= a < b < |r| ensures r[a].runUuid != r[b].runUuid {
        if a == 0 {
          assert r[b] == s[b - 1];
        } else {
          assert r[a] == s[a - 1] && r[b] == s[b - 1];
        }
      }
    }
  }

  /** Inserting a run of a new uuid keeps uuids distinct. */
  lemma {:induction false} InsertDistinct(x: RunInfo, t: seq<RunInfo>)
    requires DistinctUuids(t) && forall y :: y in t ==> y.runUuid != x.runUuid
    ensures DistinctUuids(Insert(x, t))
    decreases |t|
  {
    if |t| > 0 && x.lastUpdated < t[0].lastUpdated {
      var tail := t[1..];
      assert t == [t[0]] + tail;
      DistinctCons(t[0], tail);
      InsertDistinct(x, tail);
      var rest := Insert(x, tail);
      forall z | z in rest ensures z.runUuid != t[0].runUuid {
        assert z in multiset(rest);
        assert z == x || z in tail;
      }
      DistinctCons(t[0], rest);
    } else {
      DistinctCons(x, t);
    }
  }

  /** Sorting keeps uuids distinct. */
  lemma {:induction false} SortDistinct(s: seq<RunInfo>)
    requires DistinctUuids(s)
    ensures DistinctUuids(SortRuns(s))
    decreases |s|
  {
    if |s| > 0 {
      var tail := s[1..];
      assert DistinctUuids(tail) by {
        forall a, b | 0 <= a < b < |tail| ensures tail[a].runUuid != tail[b].runUuid {
          assert tail[a] == s[a + 1] && tail[b] == s[b + 1];
        }
      }
      SortDistinct(tail);
      var sorted := SortRuns(tail);
      forall y | y in sorted ensures y.runUuid != s[0].runUuid {
        assert y in multiset(sorted);
        assert y in tail;
        var k :| 0 <= k < |tail| && tail[k] == y;
        assert s[k + 1] == y;
      }
      InsertDistinct(s[0], sorted);
    }
  }

  /** Run uuids stay pairwise distinct across upserts. */
  lemma {:induction false} UpsertDistinct(runs: seq<RunInfo>, run: RunInfo)
    requires DistinctUuids(runs)
    ensures DistinctUuids(Upsert(runs, run))
  {
    ReplacedDistinct(runs, run);
    SortDistinct(Replaced(runs, run));
  }

  /** Below the cap nothing is dropped: the upserted run can be looked up,
      and every run of another uuid is still there. */
  lemma {:induction false} UpsertThenGet(runs: seq<RunInfo>, run: RunInfo)
    requires DistinctUuids(runs) && |runs| < MaxRuns
    ensures GetRun(Upsert(runs, run), run.runUuid) == Some(run)
    ensures forall y :: y in runs && y.runUuid != run.runUuid ==> y in Upsert(runs, run)
    ensures |Upsert(runs, run)| == |Replaced(runs, run)|
  {
    var rep := Replaced(runs, run);
    ReplacedLength(runs, run);
    var sorted := SortRuns(rep);
    assert Upsert(runs, run) == sorted;
    assert forall y :: y in rep ==> y in sorted by {
      forall y | y in rep ensures y in sorted {
        assert y in multiset(rep);
      }
    }
    UpsertDistinct(runs, run);
    GetRunDistinct(sorted, run);
  }

  /** With distinct uuids, a listed run is what its uuid looks up. */
  lemma {:induction false} GetRunDistinct(s: seq<RunInfo>, run: RunInfo)
    requires DistinctUuids(s) && run in s
    ensures GetRun(s, run.runUuid) == Some(run)
  {
    var g := GetRun(s, run.runUuid);
    var i :| 0 <= i < |s| && s[i] == run;
    assert g.Some?;
    var j :| 0 <= j < |s| && s[j] == g.value;
    assert i == j;
  }

  /** A sequence of upserts, one run after another. */
  function UpsertAll(runs: seq<RunInfo>, news: seq<RunInfo>): (r: seq<RunInfo>)
    ensures |news| > 0 ==> |r| <= MaxRuns
    decreases |news|
  {
    if |news| == 0 then runs else UpsertAll(Upsert(runs, news[0]), news[1..])
  }

  /** Upserting runs of new, distinct uuids grows the list by one each
      time until the cap, and then keeps it at the cap. */
  lemma {:induction false} UpsertAllLength(runs: seq<RunInfo>, news: seq<RunInfo>)
    requires |runs| <= MaxRuns && DistinctUuids(news)
    requires forall y, z :: y in runs && z in news ==> y.runUuid != z.runUuid
    ensures |UpsertAll(runs, news)| == Min(MaxRuns, |runs| + |news|)
    decreases |news|
  {
    if |news| > 0 {
      var run := news[0];
      var rest := news[1..];
      UpsertFresh(runs, run);
      var next := Upsert(runs, run);
      forall y, z | y in next && z in rest ensures y.runUuid != z.runUuid {
        var k :| 0 <= k < |rest| && rest[k] == z;
        assert news[k + 1] == z;
      }
      forall a, b | 0 <= a < b < |rest| ensures rest[a].runUuid != rest[b].runUuid {
        assert rest[a] == news[a + 1] && rest[b] == news[b + 1];
      }
      UpsertAllLength(next, rest);
    }
  }

  /** Upserting a run of a new uuid appends it before sorting: the list
      grows by one up to the cap and gains no run but the new one. */
  lemma {:induction false} UpsertFresh(runs: seq<RunInfo>, run: RunInfo)
    requires forall y :: y in runs ==> y.runUuid != run.runUuid
    ensures |Upsert(runs, run)| == Min(MaxRuns, |runs| + 1)
    ensures forall y :: y in Upsert(runs, run) ==> y == run || y in runs
  {
    assert forall j :: 0 <= j < |runs| ==> runs[j].runUuid != run.runUuid by {
      forall j | 0 <= j < |runs| ensures runs[j].runUuid != run.runUuid {
        assert runs[j] in runs;
      }
    }
    assert Replaced(runs, run) == runs + [run];
    ReplacedMembers(runs, run);
    var next := Upsert(runs, run);
    forall y | y in next ensures y == run || y in runs {
      assert y in multiset(next);
      assert y in Replaced(runs, run);
    }
  }

  /** The registry's truncation example: sixty runs of distinct uuids
      upserted into an empty list leave exactly `MaxRuns` runs. */
  lemma {:induction false} UpsertSixty(news: seq<RunInfo>)
    requires |news| == 60 && DistinctUuids(news)
    ensures |UpsertAll([], news)| == MaxRuns
  {
    UpsertAllLength([], news);
  }

  /** At the cap, the runs dropped are no more recent than any run kept:
      the list keeps the fifty newest. */
  lemma {:induction false} UpsertKeepsNewest(runs: seq<RunInfo>, run: RunInfo)
    ensures var r := Upsert(runs, run);
      forall y, z :: y in Replaced(runs, run) && y !in r && z in r ==> z.lastUpdated >= y.lastUpdated
  {
    var rep := Replaced(runs, run);
    var sorted := SortRuns(rep);
    var r := Upsert(runs, run);
    assert r == sorted[..|r|];
    forall y, z | y in rep && y !in r && z in r ensures z.lastUpdated >= y.lastUpdated {
      assert y in multiset(rep);
      var k :| 0 <= k < |sorted| && sorted[k] == y;
      var m :| 0 <= m < |r| && r[m] == z;
      assert sorted[m] == z;
    }
  }

  // ---------------------------------------------------------------------
  // The current run

  /** The index of the first running run. */
  function FirstRunning(runs: seq<RunInfo>): (r: Option<nat>)
    ensures r.Some? ==> r.value < |runs| && runs[r.value].status == Running
    ensures r.Some? ==> forall j :: 0 <= j < r.value ==> runs[j].status != Running
    ensures r.None? <==> forall j :: 0 <= j < |runs| ==> runs[j].status != Running
    decreases |runs|
  {
    if |runs| == 0 then None
    else if runs[0].status == Running then Some(0)
    else
      match FirstRunning(runs[1..])
      case None => None
      case Some(i) => Some(i + 1)
  }

  /** `max_by_key` on `last_updated`: a latest run, the last of several
      equally recent ones. */
  function LatestIndex(runs: seq<RunInfo>): (i: nat)
    requires |runs| > 0
    ensures i < |runs|
    ensures forall j :: 0 <= j < |runs| ==> runs[j].lastUpdated <= runs[i].lastUpdated
    ensures forall j :: i < j < |runs| ==> runs[j].lastUpdated < runs[i].lastUpdated
    decreases |runs|
  {
    if |runs| == 1 then 0
    else
      var k := LatestIndex(runs[..|runs| - 1]);
      assert forall j :: 0 <= j < |runs| - 1 ==> runs[..|runs| - 1][j] == runs[j];
      if runs[|runs| - 1].lastUpdated >= runs[k].lastUpdated then |runs| - 1 else k
  }

  /** `current_run`: the first running run in list order, or else a
      latest run; None exactly when there are no runs. */
  function CurrentRun(runs: seq<RunInfo>): (r: Option<RunInfo>)
    ensures r.None? <==> |runs| == 0
    ensures r.Some? ==> r.value in runs
    ensures (exists j :: 0 <= j < |runs| && runs[j].status == Running) ==> r.Some? && r.value.status == Running
    ensures forall i :: 0 <= i < |runs| && runs[i].status == Running ==>
      (forall j :: 0 <= j < i ==> runs[j].status != Running) ==> r == Some(runs[i])
    ensures (forall j :: 0 <= j < |runs| ==> runs[j].status != Running) && r.Some? ==>
      forall j :: 0 <= j < |runs| ==> runs[j].lastUpdated <= r.value.lastUpdated
  {
    match FirstRunning(runs)
    case Some(i) => Some(runs[i])
    case None => if |runs| == 0 then None else Some(runs[LatestIndex(runs)])
  }

  /** The registry's own example: with no other run running, the current
      run after upserting a running run is that run, as long as the list
      is below the cap. */
  lemma {:induction false} CurrentRunPrefersRunning(runs: seq<RunInfo>, run: RunInfo)
    requires DistinctUuids(runs) && |runs| < MaxRuns
    requires run.status == Running && forall y :: y in runs ==> y.status != Running
    ensures CurrentRun(Upsert(runs, run)) == Some(run)
  {
    var rep := Replaced(runs, run);
    ReplacedLength(runs, run);
    ReplacedMembers(runs, run);
    var sorted := SortRuns(rep);
    SortMembers(rep);
    assert Upsert(runs, run) == sorted;
    var f := FirstRunning(sorted);
    assert f.Some?;
    assert sorted[f.value] in sorted;
  }

  /** After replacing or appending, every run is the new one or an old one. */
  lemma {:induction false} ReplacedMembers(runs: seq<RunInfo>, run: RunInfo)
    ensures forall y :: y in Replaced(runs, run) ==> y == run || y in runs
  {
    var rep := Replaced(runs, run);
    match FindUuid(runs, run.runUuid)
    case Some(i) =>
      forall y | y in rep ensures y == run || y in runs {
        var k :| 0 <= k < |rep| && rep[k] == y;
        if k != i {
          assert rep[k] == runs[k];
        }
      }
    case None =>
  }

  /** Sorting keeps exactly the same runs. */
  lemma {:induction false} SortMembers(s: seq<RunInfo>)
    ensures forall y :: y in SortRuns(s) <==> y in s
  {
    var sorted := SortRuns(s);
    forall y ensures y in sorted <==> y in s {
      assert y in sorted <==> y in multiset(sorted);
      assert y in s <==> y in multiset(s);
    }
  }
}

=== FILE: sacct.dfy ===
/** Parsing of `sacct -X --parsable2 --noheader` output: the thirteen
    columns JobIDRaw, JobName, State, Partition, Submit, Start, End,
    NodeList, AllocCPUS, ReqMem, Timelimit, Comment, ExitCode, and the
    four-column resource usage query. */
module Sacct {
  import opened Wrappers
  import opened Text
  import opened Parsers
  import opened SlurmTypes
  import Batch

  /** The first whitespace-separated word of a state ("CANCELLED by 123"
      is CANCELLED), or the whole text when it has none. */
  function BaseState(s: string): (r: string)
    ensures r == s || (|r| > 0 && NoWhitespace(r))
    ensures |s| > 0 && NoWhitespace(s) ==> r == s
  {
    SplitWhitespaceTokens(s);
    if |s| > 0 && NoWhitespace(s) then
      FirstTokenOf(s, "");
      assert s + "" == s;
      FirstToken(s).GetOr(s)
    else FirstToken(s).GetOr(s)
  }

  /** The state names sacct prints, in upper case. */
  predicate IsStateName(u: string) {
    u in {"PENDING", "RUNNING", "COMPLETED", "FAILED", "CANCELLED", "TIMEOUT", "OUT_OF_MEMORY", "NODE_FAIL"}
  }

  /** The state an upper-case base name stands for, given the job's exit
      code. Only the long names are recognised: the short codes squeue
      prints ("PD", "R", ...) are unknown here. */
  function StateOfName(u: string, exitCode: int): (r: SlurmJobState)
    ensures r == Pending <==> u == "PENDING"
    ensures r == Running <==> u == "RUNNING"
    ensures r.Completed? <==> u == "COMPLETED"
    ensures r.Completed? ==> r == Completed(exitCode, 0)
    ensures r == Failed(exitCode, "Exit code: " + IntToString(exitCode)) <==> u == "FAILED"
    ensures r == Failed(-1, "Node failure") <==> u == "NODE_FAIL"
    ensures r.Failed? <==> u == "FAILED" || u == "NODE_FAIL"
    ensures r == Cancelled <==> u == "CANCELLED"
    ensures r == Timeout <==> u == "TIMEOUT"
    ensures r == OutOfMemory <==> u == "OUT_OF_MEMORY"
    ensures r.Unknown? <==> !IsStateName(u)
    ensures r.Unknown? ==> r.name == u
  {
    assert ("Exit code: " + IntToString(exitCode))[0] == 'E';
    if u == "PENDING" then Pending
    else if u == "RUNNING" then Running
    else if u == "COMPLETED" then Completed(exitCode, 0)
    else if u == "FAILED" then Failed(exitCode, "Exit code: " + IntToString(exitCode))
    else if u == "CANCELLED" then Cancelled
    else if u == "TIMEOUT" then Timeout
    else if u == "OUT_OF_MEMORY" then OutOfMemory
    else if u == "NODE_FAIL" then Failed(-1, "Node failure")
    else Unknown(u)
  }

  /** `parse_state`: the state named by the first word of the State
      column, in any letter case, carrying the exit code of the ExitCode
      column for completed and failed jobs. */
  function ParseState(stateText: string, exitCodeText: string): (r: SlurmJobState)
    ensures var u := ToUpper(BaseState(stateText));
      && (r == Pending <==> u == "PENDING")
      && (r == Running <==> u == "RUNNING")
      && (r.Completed? <==> u == "COMPLETED")
      && (r.Failed? <==> u == "FAILED" || u == "NODE_FAIL")
      && (r == Failed(-1, "Node failure") <==> u == "NODE_FAIL")
      && (r == Cancelled <==> u == "CANCELLED")
      && (r == Timeout <==> u == "TIMEOUT")
      && (r == OutOfMemory <==> u == "OUT_OF_MEMORY")
      && (r.Unknown? <==> !IsStateName(u))
    ensures r.Completed? ==> r.exitCode == ParseExitCode(exitCodeText) && r.runtime == 0
    ensures r.Failed? && r.exitCode != -1 ==> r.exitCode == ParseExitCode(exitCodeText)
    ensures r.Failed? && ToUpper(BaseState(stateText)) == "FAILED" ==>
      r == Failed(ParseExitCode(exitCodeText), "Exit code: " + IntToString(ParseExitCode(exitCodeText)))
    ensures r.Unknown? ==> r.name == ToUpper(BaseState(stateText))
  {
    StateOfName(ToUpper(BaseState(stateText)), ParseExitCode(exitCodeText))
  }

  /** Whatever follows the first word (the "by <uid>" of a cancellation)
      does not change the state. */
  lemma {:induction false} ParseStateIgnoresSuffix(word: string, rest: string, exitCodeText: string)
    requires |word| > 0 && NoWhitespace(word)
    requires |rest| > 0 ==> IsWhitespace(rest[0])
    ensures ParseState(word + rest, exitCodeText) == ParseState(word, exitCodeText)
  {
    FirstTokenOf(word, rest);
    FirstTokenOf(word, "");
    assert word + "" == word;
  }

  /** The source's examples: COMPLETED with "0:0" is exit code 0 and
      FAILED with "1:0" is exit code 1. */
  lemma {:induction false} ParseStateExitExamples(a: string, b: string, x0: string, x1: string)
    requires a == "COMPLETED" && b == "FAILED" && x0 == "0:0" && x1 == "1:0"
    ensures ParseState(a, x0) == Completed(0, 0)
    ensures ParseState(b, x1).Failed? && ParseState(b, x1).exitCode == 1
  {
    CompletedExample(a, x0);
    FailedExample(b, x1);
  }

  lemma {:induction false} CompletedExample(a: string, x: string)
    requires a == "COMPLETED" && x == "0:0"
    ensures ParseState(a, x) == Completed(0, 0)
  {
    ExitCodeOf(x, 0);
    assert UpperWord("COMPLETED");
    ParseStateOneWord(a, x);
  }

  lemma {:induction false} FailedExample(b: string, x: string)
    requires b == "FAILED" && x == "1:0"
    ensures ParseState(b, x).Failed? && ParseState(b, x).exitCode == 1
  {
    ExitCodeOf(x, 1);
    assert UpperWord("FAILED");
    ParseStateOneWord(b, x);
  }

  /** "N:0" carries exit code N. */
  lemma {:induction false} ExitCodeOf(x: string, n: nat)
    requires n <= 9 && x == [DigitChar(n)] + ":0"
    ensures ParseExitCode(x) == n
  {
    ParseExitCodeOfPair(n, 0);
    assert NatToString(n) == [DigitChar(n)];
    assert NatToString(0) == "0";
    assert x == NatToString(n) + ":" + NatToString(0);
  }

  /** A state written as one upper-case word is read as that word. */
  lemma {:induction false} ParseStateOneWord(w: string, x: string)
    requires |w| > 0 && UpperWord(w)
    ensures ParseState(w, x) == StateOfName(w, ParseExitCode(x))
  {
    UpperWordFacts(w);
    FirstTokenOf(w, "");
    assert w + "" == w;
  }

  /** The source's example "CANCELLED by 12345": the user id is ignored. */
  lemma {:induction false} ParseStateCancelledExample(w: string, suffix: string, x: string)
    requires w == "CANCELLED" && suffix == " by 12345"
    ensures ParseState(w + suffix, x) == Cancelled
  {
    assert IsWhitespace(suffix[0]);
    FirstTokenOf(w, suffix);
    ToUpperFixed(w);
  }

  /** The short codes squeue prints are not sacct state names: "PD" and
      "R" stay unknown, under their own names. */
  lemma {:induction false} ParseStateShortCodes(pd: string, r: string, x: string)
    requires pd == "PD" && r == "R"
    ensures ParseState(pd, x) == Unknown("PD")
    ensures ParseState(r, x) == Unknown("R")
  {
    assert UpperWord("PD") && UpperWord("R");
    ParseStateOneWord(pd, x);
    ParseStateOneWord(r, x);
  }

  /** `parse_sacct_line`: the job a line describes, or the field-count
      message when it has fewer than thirteen fields. */
  function ParseSacctLine(line: string, calendar: string -> Option<Timestamp>): (r: Result<SlurmJob, string>)
    ensures r.Ok? <==> CountChar(line, '|') >= 12
    ensures r.Err? ==> r.error == SplitDelimited(line, 13).error
  {
    match SplitDelimited(line, 13)
    case Err(e) => Err(e)
    case Ok(f) =>
      Ok(SlurmJob(
        jobId := f[0],
        name := f[1],
        state := ParseState(f[2], f[12]),
        partition := NonEmptyString(f[3]),
        submitTime := ParseSlurmTimestamp(f[4], calendar),
        startTime := ParseSlurmTimestamp(f[5], calendar),
        endTime := ParseSlurmTimestamp(f[6], calendar),
        nodelist := NonEmptyString(f[7]),
        cpus := ParseU32(f[8]),
        memMb := ParseMemoryMb(f[9], SlurmSacct),
        timeLimit := ParseDuration(f[10]),
        comment := NonEmptyString(f[11])))
  }

  /** A line assembled from thirteen '|'-free columns parses back column by
      column; the state combines the third column with the last one. */
  lemma {:induction false} ParseSacctLineFields(f: seq<string>, calendar: string -> Option<Timestamp>)
    requires |f| == 13
    requires forall i :: 0 <= i < |f| ==> Free(f[i], '|')
    ensures var r := ParseSacctLine(Join(f, "|"), calendar);
      r.Ok? && r.value.jobId == f[0] && r.value.name == f[1]
      && r.value.state == ParseState(f[2], f[12]) && r.value.partition == NonEmptyString(f[3])
      && r.value.submitTime == ParseSlurmTimestamp(f[4], calendar)
      && r.value.startTime == ParseSlurmTimestamp(f[5], calendar)
      && r.value.endTime == ParseSlurmTimestamp(f[6], calendar)
      && r.value.nodelist == NonEmptyString(f[7]) && r.value.cpus == ParseU32(f[8])
      && r.value.memMb == ParseMemoryMb(f[9], SlurmSacct) && r.value.timeLimit == ParseDuration(f[10])
      && r.value.comment == NonEmptyString(f[11])
  {
    SplitDelimitedJoin(f, 13);
  }

  /** What one line of output contributes: nothing when it is blank or
      malformed, otherwise its job. */
  function SacctLineJob(line: string, calendar: string -> Option<Timestamp>): (r: Option<SlurmJob>)
    ensures r.Some? <==> |Trim(line)| > 0 && CountChar(line, '|') >= 12
  {
    if |Trim(line)| == 0 then None
    else
      match ParseSacctLine(line, calendar)
      case Ok(job) => Some(job)
      case Err(_) => None
  }

  /** The jobs `query_sacct` collects from sacct's output. */
  method QuerySacct(stdout: string, calendar: string -> Option<Timestamp>) returns (jobs: seq<SlurmJob>)
    ensures jobs == Batch.Collect(Lines(stdout), l => SacctLineJob(l, calendar))
    ensures |jobs| <= |Lines(stdout)|
  {
    jobs := Batch.CollectLoop(Lines(stdout), l => SacctLineJob(l, calendar));
  }

  // ---------------------------------------------------------------------
  // Resource usage

  /** `parse_elapsed_time`: an Elapsed or TotalCPU value in seconds, with
      any fractional part after '.' dropped; None for "" and "Unknown". */
  function ParseElapsedTime(s: string): (r: Option<nat>)
    ensures s == "" || s == "Unknown" ==> r.None?
  {
    if s == "" || s == "Unknown" then None
    else ParseDurationSecs(Split(s, '.')[0])
  }

  /** Milliseconds do not change the reading: "t.ms" reads as "t". */
  lemma {:induction false} ParseElapsedTimeMillis(t: string, ms: string)
    requires t != "" && t != "Unknown" && Free(t, '.')
    ensures ParseElapsedTime(t + "." + ms) == ParseElapsedTime(t)
  {
    var u := t + "." + ms;
    assert u[|t|] == '.';
    assert Free("Unknown", '.');
    SplitPrefix(t, "." + ms, '.');
    assert ("." + ms)[0] == '.';
    assert Split("." + ms, '.')[0] == "" by {
      assert ("." + ms)[1..] == ms;
    }
    assert t + "" == t;
    SplitFreeSingle(t, '.');
    assert t + "." + ms == t + ("." + ms);
  }

  /** A clock reading "HH:MM:SS" is its number of seconds. */
  lemma {:induction false} ParseElapsedTimeClock(h: string, m: string, sec: string)
    requires IsNumeral(h) && IsNumeral(m) && IsNumeral(sec)
    requires DigitsValue(h) * 3600 + DigitsValue(m) * 60 + DigitsValue(sec) <= U64_MAX
    ensures ParseElapsedTime(h + ":" + m + ":" + sec)
         == Some(DigitsValue(h) * 3600 + DigitsValue(m) * 60 + DigitsValue(sec))
  {
    var t := h + ":" + m + ":" + sec;
    assert t != "" && t != "Unknown" by {
      assert |t| >= 5;
      NumeralParses(h);
      assert t[|h|] == ':';
    }
    DigitsFree(h, '.');
    DigitsFree(m, '.');
    DigitsFree(sec, '.');
    FreeAppend(h, ":", '.');
    FreeAppend(h + ":", m, '.');
    FreeAppend(h + ":" + m, ":", '.');
    FreeAppend(h + ":" + m + ":", sec, '.');
    SplitFreeSingle(t, '.');
    ParseDurationHms(h, m, sec);
  }

  /** The record of `query_resource_usage`: MaxRSS in MB, Elapsed and
      TotalCPU in seconds. */
  datatype SlurmResourceUsage = SlurmResourceUsage(
    jobId: string, maxRssMb: Option<nat>, elapsedSeconds: Option<nat>, cpuTimeSeconds: Option<nat>)

  /** The usage in the first line of `sacct --format JobIDRaw,MaxRSS,Elapsed,TotalCPU`
      output; None when that line is missing or blank or has fewer than
      four fields. */
  function ParseResourceUsage(stdout: string): (r: Option<SlurmResourceUsage>)
    ensures r.Some? <==> |Lines(stdout)| > 0 && |Trim(Lines(stdout)[0])| > 0
                         && CountChar(Lines(stdout)[0], '|') >= 3
    ensures r.Some? ==> Free(r.value.jobId, '|')
  {
    var ls := Lines(stdout);
    if |ls| == 0 || |Trim(ls[0])| == 0 then None
    else
      var f := Split(ls[0], '|');
      SplitCount(ls[0], '|');
      SplitFree(ls[0], '|');
      if |f| < 4 then None
      else Some(SlurmResourceUsage(f[0], ParseMemoryMb(f[1], SlurmSacct),
                                   ParseElapsedTime(f[2]), ParseElapsedTime(f[3])))
  }

  /** A first line written as four '|'-free fields "id|mem|elapsed|cpu"
      gives the job id as is, the memory read in sacct format and the two
      times read by `ParseElapsedTime`, whatever follows the line. */
  lemma {:induction false} ParseResourceUsageFields(id: string, mem: string, el: string, cpu: string, rest: string)
    requires Free(id, '|') && Free(mem, '|') && Free(el, '|') && Free(cpu, '|')
    requires Free(id, '\n') && Free(mem, '\n') && Free(el, '\n') && Free(cpu, '\n') && Free(cpu, '\r')
    requires |Trim(id + "|" + mem + "|" + el + "|" + cpu)| > 0
    ensures ParseResourceUsage(id + "|" + mem + "|" + el + "|" + cpu + "\n" + rest)
         == Some(SlurmResourceUsage(id, ParseMemoryMb(mem, SlurmSacct), ParseElapsedTime(el), ParseElapsedTime(cpu)))
  {
    var line := id + "|" + mem + "|" + el + "|" + cpu;
    var f := [id, mem, el, cpu];
    assert Join(f, "|") == line by {
      assert Join(f[3..], "|") == cpu;
      assert Join(f[2..], "|") == el + "|" + cpu;
      assert Join(f[1..], "|") == mem + "|" + el + "|" + cpu;
    }
    SplitDelimitedJoin(f, 4);
    assert Free(line, '\n') by {
      FreeAppend(id, "|", '\n');
      FreeAppend(id + "|", mem, '\n');
      FreeAppend(id + "|" + mem, "|", '\n');
      FreeAppend(id + "|" + mem + "|", el, '\n');
      FreeAppend(id + "|" + mem + "|" + el, "|", '\n');
      FreeAppend(id + "|" + mem + "|" + el + "|", cpu, '\n');
    }
    var tail := "\n" + rest;
    SplitPrefix(line, tail, '\n');
    assert Split(tail, '\n')[0] == "" by {
      assert tail[0] == '\n' && tail[1..] == rest;
    }
    assert line + "" == line;
    assert line + "\n" + rest == line + tail;
    assert StripCR(line) == line by {
      if |cpu| > 0 {
        assert line[|line| - 1] == cpu[|cpu| - 1];
      } else {
        assert line[|line| - 1] == '|';
      }
    }
    assert Lines(line + tail)[0] == line;
  }
}

=== FILE: slurm_failure.dfy ===
/** Failure analysis for a SLURM job: one `sacct` line with the fields
    State, ExitCode, MaxRSS, ReqMem, Elapsed, Timelimit and NodeList is
    classified into a failure mode, and the mode into an explanation and a
    suggested fix. */
module SlurmFailure {
  import opened Wrappers
  import opened Text
  import opened Parsers
  import opened Suggestions

  datatype FailureMode =
    | OutOfMemory(usedMb: nat, requestedMb: nat, suggestedMb: nat)
    | Timeout(elapsedSeconds: nat, limitSeconds: nat, suggestedSeconds: nat)
    | ExitCode(code: int, signal: Option<int>)
    | Cancelled(byUser: Option<string>)
    | NodeFailure(node: Option<string>)
    | Unknown(state: string)

  datatype FailureAnalysis = FailureAnalysis(
    jobId: string,
    mode: FailureMode,
    explanation: string,
    suggestion: string,
    rawState: string,
    maxRssMb: Option<nat>,
    reqMemMb: Option<nat>,
    elapsedSeconds: Option<nat>,
    timeLimitSeconds: Option<nat>)

  // ---------------------------------------------------------------------
  // Exit code and signal

  /** "code:signal": the code is the i32 before the first ':' (0 when it
      does not parse); the signal is the i32 after it, dropped when it does
      not parse or is 0. */
  function ParseExitCodeSignal(s: string): (r: (int, Option<int>))
    ensures r.0 == ParseExitCode(s)
    ensures r.1.Some? ==> r.1.value != 0 && I32_MIN <= r.1.value <= I32_MAX
    ensures r.1.Some? ==> |Split(s, ':')| >= 2 && ParseI32(Split(s, ':')[1]) == r.1
  {
    var parts := Split(s, ':');
    var signal := if |parts| >= 2 then ParseI32(parts[1]) else None;
    (ParseI32(parts[0]).GetOr(0), if signal == Some(0) then None else signal)
  }

  /** A rendered pair "c:s" gives back c, and s unless s is 0. */
  lemma {:induction false} ParseExitCodeSignalOfPair(code: nat, signal: nat)
    requires code <= I32_MAX && signal <= I32_MAX
    ensures ParseExitCodeSignal(NatToString(code) + ":" + NatToString(signal))
         == (code, if signal == 0 then None else Some(signal))
  {
    var a := NatToString(code);
    var b := NatToString(signal);
    DigitsFree(a, ':');
    DigitsFree(b, ':');
    SplitTwo(a, b, ':');
    ParseExitCodeOfPair(code, signal);
    ParseIntToString(signal, I32_MIN, I32_MAX);
  }

  /** Without a ':' there is no signal. */
  lemma {:induction false} ParseExitCodeSignalBare(s: string)
    requires Free(s, ':')
    ensures ParseExitCodeSignal(s).1.None?
  {
    SplitFreeSingle(s, ':');
  }

  /** The source's test vectors: "0:0", "1:0" and "137:9". */
  lemma {:induction false} ParseExitCodeSignalExamples(a: string, b: string, c: string)
    requires a == "0:0" && b == "1:0" && c == "137:9"
    ensures ParseExitCodeSignal(a) == (0, None)
    ensures ParseExitCodeSignal(b) == (1, None)
    ensures ParseExitCodeSignal(c) == (137, Some(9))
  {
    ParseExitCodeSignalOfPair(0, 0);
    ParseExitCodeSignalOfPair(1, 0);
    ParseExitCodeSignalOfPair(137, 9);
    assert NatToString(0) == "0" && NatToString(1) == "1";
    assert NatToString(137) == "137" && NatToString(9) == "9";
    assert a == NatToString(0) + ":" + NatToString(0);
    assert b == NatToString(1) + ":" + NatToString(0);
    assert c == NatToString(137) + ":" + NatToString(9);
  }

  // ---------------------------------------------------------------------
  // Classification

  /** The first whitespace token of the state, or the whole state when it
      has none. */
  function BaseState(raw: string): string {
    FirstToken(raw).GetOr(raw)
  }

  predicate IsFailedState(st: string) {
    st == "FAILED" || st == "BOOT_FAIL" || st == "DEADLINE"
  }

  /** "CANCELLED by 12345": the trimmed text after the first "by ", up to a
      second "by " if there is one. */
  function CancelledBy(raw: string): (r: Option<string>)
    ensures r.None? <==> !Contains(raw, "by ")
    ensures r.Some? ==> Trim(r.value) == r.value
  {
    match SplitNth1(raw, "by ")
    case None => None
    case Some(t) => TrimIdempotent(t); Some(Trim(t))
  }

  function OomMode(maxRssMb: Option<nat>, reqMemMb: Option<nat>): FailureMode {
    var used := maxRssMb.GetOr(0);
    var requested := reqMemMb.GetOr(0);
    OutOfMemory(used, requested, OomSuggestion(used, requested))
  }

  /** The failure mode, decided by the upper-cased base state alone and, for
      the plain failure states, by the exit code, signal and MaxRSS. */
  function Classify(raw: string, code: int, signal: Option<int>, maxRssMb: Option<nat>, reqMemMb: Option<nat>,
                    elapsed: Option<nat>, limit: Option<nat>, node: Option<string>): (m: FailureMode)
    ensures var st := ToUpper(BaseState(raw));
      var oomExit := code == 137 || (signal == Some(9) && maxRssMb.Some?);
      && (m.OutOfMemory? <==> st == "OUT_OF_MEMORY" || (IsFailedState(st) && oomExit))
      && (m.Timeout? <==> st == "TIMEOUT")
      && (m.Cancelled? <==> st == "CANCELLED")
      && (m.NodeFailure? <==> st == "NODE_FAIL")
      && (m.ExitCode? <==> IsFailedState(st) && !oomExit)
      && (m.Unknown? ==> m.state == st)
    ensures m.OutOfMemory? ==>
      m.usedMb == maxRssMb.GetOr(0) && m.requestedMb == reqMemMb.GetOr(0)
      && m.suggestedMb == OomSuggestion(m.usedMb, m.requestedMb)
    ensures m.Timeout? ==>
      m.elapsedSeconds == elapsed.GetOr(0) && m.limitSeconds == limit.GetOr(0)
      && m.suggestedSeconds == TimeoutSuggestion(m.elapsedSeconds, m.limitSeconds)
    ensures m.ExitCode? ==> m.code == code && m.signal == signal
    ensures m.Cancelled? ==> m.byUser == CancelledBy(raw)
    ensures m.NodeFailure? ==> m.node == node
  {
    var st := ToUpper(BaseState(raw));
    if st == "OUT_OF_MEMORY" then OomMode(maxRssMb, reqMemMb)
    else if st == "TIMEOUT" then
      var e := elapsed.GetOr(0);
      var l := limit.GetOr(0);
      Timeout(e, l, TimeoutSuggestion(e, l))
    else if st == "CANCELLED" then Cancelled(CancelledBy(raw))
    else if st == "NODE_FAIL" then NodeFailure(node)
    else if IsFailedState(st) then
      if code == 137 || (signal == Some(9) && maxRssMb.Some?) then OomMode(maxRssMb, reqMemMb)
      else ExitCode(code, signal)
    else Unknown(st)
  }

  /** An out-of-memory suggestion always leaves a gigabyte over the
      request, and covers half as much again as was used, while the
      arithmetic stays within u64. */
  lemma {:induction false} ClassifyOomBound(raw: string, code: int, signal: Option<int>, maxRssMb: Option<nat>,
                                            reqMemMb: Option<nat>, elapsed: Option<nat>, limit: Option<nat>,
                                            node: Option<string>)
    requires Classify(raw, code, signal, maxRssMb, reqMemMb, elapsed, limit, node).OutOfMemory?
    requires 3 * maxRssMb.GetOr(0) <= U64_MAX && reqMemMb.GetOr(0) + 1024 <= U64_MAX
    ensures var m := Classify(raw, code, signal, maxRssMb, reqMemMb, elapsed, limit, node);
      m.suggestedMb >= m.requestedMb + 1024 && 2 * m.suggestedMb >= 3 * m.usedMb
  {
    OomSuggestionBounds(maxRssMb.GetOr(0), reqMemMb.GetOr(0));
  }

  /** A timeout suggestion always leaves an hour over the limit while the
      arithmetic stays within u64. */
  lemma {:induction false} ClassifyTimeoutBound(raw: string, code: int, signal: Option<int>, maxRssMb: Option<nat>,
                                                reqMemMb: Option<nat>, elapsed: Option<nat>, limit: Option<nat>,
                                                node: Option<string>)
    requires Classify(raw, code, signal, maxRssMb, reqMemMb, elapsed, limit, node).Timeout?
    requires 3 * elapsed.GetOr(0) <= U64_MAX && limit.GetOr(0) + 3600 <= U64_MAX
    ensures var m := Classify(raw, code, signal, maxRssMb, reqMemMb, elapsed, limit, node);
      m.suggestedSeconds >= m.limitSeconds + 3600 && 2 * m.suggestedSeconds + 1 >= 3 * m.elapsedSeconds
  {
    TimeoutSuggestionBounds(elapsed.GetOr(0), limit.GetOr(0));
  }

  /** Only the first token of the state counts: "<state> <anything>" is
      classified as "<state>" alone, except for the canceller's name. */
  lemma {:induction false} ClassifyUsesBaseState(t: string, rest: string, code: int, signal: Option<int>,
                                                 maxRssMb: Option<nat>, reqMemMb: Option<nat>,
                                                 elapsed: Option<nat>, limit: Option<nat>, node: Option<string>)
    requires |t| > 0 && NoWhitespace(t)
    requires |rest| > 0 && IsWhitespace(rest[0])
    ensures var long := Classify(t + rest, code, signal, maxRssMb, reqMemMb, elapsed, limit, node);
      var short := Classify(t, code, signal, maxRssMb, reqMemMb, elapsed, limit, node);
      long == short || (long.Cancelled? && short.Cancelled?)
  {
    FirstTokenOf(t, rest);
    FirstTokenOf(t, "");
    assert t + "" == t;
  }

  /** In "CANCELLED by <uid>" the first "by " is the one after the state. */
  lemma {:induction false} CancelledByFind(uid: string)
    ensures Find("CANCELLED by " + uid, "by ") == Some(10)
  {
    var raw := "CANCELLED by " + uid;
    assert raw[10..13] == "by ";
    forall j: nat | j < 10 ensures !OccursAt(raw, "by ", j) {
      assert raw[j] == "CANCELLED by "[j];
      NotOccursAt(raw, "by ", j, 0);
    }
    FindIs(raw, "by ", 10);
  }

  /** sacct's "CANCELLED by <uid>" names the canceller. */
  lemma {:induction false} ClassifyCancelledBy(uid: string, code: int, signal: Option<int>,
                                               maxRssMb: Option<nat>, reqMemMb: Option<nat>,
                                               elapsed: Option<nat>, limit: Option<nat>, node: Option<string>)
    requires |uid| > 0 && NoWhitespace(uid) && !Contains(uid, "by ")
    ensures Classify("CANCELLED by " + uid, code, signal, maxRssMb, reqMemMb, elapsed, limit, node)
         == Cancelled(Some(uid))
  {
    CancelledStateOf(uid);
    CancelledByOf(uid);
  }

  lemma {:induction false} CancelledStateOf(uid: string)
    ensures ToUpper(BaseState("CANCELLED by " + uid)) == "CANCELLED"
  {
    var raw := "CANCELLED by " + uid;
    assert raw == "CANCELLED" + (" by " + uid);
    FirstTokenOf("CANCELLED", " by " + uid);
    CancelledUpper();
  }

  lemma {:induction false} CancelledUpper()
    ensures ToUpper("CANCELLED") == "CANCELLED"
  {
    assert UpperWord("CANCELLED");
    UpperWordFacts("CANCELLED");
  }

  lemma {:induction false} CancelledByOf(uid: string)
    requires |uid| > 0 && NoWhitespace(uid) && !Contains(uid, "by ")
    ensures CancelledBy("CANCELLED by " + uid) == Some(uid)
  {
    var raw := "CANCELLED by " + uid;
    CancelledByFind(uid);
    assert raw[13..] == uid;
    TrimNoEdges(uid);
  }

  // ---------------------------------------------------------------------
  // Messages

  /** The explanation of an exit code with a signal, by signal. */
  function SignalExplanation(code: int, sig: int): (r: string)
    ensures OpensWithJob(r)
  {
    var c := IntToString(code);
    var s := IntToString(sig);
    if sig == 9 then JobSays("killed with signal " + s + " (SIGKILL). Exit code: " + c)
    else if sig == 11 then JobSays("crashed with signal " + s + " (SIGSEGV - segmentation fault). Exit code: " + c)
    else if sig == 15 then JobSays("terminated with signal " + s + " (SIGTERM). Exit code: " + c)
    else JobSays("exited with code " + c + " and signal " + s)
  }

  /** The explanation of an exit code without a signal, by code. */
  function CodeExplanation(code: int): (r: string)
    ensures OpensWithJob(r)
  {
    if code == 1 then JobSays("failed with exit code 1 (general error)")
    else if code == 2 then JobSays("failed with exit code 2 (misuse of shell command)")
    else if code == 126 then JobSays("failed with exit code 126 (command not executable)")
    else if code == 127 then JobSays("failed with exit code 127 (command not found)")
    else if code == 137 then JobSays("killed (likely OOM killer). Exit code 137 = 128 + 9 (SIGKILL)")
    else JobSays("failed with exit code " + IntToString(code))
  }

  /** Memory: usage against allocation, and the Snakefile line that asks
      for the suggested amount. */
  function OomMessages(used: nat, requested: nat, suggested: nat, rend: Renderers): (r: (string, string))
    ensures ExplanationFirst(r)
    ensures EndsWith(r.1, "resources: mem_mb=" + NatToString(suggested))
  {
    var tail := "resources: mem_mb=" + NatToString(suggested);
    var s := "Increase memory to at least " + rend.gb(suggested) + " GB. In your Snakefile, add:\n  " + tail;
    assert s[|s| - |tail|..] == tail;
    ("Job exceeded memory limit. Used " + rend.gb(used) + " GB but only " + rend.gb(requested) + " GB was allocated.", s)
  }

  /** Time: run time against limit, and the Snakefile line that asks for
      the suggested time in SLURM's syntax. */
  function TimeoutMessages(elapsed: nat, limit: nat, suggested: nat, rend: Renderers): (r: (string, string))
    ensures ExplanationFirst(r)
    ensures EndsWith(r.1, "resources: runtime=\"" + rend.schedulerDuration(suggested) + "\"")
  {
    var tail := "resources: runtime=\"" + rend.schedulerDuration(suggested) + "\"";
    var s := "Increase time limit to at least " + rend.duration(suggested) + ". In your Snakefile, add:\n  " + tail;
    assert s[|s| - |tail|..] == tail;
    ("Job exceeded time limit. Ran for " + rend.duration(elapsed) + " but limit was " + rend.duration(limit) + ".", s)
  }

  function CancelledExplanation(byUser: Option<string>): (r: string)
    ensures OpensWithJob(r)
  {
    match byUser
    case Some(u) => JobSays("was cancelled by " + u)
    case None => JobSays("was cancelled")
  }

  function NodeExplanation(node: Option<string>): (r: string)
    ensures OpensWithJob(r)
  {
    match node
    case Some(n) => JobSays("failed due to node " + n + " failure")
    case None => JobSays("failed due to node failure")
  }

  /** The explanation and suggestion for each mode, each in its own place.
      The memory and time suggestions end with the Snakefile resource line
      that carries the suggested value. */
  function Messages(m: FailureMode, rend: Renderers): (r: (string, string))
    ensures ExplanationFirst(r)
    ensures m.OutOfMemory? ==> EndsWith(r.1, "resources: mem_mb=" + NatToString(m.suggestedMb))
    ensures m.Timeout? ==> EndsWith(r.1, "resources: runtime=\"" + rend.schedulerDuration(m.suggestedSeconds) + "\"")
    ensures m.ExitCode? ==> (r.1 == OomAdvice <==> m.code == 137)
    ensures m.Cancelled? ==> r.1 == IntentionalAdvice
    ensures m.NodeFailure? ==> r.1 == RerunAdvice
  {
    match m
    case OutOfMemory(used, requested, suggested) => OomMessages(used, requested, suggested, rend)
    case Timeout(elapsed, limit, suggested) => TimeoutMessages(elapsed, limit, suggested, rend)
    case ExitCode(code, signal) =>
      (match signal case Some(sig) => SignalExplanation(code, sig) case None => CodeExplanation(code),
       ExitCodeAdvice(code))
    case Cancelled(byUser) => (CancelledExplanation(byUser), IntentionalAdvice)
    case NodeFailure(node) => (NodeExplanation(node), RerunAdvice)
    case Unknown(state) => ("Job failed with unknown state: " + state, "Check SLURM logs for details.")
  }

  /** The messages as the source returns them: for a cancelled job and a
      node failure, the pair is built with the advice first, so the advice
      lands in the explanation and the description in the suggestion. */
  function MessagesAsWritten(m: FailureMode, rend: Renderers): (r: (string, string))
    ensures m.Cancelled? ==> r.0 == IntentionalAdvice
    ensures m.NodeFailure? ==> r.0 == RerunAdvice
  {
    match m
    case Cancelled(byUser) => (IntentionalAdvice, CancelledExplanation(byUser))
    case NodeFailure(node) => (RerunAdvice, NodeExplanation(node))
    case _ => Messages(m, rend)
  }

  /** The two differ exactly by the swap, and exactly for those two modes. */
  lemma {:induction false} MessagesAsWrittenSwapped(m: FailureMode, rend: Renderers)
    ensures MessagesAsWritten(m, rend)
         == if m.Cancelled? || m.NodeFailure? then Swap(Messages(m, rend)) else Messages(m, rend)
    ensures ExplanationFirst(MessagesAsWritten(m, rend)) <==> !(m.Cancelled? || m.NodeFailure?)
  {
    var r := Messages(m, rend);
    assert ExplanationFirst(r);
  }

  /** A job cancelled by nobody in particular is "explained" by advice. */
  lemma {:induction false} CancelledMessagesExample(rend: Renderers)
    ensures MessagesAsWritten(Cancelled(None), rend)
         == ("Consider if this was intentional " + "or due to dependency failure.", "Job was cancelled")
    ensures Messages(Cancelled(None), rend)
         == ("Job was cancelled", "Consider if this was intentional " + "or due to dependency failure.")
  {
    assert JobSays("was cancelled") == "Job was cancelled";
  }

  // ---------------------------------------------------------------------
  // The sacct line

  const FieldCount: nat := 7

  /** The node list, unless it is empty or "None". */
  function NodeOf(field: string): (r: Option<string>)
    ensures r.None? <==> field == "" || field == "None"
    ensures r.Some? ==> r.value == field
  {
    if field == "" || field == "None" then None else Some(field)
  }

  /** The amounts an out-of-memory or timeout mode carries are the
      analysis's measured fields, zero where nothing was measured. */
  predicate Measured(a: FailureAnalysis) {
    && (a.mode.OutOfMemory? ==> a.mode.usedMb == a.maxRssMb.GetOr(0) && a.mode.requestedMb == a.reqMemMb.GetOr(0))
    && (a.mode.Timeout? ==>
          a.mode.elapsedSeconds == a.elapsedSeconds.GetOr(0) && a.mode.limitSeconds == a.timeLimitSeconds.GetOr(0))
  }

  /** `parse_failure_line`: fewer than seven '|' fields is a parse error;
      otherwise the fields are parsed, classified and explained. */
  function ParseFailureLine(jobId: string, line: string, rend: Renderers): (r: Result<FailureAnalysis, string>)
    ensures r.Err? <==> CountChar(line, '|') + 1 < FieldCount
    ensures r.Err? ==> r.error == SplitDelimited(line, FieldCount).error
    ensures r.Ok? ==> r.value.jobId == jobId && Free(r.value.rawState, '|') && Measured(r.value)
    ensures r.Ok? ==> (r.value.explanation, r.value.suggestion) == Messages(r.value.mode, rend)
  {
    match SplitDelimited(line, FieldCount)
    case Err(e) => Err(e)
    case Ok(f) =>
      SplitDelimitedRejoin(line, FieldCount);
      var (code, signal) := ParseExitCodeSignal(f[1]);
      var maxRss := ParseMemoryMb(f[2], SlurmSacct);
      var reqMem := ParseMemoryMb(f[3], SlurmSacct);
      var elapsed := ParseDurationSecs(f[4]);
      var limit := ParseDurationSecs(f[5]);
      var mode := Classify(f[0], code, signal, maxRss, reqMem, elapsed, limit, NodeOf(f[6]));
      var (explanation, suggestion) := Messages(mode, rend);
      Ok(FailureAnalysis(jobId, mode, explanation, suggestion, f[0], maxRss, reqMem, elapsed, limit))
  }

  /** `parse_failure_line` as the source returns it: the same analysis,
      with the messages built by the as-written `explain`. */
  function ParseFailureLineAsWritten(jobId: string, line: string, rend: Renderers): (r: Result<FailureAnalysis, string>)
    ensures r.Err? <==> CountChar(line, '|') + 1 < FieldCount
    ensures r.Ok? ==> (r.value.explanation, r.value.suggestion) == MessagesAsWritten(r.value.mode, rend)
  {
    match ParseFailureLine(jobId, line, rend)
    case Err(e) => Err(e)
    case Ok(a) =>
      var (explanation, suggestion) := MessagesAsWritten(a.mode, rend);
      Ok(a.(explanation := explanation, suggestion := suggestion))
  }

  /** As written, a parsed line differs from the corrected one only in its
      two messages, which are swapped exactly for a cancelled job and a node
      failure. */
  lemma {:induction false} ParseFailureLineAsWrittenSwapped(jobId: string, line: string, rend: Renderers)
    ensures var w := ParseFailureLineAsWritten(jobId, line, rend);
      var c := ParseFailureLine(jobId, line, rend);
      && w.Ok? == c.Ok?
      && (c.Ok? ==> w.value.(explanation := c.value.explanation, suggestion := c.value.suggestion) == c.value)
      && (c.Ok? && (c.value.mode.Cancelled? || c.value.mode.NodeFailure?) ==>
            w.value.explanation == c.value.suggestion && w.value.suggestion == c.value.explanation)
      && (c.Ok? && !(c.value.mode.Cancelled? || c.value.mode.NodeFailure?) ==> w == c)
  {
    var c := ParseFailureLine(jobId, line, rend);
    if c.Ok? {
      MessagesAsWrittenSwapped(c.value.mode, rend);
    }
  }

  /** The fields of a line built from seven or more '|'-free fields come
      back in their places: the state, the parsed usage and limits, and the
      classification of those. */
  lemma {:induction false} ParseFailureLineFields(jobId: string, fields: seq<string>, rend: Renderers)
    requires |fields| >= FieldCount
    requires forall i :: 0 <= i < |fields| ==> Free(fields[i], '|')
    ensures var r := ParseFailureLine(jobId, Join(fields, "|"), rend);
      var cs := ParseExitCodeSignal(fields[1]);
      && r.Ok?
      && r.value.rawState == fields[0]
      && r.value.maxRssMb == ParseMemoryMb(fields[2], SlurmSacct)
      && r.value.reqMemMb == ParseMemoryMb(fields[3], SlurmSacct)
      && r.value.elapsedSeconds == ParseDurationSecs(fields[4])
      && r.value.timeLimitSeconds == ParseDurationSecs(fields[5])
      && r.value.mode == Classify(fields[0], cs.0, cs.1, r.value.maxRssMb, r.value.reqMemMb,
                                  r.value.elapsedSeconds, r.value.timeLimitSeconds, NodeOf(fields[6]))
  {
    SplitDelimitedJoin(fields, FieldCount);
  }
}

=== FILE: slurm_types.dfy ===
/** The job records the SLURM side produces from squeue and sacct output. */
module SlurmTypes {
  import opened Wrappers
  import opened Parsers

  /** A job's state as SLURM reports it; durations are whole seconds. */
  datatype SlurmJobState =
    | Pending
    | Running
    | Completed(exitCode: int, runtime: nat)
    | Failed(exitCode: int, error: string)
    | Cancelled
    | Timeout
    | OutOfMemory
    | Unknown(name: string)

  /** One line of squeue or sacct output, parsed. */
  datatype SlurmJob = SlurmJob(
    jobId: string,
    name: string,
    state: SlurmJobState,
    partition: Option<string>,
    submitTime: Option<Timestamp>,
    startTime: Option<Timestamp>,
    endTime: Option<Timestamp>,
    nodelist: Option<string>,
    cpus: Option<nat>,
    memMb: Option<nat>,
    timeLimit: Option<nat>,
    comment: Option<string>)
}

=== FILE: squeue.dfy ===
/** Parsing of `squeue -h -o "%A|%j|%T|%P|%V|%S|%e|%N|%C|%m|%l|%k"`
    output: job id, name, state, partition, submit, start and end time,
    node list, CPUs, memory, time limit and comment. */
module Squeue {
  import opened Wrappers
  import opened Text
  import opened Parsers
  import opened SlurmTypes
  import Batch

  /** The state names squeue prints, long and short, in upper case. */
  predicate IsStateCode(u: string) {
    u in {"PENDING", "PD", "RUNNING", "R", "COMPLETED", "CD", "FAILED", "F",
          "CANCELLED", "CA", "TIMEOUT", "TO", "OUT_OF_MEMORY", "OOM"}
  }

  /** The state an upper-case name stands for. */
  function StateOfCode(u: string): (r: SlurmJobState)
    ensures r == Pending <==> u == "PENDING" || u == "PD"
    ensures r == Running <==> u == "RUNNING" || u == "R"
    ensures r.Completed? <==> u == "COMPLETED" || u == "CD"
    ensures r.Failed? <==> u == "FAILED" || u == "F"
    ensures r == Cancelled <==> u == "CANCELLED" || u == "CA"
    ensures r == Timeout <==> u == "TIMEOUT" || u == "TO"
    ensures r == OutOfMemory <==> u == "OUT_OF_MEMORY" || u == "OOM"
    ensures r.Unknown? <==> !IsStateCode(u)
    ensures r.Unknown? ==> r.name == u
    ensures r.Completed? ==> r == Completed(0, 0)
    ensures r.Failed? ==> r == Failed(1, "")
  {
    if u == "PENDING" || u == "PD" then Pending
    else if u == "RUNNING" || u == "R" then Running
    else if u == "COMPLETED" || u == "CD" then Completed(0, 0)
    else if u == "FAILED" || u == "F" then Failed(1, "")
    else if u == "CANCELLED" || u == "CA" then Cancelled
    else if u == "TIMEOUT" || u == "TO" then Timeout
    else if u == "OUT_OF_MEMORY" || u == "OOM" then OutOfMemory
    else Unknown(u)
  }

  /** `parse_state`: the state a name stands for, in any letter case; a
      completed job counts as exit code 0 and a failed one as exit code 1
      with no message, since squeue reports neither. */
  function ParseState(s: string): (r: SlurmJobState)
    ensures var u := ToUpper(s);
      && (r == Pending <==> u == "PENDING" || u == "PD")
      && (r == Running <==> u == "RUNNING" || u == "R")
      && (r.Completed? <==> u == "COMPLETED" || u == "CD")
      && (r.Failed? <==> u == "FAILED" || u == "F")
      && (r == Cancelled <==> u == "CANCELLED" || u == "CA")
      && (r == Timeout <==> u == "TIMEOUT" || u == "TO")
      && (r == OutOfMemory <==> u == "OUT_OF_MEMORY" || u == "OOM")
    ensures r.Unknown? <==> !IsStateCode(ToUpper(s))
    ensures r.Unknown? ==> r.name == ToUpper(s)
    ensures r.Completed? ==> r == Completed(0, 0)
    ensures r.Failed? ==> r == Failed(1, "")
  {
    StateOfCode(ToUpper(s))
  }

  /** Letter case does not matter. */
  lemma {:induction false} ParseStateCaseInsensitive(s: string)
    ensures ParseState(ToLower(s)) == ParseState(s)
    ensures ParseState(ToUpper(s)) == ParseState(s)
  {
    ToUpperOfLower(s);
    ToUpperIdempotent(s);
  }

  /** An unknown state's recorded name parses back to the same state. */
  lemma {:induction false} ParseStateUnknownStable(s: string)
    requires ParseState(s).Unknown?
    ensures ParseState(ParseState(s).name) == ParseState(s)
  {
    ToUpperIdempotent(s);
  }

  /** The source's examples: "RUNNING" and "R" are running, "PENDING" and
      "PD" pending; the short codes agree with the long names. */
  lemma {:induction false} ParseStateExamples(a: string, b: string, c: string, d: string)
    requires a == "RUNNING" && b == "R" && c == "PENDING" && d == "PD"
    ensures ParseState(a) == Running && ParseState(b) == Running
    ensures ParseState(c) == Pending && ParseState(d) == Pending
  {
    assert ToUpper("RUNNING") == "RUNNING";
    assert ToUpper("R") == "R";
    assert ToUpper("PENDING") == "PENDING";
    assert ToUpper("PD") == "PD";
  }

  /** `parse_squeue_line`: the job a line describes, or the field-count
      message when it has fewer than twelve '|'-separated fields. */
  function ParseSqueueLine(line: string, calendar: string -> Option<Timestamp>): (r: Result<SlurmJob, string>)
    ensures r.Ok? <==> CountChar(line, '|') >= 11
    ensures r.Err? ==> r.error == SplitDelimited(line, 12).error
  {
    match SplitDelimited(line, 12)
    case Err(e) => Err(e)
    case Ok(f) =>
      Ok(SlurmJob(
        jobId := f[0],
        name := f[1],
        state := ParseState(f[2]),
        partition := NonEmptyString(f[3]),
        submitTime := ParseSlurmTimestamp(f[4], calendar),
        startTime := ParseSlurmTimestamp(f[5], calendar),
        endTime := ParseSlurmTimestamp(f[6], calendar),
        nodelist := NonEmptyString(f[7]),
        cpus := ParseU32(f[8]),
        memMb := ParseMemoryMb(f[9], Slurm),
        timeLimit := ParseDuration(f[10]),
        comment := NonEmptyString(f[11])))
  }

  /** A line assembled from twelve '|'-free fields parses back field by
      field: the i-th column feeds the i-th attribute. */
  lemma {:induction false} ParseSqueueLineFields(f: seq<string>, calendar: string -> Option<Timestamp>)
    requires |f| == 12
    requires forall i :: 0 <= i < |f| ==> Free(f[i], '|')
    ensures var r := ParseSqueueLine(Join(f, "|"), calendar);
      r.Ok? && r.value.jobId == f[0] && r.value.name == f[1]
      && r.value.state == ParseState(f[2]) && r.value.partition == NonEmptyString(f[3])
      && r.value.submitTime == ParseSlurmTimestamp(f[4], calendar)
      && r.value.startTime == ParseSlurmTimestamp(f[5], calendar)
      && r.value.endTime == ParseSlurmTimestamp(f[6], calendar)
      && r.value.nodelist == NonEmptyString(f[7]) && r.value.cpus == ParseU32(f[8])
      && r.value.memMb == ParseMemoryMb(f[9], Slurm) && r.value.timeLimit == ParseDuration(f[10])
      && r.value.comment == NonEmptyString(f[11])
  {
    SplitDelimitedJoin(f, 12);
  }

  /** What one line of output contributes: nothing when it is blank or
      malformed, otherwise its job. */
  function SqueueLineJob(line: string, calendar: string -> Option<Timestamp>): (r: Option<SlurmJob>)
    ensures r.Some? <==> |Trim(line)| > 0 && CountChar(line, '|') >= 11
  {
    if |Trim(line)| == 0 then None
    else
      match ParseSqueueLine(line, calendar)
      case Ok(job) => Some(job)
      case Err(_) => None
  }

  /** The jobs `query_squeue` collects from squeue's output. */
  method QuerySqueue(stdout: string, calendar: string -> Option<Timestamp>) returns (jobs: seq<SlurmJob>)
    ensures jobs == Batch.Collect(Lines(stdout), l => SqueueLineJob(l, calendar))
    ensures |jobs| <= |Lines(stdout)|
  {
    jobs := Batch.CollectLoop(Lines(stdout), l => SqueueLineJob(l, calendar));
  }
}

=== FILE: state_types.dfy ===
/** The unified job model of charmer-state: the status every scheduler
    state maps to, the job record the merges build, and the classifiers for
    execution environments and pipeline errors. */
module StateTypes {
  import opened Wrappers
  import opened Text
  import opened Parsers
  import S = SlurmTypes
  import L = LsfTypes

  /** The id under which the main Snakemake log is shown as a job. */
  const MainPipelineJobId: string := "__snakemake_main__"

  datatype JobStatus = Pending | Queued | Running | Completed | Failed | Cancelled | Unknown

  datatype JobTiming = JobTiming(queuedAt: Option<Timestamp>, startedAt: Option<Timestamp>, completedAt: Option<Timestamp>)

  const NoTiming: JobTiming := JobTiming(None, None, None)

  /** Requested resources; the time limit is in seconds. */
  datatype JobResources = JobResources(
    cpus: Option<nat>,
    memoryMb: Option<nat>,
    timeLimit: Option<nat>,
    partition: Option<string>,
    node: Option<string>)

  const NoResources: JobResources := JobResources(None, None, None, None, None)

  /** Measured usage of a finished job. */
  datatype ResourceUsage = ResourceUsage(maxRssMb: Option<nat>, elapsedSeconds: Option<nat>, cpuTimeSeconds: Option<nat>)

  datatype FailureMode = OutOfMemory | Timeout | ExitCode | Cancelled | NodeFailure | Unknown

  datatype FailureAnalysis = FailureAnalysis(
    mode: FailureMode,
    explanation: string,
    suggestion: string,
    memoryUsedMb: Option<nat>,
    memoryLimitMb: Option<nat>,
    runtimeSeconds: Option<nat>,
    timeLimitSeconds: Option<nat>)

  datatype JobError = JobError(exitCode: int, message: string, analysis: Option<FailureAnalysis>)

  /** Which sources have reported on a job. */
  datatype DataSources = DataSources(
    hasSnakemakeMetadata: bool,
    hasSlurmSqueue: bool,
    hasSlurmSacct: bool,
    hasLsfBjobs: bool,
    hasLsfBhist: bool)

  const NoSources: DataSources := DataSources(false, false, false, false, false)

  /** One job of the unified view. `schedulerJobId` is the SLURM or LSF job
      id; `isSnakemakeJob` records that the scheduler comment named a
      Snakemake rule. */
  datatype Job = Job(
    id: string,
    rule: string,
    wildcards: Option<string>,
    outputs: seq<string>,
    inputs: seq<string>,
    status: JobStatus,
    schedulerJobId: Option<string>,
    shellcmd: string,
    timing: JobTiming,
    resources: JobResources,
    usage: Option<ResourceUsage>,
    logFiles: seq<string>,
    error: Option<JobError>,
    condaEnv: Option<string>,
    containerImgUrl: Option<string>,
    dataSources: DataSources,
    isTarget: bool,
    isSnakemakeJob: bool)

  // ---------------------------------------------------------------------
  // Scheduler states to the unified status

  /** `to_job_status` for SLURM: pending jobs are queued, and a timeout or
      an out-of-memory kill is a failure. */
  function SlurmStatus(st: S.SlurmJobState): (r: JobStatus)
    ensures r == Queued <==> st.Pending?
    ensures r == Failed <==> st.Failed? || st.Timeout? || st.OutOfMemory?
    ensures r == Completed <==> st.Completed?
    ensures r == JobStatus.Unknown <==> st.Unknown?
  {
    match st
    case Pending => Queued
    case Running => Running
    case Completed(_, _) => Completed
    case Failed(_, _) => Failed
    case Cancelled => JobStatus.Cancelled
    case Timeout => Failed
    case OutOfMemory => Failed
    case Unknown(_) => JobStatus.Unknown
  }

  /** `to_job_error` for SLURM: only failures carry an error, a timeout or
      memory kill with exit code -1; the analysis is filled in later. */
  function SlurmError(st: S.SlurmJobState): (r: Option<JobError>)
    ensures r.Some? ==> r.value.analysis.None?
    ensures st.Failed? ==> r == Some(JobError(st.exitCode, st.error, None))
    ensures st.Timeout? || st.OutOfMemory? ==> r.Some? && r.value.exitCode == -1
  {
    match st
    case Failed(code, msg) => Some(JobError(code, msg, None))
    case Timeout => Some(JobError(-1, "Job exceeded time limit", None))
    case OutOfMemory => Some(JobError(-1, "Job exceeded memory limit", None))
    case _ => None
  }

  /** `to_job_status` for LSF: every suspended state counts as pending, and
      a zombie is unknown. */
  function LsfStatus(st: L.LsfJobState): (r: JobStatus)
    ensures r == Queued <==> st.Pending?
    ensures r == Pending <==> st.UserSuspendedPending? || st.UserSuspended? || st.SystemSuspended?
    ensures r == Completed <==> st.Done?
    ensures r == Failed <==> st.Exit?
    ensures r == JobStatus.Unknown <==> st.Zombie? || st.Unknown?
  {
    match st
    case Pending => Queued
    case Running => Running
    case Done(_, _) => Completed
    case Exit(_, _) => Failed
    case UserSuspendedPending => Pending
    case UserSuspended => Pending
    case SystemSuspended => Pending
    case Zombie => JobStatus.Unknown
    case Unknown(_) => JobStatus.Unknown
  }

  /** `to_job_error` for LSF: only an exited job carries an error. */
  function LsfError(st: L.LsfJobState): (r: Option<JobError>)
    ensures r.Some? ==> r.value.analysis.None?
    ensures st.Exit? ==> r == Some(JobError(st.exitCode, st.error, None))
  {
    match st
    case Exit(code, msg) => Some(JobError(code, msg, None))
    case _ => None
  }

  /** For both schedulers, a job carries an error exactly when its status is
      Failed; SLURM never yields Pending and LSF never yields Cancelled. */
  lemma {:induction false} ErrorIffFailed(s: S.SlurmJobState, l: L.LsfJobState)
    ensures SlurmError(s).Some? <==> SlurmStatus(s) == Failed
    ensures LsfError(l).Some? <==> LsfStatus(l) == Failed
    ensures SlurmStatus(s) != Pending && LsfStatus(l) != JobStatus.Cancelled
  {
    match s {
      case Pending =>
      case Running =>
      case Completed(_, _) =>
      case Failed(_, _) =>
      case Cancelled =>
      case Timeout =>
      case OutOfMemory =>
      case Unknown(_) =>
    }
  }

  // ---------------------------------------------------------------------
  // Execution environment

  datatype EnvType = Pixi | Conda | Container | Direct

  datatype ExecutionEnvironment = ExecutionEnvironment(envType: EnvType, envName: Option<string>, imageUrl: Option<string>)

  /** `ExecutionEnvironment::detect`. The three regular-expression detectors
      over the shell command are parameters. Priority: a container URL from
      the metadata, a container in the command, pixi, a conda environment
      from the metadata, conda in the command, and otherwise direct. */
  function Detect(shellcmd: string, condaEnv: Option<string>, containerUrl: Option<string>,
                  detectContainer: string -> Option<string>,
                  detectPixi: string -> Option<string>,
                  detectConda: string -> Option<string>): (r: ExecutionEnvironment)
    ensures r.envType == Container <==> containerUrl.Some? || detectContainer(shellcmd).Some?
    ensures r.envType == Pixi <==>
      containerUrl.None? && detectContainer(shellcmd).None? && detectPixi(shellcmd).Some?
    ensures r.envType == Conda <==>
      containerUrl.None? && detectContainer(shellcmd).None? && detectPixi(shellcmd).None?
      && (condaEnv.Some? || detectConda(shellcmd).Some?)
    ensures containerUrl.Some? ==> r.imageUrl == containerUrl
    ensures r.envType == Conda && condaEnv.Some? ==> r.envName == condaEnv
    ensures WellFormedEnv(r)
  {
    if containerUrl.Some? then ExecutionEnvironment(Container, None, containerUrl)
    else if detectContainer(shellcmd).Some? then ExecutionEnvironment(Container, None, detectContainer(shellcmd))
    else if detectPixi(shellcmd).Some? then ExecutionEnvironment(Pixi, detectPixi(shellcmd), None)
    else if condaEnv.Some? then ExecutionEnvironment(Conda, condaEnv, None)
    else if detectConda(shellcmd).Some? then ExecutionEnvironment(Conda, detectConda(shellcmd), None)
    else ExecutionEnvironment(Direct, None, None)
  }

  /** The shapes `detect` produces: only containers have an image, and only
      pixi and conda environments have a name. */
  predicate WellFormedEnv(e: ExecutionEnvironment) {
    (e.imageUrl.Some? ==> e.envType == Container)
    && (e.envName.Some? ==> e.envType == Pixi || e.envType == Conda)
  }

  const ContainerTag: string := "container:"
  const Ellipsis: string := "..."
  /** Container URLs longer than this are shortened for display. */
  const MaxShownUrl: nat := 40
  /** How much of a long URL's end is kept. */
  const KeptUrlTail: nat := 35

  /** `display` as intended, counting characters: "pixi:<name>",
      "conda:<name>", "container:<url>" (a URL over 40 characters shortened
      to "..." and its last 35), or "direct". */
  function Display(e: ExecutionEnvironment): (r: string)
    ensures e.envType == Container ==> StartsWith(r, ContainerTag) || r == "container"
    ensures e.envType == Container ==> |r| <= |ContainerTag| + MaxShownUrl
  {
    match e.envType
    case Pixi => if e.envName.Some? then "pixi:" + e.envName.value else "pixi"
    case Conda => if e.envName.Some? then "conda:" + e.envName.value else "conda"
    case Container =>
      if e.imageUrl.Some? then
        var url := e.imageUrl.value;
        if |url| > MaxShownUrl then ContainerTag + Ellipsis + url[|url| - KeptUrlTail..]
        else ContainerTag + url
      else "container"
    case Direct => "direct"
  }

  /** Reads a display string back; the inverse of `Display` wherever the
      display was not shortened. */
  function ReadDisplay(s: string): ExecutionEnvironment {
    if s == "pixi" then ExecutionEnvironment(Pixi, None, None)
    else if StartsWith(s, "pixi:") then ExecutionEnvironment(Pixi, Some(s[5..]), None)
    else if s == "conda" then ExecutionEnvironment(Conda, None, None)
    else if StartsWith(s, "conda:") then ExecutionEnvironment(Conda, Some(s[6..]), None)
    else if s == "container" then ExecutionEnvironment(Container, None, None)
    else if StartsWith(s, ContainerTag) then ExecutionEnvironment(Container, None, Some(s[|ContainerTag|..]))
    else ExecutionEnvironment(Direct, None, None)
  }

  /** The display names the environment's kind, its name and, for an image
      of at most 40 characters, the image: reading it back gives the
      environment. */
  lemma {:induction false} DisplayRoundTrip(e: ExecutionEnvironment)
    requires WellFormedEnv(e)
    requires e.envType == Container && e.imageUrl.Some? ==> |e.imageUrl.value| <= MaxShownUrl
    ensures ReadDisplay(Display(e)) == e
  {
    var r := Display(e);
    match e.envType
    case Pixi =>
      if e.envName.Some? {
        assert r[..5] == "pixi:" && r[5..] == e.envName.value;
        assert |r| != |"pixi"|;
        assert StartsWith(r, "pixi:");
        assert ReadDisplay(r) == ExecutionEnvironment(Pixi, Some(r[5..]), None);
      } else {
        assert r == "pixi";
        assert ReadDisplay(r) == ExecutionEnvironment(Pixi, None, None);
      }
    case Conda =>
      if e.envName.Some? {
        assert r[..6] == "conda:" && r[6..] == e.envName.value;
        assert r[..5] != "pixi:" by { assert r[0] == 'c'; }
        assert r != "pixi" by { assert r[0] == 'c'; }
        assert |r| != |"conda"|;
        assert ReadDisplay(r) == ExecutionEnvironment(Conda, Some(r[6..]), None);
      } else {
        assert r[0] == 'c' && r[1] == 'o' && r[2] == 'n' && r[3] == 'd' && |r| == 5;
        assert ReadDisplay(r) == ExecutionEnvironment(Conda, None, None);
      }
    case Container =>
      if e.imageUrl.Some? {
        assert r[..|ContainerTag|] == ContainerTag && r[|ContainerTag|..] == e.imageUrl.value;
        assert r[..5] != "pixi:" by { assert r[0] == 'c'; }
        assert r[..6] != "conda:" by { assert r[3] == 't'; }
        assert r != "pixi" && r != "conda" && r != "container" by { assert |r| > |"container"|; }
        assert ReadDisplay(r) == ExecutionEnvironment(Container, None, Some(r[|ContainerTag|..]));
      } else {
        assert r[0] == 'c' && r[3] == 't' && |r| == 9;
        assert ReadDisplay(r) == ExecutionEnvironment(Container, None, None);
      }
    case Direct =>
      assert r[0] == 'd' && |r| == 6;
  }

  /** A shortened container display keeps the URL's last 35 characters. */
  lemma {:induction false} DisplayLongUrl(url: string)
    requires |url| > MaxShownUrl
    ensures var r := Display(ExecutionEnvironment(Container, None, Some(url)));
      |r| == |ContainerTag| + |Ellipsis| + KeptUrlTail && EndsWith(r, url[|url| - KeptUrlTail..])
  {
  }

  /** `display` as written: the length test and the cut count UTF-8 bytes,
      so a URL over 40 bytes keeps its last 35 bytes, and the result is
      None where that cut falls inside a character and the slice panics. */
  function DisplayAsWritten(e: ExecutionEnvironment): (r: Option<string>)
    ensures e.envType != Container || e.imageUrl.None? ==> r == Some(Display(e))
    ensures e.envType == Container && e.imageUrl.Some? && ByteLen(e.imageUrl.value) > MaxShownUrl && r.Some? ==>
      && |r.value| >= |ContainerTag| + |Ellipsis|
      && r.value[..|ContainerTag| + |Ellipsis|] == ContainerTag + Ellipsis
      && ByteLen(r.value[|ContainerTag| + |Ellipsis|..]) == KeptUrlTail
      && EndsWith(e.imageUrl.value, r.value[|ContainerTag| + |Ellipsis|..])
  {
    match e.imageUrl
    case Some(url) =>
      if e.envType == Container && ByteLen(url) > MaxShownUrl then
        match ByteSuffix(url, KeptUrlTail)
        case None => None
        case Some(tail) =>
          var r := ContainerTag + Ellipsis + tail;
          assert r[|ContainerTag| + |Ellipsis|..] == tail;
          assert r[..|ContainerTag| + |Ellipsis|] == ContainerTag + Ellipsis;
          Some(r)
      else Some(Display(e))
    case None => Some(Display(e))
  }

  /** A URL of at most 40 bytes is shown whole by the source, exactly as
      the intended display shows it, so it reads back. */
  lemma {:induction false} DisplayAsWrittenShort(e: ExecutionEnvironment)
    requires WellFormedEnv(e)
    requires e.envType == Container && e.imageUrl.Some? ==> ByteLen(e.imageUrl.value) <= MaxShownUrl
    ensures DisplayAsWritten(e) == Some(Display(e))
    ensures ReadDisplay(DisplayAsWritten(e).value) == e
  {
    DisplayRoundTrip(e);
  }

  /** On an ASCII URL bytes are characters: the source's display never
      panics and is the intended one. */
  lemma {:induction false} DisplayAscii(e: ExecutionEnvironment)
    requires e.imageUrl.Some? ==> Ascii(e.imageUrl.value)
    ensures DisplayAsWritten(e) == Some(Display(e))
  {
    if e.envType == Container && e.imageUrl.Some? {
      var url := e.imageUrl.value;
      AsciiBytes(url, 0);
      if |url| > MaxShownUrl {
        AsciiSuffix(url, KeptUrlTail);
      }
    }
  }

  /** A URL over 40 bytes whose 35th byte from the end lies inside a
      multi-byte character `c` makes the source's slice panic; for example
      "aaaaa", then 'é', then 34 ASCII letters. */
  lemma {:induction false} DisplayAsWrittenPanics(p: string, c: char, q: string)
    requires ByteLen(q) < KeptUrlTail < ByteLen(q) + Utf8Width(c)
    requires ByteLen(p) + Utf8Width(c) + ByteLen(q) > MaxShownUrl
    ensures DisplayAsWritten(ExecutionEnvironment(Container, None, Some(p + [c] + q))).None?
  {
    var url := p + [c] + q;
    ByteLenAppend(p + [c], q);
    ByteLenAppend(p, [c]);
    assert ByteLen([c]) == Utf8Width(c) by { assert [c][1..] == []; }
    ByteSuffixInside(p, c, q, KeptUrlTail);
  }

  /** Five ASCII letters, 'é' and 34 more ASCII letters make a URL of 40
      characters but 41 bytes: the intended display shows it whole, while
      the source's cut lands inside the 'é' and panics. */
  lemma {:induction false} DisplayPanicsExample(p: string, q: string)
    requires Ascii(p) && |p| == 5 && Ascii(q) && |q| == KeptUrlTail - 1
    ensures DisplayAsWritten(ExecutionEnvironment(Container, None, Some(p + "é" + q))).None?
    ensures Display(ExecutionEnvironment(Container, None, Some(p + "é" + q))) == ContainerTag + p + "é" + q
  {
    AsciiBytes(p, 0);
    AsciiBytes(q, 0);
    assert Utf8Width('é') == 2;
    assert "é" == ['é'];
    DisplayAsWrittenPanics(p, 'é', q);
  }

  // ---------------------------------------------------------------------
  // Pipeline errors from the main log

  datatype PipelineErrorType =
    | MissingInput
    | CommandFailed
    | RuleError
    | WorkflowError
    | Locked
    | IncompleteFiles
    | SyntaxError
    | Generic

  datatype PipelineError = PipelineError(
    errorType: PipelineErrorType,
    rule: Option<string>,
    message: string,
    details: seq<string>,
    exitCode: Option<int>)

  /** The two regular expressions of the error parser: the rule name and the
      exit-code digits they capture, if any. */
  datatype ErrorPatterns = ErrorPatterns(ruleCapture: string -> Option<string>, exitCodeCapture: string -> Option<string>)

  /** `extract_rule_from_error`: the captured rule, unless it is one of the
      words "the", "a", "an". */
  function ExtractRule(error: string, pats: ErrorPatterns): (r: Option<string>)
    ensures r.Some? ==> r == pats.ruleCapture(error) && !IsArticle(r.value)
    ensures pats.ruleCapture(error).Some? && !IsArticle(pats.ruleCapture(error).value) ==> r.Some?
  {
    match pats.ruleCapture(error)
    case None => None
    case Some(rule) => if IsArticle(rule) then None else Some(rule)
  }

  predicate IsArticle(w: string) {
    w == "the" || w == "a" || w == "an"
  }

  /** `extract_exit_code`: the captured digits, when they fit an `i32`. */
  function ExtractExitCode(error: string, pats: ErrorPatterns): (r: Option<int>)
    ensures r.Some? ==> I32_MIN <= r.value <= I32_MAX
  {
    match pats.exitCodeCapture(error)
    case None => None
    case Some(digits) => ParseI32(digits)
  }

  /** The trimmed lines of `error` that look like paths: they start with
      '/', or contain "results/" or (when `withData`) "data/". */
  function PathDetails(lines: seq<string>, withData: bool): (r: seq<string>)
    ensures |r| <= |lines|
    ensures forall i :: 0 <= i < |r| ==> IsPathLine(r[i], withData)
    decreases |lines|
  {
    if |lines| == 0 then []
    else
      var t := Trim(lines[0]);
      (if IsPathLine(t, withData) then [t] else []) + PathDetails(lines[1..], withData)
  }

  predicate IsPathLine(t: string, withData: bool) {
    StartsWith(t, "/") || Contains(t, "results/") || (withData && Contains(t, "data/"))
  }

  /** The error kinds in the order `parse_error_string` tests them; each is
      recognised by a phrase of the lower-cased message. */
  predicate MentionsMissingInput(l: string) { Contains(l, "missinginputexception") || Contains(l, "missing input") }
  predicate MentionsCommandFailed(l: string) {
    Contains(l, "calledprocesserror") || Contains(l, "error executing rule") || Contains(l, "error in rule")
  }
  predicate MentionsLocked(l: string) { Contains(l, "lockexception") || Contains(l, "directory cannot be locked") }
  predicate MentionsIncomplete(l: string) { Contains(l, "incompletefilesexception") || Contains(l, "incomplete") }
  predicate MentionsSyntax(l: string) { Contains(l, "syntaxerror") || Contains(l, "syntax error") }
  predicate MentionsWorkflow(l: string) { Contains(l, "workflowerror") || Contains(l, "workflow error") }
  predicate MentionsRule(l: string) { Contains(l, "ruleexception") }

  /** `parse_error_string`: classifies a raw error line by the first kind
      its lower-cased text mentions, keeping the message as it was. Rule
      names are attached to missing-input, command, rule and generic
      errors; an exit code only to command failures; path details only to
      missing-input and incomplete-file errors. */
  function ParseErrorString(error: string, pats: ErrorPatterns): (r: PipelineError)
    ensures r.message == error
    ensures var l := ToLower(error);
      && (r.errorType == MissingInput <==> MentionsMissingInput(l))
      && (r.errorType == CommandFailed <==> !MentionsMissingInput(l) && MentionsCommandFailed(l))
      && (r.errorType == Locked <==>
            !MentionsMissingInput(l) && !MentionsCommandFailed(l) && MentionsLocked(l))
      && (r.errorType == IncompleteFiles <==>
            !MentionsMissingInput(l) && !MentionsCommandFailed(l) && !MentionsLocked(l) && MentionsIncomplete(l))
      && (r.errorType == SyntaxError <==>
            !MentionsMissingInput(l) && !MentionsCommandFailed(l) && !MentionsLocked(l)
            && !MentionsIncomplete(l) && MentionsSyntax(l))
      && (r.errorType == WorkflowError <==>
            !MentionsMissingInput(l) && !MentionsCommandFailed(l) && !MentionsLocked(l)
            && !MentionsIncomplete(l) && !MentionsSyntax(l) && MentionsWorkflow(l))
      && (r.errorType == RuleError <==>
            !MentionsMissingInput(l) && !MentionsCommandFailed(l) && !MentionsLocked(l)
            && !MentionsIncomplete(l) && !MentionsSyntax(l) && !MentionsWorkflow(l) && MentionsRule(l))
    ensures r.rule.Some? ==> !IsArticle(r.rule.value)
    ensures r.errorType in {Locked, IncompleteFiles, SyntaxError, WorkflowError} ==> r.rule.None?
    ensures r.exitCode.Some? ==> r.errorType == CommandFailed
    ensures |r.details| > 0 ==> r.errorType in {MissingInput, IncompleteFiles}
  {
    var l := ToLower(error);
    var base := PipelineError(Generic, None, error, [], None);
    var rule := ExtractRule(error, pats);
    if MentionsMissingInput(l) then
      base.(errorType := MissingInput, rule := rule, details := PathDetails(Lines(error), true))
    else if MentionsCommandFailed(l) then
      base.(errorType := CommandFailed, rule := rule, exitCode := ExtractExitCode(error, pats))
    else if MentionsLocked(l) then base.(errorType := Locked)
    else if MentionsIncomplete(l) then
      base.(errorType := IncompleteFiles, details := PathDetails(Lines(error), false))
    else if MentionsSyntax(l) then base.(errorType := SyntaxError)
    else if MentionsWorkflow(l) then base.(errorType := WorkflowError)
    else if MentionsRule(l) then base.(errorType := RuleError, rule := rule)
    else base.(rule := rule)
  }

  /** The classification ignores letter case: the lower- or upper-cased
      message is classified the same way. */
  lemma {:induction false} ParseErrorStringCaseInsensitive(error: string, pats: ErrorPatterns)
    ensures ParseErrorString(ToLower(error), pats).errorType == ParseErrorString(error, pats).errorType
    ensures ParseErrorString(ToUpper(error), pats).errorType == ParseErrorString(error, pats).errorType
  {
    ToLowerIdempotent(error);
    ToLowerOfUpper(error);
  }
}

=== FILE: suggestions.dfy ===
/** The limits both failure analysers suggest after an out-of-memory or a
    timeout, and the renderers their messages print numbers with. The
    source computes the suggestions in f64; below 2^52 the f64 steps are
    exact, so they are written here as integer arithmetic, with the `as
    u64` casts saturating and the u64 additions and products wrapping as a
    release build does. */
module Suggestions {
  import opened Text
  import opened Parsers

  /** How the messages print numbers: `gb` renders a megabyte amount as
      gigabytes with one decimal, `duration` renders seconds for people, and
      `schedulerDuration` renders seconds in the scheduler's own syntax. */
  datatype Renderers = Renderers(gb: nat -> string, duration: nat -> string, schedulerDuration: nat -> string)

  function Max(a: nat, b: nat): nat {
    if a >= b then a else b
  }

  /** `x as u64` for a value already rounded to a whole number. */
  function SatU64(x: nat): (r: nat)
    ensures r <= U64_MAX && (x <= U64_MAX ==> r == x)
  {
    if x > U64_MAX then U64_MAX else x
  }

  /** The memory to suggest: 1.5 times the usage rounded up to whole
      gigabytes, or the limit plus a gigabyte when that is larger. */
  function OomSuggestion(usedMb: nat, limitMb: nat): (r: nat)
    ensures r <= U64_MAX
  {
    var gigabytes := SatU64((3 * usedMb + 2047) / 2048);
    Max(Wrap64(gigabytes * 1024), Wrap64(limitMb + 1024))
  }

  /** The time to suggest: 1.5 times the elapsed time rounded down, or the
      limit plus an hour when that is larger. */
  function TimeoutSuggestion(elapsedSeconds: nat, limitSeconds: nat): (r: nat)
    ensures r <= U64_MAX
  {
    Max(SatU64(3 * elapsedSeconds / 2), Wrap64(limitSeconds + 3600))
  }

  /** Without overflow, the memory suggestion is the larger of the limit
      plus 1024 and the least multiple of 1024 that covers 1.5 times the
      usage. */
  lemma {:induction false} OomSuggestionBounds(usedMb: nat, limitMb: nat)
    requires 3 * usedMb <= U64_MAX && limitMb + 1024 <= U64_MAX
    ensures var r := OomSuggestion(usedMb, limitMb);
      r >= limitMb + 1024 && 2 * r >= 3 * usedMb
      && (r == limitMb + 1024 || (r % 1024 == 0 && 2 * (r - 1024) < 3 * usedMb))
  {
    var g := (3 * usedMb + 2047) / 2048;
    assert g * 2048 <= 3 * usedMb + 2047 < g * 2048 + 2048;
    assert g * 1024 <= U64_MAX;
    assert 2 * (g * 1024) >= 3 * usedMb;
  }

  /** Without overflow, the time suggestion is the larger of the limit plus
      3600 and the whole part of 1.5 times the elapsed time. */
  lemma {:induction false} TimeoutSuggestionBounds(elapsedSeconds: nat, limitSeconds: nat)
    requires 3 * elapsedSeconds <= U64_MAX && limitSeconds + 3600 <= U64_MAX
    ensures var r := TimeoutSuggestion(elapsedSeconds, limitSeconds);
      r >= limitSeconds + 3600 && 2 * r + 1 >= 3 * elapsedSeconds
      && (r == limitSeconds + 3600 || r == 3 * elapsedSeconds / 2)
  {
  }

  /** Even when the usage is beyond counting, the memory suggestion keeps a
      gigabyte over the limit while that does not overflow. */
  lemma {:induction false} OomSuggestionOverLimit(usedMb: nat, limitMb: nat)
    requires limitMb + 1024 <= U64_MAX
    ensures OomSuggestion(usedMb, limitMb) >= limitMb + 1024
  {
  }

  // ---------------------------------------------------------------------
  // Messages

  /** Advice texts both schedulers' analysers share. */
  const IntentionalAdvice: string := "Consider if this was intentional " + "or due to dependency failure."
  const RerunAdvice: string := "Re-run the job. " + "If persistent, contact cluster admin."
  const OomAdvice: string := "This is likely an out-of-memory error. " + "Try increasing memory allocation."
  const StderrAdvice: string := "Check the job's stderr log " + "for error details."

  /** An (explanation, suggestion) pair in the intended order: the
      explanation says what happened to the job, the suggestion says what to
      do, and only the former opens with "Job". */
  predicate ExplanationFirst(msg: (string, string)) {
    OpensWithJob(msg.0) && !OpensWithJob(msg.1)
  }

  /** The text starts with "Job". */
  predicate OpensWithJob(s: string) {
    |s| >= 3 && s[0] == 'J' && s[1] == 'o' && s[2] == 'b'
  }

  /** A sentence about the job: "Job " and what happened. */
  function JobSays(what: string): (r: string)
    ensures OpensWithJob(r)
  {
    "Job " + what
  }

  function Swap(msg: (string, string)): (r: (string, string))
    ensures r.0 == msg.1 && r.1 == msg.0
  {
    (msg.1, msg.0)
  }

  /** The suggestion after an exit code: memory advice exactly for 137. */
  function ExitCodeAdvice(code: int): (r: string)
    ensures r == OomAdvice <==> code == 137
    ensures !OpensWithJob(r)
  {
    if code == 137 then OomAdvice else StderrAdvice
  }
}

=== FILE: text.dfy ===
/** String primitives with the semantics of Rust's `str` methods that the
    modelled code relies on: `find`, `split`, `lines`, `trim`,
    `split_whitespace`, `to_uppercase` (ASCII only) and `parse` for the
    integer types, plus decimal rendering of integers.

    The functions are defined by structural recursion with small contracts;
    the facts that relate them are separate lemmas, so that unfolding one
    definition does not drag the others' specifications along. */
module Text {
  import opened Wrappers

  const U32_MAX: nat := 0xFFFF_FFFF
  const U64_MAX: nat := 0xFFFF_FFFF_FFFF_FFFF
  const I32_MIN: int := -0x8000_0000
  const I32_MAX: int := 0x7FFF_FFFF

  // ---------------------------------------------------------------------
  // Characters

  /** `char::is_whitespace`: the Unicode White_Space property. */
  predicate IsWhitespace(c: char) {
    ('\U{0009}' <= c <= '\U{000D}') || c == ' ' || c == '\U{0085}' || c == '\U{00A0}'
    || c == '\U{1680}' || ('\U{2000}' <= c <= '\U{200A}') || c == '\U{2028}'
    || c == '\U{2029}' || c == '\U{202F}' || c == '\U{205F}' || c == '\U{3000}'
  }

  predicate IsDigit(c: char) {
    '0' <= c <= '9'
  }

  function DigitVal(c: char): nat
    requires IsDigit(c)
  {
    c as int - '0' as int
  }

  function DigitChar(d: nat): (c: char)
    requires d < 10
    ensures IsDigit(c) && DigitVal(c) == d
  {
    ('0' as int + d) as char
  }

  function UpperChar(c: char): char {
    if 'a' <= c <= 'z' then (c as int - 32) as char else c
  }

  function LowerChar(c: char): char {
    if 'A' <= c <= 'Z' then (c as int + 32) as char else c
  }

  /** `to_uppercase`, restricted to ASCII letters. */
  function ToUpper(s: string): (r: string)
    ensures |r| == |s|
  {
    if |s| == 0 then "" else [UpperChar(s[0])] + ToUpper(s[1..])
  }

  /** `to_lowercase`, restricted to ASCII letters. */
  function ToLower(s: string): (r: string)
    ensures |r| == |s|
  {
    if |s| == 0 then "" else [LowerChar(s[0])] + ToLower(s[1..])
  }

  predicate NoLowerCase(s: string) {
    forall i :: 0 <= i < |s| ==> !('a' <= s[i] <= 'z')
  }

  /** Text without lower-case letters is its own upper case. */
  lemma {:induction false} ToUpperFixed(s: string)
    requires NoLowerCase(s)
    ensures ToUpper(s) == s
    decreases |s|
  {
    if |s| > 0 {
      assert NoLowerCase(s[1..]) by {
        assert forall i :: 0 <= i < |s[1..]| ==> s[1..][i] == s[i + 1];
      }
      ToUpperFixed(s[1..]);
    }
  }

  /** Upper-casing twice is upper-casing once. */
  lemma {:induction false} ToUpperIdempotent(s: string)
    ensures ToUpper(ToUpper(s)) == ToUpper(s)
    decreases |s|
  {
    if |s| > 0 {
      ToUpperIdempotent(s[1..]);
      assert ToUpper(s)[1..] == ToUpper(s[1..]);
    }
  }

  /** Upper-casing forgets any earlier lower-casing: the comparison
      `to_uppercase` sets up is case-insensitive. */
  lemma {:induction false} ToUpperOfLower(s: string)
    ensures ToUpper(ToLower(s)) == ToUpper(s)
    decreases |s|
  {
    if |s| > 0 {
      ToUpperOfLower(s[1..]);
      assert ToLower(s)[1..] == ToLower(s[1..]);
    }
  }

  /** Lower-casing twice is lower-casing once. */
  lemma {:induction false} ToLowerIdempotent(s: string)
    ensures ToLower(ToLower(s)) == ToLower(s)
    decreases |s|
  {
    if |s| > 0 {
      ToLowerIdempotent(s[1..]);
      assert ToLower(s)[1..] == ToLower(s[1..]);
    }
  }

  /** Lower-casing forgets any earlier upper-casing. */
  lemma {:induction false} ToLowerOfUpper(s: string)
    ensures ToLower(ToUpper(s)) == ToLower(s)
    decreases |s|
  {
    if |s| > 0 {
      ToLowerOfUpper(s[1..]);
      assert ToUpper(s)[1..] == ToUpper(s[1..]);
    }
  }

  /** `c` does not occur in `s`. */
  predicate Free(s: string, c: char) {
    forall i :: 0 <= i < |s| ==> s[i] != c
  }

  lemma {:induction false} FreeAppend(a: string, b: string, c: char)
    requires Free(a, c) && Free(b, c)
    ensures Free(a + b, c)
  {
    assert forall i :: |a| <= i < |a + b| ==> (a + b)[i] == b[i - |a|];
  }

  /** The number of occurrences of `c` in `s`. */
  function CountChar(s: string, c: char): nat {
    if |s| == 0 then 0 else (if s[0] == c then 1 else 0) + CountChar(s[1..], c)
  }

  lemma {:induction false} CountCharFree(s: string, c: char)
    ensures CountChar(s, c) == 0 <==> Free(s, c)
    decreases |s|
  {
    if |s| > 0 {
      CountCharFree(s[1..], c);
      assert forall i :: 1 <= i < |s| ==> s[i] == s[1..][i - 1];
    }
  }

  // ---------------------------------------------------------------------
  // Searching

  predicate StartsWith(s: string, p: string) {
    |p| <= |s| && s[..|p|] == p
  }

  /** Text that starts with a non-empty pattern starts with its first
      character. */
  lemma {:induction false} StartsWithHead(s: string, p: string)
    ensures StartsWith(s, p) && |p| > 0 ==> |s| > 0 && s[0] == p[0]
  {
    if StartsWith(s, p) && |p| > 0 {
      assert s[..|p|][0] == s[0];
    }
  }

  predicate EndsWith(s: string, p: string) {
    |p| <= |s| && s[|s| - |p|..] == p
  }

  predicate OccursAt(s: string, p: string, i: nat) {
    i + |p| <= |s| && s[i..i + |p|] == p
  }

  /** The first occurrence of `p` in `s` at or after `k`. */
  function FindFrom(s: string, p: string, k: nat): (r: Option<nat>)
    ensures r.Some? ==> k <= r.value && OccursAt(s, p, r.value)
    ensures r.Some? ==> forall j: nat :: k <= j < r.value ==> !OccursAt(s, p, j)
    ensures r.None? ==> forall j: nat :: k <= j ==> !OccursAt(s, p, j)
    decreases |s| - k
  {
    if k + |p| > |s| then None
    else if s[k..k + |p|] == p then Some(k)
    else FindFrom(s, p, k + 1)
  }

  /** `str::find`: the first occurrence of `p`. */
  function Find(s: string, p: string): (r: Option<nat>)
    ensures r.Some? ==> OccursAt(s, p, r.value) && forall j: nat :: j < r.value ==> !OccursAt(s, p, j)
    ensures r.None? ==> forall j: nat :: !OccursAt(s, p, j)
  {
    FindFrom(s, p, 0)
  }

  /** `str::contains`. */
  predicate Contains(s: string, p: string) {
    Find(s, p).Some?
  }

  /** `Find` is determined by the first occurrence. */
  lemma {:induction false} FindIs(s: string, p: string, k: nat)
    requires OccursAt(s, p, k)
    requires forall j: nat :: j < k ==> !OccursAt(s, p, j)
    ensures Find(s, p) == Some(k)
  {
  }

  /** A pattern whose first character the prefix of `s` lacks is not
      found inside that prefix. */
  lemma {:induction false} FindAfterPrefix(s: string, p: string, q: string)
    requires StartsWith(s, p) && |q| > 0 && Free(p, q[0])
    requires Find(s, q).Some?
    ensures Find(s, q).value >= |p|
  {
    var v := Find(s, q).value;
    assert s[v] == q[0] by {
      assert s[v..v + |q|][0] == q[0];
    }
    assert forall i :: 0 <= i < |p| ==> s[i] == p[i] by {
      assert forall i :: 0 <= i < |p| ==> s[..|p|][i] == s[i];
    }
  }

  /** An occurrence bounds the first occurrence from above. */
  lemma {:induction false} FindAtMost(s: string, p: string, k: nat)
    requires OccursAt(s, p, k)
    ensures Find(s, p).Some? && Find(s, p).value <= k
  {
  }

  /** A pattern written between two strings is contained in the result. */
  lemma {:induction false} ContainsMiddle(a: string, p: string, b: string)
    ensures Contains(a + p + b, p)
  {
    assert (a + p + b)[|a|..|a| + |p|] == p;
    FindAtMost(a + p + b, p, |a|);
  }

  /** A mismatch at one position of the pattern rules out an occurrence. */
  lemma {:induction false} NotOccursAt(s: string, p: string, j: nat, m: nat)
    requires m < |p| && (j + m < |s| ==> s[j + m] != p[m])
    ensures !OccursAt(s, p, j)
  {
    assert j + |p| <= |s| ==> s[j..j + |p|][m] == s[j + m];
  }

  /** An occurrence bounds the last occurrence from below. */
  lemma {:induction false} RFindAtLeast(s: string, p: string, k: nat)
    requires OccursAt(s, p, k)
    ensures RFind(s, p).Some? && RFind(s, p).value >= k
  {
  }

  /** A pattern that does not occur is not found. */
  lemma {:induction false} FindNone(s: string, p: string)
    requires forall j: nat :: !OccursAt(s, p, j)
    ensures Find(s, p) == None
  {
  }

  /** An occurrence in a prefix is an occurrence in the whole string. */
  lemma {:induction false} OccursInPrefix(s: string, n: nat, p: string, k: nat)
    requires n <= |s| && OccursAt(s[..n], p, k)
    ensures OccursAt(s, p, k)
  {
    assert s[k..k + |p|] == s[..n][k..k + |p|];
  }

  /** An occurrence in a suffix is an occurrence in the whole string. */
  lemma {:induction false} OccursInSuffix(s: string, n: nat, p: string, k: nat)
    requires n <= |s| && OccursAt(s[n..], p, k)
    ensures OccursAt(s, p, n + k)
  {
    assert s[n + k..n + k + |p|] == s[n..][k..k + |p|];
  }

  /** The last occurrence of `p` in `s` starting at or before `k`. */
  function RFindUpTo(s: string, p: string, k: nat): (r: Option<nat>)
    ensures r.Some? ==> r.value <= k && OccursAt(s, p, r.value)
    ensures r.Some? ==> forall j: nat :: r.value < j <= k ==> !OccursAt(s, p, j)
    ensures r.None? ==> forall j: nat :: j <= k ==> !OccursAt(s, p, j)
  {
    if k + |p| <= |s| && s[k..k + |p|] == p then Some(k)
    else if k == 0 then None
    else RFindUpTo(s, p, k - 1)
  }

  /** `str::rfind`: the last occurrence of `p`. */
  function RFind(s: string, p: string): (r: Option<nat>)
    ensures r.Some? ==> OccursAt(s, p, r.value) && forall j: nat :: r.value < j ==> !OccursAt(s, p, j)
    ensures r.None? ==> forall j: nat :: !OccursAt(s, p, j)
  {
    RFindUpTo(s, p, |s|)
  }

  // ---------------------------------------------------------------------
  // Splitting and joining

  function Join(parts: seq<string>, sep: string): string {
    if |parts| == 0 then ""
    else if |parts| == 1 then parts[0]
    else parts[0] + sep + Join(parts[1..], sep)
  }

  lemma {:induction false} JoinTwo(a: string, b: string, sep: string)
    ensures Join([a, b], sep) == a + sep + b
  {
    assert [a, b][1..] == [b];
  }

  lemma {:induction false} JoinThree(a: string, b: string, c: string, sep: string)
    ensures Join([a, b, c], sep) == a + sep + b + sep + c
  {
    assert [a, b, c][1..] == [b, c];
    JoinTwo(b, c, sep);
  }

  /** Prepending text to the first part prepends it to the join. */
  lemma {:induction false} JoinExtendFirst(x: string, parts: seq<string>, sep: string)
    requires |parts| >= 1
    ensures Join([x + parts[0]] + parts[1..], sep) == x + Join(parts, sep)
  {
    var q := [x + parts[0]] + parts[1..];
    if |parts| > 1 {
      assert q[1..] == parts[1..];
    }
  }

  /** `str::split` on one character, defined one character at a time: a
      separator starts a new field, anything else extends the first one. */
  function Split(s: string, c: char): (r: seq<string>)
    ensures |r| >= 1
    decreases |s|
  {
    if |s| == 0 then [""]
    else
      var rest := Split(s[1..], c);
      if s[0] == c then [""] + rest
      else [[s[0]] + rest[0]] + rest[1..]
  }

  /** No field contains the separator. */
  lemma {:induction false} SplitFree(s: string, c: char)
    ensures forall i :: 0 <= i < |Split(s, c)| ==> Free(Split(s, c)[i], c)
    decreases |s|
  {
    if |s| > 0 {
      SplitFree(s[1..], c);
      var rest := Split(s[1..], c);
      if s[0] != c {
        var f := [s[0]] + rest[0];
        assert Free(rest[0], c);
        assert forall i :: 1 <= i < |f| ==> f[i] == rest[0][i - 1];
        assert Free(f, c);
        assert Split(s, c) == [f] + rest[1..];
      }
    }
  }

  /** A character missing from the text is missing from every field. */
  lemma {:induction false} SplitKeepsFree(s: string, c: char, d: char)
    requires Free(s, d)
    ensures forall i :: 0 <= i < |Split(s, c)| ==> Free(Split(s, c)[i], d)
    decreases |s|
  {
    if |s| > 0 {
      assert Free(s[1..], d) by {
        assert forall i :: 0 <= i < |s[1..]| ==> s[1..][i] == s[i + 1];
      }
      SplitKeepsFree(s[1..], c, d);
      var rest := Split(s[1..], c);
      if s[0] != c {
        var f := [s[0]] + rest[0];
        assert forall i :: 1 <= i < |f| ==> f[i] == rest[0][i - 1];
        assert Free(f, d);
        assert Split(s, c) == [f] + rest[1..];
      }
    }
  }

  /** Joining the fields with the separator gives back the string. */
  lemma {:induction false} JoinSplit(s: string, c: char)
    ensures Join(Split(s, c), [c]) == s
    decreases |s|
  {
    if |s| > 0 {
      var rest := Split(s[1..], c);
      JoinSplit(s[1..], c);
      if s[0] == c {
        assert ([""] + rest)[1..] == rest;
      } else {
        JoinExtendFirst([s[0]], rest, [c]);
      }
      assert s == [s[0]] + s[1..];
    }
  }

  /** There is one field more than there are separators. */
  lemma {:induction false} SplitCount(s: string, c: char)
    ensures |Split(s, c)| == CountChar(s, c) + 1
    decreases |s|
  {
    if |s| > 0 {
      SplitCount(s[1..], c);
    }
  }

  /** A separator-free prefix becomes part of the first field. */
  lemma {:induction false} SplitPrefix(p: string, t: string, c: char)
    requires Free(p, c)
    ensures Split(p + t, c) == [p + Split(t, c)[0]] + Split(t, c)[1..]
    decreases |p|
  {
    if |p| > 0 {
      var u := p[1..];
      assert (p + t)[1..] == u + t;
      assert Free(u, c) by {
        assert forall i :: 0 <= i < |u| ==> u[i] == p[i + 1];
      }
      SplitPrefix(u, t, c);
      var rest := Split(u + t, c);
      assert p[0] != c;
      assert Split(p + t, c) == [[p[0]] + rest[0]] + rest[1..];
      assert [p[0]] + (u + Split(t, c)[0]) == p + Split(t, c)[0];
    } else {
      assert p + t == t;
      assert p + Split(t, c)[0] == Split(t, c)[0];
      assert [Split(t, c)[0]] + Split(t, c)[1..] == Split(t, c);
    }
  }

  /** A separator-free string is a single field. */
  lemma {:induction false} SplitFreeSingle(p: string, c: char)
    requires Free(p, c)
    ensures Split(p, c) == [p]
  {
    SplitPrefix(p, "", c);
    assert p + "" == p;
  }

  /** Splitting a join of separator-free parts gives the parts back. */
  lemma {:induction false} SplitJoin(parts: seq<string>, c: char)
    requires |parts| >= 1
    requires forall i :: 0 <= i < |parts| ==> Free(parts[i], c)
    ensures Split(Join(parts, [c]), c) == parts
    decreases |parts|
  {
    var p := parts[0];
    if |parts| == 1 {
      SplitFreeSingle(p, c);
    } else {
      var tail := Join(parts[1..], [c]);
      SplitJoin(parts[1..], c);
      var t := [c] + tail;
      assert t[1..] == tail;
      assert Split(t, c) == [""] + parts[1..];
      SplitPrefix(p, t, c);
      assert Join(parts, [c]) == p + t;
      assert p + "" == p;
      assert parts == [p] + parts[1..];
    }
  }

  /** Splitting "a<c>b" with separator-free a and b gives [a, b]. */
  lemma {:induction false} SplitTwo(a: string, b: string, c: char)
    requires Free(a, c) && Free(b, c)
    ensures Split(a + [c] + b, c) == [a, b]
  {
    JoinTwo(a, b, [c]);
    SplitJoin([a, b], c);
  }

  /** Splitting "a<c>b<c>d" with separator-free parts gives [a, b, d]. */
  lemma {:induction false} SplitThree(a: string, b: string, d: string, c: char)
    requires Free(a, c) && Free(b, c) && Free(d, c)
    ensures Split(a + [c] + b + [c] + d, c) == [a, b, d]
  {
    JoinThree(a, b, d, [c]);
    SplitJoin([a, b, d], c);
  }

  /** The first field is everything before the first separator. */
  lemma {:induction false} SplitFirst(p: string, t: string, c: char)
    requires Free(p, c)
    ensures Split(p + [c] + t, c)[0] == p
  {
    SplitPrefix(p, [c] + t, c);
    assert ([c] + t)[1..] == t;
    assert p + [c] + t == p + ([c] + t);
    assert p + "" == p;
  }

  /** The last field is everything after the last separator. */
  lemma {:induction false} SplitLast(s: string, t: string, c: char)
    requires Free(t, c)
    ensures |Split(s + [c] + t, c)| >= 2
    ensures Split(s + [c] + t, c)[|Split(s + [c] + t, c)| - 1] == t
    decreases |s|
  {
    var u := s + [c] + t;
    if |s| == 0 {
      assert u == [c] + t && u[1..] == t;
      SplitFreeSingle(t, c);
    } else {
      assert u[1..] == s[1..] + [c] + t;
      SplitLast(s[1..], t, c);
    }
  }

  /** `split_once(c)`: the text before and after the first `c`. */
  function SplitOnce(s: string, c: char): (r: Option<(string, string)>)
    ensures r.None? <==> Free(s, c)
    ensures r.Some? ==> Free(r.value.0, c) && s == r.value.0 + [c] + r.value.1
    decreases |s|
  {
    if |s| == 0 then None
    else if s[0] == c then Some(("", s[1..]))
    else
      match SplitOnce(s[1..], c)
      case None => None
      case Some((a, b)) => Some(([s[0]] + a, b))
  }

  /** The first `c` after a `c`-free prefix is where the text splits. */
  lemma {:induction false} SplitOnceAt(a: string, b: string, c: char)
    requires Free(a, c)
    ensures SplitOnce(a + [c] + b, c) == Some((a, b))
    decreases |a|
  {
    var s := a + [c] + b;
    if |a| == 0 {
      assert s[1..] == b;
    } else {
      assert s[1..] == a[1..] + [c] + b;
      assert Free(a[1..], c) by {
        assert forall i :: 0 <= i < |a[1..]| ==> a[1..][i] == a[i + 1];
      }
      SplitOnceAt(a[1..], b, c);
      assert [a[0]] + a[1..] == a;
    }
  }

  /** `s.split(pat).nth(1)`: the text between the first and the second
      occurrence of `pat`, or to the end when there is no second one. */
  function SplitNth1(s: string, pat: string): (r: Option<string>)
    requires |pat| > 0
    ensures r.None? <==> Find(s, pat).None?
  {
    match Find(s, pat)
    case None => None
    case Some(i) =>
      var rest := s[i + |pat|..];
      match Find(rest, pat)
      case None => Some(rest)
      case Some(j) => Some(rest[..j])
  }

  /** The second field is a prefix of the text after the first `pat` and
      does not itself contain `pat`. */
  lemma {:induction false} SplitNth1Spec(s: string, pat: string)
    requires |pat| > 0 && Find(s, pat).Some?
    ensures var rest := s[Find(s, pat).value + |pat|..];
      StartsWith(rest, SplitNth1(s, pat).value) && Find(SplitNth1(s, pat).value, pat).None?
  {
    var rest := s[Find(s, pat).value + |pat|..];
    match Find(rest, pat)
    case None =>
    case Some(j) =>
      forall k: nat | OccursAt(rest[..j], pat, k) ensures false {
        OccursInPrefix(rest, j, pat, k);
      }
  }

  // ---------------------------------------------------------------------
  // Trimming

  predicate AllWhitespace(s: string) {
    forall i :: 0 <= i < |s| ==> IsWhitespace(s[i])
  }

  predicate NoWhitespace(s: string) {
    forall i :: 0 <= i < |s| ==> !IsWhitespace(s[i])
  }

  /** ASCII letters and '_' only, stated letter by letter so that it can be
      evaluated on a literal. */
  /** Upper-case ASCII letters and '_' only, like the names of job states. */
  predicate UpperWord(s: string)
    decreases |s|
  {
    |s| == 0 || (('A' <= s[0] <= 'Z' || s[0] == '_') && UpperWord(s[1..]))
  }

  /** Such a word has no whitespace and is its own upper case. */
  lemma {:induction false} UpperWordFacts(s: string)
    requires UpperWord(s)
    ensures NoWhitespace(s) && ToUpper(s) == s
    decreases |s|
  {
    if |s| > 0 {
      UpperWordFacts(s[1..]);
      assert forall i :: 1 <= i < |s| ==> s[i] == s[1..][i - 1];
      assert s == [s[0]] + s[1..];
    }
  }

  /** Length of the leading whitespace run. */
  function LeadingWs(s: string): (n: nat)
    ensures n <= |s|
    ensures n < |s| ==> !IsWhitespace(s[n])
  {
    if |s| == 0 || !IsWhitespace(s[0]) then 0 else LeadingWs(s[1..]) + 1
  }

  /** Length of the trailing whitespace run. */
  function TrailingWs(s: string): (n: nat)
    ensures n <= |s|
    ensures n < |s| ==> !IsWhitespace(s[|s| - n - 1])
  {
    if |s| == 0 || !IsWhitespace(s[|s| - 1]) then 0
    else TrailingWs(s[..|s| - 1]) + 1
  }

  lemma {:induction false} LeadingWsAll(s: string)
    ensures AllWhitespace(s[..LeadingWs(s)])
    decreases |s|
  {
    if |s| > 0 && IsWhitespace(s[0]) {
      LeadingWsAll(s[1..]);
      var n := LeadingWs(s[1..]);
      assert s[..n + 1] == [s[0]] + s[1..][..n];
    }
  }

  lemma {:induction false} TrailingWsAll(s: string)
    ensures AllWhitespace(s[|s| - TrailingWs(s)..])
    decreases |s|
  {
    if |s| > 0 && IsWhitespace(s[|s| - 1]) {
      var u := s[..|s| - 1];
      TrailingWsAll(u);
      var n := TrailingWs(u);
      var k := |s| - (n + 1);
      assert u[|u| - n..] == s[k..|s| - 1];
      assert s[k..] == s[k..|s| - 1] + [s[|s| - 1]];
    }
  }

  /** `trim_start`: drops the longest whitespace prefix. */
  function TrimStart(s: string): (r: string)
    ensures |r| <= |s|
    ensures |r| > 0 ==> !IsWhitespace(r[0])
  {
    s[LeadingWs(s)..]
  }

  /** `trim_end`: drops the longest whitespace suffix. */
  function TrimEnd(s: string): (r: string)
    ensures |r| <= |s|
    ensures |r| > 0 ==> !IsWhitespace(r[|r| - 1])
  {
    s[..|s| - TrailingWs(s)]
  }

  /** `trim`: both ends at once. */
  function Trim(s: string): (r: string)
    ensures |r| <= |s|
  {
    TrimEnd(TrimStart(s))
  }

  /** The trimmed text neither begins nor ends with whitespace. */
  lemma {:induction false} TrimEdges(s: string)
    ensures var r := Trim(s); |r| > 0 ==> !IsWhitespace(r[0]) && !IsWhitespace(r[|r| - 1])
  {
    var a := TrimStart(s);
    var r := TrimEnd(a);
    if |r| > 0 {
      assert r[0] == a[0];
    }
  }

  /** The trimmed text is a slice of `s`, and only whitespace is cut away
      on either side of it. */
  lemma {:induction false} TrimSlice(s: string)
    ensures var i := LeadingWs(s); var r := Trim(s);
      i + |r| <= |s| && r == s[i..i + |r|]
      && AllWhitespace(s[..i]) && AllWhitespace(s[i + |r|..])
  {
    var i := LeadingWs(s);
    var a := TrimStart(s);
    var r := TrimEnd(a);
    LeadingWsAll(s);
    TrailingWsAll(a);
    assert r == s[i..i + |r|];
    assert s[i + |r|..] == a[|a| - TrailingWs(a)..];
  }

  /** A whitespace prefix is exactly what `trim_start` cuts. */
  lemma {:induction false} LeadingWsPrefix(w: string, s: string)
    requires AllWhitespace(w)
    requires |s| > 0 && !IsWhitespace(s[0])
    ensures LeadingWs(w + s) == |w| && TrimStart(w + s) == s
    decreases |w|
  {
    if |w| > 0 {
      assert (w + s)[1..] == w[1..] + s;
      assert AllWhitespace(w[1..]) by {
        assert forall i :: 0 <= i < |w[1..]| ==> w[1..][i] == w[i + 1];
      }
      LeadingWsPrefix(w[1..], s);
    } else {
      assert w + s == s;
    }
  }

  /** A whitespace suffix is exactly what `trim_end` cuts. */
  lemma {:induction false} TrailingWsSuffix(s: string, w: string)
    requires AllWhitespace(w)
    requires |s| > 0 && !IsWhitespace(s[|s| - 1])
    ensures TrailingWs(s + w) == |w| && TrimEnd(s + w) == s
    decreases |w|
  {
    if |w| > 0 {
      var u := w[..|w| - 1];
      assert (s + w)[..|s + w| - 1] == s + u;
      assert AllWhitespace(u) by {
        assert forall i :: 0 <= i < |u| ==> u[i] == w[i];
      }
      TrailingWsSuffix(s, u);
    } else {
      assert s + w == s;
    }
  }

  /** `trim` leaves alone a string with no whitespace at either end. */
  lemma {:induction false} TrimNoEdges(s: string)
    requires |s| > 0 ==> !IsWhitespace(s[0]) && !IsWhitespace(s[|s| - 1])
    ensures Trim(s) == s
  {
    assert LeadingWs(s) == 0;
    assert TrimStart(s) == s;
    assert TrailingWs(s) == 0;
  }

  lemma {:induction false} TrimIdempotent(s: string)
    ensures Trim(Trim(s)) == Trim(s)
  {
    TrimEdges(s);
    TrimNoEdges(Trim(s));
  }

  /** `trim_start_matches(p)`: removes every repetition of the prefix `p`. */
  function TrimStartMatches(s: string, p: string): (r: string)
    ensures |r| <= |s| && r == s[|s| - |r|..]
    ensures |p| > 0 ==> !StartsWith(r, p)
  {
    if |p| > 0 && StartsWith(s, p) then TrimStartMatches(s[|p|..], p) else s
  }

  /** `trim_end_matches(c)`: removes every trailing `c`. */
  function TrimEndChar(s: string, c: char): (r: string)
    ensures |r| <= |s| && r == s[..|r|]
    ensures |r| > 0 ==> r[|r| - 1] != c
  {
    if |s| > 0 && s[|s| - 1] == c then TrimEndChar(s[..|s| - 1], c) else s
  }

  /** `trim_end_matches` only removes copies of `c`. */
  lemma {:induction false} TrimEndCharCut(s: string, c: char)
    ensures forall i :: |TrimEndChar(s, c)| <= i < |s| ==> s[i] == c
    decreases |s|
  {
    if |s| > 0 && s[|s| - 1] == c {
      TrimEndCharCut(s[..|s| - 1], c);
    }
  }

  /** `trim_end_matches` stops at a character other than `c`. */
  lemma {:induction false} TrimEndCharStop(s: string, c: char)
    requires |s| > 0 && s[|s| - 1] != c
    ensures TrimEndChar(s, c) == s
  {
  }

  /** `trim_end_matches` removes one trailing `c` after such a character. */
  lemma {:induction false} TrimEndCharOne(s: string, c: char)
    requires |s| > 0 && s[|s| - 1] != c
    ensures TrimEndChar(s + [c], c) == s
  {
    assert (s + [c])[..|s|] == s;
  }

  // ---------------------------------------------------------------------
  // Whitespace-separated tokens

  /** Length of the leading run of non-whitespace characters. */
  function TokenLen(t: string): (n: nat)
    ensures n <= |t|
    ensures n < |t| ==> IsWhitespace(t[n])
    ensures |t| > 0 && !IsWhitespace(t[0]) ==> n > 0
  {
    if |t| == 0 || IsWhitespace(t[0]) then 0 else TokenLen(t[1..]) + 1
  }

  lemma {:induction false} TokenLenNoWs(t: string)
    ensures NoWhitespace(t[..TokenLen(t)])
    decreases |t|
  {
    if |t| > 0 && !IsWhitespace(t[0]) {
      TokenLenNoWs(t[1..]);
      var n := TokenLen(t[1..]);
      assert t[..n + 1] == [t[0]] + t[1..][..n];
    }
  }

  /** `split_whitespace`: the maximal non-empty runs of non-whitespace. */
  function SplitWhitespace(s: string): (r: seq<string>)
    decreases |s|
  {
    if |s| == 0 then []
    else if IsWhitespace(s[0]) then SplitWhitespace(s[1..])
    else
      var n := TokenLen(s);
      [s[..n]] + SplitWhitespace(s[n..])
  }

  /** Every token is non-empty and free of whitespace. */
  lemma {:induction false} SplitWhitespaceTokens(s: string)
    ensures forall i :: 0 <= i < |SplitWhitespace(s)| ==>
      |SplitWhitespace(s)[i]| > 0 && NoWhitespace(SplitWhitespace(s)[i])
    decreases |s|
  {
    if |s| > 0 {
      if IsWhitespace(s[0]) {
        SplitWhitespaceTokens(s[1..]);
      } else {
        TokenLenNoWs(s);
        SplitWhitespaceTokens(s[TokenLen(s)..]);
      }
    }
  }

  /** A string without whitespace is its own single token. */
  lemma {:induction false} TokenLenWhole(t: string)
    requires NoWhitespace(t)
    ensures TokenLen(t) == |t|
    decreases |t|
  {
    if |t| > 0 {
      assert NoWhitespace(t[1..]) by {
        assert forall i :: 0 <= i < |t[1..]| ==> t[1..][i] == t[i + 1];
      }
      TokenLenWhole(t[1..]);
    }
  }

  /** Leading whitespace does not change the tokens. */
  lemma {:induction false} SplitWhitespaceSkip(w: string, s: string)
    requires AllWhitespace(w)
    ensures SplitWhitespace(w + s) == SplitWhitespace(s)
    decreases |w|
  {
    if |w| > 0 {
      assert (w + s)[0] == w[0];
      assert (w + s)[1..] == w[1..] + s;
      assert AllWhitespace(w[1..]) by {
        assert forall i :: 0 <= i < |w[1..]| ==> w[1..][i] == w[i + 1];
      }
      SplitWhitespaceSkip(w[1..], s);
    } else {
      assert w + s == s;
    }
  }

  /** A non-empty token followed by whitespace (or nothing) comes first. */
  lemma {:induction false} SplitWhitespaceCons(a: string, s: string)
    requires |a| > 0 && NoWhitespace(a)
    requires |s| > 0 ==> IsWhitespace(s[0])
    ensures SplitWhitespace(a + s) == [a] + SplitWhitespace(s)
  {
    var t := a + s;
    TokenLenAppend(a, s);
    assert t[..|a|] == a;
    assert t[|a|..] == s;
  }

  /** The first token of a + s, when s starts with whitespace or is empty,
      is a. */
  lemma {:induction false} TokenLenAppend(a: string, s: string)
    requires NoWhitespace(a)
    requires |s| > 0 ==> IsWhitespace(s[0])
    ensures TokenLen(a + s) == |a|
    decreases |a|
  {
    if |a| > 0 {
      assert (a + s)[1..] == a[1..] + s;
      assert NoWhitespace(a[1..]) by {
        assert forall i :: 0 <= i < |a[1..]| ==> a[1..][i] == a[i + 1];
      }
      TokenLenAppend(a[1..], s);
    } else {
      assert a + s == s;
    }
  }

  /** Space-joined tokens split back into the same tokens. */
  lemma {:induction false} SplitWhitespaceJoin(ws: seq<string>)
    requires forall i :: 0 <= i < |ws| ==> |ws[i]| > 0 && NoWhitespace(ws[i])
    ensures SplitWhitespace(Join(ws, " ")) == ws
    decreases |ws|
  {
    if |ws| == 1 {
      SplitWhitespaceCons(ws[0], "");
      assert ws[0] + "" == ws[0];
    } else if |ws| > 1 {
      var rest := Join(ws[1..], " ");
      SplitWhitespaceJoin(ws[1..]);
      assert Join(ws, " ") == ws[0] + " " + rest;
      SplitWhitespaceSpaced(ws[0], rest);
      assert [ws[0]] + ws[1..] == ws;
    }
  }

  /** A token, a space and more text split into the token and the text's
      tokens. */
  lemma {:induction false} SplitWhitespaceSpaced(a: string, rest: string)
    requires |a| > 0 && NoWhitespace(a)
    ensures SplitWhitespace(a + " " + rest) == [a] + SplitWhitespace(rest)
  {
    assert AllWhitespace(" ");
    SplitWhitespaceCons(a, " " + rest);
    SplitWhitespaceSkip(" ", rest);
    assert a + " " + rest == a + (" " + rest);
  }

  /** `split_whitespace().next()`. */
  function FirstToken(s: string): Option<string> {
    var ws := SplitWhitespace(s);
    if |ws| == 0 then None else Some(ws[0])
  }

  /** The first token of a + s, for a token a followed by whitespace or
      nothing, is a. */
  lemma {:induction false} FirstTokenOf(a: string, s: string)
    requires |a| > 0 && NoWhitespace(a)
    requires |s| > 0 ==> IsWhitespace(s[0])
    ensures FirstToken(a + s) == Some(a)
  {
    SplitWhitespaceCons(a, s);
  }

  /** `split_whitespace().last()`. */
  function LastToken(s: string): Option<string> {
    var ws := SplitWhitespace(s);
    if |ws| == 0 then None else Some(ws[|ws| - 1])
  }

  // ---------------------------------------------------------------------
  // Lines

  function StripCR(l: string): string {
    if |l| > 0 && l[|l| - 1] == '\r' then l[..|l| - 1] else l
  }

  /** `str::lines`: the '\n'-separated fields, each line that a '\n' ends
      losing one '\r' before it, and no empty line after a final '\n'. */
  function Lines(s: string): (r: seq<string>)
  {
    var p := Split(s, '\n');
    var body := seq(|p| - 1, i requires 0 <= i < |p| - 1 => StripCR(p[i]));
    if p[|p| - 1] == "" then body else body + [p[|p| - 1]]
  }

  /** No line contains a line break, and only empty text has no lines. */
  lemma {:induction false} LinesShape(s: string)
    ensures forall i :: 0 <= i < |Lines(s)| ==> Free(Lines(s)[i], '\n')
    ensures |Lines(s)| == 0 <==> |s| == 0
  {
    var p := Split(s, '\n');
    SplitFree(s, '\n');
    forall i | 0 <= i < |p| ensures Free(StripCR(p[i]), '\n') {
      assert Free(p[i], '\n');
    }
    if |s| > 0 && |p| == 1 {
      JoinSplit(s, '\n');
    }
  }

  /** The lines, position by position: each field but the last loses its
      '\r', and the last field is a line only when it is not empty. */
  lemma {:induction false} LinesAt(s: string)
    ensures var p := Split(s, '\n');
      |Lines(s)| == (if p[|p| - 1] == "" then |p| - 1 else |p|)
      && (forall i :: 0 <= i < |p| - 1 ==> Lines(s)[i] == StripCR(p[i]))
      && (p[|p| - 1] != "" ==> Lines(s)[|p| - 1] == p[|p| - 1])
  {
    var p := Split(s, '\n');
    FieldLinesAt(p, seq(|p| - 1, i requires 0 <= i < |p| - 1 => StripCR(p[i])));
  }

  lemma {:induction false} FieldLinesAt(p: seq<string>, body: seq<string>)
    requires |p| >= 1 && body == seq(|p| - 1, i requires 0 <= i < |p| - 1 => StripCR(p[i]))
    ensures var r := if p[|p| - 1] == "" then body else body + [p[|p| - 1]];
      |r| == (if p[|p| - 1] == "" then |p| - 1 else |p|)
      && (forall i :: 0 <= i < |p| - 1 ==> r[i] == StripCR(p[i]))
      && (p[|p| - 1] != "" ==> r[|p| - 1] == p[|p| - 1])
  {
  }

  /** A line ended by '\n' comes first, followed by the lines of the rest. */
  lemma {:induction false} LinesCons(l: string, rest: string)
    requires Free(l, '\n') && (|l| > 0 ==> l[|l| - 1] != '\r')
    ensures Lines(l + "\n" + rest) == [l] + Lines(rest)
  {
    var tail := "\n" + rest;
    SplitPrefix(l, tail, '\n');
    assert tail[0] == '\n' && tail[1..] == rest;
    assert l + "" == l;
    assert l + "\n" + rest == l + tail;
    var p := Split(l + tail, '\n');
    var q := Split(rest, '\n');
    assert p == [l] + q;
    LinesAt(l + tail);
    LinesAt(rest);
    var lp := Lines(l + tail);
    var lq := Lines(rest);
    assert |lp| == |lq| + 1;
    forall i | 0 <= i < |lp| ensures lp[i] == ([l] + lq)[i] {
      if i == 0 {
        assert lp[0] == StripCR(p[0]);
      } else if i < |p| - 1 {
        assert lp[i] == StripCR(p[i]) && p[i] == q[i - 1];
      } else {
        assert lp[i] == p[|p| - 1] && q[|q| - 1] == p[|p| - 1];
      }
    }
  }

  // ---------------------------------------------------------------------
  // Numbers

  /** Every character is an ASCII digit (defined from the right end, the
      way the value is accumulated). */
  predicate AllDigits(s: string)
    decreases |s|
  {
    |s| == 0 || (IsDigit(s[|s| - 1]) && AllDigits(s[..|s| - 1]))
  }

  function DigitsValue(s: string): nat
    requires AllDigits(s)
    decreases |s|
  {
    if |s| == 0 then 0 else DigitsValue(s[..|s| - 1]) * 10 + DigitVal(s[|s| - 1])
  }

  lemma {:induction false} AllDigitsAt(s: string)
    requires AllDigits(s)
    ensures forall i :: 0 <= i < |s| ==> IsDigit(s[i])
    decreases |s|
  {
    if |s| > 0 {
      AllDigitsAt(s[..|s| - 1]);
      assert forall i :: 0 <= i < |s| - 1 ==> s[i] == s[..|s| - 1][i];
    }
  }

  /** A string whose every character is a digit is a digit string. */
  lemma {:induction false} AtAllDigits(s: string)
    requires forall i :: 0 <= i < |s| ==> IsDigit(s[i])
    ensures AllDigits(s)
    decreases |s|
  {
    if |s| > 0 {
      assert forall i :: 0 <= i < |s| - 1 ==> s[..|s| - 1][i] == s[i];
      AtAllDigits(s[..|s| - 1]);
    }
  }

  /** A digit string contains no other character. */
  lemma {:induction false} DigitsFree(s: string, c: char)
    requires AllDigits(s) && !IsDigit(c)
    ensures Free(s, c)
  {
    AllDigitsAt(s);
  }

  /** A decimal numeral's value, with no bound and no sign. */
  function ReadNumeral(t: string): (r: Option<nat>)
    ensures r.Some? <==> |t| > 0 && AllDigits(t)
  {
    if |t| > 0 && AllDigits(t) then Some(DigitsValue(t)) else None
  }

  /** Rendering then reading a numeral gives the number back. */
  lemma {:induction false} ReadNumeralToString(n: nat)
    ensures ReadNumeral(NatToString(n)) == Some(n)
  {
  }

  /** `str::parse` for an unsigned integer type whose largest value is
      `max`: an optional '+', then at least one ASCII digit and nothing
      else, and no overflow. */
  function ParseNat(s: string, max: nat): (r: Option<nat>)
    ensures r.Some? ==> r.value <= max
  {
    if |s| == 0 then None
    else
      var d := if s[0] == '+' then s[1..] else s;
      if |d| == 0 || !AllDigits(d) then None
      else if DigitsValue(d) <= max then Some(DigitsValue(d))
      else None
  }

  /** `str::parse` for a signed integer type with range `min..=max`. */
  function ParseInt(s: string, min: int, max: nat): (r: Option<int>)
    requires min <= 0
    ensures r.Some? ==> min <= r.value <= max
  {
    if |s| > 0 && s[0] == '-' then
      var d := s[1..];
      if |d| == 0 || !AllDigits(d) then None
      else
        var v: int := -(DigitsValue(d) as int);
        if min <= v then Some(v) else None
    else
      match ParseNat(s, max)
      case None => None
      case Some(v) => Some(v)
  }

  function ParseU32(s: string): Option<nat> { ParseNat(s, U32_MAX) }

  /** `u64` and, on the 64-bit targets the tool runs on, `usize`. */
  function ParseU64(s: string): Option<nat> { ParseNat(s, U64_MAX) }

  function ParseI32(s: string): Option<int> { ParseInt(s, I32_MIN, I32_MAX) }

  /** A digit string parses to its value when that value is in range. */
  lemma {:induction false} ParseNatDigits(s: string, max: nat)
    requires |s| > 0 && AllDigits(s) && DigitsValue(s) <= max
    ensures ParseNat(s, max) == Some(DigitsValue(s))
  {
    AllDigitsAt(s);
  }

  /** The same, for a signed type. */
  lemma {:induction false} ParseIntDigits(s: string, min: int, max: nat)
    requires min <= 0
    requires |s| > 0 && AllDigits(s) && DigitsValue(s) <= max
    ensures ParseInt(s, min, max) == Some(DigitsValue(s))
  {
    AllDigitsAt(s);
    ParseNatDigits(s, max);
  }

  /** Text that starts with neither a sign nor a digit does not parse. */
  lemma {:induction false} ParseNatNonDigit(s: string, max: nat)
    requires |s| > 0 && s[0] != '+' && !IsDigit(s[0])
    ensures ParseNat(s, max).None?
  {
    if AllDigits(s) {
      AllDigitsAt(s);
    }
  }

  /** Decimal rendering (`{}` on an unsigned integer). */
  function NatToString(n: nat): (r: string)
    ensures |r| >= 1 && AllDigits(r) && DigitsValue(r) == n
    ensures r[0] == '0' ==> n == 0
  {
    if n < 10 then [DigitChar(n)]
    else
      var r := NatToString(n / 10) + [DigitChar(n % 10)];
      assert r[..|r| - 1] == NatToString(n / 10);
      r
  }

  /** Decimal rendering (`{}` on a signed integer). */
  function IntToString(i: int): string {
    if i < 0 then "-" + NatToString(-i) else NatToString(i)
  }

  /** `{:02}`: at least two digits, zero-padded. */
  function Pad2(n: nat): (r: string)
    ensures |r| >= 2 && AllDigits(r) && DigitsValue(r) == n
  {
    var d := NatToString(n);
    if n < 10 then
      var r := "0" + d;
      assert r[..|r| - 1] == "0";
      r
    else d
  }

  /** Rendering then parsing gives the number back. */
  lemma {:induction false} ParseNatToString(n: nat, max: nat)
    requires n <= max
    ensures ParseNat(NatToString(n), max) == Some(n)
  {
    ParseNatDigits(NatToString(n), max);
  }

  lemma {:induction false} ParsePad2(n: nat, max: nat)
    requires n <= max
    ensures ParseNat(Pad2(n), max) == Some(n)
  {
    ParseNatDigits(Pad2(n), max);
  }

  /** Rendering then parsing a signed value gives it back. */
  lemma {:induction false} ParseIntToString(i: int, min: int, max: nat)
    requires min <= 0 && min <= i <= max
    ensures ParseInt(IntToString(i), min, max) == Some(i)
  {
    var d := NatToString(if i < 0 then -i else i);
    AllDigitsAt(d);
    if i < 0 {
      assert IntToString(i)[1..] == d;
    } else {
      ParseIntDigits(d, min, max);
    }
  }

  // ---------------------------------------------------------------------
  // UTF-8 byte counts

  /** The UTF-8 length of a character. */
  function Utf8Width(c: char): (n: nat)
    ensures 1 <= n <= 4
  {
    if c as int < 0x80 then 1
    else if c as int < 0x800 then 2
    else if c as int < 0x1_0000 then 3
    else 4
  }

  /** `str::len`: the length in UTF-8 bytes. */
  function ByteLen(s: string): (n: nat)
    ensures n >= |s|
    decreases |s|
  {
    if |s| == 0 then 0 else Utf8Width(s[0]) + ByteLen(s[1..])
  }

  /** `&s[..n]`: the prefix that is exactly `n` bytes long, or None where
      byte `n` falls inside a character and the slice panics. */
  function BytePrefix(s: string, n: nat): (r: Option<string>)
    ensures r.Some? ==> |r.value| <= |s| && r.value == s[..|r.value|] && ByteLen(r.value) == n
    decreases |s|
  {
    if n == 0 then Some("")
    else if |s| == 0 || Utf8Width(s[0]) > n then None
    else
      match BytePrefix(s[1..], n - Utf8Width(s[0]))
      case None => None
      case Some(p) =>
        var q := [s[0]] + p;
        assert q[1..] == p;
        Some(q)
  }

  /** `&s[n..]` written from the end: the suffix that is exactly `n` bytes
      long, or None where that cut falls inside a character and the slice
      panics (or the text is shorter than `n` bytes). */
  function ByteSuffix(s: string, n: nat): (r: Option<string>)
    ensures r.Some? ==> |r.value| <= |s| && r.value == s[|s| - |r.value|..] && ByteLen(r.value) == n
    decreases |s|
  {
    if ByteLen(s) == n then Some(s)
    else if ByteLen(s) < n || |s| == 0 then None
    else
      var u := s[1..];
      match ByteSuffix(u, n)
      case None => None
      case Some(t) =>
        assert |t| <= |u| && u[|u| - |t|..] == s[|s| - |t|..];
        Some(t)
  }

  /** Byte lengths add up over concatenation. */
  lemma {:induction false} ByteLenAppend(a: string, b: string)
    ensures ByteLen(a + b) == ByteLen(a) + ByteLen(b)
    decreases |a|
  {
    if |a| > 0 {
      assert (a + b)[1..] == a[1..] + b;
      ByteLenAppend(a[1..], b);
    } else {
      assert a + b == b;
    }
  }

  /** A cut whose byte count from the end lands strictly inside a
      multi-byte character `c` has no suffix: the slice panics. */
  lemma {:induction false} ByteSuffixInside(p: string, c: char, q: string, n: nat)
    requires ByteLen(q) < n < ByteLen(q) + Utf8Width(c)
    ensures ByteSuffix(p + [c] + q, n).None?
    decreases |p|
  {
    var s := p + [c] + q;
    ByteLenAppend(p + [c], q);
    ByteLenAppend(p, [c]);
    assert ByteLen([c]) == Utf8Width(c) by { assert [c][1..] == []; }
    if |p| == 0 {
      assert s == [c] + q && s[1..] == q;
    } else {
      assert s[1..] == p[1..] + [c] + q;
      ByteSuffixInside(p[1..], c, q, n);
    }
  }

  predicate Ascii(s: string) {
    forall i :: 0 <= i < |s| ==> s[i] as int < 0x80
  }

  /** On ASCII text bytes and characters coincide. */
  lemma {:induction false} AsciiBytes(s: string, n: nat)
    requires Ascii(s)
    ensures ByteLen(s) == |s|
    ensures n <= |s| ==> BytePrefix(s, n) == Some(s[..n])
    decreases |s|
  {
    if |s| > 0 {
      assert Ascii(s[1..]) by {
        assert forall i :: 0 <= i < |s[1..]| ==> s[1..][i] == s[i + 1];
      }
      AsciiBytes(s[1..], if n > 0 then n - 1 else 0);
      if 0 < n <= |s| {
        assert [s[0]] + s[1..][..n - 1] == s[..n];
      }
    }
  }

  /** On ASCII text every byte suffix is the character suffix. */
  lemma {:induction false} AsciiSuffix(s: string, n: nat)
    requires Ascii(s) && n <= |s|
    ensures ByteSuffix(s, n) == Some(s[|s| - n..])
    decreases |s|
  {
    AsciiBytes(s, 0);
    if n < |s| {
      var t := s[1..];
      assert Ascii(t) by {
        assert forall i :: 0 <= i < |t| ==> t[i] == s[i + 1];
      }
      AsciiSuffix(t, n);
      assert ByteSuffix(s, n) == ByteSuffix(t, n);
      assert t[|t| - n..] == s[|s| - n..];
    }
  }
}

=== FILE: wrappers.dfy ===
/** Option and Result, the two failure-carrying shapes the modelled code uses
    (Rust's `Option<T>` and `Result<T, E>`). */
module Wrappers {

  datatype Option<+T> = None | Some(value: T) {

    /** Rust's `unwrap_or`. */
    function GetOr(default: T): T {
      match this
      case Some(v) => v
      case None => default
    }

    /** Rust's `Option::or`: keeps this value when present. */
    function Or(other: Option<T>): Option<T> {
      if Some? then this else other
    }
  }

  datatype Result<+T, +E> = Ok(value: T) | Err(error: E)
}
